=== FILE: README.md ===
# LDTP daemon core, modelled in Dafny

LDTP (the Linux Desktop Testing Project) drives GUI applications through the
accessibility tree. A test names a window and an object in it with LDTP's
naming convention: a role tag plus the label, such as `frmCalculator` or
`btnOK`, or a Unix glob. The daemon (ldtpd) resolves these names against the
live tree and acts on the object it finds.

This project models that daemon and its two client-side helpers:

- the name resolution engine:
  - the role-tag table;
  - glob matching;
  - `_ldtpize_accessible` and `_match_name_to_acc`;
  - the tree walk;
  - the application map ("appmap") builder and its cache;
  - the window and object resolvers;
  - the menu path resolver;
- the waiters that poll for a window or object;
- the daemon's event bookkeeping:
  - the event queue;
  - keyboard-event registration;
  - window-create callbacks;
  - window uptimes;
- the daemon commands built on the resolver:
  - `getwindowlist`, `getchild`, `selectpanel`, `check` and `uncheck`;
  - the table, menu, combo-box and page-tab commands;
  - the region arithmetic of `imagecapture`;
- the keystroke schedules of the keyboard actions;
- the client-side `ooldtp` context wrappers;
- the `::`-path helpers of `ldtpme`.

Modelling choices:

- **Accessibility tree.** It becomes an immutable tree datatype, `Access.Acc`. `Null` stands for a `None` accessible, and each node carries the interfaces it offers: text, actions, component, selection, table.
- **Daemon state.** The state a command changes (the appmap cache, the table-cell flag, the event queues) is passed in and returned.
- **Toolkit lookups and clock.** Foreign facts are parameters:
  - toolkit lookups: keysym to keycode, keymap entries, window extents, the desktop size;
  - the clock: timestamps.
- **Main loop.** The loop a waiter runs becomes a sequence of timer ticks and events.
- **Python exceptions.** They become `Wrappers.Fault` values inside a `Result`: the server's own `LdtpServerException` messages, AttributeError on `None`, IndexError, KeyError, TypeError, NameError, UnboundLocalError, and NotImplementedError for a missing interface.
- **Dictionary order.** Python 2 iterates a dictionary in an arbitrary order; the model iterates the appmap, the cache, the callbacks and the uptime table in insertion order.
- **Python 2 semantics.** They are kept where they matter:
  - `re.sub` and `re.split` work on the separators actually used;
  - `fnmatch.translate` follows its Python 2.7 definition.

## Model

| member | source | states |
|---|---|---|
| Roles.UnknownRoleTag | ldtpd/utils.py:109 | a role outside the table gets the tag `ukn`, so the lookup never fails |
| Roles.WindowRoleTags | ldtpd/constants.py:37-38 | frames are tagged `frm` and dialogs `dlg` |
| Roles.MenuRoleTags | ldtpd/constants.py:45-47 | menus and menu items share `mnu`, while menu bars are `mbr` |
| Roles.TextRoleTags | ldtpd/constants.py:56 | the text-bearing roles share `txt` |
| Roles.TagLength | ldtpd/constants.py:24-77 | every tag has three to six letters, so a synthetic name `tag + label` is never empty |
| Roles.TagNotInjective | ldtpd/constants.py:46-47 | two roles share a tag, so a tag alone does not determine the role |
| Glob.CloseIndex | ldtpd/utils.py:113-114 | the closing `]` of a character class is the first `]` after one leading `!` and then one leading `]`; the length of the pattern means there is none |
| Glob.LiteralPatternMatchesOnlyItself | ldtpd/utils.py:113-114 | a pattern without wildcards matches exactly the string it spells: the match is anchored at both ends |
| Glob.EmptyPatternMatchesOnlyEmpty | ldtpd/utils.py:113-114 | the empty pattern matches only the empty string |
| Glob.StarMatchesEverything | ldtpd/utils.py:113-114 | `*` matches every string, the empty one included |
| Glob.PrefixPattern | ldtpd/utils.py:113-114 | a literal followed by `*` matches exactly the strings that start with the literal |
| Access.ChildAt | ldtpd/utils.py:414 | `getChildAtIndex` gives `None` outside the child list and the child inside it |
| Access.CheckState | ldtpd/utils.py:466-474 | true iff the state is in the object's state set; on `None` it raises AttributeError |
| Access.GrabFocus | ldtpd/utils.py:440-445 | succeeds iff the object offers the component interface; otherwise the server error "Failed to grab focus" |
| Access.ClickObject | ldtpd/utils.py:305-316 | performs the first action whose name a pattern alternative matches and yields its index; no action interface gives "Object does not have an Action interface", no matching action gives `Object does not have a "<pattern>" action` with the pattern as the caller wrote it; `None` raises AttributeError |
| Naming.LabelTarget | ldtpd/utils.py:89-96 | the label is the target of the first labelled-by or controlled-by relation, taken at the relation's own position |
| Naming.Ldtpize | ldtpd/utils.py:87-111 | the tag comes from the role; the label is the label target when there is one, else the own name; the abbreviated name is the label stripped of the role's strip characters, so it holds no space or newline, and for non-window roles no `:`, `.` or `_` |
| Naming.SyntheticName | ldtpd/utils.py:109-121 | the synthetic name is the role tag followed by the stripped label |
| Naming.MatchesOwnName | ldtpd/utils.py:117-118 | an accessible matches its own name |
| Naming.MatchesSyntheticName | ldtpd/utils.py:122-123 | an accessible matches its synthetic name |
| Naming.LiteralNameMatch | ldtpd/utils.py:116-143 | for a name without glob characters, matching is equality with the own name, the synthetic name, or (after stripping) the synthetic or abbreviated name |
| Naming.UnlabelledLabel | ldtpd/utils.py:104-110 | without a label relation, the label is the own name minus the strip characters of the role (window roles strip fewer) |
| Walker.WalkChildren | ldtpd/utils.py:182-189 | the walk of the children from position k on |
| Walker.WalkIsPreOrder | ldtpd/utils.py:179-189 | with the table-cell flag on and no `None` in the tree, the walk is the whole tree in pre-order and ends normally |
| Walker.NullFirstChildFaults | ldtpd/utils.py:182-183 | a `None` child makes the walk raise AttributeError after yielding the parent |
| Walker.Walk | ldtpd/utils.py:179-189 | the walk starts with the node itself and stays inside its subtree; with the table-cell flag off, no node after the first is a table cell; `None` yields nothing |
| Walker.TableCellFirstChildPrunes | ldtpd/utils.py:183-187 | with the flag off, a first child that is a table cell hides all of the parent's children |
| Walker.FirstIn | ldtpd/utils.py:292-299 | a search over a walk finds the first node that passes; when none does, it reports the walk's AttributeError, or else nothing |
| Appmap.ReplaceChar | ldtpd/utils.py:248 | every occurrence of one character becomes the other |
| Appmap.ChooseKey | ldtpd/utils.py:226-241 | the key is `tag + label`, or `tag + count` when unlabelled; on a collision it is the smallest free `base + i` from 1, and it is never already taken |
| Appmap.NewEntry | ldtpd/utils.py:244-256 | the stored record has the key, the parent, the role name with each space replaced by `_` and every other character kept, the index in the parent, no children, `tag#n`, and the label with the label-by name |
| Appmap.AddAppmapData | ldtpd/utils.py:225-257 | adds one new key at the end, bumps the tag's counter and links the key into its parent's children when the parent is recorded |
| Appmap.AddStep | ldtpd/utils.py:225-257 | one record added keeps the map well formed, grows it by one key and lets the new key parent the node's children |
| Appmap.PopulateGrows | ldtpd/utils.py:259-268 | building only appends keys, one per visited node whose index is not -1 |
| Appmap.PopulateKeepsWellFormed | ldtpd/utils.py:259-268 | building keeps every child link and parent link pointing at recorded keys |
| Appmap.VisitIsWalk | ldtpd/utils.py:259-268 | on a tree without `None`, the builder visits exactly what the walk with the table-cell flag off yields |
| Appmap.FoundByOwnNames | ldtpd/utils.py:145-153 | a record is found by its key, its `tag#n` index and its label, when these hold no glob characters |
| Appmap.LiteralAppmapMatch | ldtpd/utils.py:145-177 | for a literal name, matching a record is equality with its names, raw or stripped |
| Appmap.GetObjectInWindow | ldtpd/utils.py:318-323 | a found record is one the name matches and no earlier key's record matches; `None` only when no record matches |
| Appmap.Store | ldtpd/utils.py:282 | storing a map sets the key's map, puts a new key last and leaves an existing key in its place; every stored map stays listed among the keys |
| Appmap.CacheLookup | ldtpd/utils.py:273-276 | a found name has a map and matches the window, and no earlier cached name with a map does; none when no cached name does |
| Appmap.BuildAppmap | ldtpd/utils.py:277-283 | the map built from scratch, whose root records name the application's label as their parent |
| Appmap.AppmapPairs | ldtpd/utils.py:270-283 | unless forced, the first cached map whose key matches the window is reused and the cache is unchanged; when forced or when no key matches, the map is rebuilt and stored under the window's synthetic name, a new name going last |
| Appmap.StoredFound | ldtpd/utils.py:273-282 | once a map is stored under a window's synthetic name, the cache lookup for that window finds a name |
| Appmap.RebuiltMapReused | ldtpd/utils.py:270-283 | after a rebuild for a window no cached name matched, the next unforced call returns the same map and leaves the cache as it is |
| Resolver.ListGuis | ldtpd/utils.py:77-83 | a pair (application, window) is listed iff the application is a non-`None` application and the window one of its non-`None` children |
| Resolver.Candidate | ldtpd/core.py:179-188 | the name first tried for a window is `tag + label`, or `tag + n` for the n-th unlabelled window with that tag |
| Resolver.NameStep | ldtpd/core.py:179-193 | naming one more window keeps the earlier names and gives the new window the first free variant of its candidate |
| Resolver.DisplayNamesPrefix | ldtpd/core.py:174-194 | names already given do not change as later windows are added |
| Resolver.DisplayNameIsFirstFree | ldtpd/core.py:188-193 | each window is named by its candidate, or by the candidate and the smallest number from 1 that no earlier window took |
| Resolver.DisplayNamesDistinct | ldtpd/core.py:190-193 | the window list never repeats a name |
| Resolver.DisplayNameShape | ldtpd/core.py:179-193 | a listed name is its window's candidate, possibly followed by a number, so it starts with the window's role tag |
| Resolver.DisplayNamesFirstFree | ldtpd/core.py:179-193 | every name is the first free variant of its window's candidate, given the names before it |
| Resolver.GetWindowList | ldtpd/core.py:167-194 | one name per listed window; no name repeats; each is its window's candidate or, when an earlier window took it, the candidate and the smallest free number from 1 |
| Resolver.FirstIndex | ldtpd/utils.py:330-332 | the first position from i on that passes the test, or none when no position does |
| Resolver.GetWindowHandle | ldtpd/utils.py:325-360 | the first listed window the name matches as an accessible wins; failing that, the window at the first position of the window list whose name the name equals or globs; `None` iff neither kind of match exists |
| Resolver.ByListedName | ldtpd/utils.py:335-359 | the window at the first position of the window list whose name the name equals or globs; `None` iff no listed name matches |
| Resolver.ListedWindowsResolve | ldtpd/utils.py:335-359 | every name that `getwindowlist` reports leads `_get_window_handle` to a window |
| Resolver.WindowFoundByOwnName | ldtpd/utils.py:330-332 | a window is found by its own accessible name |
| Resolver.TraverseParent | ldtpd/utils.py:381-399 | the chain starts at the record's parent and follows parent links through recorded keys; it stops at the first key that names the window or whose parent is not recorded; running out of steps raises the recursion limit |
| Resolver.Descend | ldtpd/utils.py:409-428 | the walk down the recorded child indexes; a role mismatch gives `None`, and a missing child ends the walk at the current node when its role is right |
| Resolver.Internal | ldtpd/utils.py:375-428 | an empty parent chain raises the not-found message; otherwise the walk follows the chain without its window entry |
| Resolver.ObjectInGui | ldtpd/utils.py:367-438 | a first miss rebuilds the map and looks again; a walk that yields `None` rebuilds once more and retries; an object missing from a rebuilt map raises "Unable to find object name"; a found object lies inside the window, and only the window's cache entry changes |
| Resolver.RebuildCount | ldtpd/utils.py:367-437 | the map is rebuilt once for a first miss and once more for a walk that yields `None`, and no other time |
| Resolver.RecordedObjectFound | ldtpd/utils.py:367-437 | an object recorded in the first map whose walk reaches it is returned with no rebuild |
| Resolver.FreshNullWalkRepeats | ldtpd/utils.py:367-437 | an object first missed whose walk then yields `None` costs two rebuilds, and the `None` of the retried walk is the answer |
| Resolver.GetObject | ldtpd/utils.py:362-438 | a window that cannot be found raises `Unable to find window`; the cache is changed only for the resolved window |
| Resolver.MenuPath | ldtpd/utils.py:286-288 | the `;`-separated segments, the first prefixed with `mnu` unless it starts with it |
| Resolver.MenuDescend | ldtpd/utils.py:290-302 | the result lies below the start and matches the last segment; the only faults are AttributeError and a missing item that names one of the segments |
| Resolver.MenuDescendFirst | ldtpd/utils.py:290-302 | a result lies below the first node of the walk, other than the start, that the first segment matches; with no such node the walk's AttributeError, or else "Menu item ... doesn't exist in hierarchy" for that segment |
| Resolver.MenuDescendStep | ldtpd/utils.py:290-298 | the descent steps to the first matching node and continues from it with the remaining segments |
| Resolver.MenuItemBelowFound | ldtpd/utils.py:290-298 | a segment that matches some node below, other than the start, is never reported missing: the descent moves to the first such node at or before it |
| Resolver.GetMenuHierarchy | ldtpd/utils.py:285-303 | the first segment resolves as an object and the others descend; a success ends on a node matching the last segment |
| Waiters.Poll | ldtpd/waiters.py:90-146 | as written: the window polls test the handle; the object-exists poll never succeeds and the object-not-exists poll always does |
| Waiters.PollFixed | ldtpd/waiters.py:119-146 | the object polls look the object up by its own name; any failure means "not there" |
| Waiters.EventCb | ldtpd/waiters.py:94-131 | a window waiter succeeds on an event whose source is its window; the object-exists waiter clears its success again |
| Waiters.Loop | ldtpd/waiters.py:53-69 | at most one poll per tick; with the timer running and no success yet, the loop returns once `timeout - count` ticks arrive; a failure comes after exactly that many polls; a success comes only from an awaited stimulus |
| Waiters.PassOverStep | ldtpd/waiters.py:53-69 | a running window wait passes over a stimulus that is not awaited, polling once for a tick and keeping the timer running |
| Waiters.AwaitedStep | ldtpd/waiters.py:53-69 | a running window wait ends with success at an awaited stimulus, with one more poll for a tick |
| Waiters.WindowAwaitedIsAwaited | ldtpd/waiters.py:84-108 | for the window waiters an awaited stimulus is a tick on which the window is there (or gone), or a create (or destroy) event whose source the window name matches; the repaired poll changes nothing |
| Waiters.WindowWaitEndsAtFirstAwaited | ldtpd/waiters.py:53-108 | a running window wait, none of whose earlier stimuli is awaited and whose timeout has not struck, ends with success at the first awaited stimulus, after one poll per earlier tick |
| Waiters.RunEntersLoop | ldtpd/waiters.py:31-47 | a window run whose first poll does not find the window there (or gone), with a non-zero timeout, enters the loop with the timer running, no ticks counted and one poll made |
| Waiters.WindowRunEndsAtFirstAwaited | ldtpd/waiters.py:31-108 | a window run whose first poll fails succeeds at the first awaited stimulus before the timeout, after 1 poll plus one per tick up to it |
| Waiters.Run | ldtpd/waiters.py:31-69 | one poll first; success or a zero timeout returns at once; with timeout T > 0 a failure comes after exactly 1 + T polls, T ticks always end the wait, and a success comes from the first poll or an awaited stimulus |
| Waiters.NullRun | ldtpd/waiters.py:79-81 | `NullWaiter` returns its fixed value once the loop ends |
| Waiters.InertLoopTimesOut | ldtpd/waiters.py:53-61 | an inert waiter with its timer running stops after exactly `timeout - count` more ticks, still failing |
| Waiters.InertRunPollsOnePlusTimeout | ldtpd/waiters.py:31-61 | a predicate that is never true, with timeout T > 0, is polled exactly 1 + T times and the wait fails |
| Waiters.NullWaiterReturnsItsValue | ldtpd/waiters.py:74-81 | `NullWaiter(v, T)` returns v after 1 + T polls |
| Waiters.ObjectExistsAsWrittenNeverSucceeds | ldtpd/waiters.py:119-127 | as written, an object-exists wait with T > 0 fails after 1 + T polls, even when the object is there all along |
| Waiters.ObjectNotExistsAsWrittenAlwaysGone | ldtpd/waiters.py:138-146 | as written, an object-not-exists wait reports the object gone at the first poll |
| Waiters.ObjectExistsFixedFound | ldtpd/waiters.py:119-127 | with the poll repaired, a wait whose object is found succeeds after the first poll |
| Waiters.ObjectNotExistsFixedFirstPoll | ldtpd/waiters.py:138-146 | with the poll repaired, an object-not-exists wait succeeds at the first poll exactly when the lookup fails |
| Waiters.GuiWaitsAnswerAtOnce | ldtpd/waiters.py:40-108 | a window wait whose window is already there (or already gone) succeeds after the single first poll |
| Waiters.ZeroTimeoutPollsOnce | ldtpd/waiters.py:40-41 | a zero timeout returns the first poll's verdict without entering the loop |
| Waiters.CreateEventEndsGuiWait | ldtpd/waiters.py:66-97 | a create event for the awaited window ends a window-exists wait with success, without another poll |
| Waiters.WaitTillGuiExist | ldtpd/core.py:655-679 | as written: with an object name the command raises TypeError before any poll; without one it waits for the window |
| Waiters.WaitTillGuiExistFixed | ldtpd/core.py:674-679 | the corrected command waits for the object with the repaired poll, or for the window as before; a window or object already there answers true after one poll; T ticks end a wait with timeout T > 0 |
| Waiters.WaitTillGuiNotExist | ldtpd/core.py:681-703 | waits for the object to go when an object name is given, else for the window; a window already gone, or with the repaired poll an object whose lookup fails, answers true after one poll; as written an object wait answers true at once; with no timeout the repaired object wait answers whether the lookup fails |
| Waiters.WaitTillObjectRaises | ldtpd/core.py:674-675 | as written, every object wait raises the arity TypeError, even for an object that is there |
| Waiters.WaitTillObjectFixedFound | ldtpd/core.py:674-679 | the corrected command reports an object that is there after the first poll |
| Waiters.WaitTillWindowUnchanged | ldtpd/core.py:676-679 | without an object name the as-written and corrected commands wait alike |
| Waiters.WaitTillObjectGoneFirstPoll | ldtpd/core.py:698-703 | with the repaired poll and no timeout, an object wait answers whether the object's lookup fails |
| CoreEvents.Pop | ldtpd/core.py:259-282 | an empty queue answers `''`; otherwise the newest entry, which leaves the queue |
| CoreEvents.PopAfterAppend | ldtpd/core.py:259-269 | the entry appended last is polled first |
| CoreEvents.DrainReverses | ldtpd/core.py:259-269 | polling as often as there are entries yields them newest first |
| CoreEvents.DrainPastEnd | ldtpd/core.py:267-268 | once the queue is empty every poll answers `''` |
| CoreEvents.KbCallback | ldtpd/core.py:111-125 | a `None` event changes nothing; a repeated timestamp is ignored; otherwise a registered code with registered modifiers is queued as `kbevent-string-modifiers` |
| CoreEvents.KbEntry | ldtpd/core.py:124-125 | a logged keystroke starts with `kbevent-` |
| CoreEvents.RepeatedKeystrokeLoggedOnce | ldtpd/core.py:114-121 | the same keystroke delivered twice is logged once |
| CoreEvents.RegisterKb | ldtpd/core.py:478-483 | the key codes are appended, and the modifiers too when non-zero |
| CoreEvents.RegisterKbFixed | ldtpd/core.py:480-481 | the corrected registration records the modifiers whatever their value |
| CoreEvents.DeregisterKb | ldtpd/core.py:503-509 | one occurrence of the modifiers and one of each key code is removed, where present |
| CoreEvents.RegisterThenDeregister | ldtpd/core.py:465-514 | deregistering what was just registered restores the codes and modifiers, up to order |
| CoreEvents.RegisteredKeystrokeLogged | ldtpd/core.py:111-125 | a keystroke whose code and non-zero modifiers were registered is logged |
| CoreEvents.UnmodifiedKeystrokeNeverLogged | ldtpd/core.py:480-481 | as written, a keystroke without modifiers is never logged, whatever was registered |
| CoreEvents.RegisteredKeystrokeLoggedFixed | ldtpd/core.py:478-483 | with the modifiers always recorded, a registered keystroke is logged whatever its modifiers |
| CoreEvents.OnWindowCreate | ldtpd/core.py:393-407 | the keys afterwards are the old ones plus the name; registering a name that is already a key changes nothing; distinct keys stay distinct; nothing else in the daemon changes |
| CoreEvents.RemoveCallback | ldtpd/core.py:409-424 | the keys afterwards are the old ones without the name, whether or not it was a key; distinct keys stay distinct; nothing else in the daemon changes |
| CoreEvents.CallbackRoundTrip | ldtpd/core.py:393-424 | registering a new callback and removing it restores the callbacks exactly |
| CoreEvents.Notices | ldtpd/core.py:130-132 | a window creation queues `onwindowcreate-name` exactly for the non-empty callback names that match the window, at most one entry per key: no two entries are equal when the keys are distinct |
| CoreEvents.Put | ldtpd/core.py:136-137 | the key maps to the value and the other keys keep their values and order |
| CoreEvents.WindowEventCb | ldtpd/core.py:127-147 | a creation notifies the matching callbacks and starts the window's record afresh; a destruction of a known window stamps its record |
| CoreEvents.RegisteredEventCb | ldtpd/core.py:100-106 | an event with a source and a type is queued as `type-name` |
| CoreEvents.CallbackNotifiedOnCreate | ldtpd/core.py:129-132 | a callback registered under a window's own name is notified when that window appears |
| CoreEvents.RemovedCallbackSilent | ldtpd/core.py:409-424 | a removed callback is not notified |
| CoreEvents.Span | ldtpd/core.py:381-382 | the lifetime text joins the record's two stamps with `-`; a record without a second stamp raises IndexError |
| CoreEvents.UptimeScan | ldtpd/core.py:383-390 | the loop stops at the first window from position i on that the name selects or whose record is empty: a selected one answers its span, an unselected one raises IndexError; `''` iff no recorded window ahead is a stop |
| CoreEvents.WindowUptime | ldtpd/core.py:379-391 | as written: an exact key with a complete record answers at once; otherwise the first window the glob selects answers, raising IndexError if it is still open |
| CoreEvents.WindowUptimeFixed | ldtpd/core.py:379-391 | the corrected lookup skips windows still open, so it answers a complete record's span or `''` and never raises |
| CoreEvents.CreateThenDestroyUptime | ldtpd/core.py:136-144 | a window that appeared and went away answers its two stamps, asked by its synthetic name |
| CoreEvents.OpenWindowUptimeFaults | ldtpd/core.py:383-390 | as written, asking for the uptime of the one known window while it is still open raises IndexError |
| CoreEvents.OpenRecordFaults | ldtpd/core.py:379-390 | as written, a table whose only window has an open record (two stamps) raises IndexError when asked by that window's name |
| CoreEvents.OpenWindowUptimeFixed | ldtpd/core.py:383-390 | the corrected lookup answers `''` for that window |
| CoreOps.FlatHitsOnce | ldtpd/core.py:1210-1226 | in the flat loop the four tests are exclusive and accept exactly the wanted records |
| CoreOps.Gather | ldtpd/core.py:1210-1226 | a key is collected iff it is recorded and hit; with one key it is repeated as often as hit; distinct keys hit at most once give distinct results |
| CoreOps.GatherCount | ldtpd/core.py:1210-1226 | each recorded key occurs in the result as often as it occurs in the keys times its hits |
| CoreOps.GatherAppend | ldtpd/core.py:1210-1226 | gathering two runs of keys is gathering each and concatenating, so the key order is kept |
| CoreOps.ChainHits | ldtpd/core.py:1177-1189 | as written: the collected keys extend the ones before; a wanted record comes first, a childless record adds only itself, and every key added is the record or lies on its first-child chain |
| CoreOps.SubtreeHits | ldtpd/core.py:1177-1189 | the corrected search collects the record first when it is wanted, and every wanted direct child |
| CoreOps.ChainComplete | ldtpd/core.py:1177-1189 | as written, every wanted record down the first-child chain is collected |
| CoreOps.SubtreeSound | ldtpd/core.py:1177-1189 | the corrected search collects only wanted records of the subtree |
| CoreOps.SubtreeComplete | ldtpd/core.py:1177-1189 | the corrected search collects every wanted record at any depth below the record |
| CoreOps.ChainExact | ldtpd/core.py:1177-1189 | as written, the result is exactly the wanted records of the first-child chain: empty iff there is none |
| CoreOps.SubtreeExact | ldtpd/core.py:1177-1189 | the corrected result is exactly the wanted records of the subtree: empty iff there is none |
| CoreOps.TreeSearch | ldtpd/core.py:1168-1202 | an unknown parent raises TypeError; a success is non-empty and holds exactly the wanted records below the parent (the first-child chain as written, the subtree when corrected); a search that finds nothing raises, as written, UnboundLocalError for `_name` or `_role` when either was not given, and otherwise "Could not find a child" |
| CoreOps.TreeSearchWithinFixed | ldtpd/core.py:1177-1189 | every key the as-written search finds, the corrected search finds too |
| CoreOps.FlatSearch | ldtpd/core.py:1204-1241 | the flat search; no match raises "Could not find a child" naming what was given |
| CoreOps.GetChild | ldtpd/core.py:1147-1241 | corrected: a missing window raises "Unable to find window"; spaces in the role become `_`; a parent with a name or role searches under the parent, anything else searches the whole map |
| CoreOps.GetChildAsWritten | ldtpd/core.py:1168-1209 | as written: a missing window raises TypeError, and a found window goes through the pair unpacking |
| CoreOps.Unpacked | ldtpd/core.py:1169-1209 | unpacking a found window: other than two children raises ValueError, a `None` first child raises "Unable to find window", otherwise the first child is searched with the second as `force_remap`; only that last case can succeed |
| CoreOps.GetChildAsWrittenMissingWindow | ldtpd/core.py:1169-1173 | for a missing window, TypeError as written where the corrected command raises "Unable to find window" |
| CoreOps.GetChildAsWrittenNeverSearchesTheWindow | ldtpd/core.py:1169-1170 | for a window without exactly two children, ValueError as written where the corrected command searches the window's map |
| CoreOps.PanelSelect | ldtpd/core.py:987-995 | a panel without children raises, an index outside `0..childCount` raises, a missing child raises, and a success focuses the child |
| CoreOps.SelectPanel | ldtpd/core.py:969-995 | the panel is resolved first, and its errors are passed through |
| CoreOps.Toggle | ldtpd/core.py:860-888 | the object is focused, and clicked only when its checked state differs from the target |
| CoreOps.Check | ldtpd/core.py:846-866 | only an unchecked object is clicked, with an action matching `click`, `press`, `activate` or `check` |
| CoreOps.Uncheck | ldtpd/core.py:868-888 | only a checked object is clicked, with an action matching `click`, `press`, `activate` or `uncheck` |
| CoreOps.CheckUncheckComplementary | ldtpd/core.py:863-886 | on an object that takes the focus, exactly one of the two tries to click, and the other succeeds |
| CoreOps.CheckClicksFirstMatchingAction | ldtpd/core.py:864 | the action `check` performs is the first whose name starts with one of its four words |
| CoreOps.TreeSearchMissesLaterChildren | ldtpd/core.py:1186-1189 | as written, a button that is not the panel's first child is not found under the panel |
| CoreOps.TreeSearchFixedFindsLaterChildren | ldtpd/core.py:1186-1189 | the whole-subtree search finds it |
| CoreOps.TreeSearchUnboundName | ldtpd/core.py:1192-1199 | as written, a role-only search under a parent that finds nothing raises UnboundLocalError |
| CoreOps.TreeSearchFixedMessage | ldtpd/core.py:1192-1199 | the corrected search raises the "Could not find a child" message |
| TableOps.TableOf | ldtpd/table.py:70-73 | a table object's table; an object without one raises "Object not table type." |
| TableOps.AccessibleAtRowColumn | ldtpd/utils.py:447-464 | a row or column below 0 or above the count raises its range message; a missing cell raises; a success is the cell at that position |
| TableOps.CellFind | ldtpd/table.py:77-99 | a `None` cell is skipped; a cell with children is searched in walk order; a leaf cell is matched itself |
| TableOps.SearchFrom | ldtpd/table.py:75-99 | the row-major search from (i, j): a hit lies in a row at or after i, inside one of its cells, and matches the text; an error is the walk's AttributeError |
| TableOps.Scan | ldtpd/table.py:75-99 | the row-major scan with any cell test: a hit is in a row at or after i and is what the test found in one of its cells; an error is one the test raised on some cell |
| TableOps.ScanNone | ldtpd/table.py:75-100 | the scan finds nothing iff the test is silent on every cell from (i, j) on |
| TableOps.ScanHitFirst | ldtpd/table.py:75-99 | a hit comes from the first cell, in row-major order from (i, j), on which the test is not silent |
| TableOps.ScanFaultFirst | ldtpd/table.py:75-99 | an error comes from the first cell, in row-major order from (i, j), on which the test is not silent |
| TableOps.SearchFromNone | ldtpd/table.py:75-100 | the row search finds nothing iff no cell from (i, j) on holds a match and no cell's walk faults |
| TableOps.SearchFromFirst | ldtpd/table.py:75-99 | the row search answers the first cell, in row-major order from (i, j), holding a match or a faulting walk: a match gives that cell's row, a fault is raised |
| TableOps.TableSearch | ldtpd/table.py:75-99 | the nested loops compute the row-major search |
| TableOps.RowSearch | ldtpd/table.py:68-100 | a non-table raises "Object not table type."; a search error passes through; no match raises the command's message with the text; a match that cannot take the focus raises that failure; otherwise the hit's row, which lies inside the table |
| TableOps.GetTableRowIndex | ldtpd/table.py:623-671 | resolution errors pass through; otherwise the row search with "Unable to get row index: "; the cache is the lookup's and the table-cell flag is unchanged |
| TableOps.SelectRow | ldtpd/table.py:50-100 | resolution errors pass through; otherwise 1 when the row search succeeds and its error with "Unable to select row: " when not; the cache is the lookup's and the table-cell flag is unchanged |
| TableOps.SelectRowAgreesWithIndex | ldtpd/table.py:50-671 | `selectrow` succeeds iff `gettablerowindex` does on the same arguments, and they fail alike except for the not-found message |
| TableOps.SelectRowIndex | ldtpd/table.py:168-180 | succeeds iff the row is in `0..nRows` and its first cell exists and takes the focus; the count itself passes the range test |
| TableOps.SelectLastRow | ldtpd/table.py:196-205 | succeeds iff the last row's first cell exists and takes the focus |
| TableOps.SelectLastRowIsLastIndex | ldtpd/table.py:175-205 | on a non-empty table, selecting the last row is selecting index `nRows - 1` |
| TableOps.SelectLastRowOfEmptyTable | ldtpd/table.py:203-204 | an empty table has no last row to select |
| TableOps.GetCellValue | ldtpd/table.py:310-340 | a leaf cell answers its name; a cell with children answers the name of the first text node in walk order; an empty answer raises "Unable to get row text" |
| TableOps.VerifyTableCell | ldtpd/table.py:789-815 | 1 iff the object resolves and its cell value exists and the text globs it, else 0; it never raises and leaves the table-cell flag as it was |
| TableOps.VerifyOwnValue | ldtpd/table.py:810-813 | a cell verifies against its own literal value |
| TableOps.ToggleTo | ldtpd/table.py:487-501 | a cell already in the target state is not clicked; otherwise its `toggle` action is clicked |
| TableOps.ToggleRow | ldtpd/table.py:469-507 | as written: the flag stays as it was for a leaf cell, and can only change from off to on |
| TableOps.ToggleRowFixed | ldtpd/table.py:469-507 | the corrected toggle restores the table-cell flag; a leaf cell without actions raises "Unable to check row"; a leaf with actions is toggled itself; a cell with children toggles the first node of its walk that has actions |
| TableOps.ToggleAt | ldtpd/table.py:476-501 | toggling a node of the cell succeeds iff the node's toggle and the cell's focus grab both succeed, answering 1 with the node's click; otherwise the first failure, with no click |
| TableOps.ToggleAmong | ldtpd/table.py:476-506 | the first node of the walk with an action interface is the one toggled; with none, the walk's AttributeError or "Unable to check row" |
| TableOps.ToggleRowFixedAgrees | ldtpd/table.py:469-507 | the corrected and as-written toggles give the same answer and click, except where the flag was already on and the as-written one answers 1 for a cell without action nodes, which the corrected one rejects |
| TableOps.ToggleRowLeavesFlagOn | ldtpd/table.py:474-495 | as written, a successful toggle of a cell with children leaves the table-cell flag on when it was off |
| TableOps.ToggleRowWithoutActionSucceeds | ldtpd/table.py:476-506 | as written, with the flag already on, a cell with no action node answers 1; the corrected toggle raises "Unable to check row" |
| TableOps.CheckRow | ldtpd/table.py:451-507 | the object is resolved and toggled to checked by the corrected toggle |
| TableOps.UncheckRow | ldtpd/table.py:565-621 | the object is resolved and toggled to unchecked by the corrected toggle |
| MenuOps.MenuTarget | ldtpd/menu.py:17-20 | a name with `;` goes to the menu resolver, any other to the object resolver |
| MenuOps.MenuPathNamesLastSegment | ldtpd/menu.py:17-18 | a resolved menu path ends on an item that matches the path's last segment |
| MenuOps.SelectMenuItem | ldtpd/menu.py:6-27 | answers 1 iff the item resolves and its `click` action runs; resolution errors pass through |
| MenuOps.DoesMenuItemExist | ldtpd/menu.py:29-50 | 1 iff the item resolves, else 0; it never raises |
| MenuOps.SelectableItemExists | ldtpd/menu.py:6-50 | an item that can be selected exists |
| MenuOps.ListedNames | ldtpd/menu.py:72-80 | the listed names are the names of the menu items below the menu, without empty names and without `Empty` |
| MenuOps.ListedNamesFilter | ldtpd/menu.py:72-80 | the listed names are the names of the walk's nodes the listing test keeps, in walk order |
| MenuOps.Submenus | ldtpd/menu.py:66-81 | the `;`-joined item names; `''` iff nothing is listable; a faulting walk raises AttributeError |
| MenuOps.SubmenusSplitBack | ldtpd/menu.py:66-81 | splitting the answer on `;` gives back the listed names, each item name among them |
| MenuOps.ListSubmenus | ldtpd/menu.py:52-81 | the object is resolved and its submenus listed |
| MenuOps.MenuToggle | ldtpd/menu.py:94-129 | an item already in the target state answers 1 without a click; otherwise its `click` action is clicked |
| MenuOps.MenuCheck | ldtpd/menu.py:83-105 | the item is resolved and toggled to checked |
| MenuOps.MenuUncheck | ldtpd/menu.py:107-129 | the item is resolved and toggled to unchecked |
| MenuOps.MenuCheckUncheckComplementary | ldtpd/menu.py:94-129 | at most one of the two clicks, and a checked item needs no check (an unchecked one no uncheck) |
| ComboBox.ComboChildFrom | ldtpd/utils.py:196-207 | the first list or menu in post-order over the children from position k on: a child's descendants are searched before the child itself |
| ComboBox.ComboChild | ldtpd/utils.py:191-207 | for the whole combo box, the first list or menu in post-order; it is a descendant, and none is found iff no descendant is a list or menu; `None` has none |
| ComboBox.FirstListOrMenu | ldtpd/utils.py:204-207 | the first list or menu of a sequence, or none iff the sequence holds none |
| ComboBox.FirstListOrMenuAppend | ldtpd/utils.py:199-207 | the first list or menu of two runs is the first run's, or else the second's |
| ComboBox.PostOrderSameNodes | ldtpd/utils.py:196-207 | the post-order of a subtree holds the same nodes as its pre-order |
| ComboBox.ItemText | ldtpd/combo_box.py:56-60 | an item's text is its text contents when it has a text interface, else its name |
| ComboBox.PickFromList | ldtpd/combo_box.py:49-73 | the first item after the list whose text the name globs is selected at its position minus one; no selection interface is Unsupported; no match raises "Unable to select item" |
| ComboBox.PickFromMenu | ldtpd/combo_box.py:74-83 | the first item after the menu whose name the name globs is clicked; no match raises "Unable to select item" |
| ComboBox.SelectItemIn | ldtpd/combo_box.py:43-83 | the combo box is focused; without a list or menu child it raises "Unable to get combo box children"; otherwise the list or menu decides |
| ComboBox.SelectItem | ldtpd/combo_box.py:27-83 | the combo box is resolved first, and its errors are passed through |
| ComboBox.ListItemSelectedAtItsPosition | ldtpd/combo_box.py:50-73 | a literal item name selects the first list item with that text, at its position |
| ComboBox.NoListNoSelection | ldtpd/combo_box.py:46-48 | a combo box with no list or menu below it raises "Unable to get combo box children" |
| PageTab.SelectTabIn | ldtpd/page_tab_list.py:42-63 | once focused, the first tab the name matches decides: already selected answers 1 without a selection; otherwise it is selected at its index and answers 1, or raises "Unable to select page tab object." without a Selection interface; no tab matching raises "Page tab name does not exist" |
| PageTab.SelectTabIndexIn | ldtpd/page_tab_list.py:81-94 | succeeds iff the object takes the focus, offers selection, and the index is in `0..childCount`; outside the range it raises "Unable to get page tab name, invalid index" |
| PageTab.VerifyTabIn | ldtpd/page_tab_list.py:112-128 | 1 iff a tab the name matches is selected, else 0 |
| PageTab.TabCountIn | ldtpd/page_tab_list.py:144-146 | the tab count is the child count |
| PageTab.TabNameIn | ldtpd/page_tab_list.py:164-177 | as written: a success is the name of the tab at the index; an index outside `0..childCount` raises "Unable to get page tab name, invalid index" |
| PageTab.TabNameInFixed | ldtpd/page_tab_list.py:164-177 | the corrected range test rejects the child count too |
| PageTab.TabNameAtCountFaults | ldtpd/page_tab_list.py:166-173 | as written, the index equal to the child count raises AttributeError; the corrected test raises the invalid-index message |
| PageTab.SelectedTabVerifiesByItsName | ldtpd/page_tab_list.py:96-177 | a selected tab verifies by the name `gettabname` reports |
| PageTab.UntouchedSelectionVerifies | ldtpd/page_tab_list.py:112-128 | when `selecttab` finds its tab already selected, `verifytabname` answers 1 |
| PageTab.SelectTab | ldtpd/page_tab_list.py:26-63 | the tab list is resolved first, and its errors are passed through |
| PageTab.SelectTabIndex | ldtpd/page_tab_list.py:65-94 | the same for selection by index |
| PageTab.VerifyTabName | ldtpd/page_tab_list.py:96-128 | answers 0 or 1 and never raises |
| PageTab.GetTabName | ldtpd/page_tab_list.py:148-177 | the tab list is resolved and the corrected lookup answers |
| OoContext.TrimStart | ooldtp/_context.py:49 | removes exactly the leading run of characters from the set |
| OoContext.TrimEnd | ooldtp/_context.py:49 | removes exactly the trailing run of characters from the set |
| OoContext.Trim | ooldtp/_context.py:49 | the stripped line neither starts nor ends with whitespace |
| OoContext.TrimKeeps | ooldtp/_context.py:49 | a line without outer whitespace is kept |
| OoContext.TrimIsSlice | ooldtp/_context.py:49 | the stripped line is a slice of the line with only whitespace outside it |
| OoContext.ParamName | ooldtp/_context.py:51 | the name taken from an `@param ` line holds no `:` |
| OoContext.ParamNames | ooldtp/_context.py:49-52 | one name per `@param ` line, none holding `:`; no such line gives no names |
| OoContext.ParamNamesPipeline | ooldtp/_context.py:49-52 | the names are the stripped lines kept by the `@param ` test, each cut after the tag and before its first `:` |
| OoContext.ListArgs | ooldtp/_context.py:48-53 | a function without a docstring raises AttributeError; otherwise the parameter names of the docstring split into lines, none holding `:` |
| OoContext.DocLineParses | ooldtp/_context.py:50-51 | the line `@param name:` gives back the name |
| OoContext.ParamNamesOfDocLines | ooldtp/_context.py:49-52 | the `@param` lines of some names give back exactly those names, in order |
| OoContext.ListArgsOfDoc | ooldtp/_context.py:48-53 | the docstring written from some names lists exactly those names |
| OoContext.ComponentCommandsAreContextCommands | ooldtp/_context.py:67-114 | every command a component wraps, a context wraps too |
| OoContext.RelevanceOfDoc | ooldtp/_context.py:67-114 | a context wraps a command iff its first parameter is `window_name`; a component iff its first two are `window_name` and `object_name` |
| OoContext.Slot | ooldtp/_context.py:30-32 | a name already present is stored as `_remote_` plus the name, any other name unchanged |
| OoContext.WrapFrom | ooldtp/_context.py:28-34 | every wrapped name becomes an attribute; with no remote entries nothing is wrapped; a missing docstring raises AttributeError |
| OoContext.WrapFromFails | ooldtp/_context.py:28-34 | generating fails iff some remote entry has no docstring |
| OoContext.WrapFromSlots | ooldtp/_context.py:28-34 | the wrapped attributes are the wanted names in order, each prefixed with `_remote_` iff it is already an attribute or an earlier wrap |
| OoContext.Partial | ooldtp/_context.py:27-34 | the attributes left on the class are the old ones plus the wrapped names; when the loop completes they are exactly what it generates |
| OoContext.New | ooldtp/_context.py:23-35 | the first call marks the class generated and keeps its attributes; it raises AttributeError iff some remote entry has no docstring, and then keeps the wrappers set before it; otherwise the class holds exactly the generated wrappers; later calls leave the class as it is |
| OoContext.NewOnce | ooldtp/_context.py:24-25 | every construction after the first succeeds and changes nothing, even when the first raised |
| OoContext.CollidingNameIsPrefixed | ooldtp/_context.py:30-34 | a remote command whose name is already an attribute is wrapped as `_remote_` plus the name |
| OoContext.ContextCall | ooldtp/_context.py:89-90 | the window name is put in front, and every other argument passes through unchanged |
| OoContext.ComponentCall | ooldtp/_context.py:122-124 | the window and object names are put in front, and every other argument passes through unchanged |
| OoContext.ComponentCallIsNestedContextCall | ooldtp/_context.py:89-124 | a component call is a context call of a context call |
| Keypress.ModifierCode | ldtpd/keypress_actions.py:125-130 | control is 37, mod1 64, lock 66 and shift 50; any other name has no code |
| Keypress.NewKeyStep | ldtpd/keypress_actions.py:41-101 | with neither a code nor a name it raises TypeError; the delay is at most 400 and kept below that; a missing code comes from the name |
| Keypress.AtLeastMinDelta | ldtpd/keypress_actions.py:151-242 | the delay is at least 50 and kept above that |
| Keypress.NewComboStep | ldtpd/keypress_actions.py:139-152 | a combo step waits at least 50 and keeps its code and modifiers |
| Keypress.ModifierCodes | ldtpd/keypress_actions.py:170 | one code lookup per modifier name, in order |
| Keypress.PressModifiers | ldtpd/keypress_actions.py:169-173 | modifier k is pressed at k intervals |
| Keypress.ReleaseModifiers | ldtpd/keypress_actions.py:175-179 | after n + 1 intervals the modifiers are released last one first, modifier k at 2n - k intervals |
| Keypress.DoCombo | ldtpd/keypress_actions.py:160-180 | the n modifiers are pressed at 0, 10, ...; the key is pressed and released at 10n; the modifiers are released in reverse order; the step is done at 10(2n+1) |
| Keypress.ComboNesting | ldtpd/keypress_actions.py:169-180 | the delays strictly increase; each modifier is released after the key; the step is done last |
| Keypress.TypeInterval | ldtpd/keypress_actions.py:238-241 | a missing or zero interval becomes 10 |
| Keypress.NewTypeStep | ldtpd/keypress_actions.py:226-243 | a typing step waits at least 50 and keeps its text |
| Keypress.DoType | ldtpd/keypress_actions.py:251-263 | character k is typed at k times the interval, and the step is done at the length times the interval |
| Keypress.CharType | ldtpd/keypress_actions.py:265-281 | no keymap entry raises IndexError; the first entry's key is pressed and released, inside a press and release of shift (code 50) iff its level is 1 |
| Capture.Requested | ldtpd/generic.py:62-70 | a negative offset becomes 0, and a length below 1 is unset |
| Capture.ClipToWindow | ldtpd/generic.py:99-133 | as written: the offset is at most `size - 1` before the window position is added; the length is at most the left-clipped extent minus the offset; the span ends by the window's far edge, and on it when the length was unset |
| Capture.ClipToWindowNegativeLength | ldtpd/generic.py:99-123 | as written, a window half off the left edge and an offset past its visible part give a negative width |
| Capture.ClipToWindowFixed | ldtpd/generic.py:99-133 | the corrected clip keeps the offset inside the visible part: a request inside a window that shows a pixel captures at least one pixel, on screen inside the window |
| Capture.ClipToDesktop | ldtpd/generic.py:170-183 | the offset is below the desktop extent, the span ends inside it, an unset length reaches its edge, and a set length only shrinks |
| Capture.CaptureWindow | ldtpd/generic.py:72-93 | the first listed window the name matches that offers the component interface; none raises "No window matches" |
| Capture.FocusButton | ldtpd/generic.py:78-89 | the first check box, push button or radio button of the window's walk is focused; AttributeError iff the walk breaks before any button |
| Capture.ImageCapture | ldtpd/generic.py:40-198 | the region lies inside the desktop; no window name captures from the desktop; an unmatched window name raises "No window matches"; a broken child met before the first button of the window raises AttributeError; otherwise a region is returned |
| Capture.Desktop | ldtpd/generic.py:166-183 | both axes are clipped to the desktop |
| Capture.WholeDesktopCapture | ldtpd/generic.py:62-183 | without a window or a size, the region runs from the offsets to the desktop's far edges |
| Capture.WindowCaptureInsideWindow | ldtpd/generic.py:112-183 | a window capture ends inside the window |
| LdtpMe.FirstSep | ldtpme/__init__.py:96-117 | the leftmost `::` at or after a position |
| LdtpMe.LastSep | ldtpme/__init__.py:107-127 | the rightmost `::` below a position |
| LdtpMe.BaseOfLine | ldtpme/__init__.py:107 | on one line, the base name follows some `::` and holds none; a line without `::` is kept |
| LdtpMe.ApplicationOfLine | ldtpme/__init__.py:117 | on one line, the application precedes some `::` and holds none; a line without `::` is kept |
| LdtpMe.ParentOfLine | ldtpme/__init__.py:127 | on one line, the parent is what precedes the last `::`; a line without `::` is kept |
| LdtpMe.ParentBaseOfLine | ldtpme/__init__.py:107-127 | a line with `::` is its parent, `::` and its base name |
| LdtpMe.OneLine | ldtpme/__init__.py:107-127 | on a path without a newline, the line-wise rewrite is the rewrite of the path |
| LdtpMe.LinesSplit | ldtpme/__init__.py:107-127 | the rewritten path has one line per line of the path, each the rewrite of that line |
| LdtpMe.BaseNameLines | ldtpme/__init__.py:101-108 | no line of a base name holds `::` |
| LdtpMe.BaseName | ldtpme/__init__.py:107 | on one line, the base name of the line |
| LdtpMe.ApplicationName | ldtpme/__init__.py:117 | on one line, the application of the line |
| LdtpMe.ParentName | ldtpme/__init__.py:127 | on one line, the parent of the line |
| LdtpMe.ParentBaseRoundTrip | ldtpme/__init__.py:101-128 | a one-line path with `::` is its parent, `::` and its base name |
| LdtpMe.ContextOf | ldtpme/__init__.py:96-97 | the path up to its second `::`, or all of it when it has only one, holding the first `::`; a path without `::` raises IndexError |
| LdtpMe.CheckObjsAsWritten | ldtpme/__init__.py:71-82 | as written, an argument of another type raises NameError for `objs` instead of the message |
| LdtpMe.CheckObjs | ldtpme/__init__.py:71-82 | `None` means the current objects; a string is one path marked single, a list its paths; another type raises the package's message |
| LdtpMe.CheckObjsNameError | ldtpme/__init__.py:81 | an integer argument raises NameError as written |
| LdtpMe.CheckR | ldtpme/__init__.py:85-87 | one value iff a single string gave exactly one result, else the list |
| LdtpMe.EachPath | ldtpme/__init__.py:95-97 | every path rewritten in order; the first failure is raised |
| LdtpMe.ApplyShape | ldtpme/__init__.py:71-98 | a single path gives one value; a list gives a list of as many values |
| LdtpMe.Apply | ldtpme/__init__.py:71-87 | the shared shape of the helpers as written: another type raises NameError for `objs`; one path gives one value or the rewrite's failure; a list gives as many values in order, or the failure of some path |
| LdtpMe.ApplyFixed | ldtpme/__init__.py:71-87 | with the corrected check, another type raises the package's message naming its type, and every other argument is answered as written |
| LdtpMe.SubContext | ldtpme/__init__.py:90-98 | another type raises NameError for `objs`; a path (or `None` for the current single path) gives its context iff it holds `::`, and IndexError otherwise; a list gives each path's context in order, and IndexError if any path lacks `::` |
| LdtpMe.SubBaseName | ldtpme/__init__.py:101-108 | another type raises NameError for `objs`; a path gives its base name, a list the base name of each path in order |
| LdtpMe.SubApplication | ldtpme/__init__.py:111-118 | another type raises NameError for `objs`; a path gives its application, a list the application of each path in order |
| LdtpMe.SubParent | ldtpme/__init__.py:121-128 | another type raises NameError for `objs`; a path gives its parent, a list the parent of each path in order |
| LdtpMe.SetCurrentObjs | ldtpme/__init__.py:56-68 | succeeds iff every argument is a string or a list; otherwise it raises the package's message |
| LdtpMe.PathsOf | ldtpme/__init__.py:61-66 | a string contributes itself and a list its paths |
| LdtpMe.SetCurrentObjsSingle | ldtpme/__init__.py:60-65 | one string sets itself, and one list sets its paths |
| LdtpMe.SetCurrentObjsAppend | ldtpme/__init__.py:59-67 | the arguments of two calls together set the paths of the first followed by those of the second |
| LdtpMe.YieldTree | ldtpme/__init__.py:159-176 | a negative depth yields nothing; depth 0 yields the object iff it is non-empty; nothing empty is ever yielded; with parents, a non-empty object comes first |
| LdtpMe.YieldAll | ldtpme/__init__.py:174-176 | the objects yielded for each listed object in turn, none empty |
| LdtpMe.OneLevel | ldtpme/__init__.py:167-176 | one level down without parents yields the object's non-empty children, in listed order |
| LdtpMe.LeavesAtZero | ldtpme/__init__.py:163-176 | at depth 0 a list yields its non-empty entries |
| Strings.IntToString | ldtpd/utils.py:454 | `'%d'` of an integer: it starts with a minus sign iff the integer is negative, and the rest is all digits that read back as its absolute value |
| Strings.NumberedInjective | ldtpd/utils.py:241 | a numbered name `base + '%d' % k` determines its number |
| Strings.Strip | ldtpd/utils.py:110 | `re.sub` with a character alternation: exactly the characters of the set are removed |
| Strings.SplitJoin | ldtpd/menu.py:81 | pieces without the separator come back from splitting their join |
| Strings.FirstFree | ldtpd/utils.py:238-241 | the uniqueness rule: the first name if free, otherwise `base + j` for the smallest free j from 1 |
| Seqs.RemoveFirst | ldtpd/core.py:505-509 | `del s[s.index(x)]`: the first occurrence goes and the multiset loses exactly one x |
| Seqs.RemoveEachExact | ldtpd/core.py:507-509 | removing each of a sub-multiset removes exactly those elements |
| Seqs.RemoveEachDiff | ldtpd/core.py:507-509 | removing each of a list takes exactly that multiset away, where present |
| Seqs.Filter | ldtpme/__init__.py:164-165 | the kept elements are exactly those that pass, in order |

## Left out

- The accessibility service itself (pyatspi) is not part of this model. The tree datatype stands for it. These become fields of a node or parameters:
  - focus grabbing (component interface present or not);
  - action invocation (the first matching action's index);
  - geometry queries;
  - event delivery.
- Concurrency is not modelled: the gobject main loop, the per-request thread and the process monitor. A waiter's loop is modelled as a list of tick and event stimuli.
- The RPC plumbing is not modelled: the XML-RPC daemon, the client, and the client's wrappers other than `ooldtp`.
- Floating point is not modelled: value and slider commands, `wait`, and CPU and memory statistics.
- I/O is not modelled:
  - `launchapp`;
  - log files;
  - the pixbuf, temporary file and base64 encoding of `imagecapture`;
  - the gtk3 branch of `imagecapture`, whose arithmetic is the same as the gtk2 branch's.
- ldtpd/mouse.py and ldtpd/text.py are thin foreign wrappers and are not part of this model.
- General regular expressions are not modelled. Only the glob subset that `fnmatch.translate` produces is. `selectrowpartialmatch`, `doesrowexist` and the regex prefix match of `_click_object` are left out; the action match is modelled as "the action name starts with one of the alternatives".
- Glob.CloseIndex: a reversed range such as `[z-a]` makes Python's `re` raise. The model treats it as an empty range.
- Dictionary iteration order (unspecified in Python 2) is modelled as insertion order for the appmap, the cache, the callbacks and the uptime table.
- CoreEvents.OnWindowCreate: the constant answer 1 of `onwindowcreate` and `removecallback` is not modelled; both functions give the daemon afterwards.
- Access.GrabFocus: the failure message is "Failed to grab focus"; the source appends " for " and the object's printable form, which pyatspi provides and which is not part of this model.
- Resolver.TraverseParent, CoreOps.ChainHits and CoreOps.SubtreeHits: the recursions along appmap links are bounded by a fuel of one more than the number of records. When the fuel runs out, the source's recursion limit (RecursionLimit) is reported. A chain of links that revisits a record runs the fuel out, where the source recurses until Python's own limit. The model does not prove that a chain without repeats stays within the fuel, and Python's actual depth limit is not modelled.
- A LookupError from a dead application in `_list_guis` (the application is dropped from the cache) is not modelled.
- Exceptions raised inside a waiter's timer poll are not modelled: the source lets them escape the main loop.
- The `source_name` field of window events is a parameter of the event, not a property of the tree.
- Key names are resolved by the toolkit (`get_keyval_id`, `gtk.accelerator_parse`, the keymap), which is not part of this model. The key codes and modifier names arrive as parameters.
- `registerevent` and `deregisterevent` only change which events the accessibility service delivers, so they are not modelled.
- CoreOps.GetChild: the corrected command takes the single handle `_get_window_handle` returns and calls `_appmap_pairs` unforced. As written, the source unpacks that handle as a pair (see Findings and CoreOps.GetChildAsWritten), and passes the second item as `force_remap`.
- The waiters module lacks the `maximizewindow`-style waiters that core.py imports. These are not part of this model.
- PageTab.SelectTabIndexIn: `selectChild`'s return value is ignored by the source, so an index equal to the tab count answers 1. The model keeps this.
- PageTab.TabCountIn: `gettabcount` is modelled too, for the lemmas that relate the tab commands.
- LdtpMe.SetCurrentObjs: the elements of a list argument are not type-checked by the source; the model's lists hold strings.
- LdtpMe.YieldTree: `ldtp.getobjectlist` and `ldtp.getapplist` are remote calls whose failures are not modelled.
- `ldtpme`'s `getTree`, `getLeaves`, `getRole` and search helpers are thin loops over remote calls. Only the recursion they share, `__yieldTreeObjects`, is modelled.
- `Context.getchild` in ooldtp is a client convenience over the remote `getchild`, so it is not modelled.
- `verifypartialtablecell` and the other partial-match table commands rely on general regular expressions and are left out.
- The keystroke actions' printable forms (`__str__`) and the shared step machinery (`AtomicAction`, `stepDone`) are not modelled. The schedules record `stepDone` as the final callback.
- OoContext.New: attribute dispatch through `__getattribute__` is not modelled. Only the generated attribute set and the call wrappers are.
- Capture.ImageCapture: the returned region is the one the corrected window clip gives (see Findings).

## Findings

| source | as written | input that shows it | evidently intended | confidence | as-written member | corrected member |
|---|---|---|---|---|---|---|
| ldtpd/waiters.py:119-127 | the object-exists poll reads `re` (not imported) and `object_name` (not in scope); the NameError is swallowed | any object-exists wait with T > 0 on an object that exists | the poll looks up `self._obj_name` and succeeds when it is found | high, not executed | Waiters.ObjectExistsAsWrittenNeverSucceeds | Waiters.ObjectExistsFixedFound |
| ldtpd/core.py:674-675 | `ObjectExistsWaiter` is built with four arguments, but its constructor (ldtpd/waiters.py:115) takes three | `waittillguiexist("frmX", "btnOK")` | build the waiter from the window, the object and the timeout | high, not executed | Waiters.WaitTillObjectRaises | Waiters.WaitTillGuiExistFixed |
| ldtpd/waiters.py:138-146 | the same NameError sets success in the object-not-exists poll | any object-not-exists wait on an object that exists | success only when the lookup fails | high, not executed | Waiters.ObjectNotExistsAsWrittenAlwaysGone | Waiters.ObjectNotExistsFixedFirstPoll |
| ldtpd/core.py:383-390 | the glob branch formats `record[2]` of a window that is still open | `windowuptime` of the only known window, created and not yet destroyed | skip open windows and answer `''` | high, not executed | CoreEvents.OpenWindowUptimeFaults | CoreEvents.OpenWindowUptimeFixed |
| ldtpd/core.py:480-481 | modifiers 0 (the default) are never recorded, and the callback tests `event.modifiers in self._kb_modifiers` | `registerkbevent("a")`, then an unmodified keystroke of `a` | record the modifiers whatever their value | medium, not executed | CoreEvents.UnmodifiedKeystrokeNeverLogged | CoreEvents.RegisteredKeystrokeLoggedFixed |
| ldtpd/core.py:1186-1189 | `for child in children: return ...` visits only the first child | a panel whose button is its second child, asked by role and name under the panel | search every child | high, not executed | CoreOps.TreeSearchMissesLaterChildren | CoreOps.TreeSearchFixedFindsLaterChildren |
| ldtpd/core.py:1192-1199 | `_name` and `_role` are assigned only when given, then both are read | a role-only search under a parent that finds nothing | initialise them to `''` as the flat branch does | high, not executed | CoreOps.TreeSearchUnboundName | CoreOps.TreeSearchFixedMessage |
| ldtpd/table.py:472-506 | `flag` is used both for "the table-cell flag was already on" and for "an action child was found" | a cell with children but no action node, with the flag already on | restore the flag, and raise "Unable to check row" when no action child is found | high, not executed | TableOps.ToggleRowWithoutActionSucceeds | TableOps.ToggleRowFixed |
| ldtpd/table.py:474-495 | a found action child sets `flag`, so the `finally` clause does not turn the table-cell flag back off | a successful `checkrow` on a cell with children while the flag is off | the flag is restored | high, not executed | TableOps.ToggleRowLeavesFlagOn | TableOps.ToggleRowFixed |
| ldtpd/page_tab_list.py:166-173 | the range test lets `index == childCount` through, and `getChildAtIndex` then gives `None` | `gettabname` with the tab count as index | raise the invalid-index message | high, not executed | PageTab.TabNameAtCountFaults | PageTab.TabNameInFixed |
| ldtpd/core.py:1169-1170 | both branches unpack the single accessible (or `None`) that `_get_window_handle` returns into a handle and a name | `getchild` on a window that does not exist (TypeError instead of "Unable to find window"), or on a window with one child (ValueError) | take the handle alone, and report a missing window with the server's message | high, not executed | CoreOps.GetChildAsWritten | CoreOps.GetChild |
| ldtpme/__init__.py:81 | the message formats `type(objs)`, a name undefined in `__checkObjs` | `subBaseName(5)` | raise the package's message naming the argument's type | high, not executed | LdtpMe.CheckObjsAsWritten | LdtpMe.CheckObjs |
| ldtpd/generic.py:99-123 | the offset is clamped to the full window width, while the width is measured from the left-clipped extent | a window at x = -50 of width 100, capture offset 80, no width: width -30 | clamp the offset into the visible part, so at least one pixel is captured | medium, not executed | Capture.ClipToWindowNegativeLength | Capture.ClipToWindowFixed |

=== FILE: access.dfy ===
/** The accessibility tree as the daemon sees it through pyatspi, frozen at
    one moment.  A pyatspi accessible is always true in a boolean test, so
    `if obj:` only tells an accessible from `None`; `Null` is that `None`,
    which the service hands out for a vanished child or an empty cell.
 */
module Access {
  import opened Wrappers
  import opened Roles
  import opened Strings

  datatype State = Checked | Selected | Enabled | Focused | Showing | OtherState(id: string)

  datatype RelationKind = LabelledBy | ControlledBy | OtherRelation

  /** A relation; `targets[i]` is what `getTarget(i)` returns, `None` when
      the slot holds no accessible.  Only the target's name is ever read. */
  datatype Relation = Relation(kind: RelationKind, targets: seq<Option<string>>)

  /** One accessible.  `text` is the Text interface's whole content,
      `actions` the Action interface's action names, `table` the Table
      interface; `None` for each means `query...()` raises
      NotImplementedError.  `hasComponent` and `hasSelection` say whether
      the Component and Selection interfaces exist. */
  datatype Acc =
    | Null
    | Obj(role: Role, roleName: string, name: string, description: string,
          relations: seq<Relation>, states: set<State>, indexInParent: int,
          children: seq<Acc>, text: Option<string>, actions: Option<seq<string>>,
          hasComponent: bool, hasSelection: bool, table: Option<Grid>)

  /** The Table interface: its reported dimensions and the cells
      `getAccessibleAt` hands out. */
  datatype Grid = Grid(nRows: int, nColumns: int, cells: seq<seq<Acc>>)

  type Node = a: Acc | a.Obj?
    witness Obj(Other(""), "", "", "", [], {}, -1, [], None, None, false, false, None)

  /** `getChildAtIndex(i)`: `None` outside the child list. */
  function ChildAt(a: Node, i: int): (c: Acc)
    ensures c != Null ==> c in a.children
    ensures 0 <= i < |a.children| ==> c == a.children[i]
  {
    if 0 <= i < |a.children| then a.children[i] else Null
  }

  /** `getAccessibleAt(i, j)`: `None` outside the reported dimensions or
      where the service has no cell. */
  function CellAt(g: Grid, i: int, j: int): Acc {
    if 0 <= i < g.nRows && 0 <= j < g.nColumns && i < |g.cells| && j < |g.cells[i]|
    then g.cells[i][j] else Null
  }

  /** `_check_state(obj, state)`; calling it on `None` raises AttributeError. */
  function CheckState(a: Acc, s: State): (r: Result<bool>)
    ensures a.Null? <==> r == Err(AttributeFault)
    ensures r.Ok? ==> (r.value <==> s in a.states)
  {
    if a.Null? then Err(AttributeFault) else Ok(s in a.states)
  }

  /** `_grab_focus(obj)`: any failure to obtain the Component interface,
      including `obj` being `None`, is reported as a server error. */
  function GrabFocus(a: Acc): (r: Result<()>)
    ensures r.Ok? <==> a.Obj? && a.hasComponent
    ensures r.Err? ==> r.fault.ServerError?
  {
    if a.Obj? && a.hasComponent then Ok(()) else Err(ServerError("Failed to grab focus"))
  }

  /** An action name accepted by `re.match(pattern, name)` where the pattern
      is a literal word or an alternation `(w1|w2|...)` of literal words:
      the name starts with one of them. */
  predicate ActionMatches(alternatives: seq<string>, actionName: string) {
    exists k :: 0 <= k < |alternatives| && StartsWith(actionName, alternatives[k])
  }

  function FirstAction(names: seq<string>, alternatives: seq<string>, i: nat): (r: Option<nat>)
    requires i <= |names|
    ensures r.Some? ==> i <= r.value < |names| && ActionMatches(alternatives, names[r.value])
    ensures r.Some? ==> forall k :: i <= k < r.value ==> !ActionMatches(alternatives, names[k])
    ensures r.None? ==> forall k :: i <= k < |names| ==> !ActionMatches(alternatives, names[k])
    decreases |names| - i
  {
    if i == |names| then None
    else if ActionMatches(alternatives, names[i]) then Some(i)
    else FirstAction(names, alternatives, i + 1)
  }

  /** The alternatives joined by `|`, rendering the pattern text the
      callers pass: `click` for one alternative, `(click|press)` for
      several. */
  function Alternation(alternatives: seq<string>): string
    decreases |alternatives|
  {
    if |alternatives| == 0 then ""
    else if |alternatives| == 1 then alternatives[0]
    else alternatives[0] + "|" + Alternation(alternatives[1..])
  }

  function PatternText(alternatives: seq<string>): string
  {
    if |alternatives| == 1 then alternatives[0] else "(" + Alternation(alternatives) + ")"
  }

  /** `_click_object(obj, pattern)`: performs the first action whose name
      the pattern matches and yields its index.  `None` has no
      `queryAction` (AttributeError); a missing Action interface or no
      matching action is a server error, the latter naming the pattern. */
  function ClickObject(a: Acc, alternatives: seq<string>): (r: Result<nat>)
    ensures a.Null? ==> r == Err(AttributeFault)
    ensures a.Obj? && a.actions.None? ==> r == Err(ServerError("Object does not have an Action interface"))
    ensures a.Obj? && a.actions.Some? && r.Err? ==>
              r.fault == ServerError("Object does not have a \"" + PatternText(alternatives) + "\" action")
    ensures r.Ok? ==> a.Obj? && a.actions.Some? && r.value < |a.actions.value|
                      && ActionMatches(alternatives, a.actions.value[r.value])
                      && forall k :: 0 <= k < r.value ==> !ActionMatches(alternatives, a.actions.value[k])
    ensures a.Obj? && a.actions.Some? && r.Err? ==>
              forall k :: 0 <= k < |a.actions.value| ==> !ActionMatches(alternatives, a.actions.value[k])
  {
    if a.Null? then Err(AttributeFault)
    else if a.actions.None? then Err(ServerError("Object does not have an Action interface"))
    else match FirstAction(a.actions.value, alternatives, 0)
      case Some(i) => Ok(i)
      case None => Err(ServerError("Object does not have a \"" + PatternText(alternatives) + "\" action"))
  }

  /** `d` is `a` or lies below it. */
  predicate Within(d: Acc, a: Acc)
    decreases a
  {
    d == a || (a.Obj? && exists k :: 0 <= k < |a.children| && Within(d, a.children[k]))
  }

  lemma {:induction false} WithinTrans(x: Acc, y: Acc, z: Acc)
    requires Within(x, y) && Within(y, z)
    ensures Within(x, z)
    decreases z
  {
    if y != z {
      var k :| 0 <= k < |z.children| && Within(y, z.children[k]);
      WithinTrans(x, y, z.children[k]);
    }
  }

  lemma ChildWithin(c: Acc, a: Node, k: int)
    requires 0 <= k < |a.children| && c == a.children[k]
    ensures Within(c, a)
  {
    assert Within(c, a.children[k]);
  }

  /** No `None` anywhere among the descendants. */
  predicate NoNull(a: Acc)
    decreases a
  {
    a.Obj? && forall k :: 0 <= k < |a.children| ==> NoNull(a.children[k])
  }
}

=== FILE: appmap.dfy ===
/** The application map of one window (`_add_appmap_data`,
    `_populate_appmap`, `_appmap_pairs`, `_match_name_to_appmap` and
    `_get_object_in_window` of ldtpd/utils.py): every accessible of the
    window gets a unique synthetic key and a record of its parent, its
    children's keys, its index in its parent and its names.  Maps are cached
    per window under the window's synthetic name.
 */
module Appmap {
  import opened Wrappers
  import opened Strings
  import opened Roles
  import opened Glob
  import opened Access
  import opened Naming
  import opened Walker

  /** One appmap record; the fields are the source dictionary's keys
      (`class` as `className`, `label` as `labelText`). */
  datatype AppmapEntry = AppmapEntry(
    key: string, parent: string, className: string, childIndex: int,
    children: seq<string>, objIndex: string, labelText: string,
    labelBy: string, description: string)

  /** A map from key to record; `order` lists the keys in insertion order,
      which is the order every lookup below walks them in. */
  datatype Appmap = Appmap(entries: map<string, AppmapEntry>, order: seq<string>)

  /** The builder's state: the map so far and the per-tag counters. */
  datatype Builder = Builder(appmap: Appmap, counters: map<string, nat>)

  const EmptyBuilder := Builder(Appmap(map[], []), map[])

  datatype Added = Added(key: string, builder: Builder)

  /** `s.replace(x, y)` for single characters. */
  function ReplaceChar(s: string, x: char, y: char): (r: string)
    ensures |r| == |s|
    ensures forall i :: 0 <= i < |s| ==> r[i] == (if s[i] == x then y else s[i])
  {
    if |s| == 0 then "" else [if s[0] == x then y else s[0]] + ReplaceChar(s[1..], x, y)
  }

  /** The order lists exactly the keys, once each, and each record knows its key. */
  ghost predicate Indexed(m: Appmap) {
    (forall k :: k in m.entries <==> k in m.order)
    && (forall i, j :: 0 <= i < j < |m.order| ==> m.order[i] != m.order[j])
    && (forall k :: k in m.entries ==> m.entries[k].key == k)
  }

  /** Tree shape: a child listed by a record is a record whose parent is
      that record, and every parent is a record or the window's parent. */
  ghost predicate Linked(m: Appmap, rootParent: string) {
    (forall k, i :: k in m.entries && 0 <= i < |m.entries[k].children| ==>
       var c := m.entries[k].children[i]; c in m.entries && m.entries[c].parent == k)
    && (forall k :: k in m.entries ==> m.entries[k].parent in m.entries || m.entries[k].parent == rootParent)
  }

  ghost predicate WellFormed(m: Appmap, rootParent: string) {
    Indexed(m) && Linked(m, rootParent)
  }

  /** The counter value a node with tag `t` takes: 0 for the first, one
      more than the last otherwise. */
  function NextCount(counters: map<string, nat>, t: string): nat {
    if t in counters then counters[t] + 1 else 0
  }

  /** The key `_add_appmap_data` picks.  An unlabelled node is first tried
      as `tag + count`, a labelled one as `tag + label`; on a collision the
      smallest free `base + i`, i >= 1, is taken, the base being the tag or
      `tag + label`. */
  function ChooseKey(taken: set<string>, l: Ldtpized, count: nat): (key: string)
    ensures key !in taken
    ensures var first := if l.abbrevName == "" then l.tag + NatToString(count) else l.tag + l.abbrevName;
            var base := if l.abbrevName == "" then l.tag else l.tag + l.abbrevName;
            (first !in taken ==> key == first)
            && (first in taken ==>
                  exists j :: 1 <= j && key == base + NatToString(j)
                              && forall i :: 1 <= i < j ==> base + NatToString(i) in taken)
  {
    if l.abbrevName == "" then FirstFree(l.tag + NatToString(count), l.tag, taken)
    else FirstFree(l.tag + l.abbrevName, l.tag + l.abbrevName, taken)
  }

  /** The record `_add_appmap_data` stores for `obj` under `key`. */
  function NewEntry(obj: Node, key: string, parent: string, count: nat): (e: AppmapEntry)
    ensures var l := Ldtpize(obj);
            e.key == key && e.parent == parent && e.children == []
            && e.childIndex == obj.indexInParent
            && e.objIndex == l.tag + "#" + NatToString(count)
            && e.labelText == obj.name && e.description == obj.description
            && e.labelBy == (if l.labelBy.Some? then l.labelBy.value else "")
            && |e.className| == |obj.roleName|
            && forall i :: 0 <= i < |e.className| ==> e.className[i] != ' '
    ensures forall i :: 0 <= i < |e.className| ==>
              e.className[i] == (if obj.roleName[i] == ' ' then '_' else obj.roleName[i])
  {
    var l := Ldtpize(obj);
    AppmapEntry(key, parent, ReplaceChar(obj.roleName, ' ', '_'), obj.indexInParent, [],
                l.tag + "#" + NatToString(count), obj.name,
                if l.labelBy.Some? then l.labelBy.value else "", obj.description)
  }

  /** `_add_appmap_data(obj, parent)`. */
  function AddAppmapData(b: Builder, obj: Node, parent: string): (r: Added)
    ensures r.key !in b.appmap.entries
    ensures r.builder.appmap.order == b.appmap.order + [r.key]
    ensures r.builder.appmap.entries.Keys == b.appmap.entries.Keys + {r.key}
    ensures var t := Tag(obj.role);
            r.builder.counters == b.counters[t := NextCount(b.counters, t)]
    ensures var t := Tag(obj.role);
            r.key == ChooseKey(b.appmap.entries.Keys, Ldtpize(obj), NextCount(b.counters, t))
            && r.builder.appmap.entries[r.key] == NewEntry(obj, r.key, parent, NextCount(b.counters, t))
    // nothing else changes but the parent's children, which gain the key at the end
    ensures forall k :: k in b.appmap.entries && k != parent ==>
              r.builder.appmap.entries[k] == b.appmap.entries[k]
    ensures parent in b.appmap.entries ==>
              r.builder.appmap.entries[parent]
              == b.appmap.entries[parent].(children := b.appmap.entries[parent].children + [r.key])
  {
    var l := Ldtpize(obj);
    var count := NextCount(b.counters, l.tag);
    var key := ChooseKey(b.appmap.entries.Keys, l, count);
    var entries := b.appmap.entries;
    var linked := if parent in entries
                  then entries[parent := entries[parent].(children := entries[parent].children + [key])]
                  else entries;
    Added(key, Builder(Appmap(linked[key := NewEntry(obj, key, parent, count)], b.appmap.order + [key]),
                       b.counters[l.tag := count]))
  }

  /** `m` is `prev` plus a fresh record `key` under `parent`, the parent's
      children gaining `key` at the end, and nothing else changed. */
  ghost predicate Extends(prev: Appmap, m: Appmap, key: string, parent: string) {
    key !in prev.entries
    && m.order == prev.order + [key]
    && (forall k :: k in m.entries <==> k in prev.entries || k == key)
    && key in m.entries
    && m.entries[key].key == key && m.entries[key].parent == parent && m.entries[key].children == []
    && (forall k :: k in prev.entries && k != parent ==> m.entries[k] == prev.entries[k])
    && (parent in prev.entries ==>
          m.entries[parent] == prev.entries[parent].(children := prev.entries[parent].children + [key]))
  }

  lemma AddExtends(b: Builder, obj: Node, parent: string)
    ensures var r := AddAppmapData(b, obj, parent);
            Extends(b.appmap, r.builder.appmap, r.key, parent)
  {
  }

  lemma ExtendsKeepsIndexed(prev: Appmap, m: Appmap, key: string, parent: string)
    requires Indexed(prev) && Extends(prev, m, key, parent)
    ensures Indexed(m)
  {
    forall i, j | 0 <= i < j < |m.order|
      ensures m.order[i] != m.order[j]
    {
      if j == |m.order| - 1 {
        assert m.order[i] in prev.entries;
      }
    }
    forall k | k in m.entries
      ensures m.entries[k].key == k
    {
      if k != key && k == parent {
        assert m.entries[k].key == prev.entries[k].key;
      }
    }
  }

  lemma ExtendsKeepsParent(prev: Appmap, m: Appmap, key: string, parent: string, k: string)
    requires Extends(prev, m, key, parent) && k in prev.entries
    ensures k in m.entries && m.entries[k].parent == prev.entries[k].parent
  {
    if k == parent {
      assert m.entries[parent] == prev.entries[parent].(children := prev.entries[parent].children + [key]);
    }
  }

  lemma ExtendsKeepsChildLink(prev: Appmap, m: Appmap, key: string, parent: string, rootParent: string,
                              k: string, i: nat)
    requires Linked(prev, rootParent) && Extends(prev, m, key, parent)
    requires k in m.entries && i < |m.entries[k].children|
    ensures var c := m.entries[k].children[i]; c in m.entries && m.entries[c].parent == k
  {
    if k != key {
      assert k in prev.entries;
      var kids := prev.entries[k].children;
      if k == parent {
        assert m.entries[k].children == kids + [key];
      } else {
        assert m.entries[k] == prev.entries[k];
      }
      if i < |kids| {
        assert m.entries[k].children[i] == kids[i];
        ExtendsKeepsParent(prev, m, key, parent, kids[i]);
      }
    }
  }

  lemma ExtendsKeepsLinked(prev: Appmap, m: Appmap, key: string, parent: string, rootParent: string)
    requires Linked(prev, rootParent) && Extends(prev, m, key, parent)
    requires parent in prev.entries || parent == rootParent
    ensures Linked(m, rootParent)
  {
    forall k, i | k in m.entries && 0 <= i < |m.entries[k].children|
      ensures var c := m.entries[k].children[i]; c in m.entries && m.entries[c].parent == k
    {
      ExtendsKeepsChildLink(prev, m, key, parent, rootParent, k, i);
    }
    forall k | k in m.entries
      ensures m.entries[k].parent in m.entries || m.entries[k].parent == rootParent
    {
      if k != key {
        ExtendsKeepsParent(prev, m, key, parent, k);
      }
    }
  }

  lemma AddKeepsWellFormed(b: Builder, obj: Node, parent: string, rootParent: string)
    requires WellFormed(b.appmap, rootParent)
    requires parent in b.appmap.entries || parent == rootParent
    ensures WellFormed(AddAppmapData(b, obj, parent).builder.appmap, rootParent)
  {
    var r := AddAppmapData(b, obj, parent);
    AddExtends(b, obj, parent);
    ExtendsKeepsIndexed(b.appmap, r.builder.appmap, r.key, parent);
    ExtendsKeepsLinked(b.appmap, r.builder.appmap, r.key, parent, rootParent);
  }

  /** `_populate_appmap(obj, parent, obj.getIndexInParent())`: a node whose
      index is -1 gets no record and its children inherit its parent; `None`
      children are skipped; the first table-cell child ends the node's
      children, whatever the table-cell flag says. */
  function Populate(b: Builder, a: Acc, parent: string): Builder
    decreases a, 1
  {
    if a.Null? then b
    else if a.indexInParent != -1 then
      var added := AddAppmapData(b, a, parent);
      PopulateChildren(added.builder, a, 0, added.key)
    else PopulateChildren(b, a, 0, parent)
  }

  function PopulateChildren(b: Builder, p: Node, k: nat, parent: string): Builder
    requires k <= |p.children|
    decreases p, 0, |p.children| - k
  {
    if k == |p.children| then b
    else
      var c := p.children[k];
      if c.Null? then PopulateChildren(b, p, k + 1, parent)
      else if c.role == TableCell then b
      else PopulateChildren(Populate(b, c, parent), p, k + 1, parent)
  }

  /** The nodes the builder visits, in visiting order. */
  function Visit(a: Acc): seq<Node>
    decreases a, 1
  {
    if a.Null? then [] else [a] + VisitChildren(a, 0)
  }

  function VisitChildren(p: Node, k: nat): seq<Node>
    requires k <= |p.children|
    decreases p, 0, |p.children| - k
  {
    if k == |p.children| then []
    else
      var c := p.children[k];
      if c.Null? then VisitChildren(p, k + 1)
      else if c.role == TableCell then []
      else Visit(c) + VisitChildren(p, k + 1)
  }

  /** How many of `s` get a record. */
  function CountIndexed(s: seq<Node>): nat {
    if |s| == 0 then 0 else (if s[0].indexInParent != -1 then 1 else 0) + CountIndexed(s[1..])
  }

  lemma {:induction false} CountIndexedAppend(x: seq<Node>, y: seq<Node>)
    ensures CountIndexed(x + y) == CountIndexed(x) + CountIndexed(y)
  {
    if |x| > 0 {
      assert (x + y)[1..] == x[1..] + y;
      CountIndexedAppend(x[1..], y);
    } else {
      assert x + y == y;
    }
  }

  /** One record added: the map stays well formed, grows by one key at the
      end, and the new key can parent the node's children. */
  lemma AddStep(b: Builder, a: Node, parent: string, rootParent: string)
    requires WellFormed(b.appmap, rootParent)
    requires parent in b.appmap.entries || parent == rootParent
    ensures var added := AddAppmapData(b, a, parent);
            WellFormed(added.builder.appmap, rootParent)
            && added.builder.appmap.order == b.appmap.order + [added.key]
            && added.key in added.builder.appmap.entries
  {
    AddKeepsWellFormed(b, a, parent, rootParent);
  }

  /** Building only appends keys, one per visited node whose index is not -1. */
  lemma {:induction false} PopulateGrows(b: Builder, a: Acc, parent: string)
    ensures var m := Populate(b, a, parent).appmap;
            b.appmap.order <= m.order && |m.order| == |b.appmap.order| + CountIndexed(Visit(a))
    decreases a, 1
  {
    if a.Obj? {
      var b1, parent1 := b, parent;
      if a.indexInParent != -1 {
        var added := AddAppmapData(b, a, parent);
        b1, parent1 := added.builder, added.key;
      }
      assert Populate(b, a, parent) == PopulateChildren(b1, a, 0, parent1);
      PopulateChildrenGrows(b1, a, 0, parent1);
      assert Visit(a)[1..] == VisitChildren(a, 0);
    }
  }

  lemma {:induction false} PopulateChildrenGrows(b: Builder, p: Node, k: nat, parent: string)
    requires k <= |p.children|
    ensures var m := PopulateChildren(b, p, k, parent).appmap;
            b.appmap.order <= m.order && |m.order| == |b.appmap.order| + CountIndexed(VisitChildren(p, k))
    decreases p, 0, |p.children| - k
  {
    if k < |p.children| {
      var c := p.children[k];
      if c.Null? {
        PopulateChildrenGrows(b, p, k + 1, parent);
      } else if c.role != TableCell {
        PopulateGrows(b, c, parent);
        PopulateChildrenGrows(Populate(b, c, parent), p, k + 1, parent);
        CountIndexedAppend(Visit(c), VisitChildren(p, k + 1));
      }
    }
  }

  /** Building keeps the map well formed. */
  lemma {:induction false} PopulateKeepsWellFormed(b: Builder, a: Acc, parent: string, rootParent: string)
    requires WellFormed(b.appmap, rootParent)
    requires parent in b.appmap.entries || parent == rootParent
    ensures WellFormed(Populate(b, a, parent).appmap, rootParent)
    decreases a, 1
  {
    if a.Obj? {
      var b1, parent1 := b, parent;
      if a.indexInParent != -1 {
        var added := AddAppmapData(b, a, parent);
        AddStep(b, a, parent, rootParent);
        b1, parent1 := added.builder, added.key;
      }
      assert Populate(b, a, parent) == PopulateChildren(b1, a, 0, parent1);
      PopulateChildrenKeepsWellFormed(b1, a, 0, parent1, rootParent);
    }
  }

  lemma {:induction false} PopulateChildrenKeepsWellFormed(b: Builder, p: Node, k: nat, parent: string,
                                                            rootParent: string)
    requires k <= |p.children|
    requires WellFormed(b.appmap, rootParent)
    requires parent in b.appmap.entries || parent == rootParent
    ensures WellFormed(PopulateChildren(b, p, k, parent).appmap, rootParent)
    decreases p, 0, |p.children| - k
  {
    if k < |p.children| {
      var c := p.children[k];
      if c.Null? {
        PopulateChildrenKeepsWellFormed(b, p, k + 1, parent, rootParent);
      } else if c.role != TableCell {
        var b1 := Populate(b, c, parent);
        PopulateKeepsWellFormed(b, c, parent, rootParent);
        assert parent in b1.appmap.entries || parent == rootParent by {
          if parent in b.appmap.entries {
            PopulateGrows(b, c, parent);
            assert parent in b.appmap.order;
            assert parent in b1.appmap.order;
          }
        }
        PopulateChildrenKeepsWellFormed(b1, p, k + 1, parent, rootParent);
      }
    }
  }

  /** On a tree without `None`, the builder visits exactly what the walker
      with the table-cell flag off yields. */
  lemma {:induction false} VisitIsWalk(a: Acc)
    requires NoNull(a)
    ensures Walk(a, false) == Walked(Visit(a), false)
    decreases a, 1
  {
    VisitChildrenIsWalk(a, 0);
  }

  lemma {:induction false} VisitChildrenIsWalk(p: Node, k: nat)
    requires k <= |p.children|
    requires NoNull(p)
    ensures WalkChildren(p, k, false) == Walked(VisitChildren(p, k), false)
    decreases p, 0, |p.children| - k
  {
    if k < |p.children| && p.children[k].role != TableCell {
      VisitIsWalk(p.children[k]);
      VisitChildrenIsWalk(p, k + 1);
    }
  }

  /** The strip set for a record, chosen by its class string. */
  function ClassStripSet(className: string): set<char> {
    if IsWindowClass(className) then WindowStrip else OtherStrip
  }

  /** `_match_name_to_appmap(name, entry)`, its seven tests in the source's
      order; empty `label_by` and `label` skip their stripped tests. */
  predicate MatchNameToAppmap(name: string, e: AppmapEntry) {
    var strip := ClassStripSet(e.className);
    var objName := Strip(name, strip);
    GlobMatch(name, e.key)
    || GlobMatch(name, e.objIndex)
    || GlobMatch(name, e.labelBy)
    || GlobMatch(name, e.labelText)
    || (e.labelBy != "" && GlobMatch(objName, Strip(e.labelBy, strip)))
    || (e.labelText != "" && GlobMatch(objName, Strip(e.labelText, strip)))
    || GlobMatch(objName, e.key)
  }

  /** A record is found by its key, its `tag#n` index, or its label, when
      these hold no glob characters. */
  lemma FoundByOwnNames(e: AppmapEntry)
    ensures NoMeta(e.key) ==> MatchNameToAppmap(e.key, e)
    ensures NoMeta(e.objIndex) ==> MatchNameToAppmap(e.objIndex, e)
    ensures NoMeta(e.labelText) ==> MatchNameToAppmap(e.labelText, e)
  {
    if NoMeta(e.key) { LiteralPatternMatchesOnlyItself(e.key, e.key); }
    if NoMeta(e.objIndex) { LiteralPatternMatchesOnlyItself(e.objIndex, e.objIndex); }
    if NoMeta(e.labelText) { LiteralPatternMatchesOnlyItself(e.labelText, e.labelText); }
  }

  /** For a literal name the matcher is string equality on the record's
      names, raw or stripped. */
  lemma LiteralAppmapMatch(name: string, e: AppmapEntry)
    requires NoMeta(name)
    ensures MatchNameToAppmap(name, e) <==>
              var strip := ClassStripSet(e.className);
              var objName := Strip(name, strip);
              name == e.key || name == e.objIndex || name == e.labelBy || name == e.labelText
              || (e.labelBy != "" && objName == Strip(e.labelBy, strip))
              || (e.labelText != "" && objName == Strip(e.labelText, strip))
              || objName == e.key
  {
    var strip := ClassStripSet(e.className);
    var objName := Strip(name, strip);
    StripKeepsNoMeta(name, strip);
    LiteralPatternMatchesOnlyItself(name, e.key);
    LiteralPatternMatchesOnlyItself(name, e.objIndex);
    LiteralPatternMatchesOnlyItself(name, e.labelBy);
    LiteralPatternMatchesOnlyItself(name, e.labelText);
    LiteralPatternMatchesOnlyItself(objName, Strip(e.labelBy, strip));
    LiteralPatternMatchesOnlyItself(objName, Strip(e.labelText, strip));
    LiteralPatternMatchesOnlyItself(objName, e.key);
  }

  function FirstMatchingKey(m: Appmap, name: string, i: nat): (r: Option<string>)
    requires i <= |m.order|
    ensures r.Some? ==> r.value in m.entries && MatchNameToAppmap(name, m.entries[r.value])
    ensures r.Some? ==> exists p :: i <= p < |m.order| && m.order[p] == r.value
                           && forall q :: i <= q < p ==>
                                (m.order[q] !in m.entries || !MatchNameToAppmap(name, m.entries[m.order[q]]))
    ensures r.None? ==> forall q :: i <= q < |m.order| ==>
                          (m.order[q] !in m.entries || !MatchNameToAppmap(name, m.entries[m.order[q]]))
    decreases |m.order| - i
  {
    if i == |m.order| then None
    else if m.order[i] in m.entries && MatchNameToAppmap(name, m.entries[m.order[i]]) then Some(m.order[i])
    else FirstMatchingKey(m, name, i + 1)
  }

  /** `_get_object_in_window(appmap, name)`: the first record, in key
      order, that matches. */
  function GetObjectInWindow(m: Appmap, name: string): (r: Option<AppmapEntry>)
    ensures r.Some? ==> MatchNameToAppmap(name, r.value)
    ensures r.Some? ==> exists p :: 0 <= p < |m.order| && m.order[p] in m.entries && m.entries[m.order[p]] == r.value
                           && forall q :: 0 <= q < p ==>
                                (m.order[q] !in m.entries || !MatchNameToAppmap(name, m.entries[m.order[q]]))
    ensures r.None? ==> forall q :: 0 <= q < |m.order| && m.order[q] in m.entries ==>
                          !MatchNameToAppmap(name, m.entries[m.order[q]])
  {
    match FirstMatchingKey(m, name, 0)
    case Some(k) => Some(m.entries[k])
    case None => None
  }

  /** The map cache, keyed by window synthetic name; `windows` is the
      insertion order of its keys. */
  datatype Cache = Cache(windows: seq<string>, maps: map<string, Appmap>)

  const EmptyCache := Cache([], map[])

  /** Every cached map's window name has its place in the key order, as
      every key of a dict is listed by `keys()`. */
  predicate Listed(c: Cache) {
    forall w :: w in c.maps ==> w in c.windows
  }

  /** The loop over `self._appmap.keys()`: the first cached window name,
      from position `i` on, that matches `gui`. */
  function CacheLookup(c: Cache, gui: Node, i: nat): (r: Option<string>)
    requires i <= |c.windows|
    ensures r.Some? ==> r.value in c.maps && MatchNameToAcc(r.value, gui)
    ensures r.Some? ==> exists p :: i <= p < |c.windows| && c.windows[p] == r.value
                           && forall q :: i <= q < p ==> (c.windows[q] !in c.maps || !MatchNameToAcc(c.windows[q], gui))
    ensures r.None? ==> forall q :: i <= q < |c.windows| ==>
                          (c.windows[q] !in c.maps || !MatchNameToAcc(c.windows[q], gui))
    decreases |c.windows| - i
  {
    if i == |c.windows| then None
    else if c.windows[i] in c.maps && MatchNameToAcc(c.windows[i], gui) then Some(c.windows[i])
    else CacheLookup(c, gui, i + 1)
  }

  /** `self._appmap[name] = m`: a new key goes last, an existing one keeps its place. */
  function Store(c: Cache, name: string, m: Appmap): (r: Cache)
    ensures r.maps == c.maps[name := m]
    ensures name in c.maps ==> r.windows == c.windows
    ensures name !in c.maps ==> r.windows == c.windows + [name]
    ensures Listed(c) ==> Listed(r)
  {
    Cache(if name in c.maps then c.windows else c.windows + [name], c.maps[name := m])
  }

  /** The map of `gui` built from scratch; its root records name the
      application's label as parent. */
  function BuildAppmap(app: Node, gui: Node): (m: Appmap)
    ensures WellFormed(m, Ldtpize(app).abbrevName)
    ensures |m.order| == CountIndexed(Visit(gui))
  {
    var rootParent := Ldtpize(app).abbrevName;
    PopulateKeepsWellFormed(EmptyBuilder, gui, rootParent, rootParent);
    PopulateGrows(EmptyBuilder, gui, rootParent);
    Populate(EmptyBuilder, gui, rootParent).appmap
  }

  datatype Paired = Paired(appmap: Appmap, cache: Cache)

  /** `_appmap_pairs(gui, force_remap)`, with `app` the window's parent.
      Unless forced, the first cached map whose window name matches `gui`
      is reused; otherwise the map is rebuilt and stored under the window's
      synthetic name. */
  function AppmapPairs(c: Cache, app: Node, gui: Node, force: bool): (r: Paired)
    ensures force ==> r.appmap == BuildAppmap(app, gui)
    ensures !force && CacheLookup(c, gui, 0).Some? ==>
              r.cache == c && r.appmap == c.maps[CacheLookup(c, gui, 0).value]
    ensures r.cache != c ==> r.appmap == BuildAppmap(app, gui)
                             && r.cache.maps == c.maps[SyntheticName(gui) := r.appmap]
    ensures force || CacheLookup(c, gui, 0).None? ==>
              r.appmap == BuildAppmap(app, gui) && r.cache == Store(c, SyntheticName(gui), r.appmap)
    ensures Listed(c) ==> Listed(r.cache)
  {
    var hit := if force then None else CacheLookup(c, gui, 0);
    match hit
    case Some(w) => Paired(c.maps[w], c)
    case None =>
      var m := BuildAppmap(app, gui);
      Paired(m, Store(c, SyntheticName(gui), m))
  }

  /** A map just stored under a window's synthetic name is found for that
      window: the lookup cannot miss once the name is cached. */
  lemma StoredFound(c: Cache, gui: Node, m: Appmap)
    requires Listed(c)
    ensures CacheLookup(Store(c, SyntheticName(gui), m), gui, 0).Some?
  {
    var c2 := Store(c, SyntheticName(gui), m);
    MatchesSyntheticName(gui);
    var p :| 0 <= p < |c2.windows| && c2.windows[p] == SyntheticName(gui);
    assert !(forall q :: 0 <= q < |c2.windows| ==> (c2.windows[q] !in c2.maps || !MatchNameToAcc(c2.windows[q], gui)));
  }

  /** A map rebuilt because no cached window name matched (whether or not
      the rebuild was forced) is the one the next unforced call reuses,
      without another rebuild. */
  lemma RebuiltMapReused(c: Cache, app: Node, gui: Node, force: bool)
    requires Listed(c) && CacheLookup(c, gui, 0).None?
    ensures var p := AppmapPairs(c, app, gui, force);
            AppmapPairs(p.cache, app, gui, false) == p
  {
    var m := BuildAppmap(app, gui);
    var name := SyntheticName(gui);
    var c2 := Store(c, name, m);
    MatchesSyntheticName(gui);
    StoredFound(c, gui, m);
    var w := CacheLookup(c2, gui, 0).value;
    var p :| 0 <= p < |c2.windows| && c2.windows[p] == w
             && forall q :: 0 <= q < p ==> (c2.windows[q] !in c2.maps || !MatchNameToAcc(c2.windows[q], gui));
    assert w == name;
  }
}

=== FILE: capture.dfy ===
/** The region `imagecapture` of ldtpd/generic.py grabs: the requested
    offsets and size, clipped to the visible part of a window when one is
    named and then to the desktop.  The window's extents and the desktop's
    size are passed in; grabbing and encoding the pixels is not modelled.
 */
module Capture {
  import opened Wrappers
  import opened Access
  import opened Naming
  import opened Resolver
  import opened Roles
  import opened Walker

  /** A rectangle in desktop coordinates. */
  datatype Rect = Rect(x: int, y: int, width: int, height: int)

  /** One axis of the region: an offset and a length, the length unset
      until something fixes it. */
  datatype Span = Span(offset: int, length: Option<int>)

  function Max(a: int, b: int): (m: int)
    ensures m >= a && m >= b && (m == a || m == b)
  {
    if a >= b then a else b
  }

  function Min(a: int, b: int): (m: int)
    ensures m <= a && m <= b && (m == a || m == b)
  {
    if a <= b then a else b
  }

  /** The requested span: a negative offset becomes 0 and a length below 1
      (or none) is left unset. */
  function Requested(offset: int, length: Option<int>): (s: Span)
    ensures s.offset == Max(0, offset)
    ensures s.length.Some? <==> length.Some? && length.value >= 1
    ensures s.length.Some? ==> s.length == length
  {
    Span(Max(0, offset), if length.Some? && length.value >= 1 then length else None)
  }

  /** The span clipped to a window axis at `pos` of extent `size`, as
      written: the offset is kept below the window's full extent, the
      length to what is left of the window once the part left of (or
      above) the desktop edge is cut off, and the offset is moved to the
      window's on-screen start. */
  function ClipToWindow(s: Span, pos: int, size: int): (r: Span)
    ensures r.length.Some?
    ensures r.offset - Max(0, pos) <= size - 1
    ensures r.length.value <= Min(size, size + pos) - (r.offset - Max(0, pos))
    ensures r.offset + r.length.value <= pos + size
    ensures s.length.None? ==> r.offset + r.length.value == pos + size
  {
    var offset := Min(s.offset, size - 1);
    var visible := Min(size, size + pos);
    var length := if s.length.None? then visible - offset else Min(s.length.value, visible - offset);
    Span(offset + Max(0, pos), Some(length))
  }

  /** A window half off the left edge and an offset past its visible part
      give a negative length, where at least one pixel was meant. */
  lemma ClipToWindowNegativeLength()
    ensures ClipToWindow(Span(80, None), -50, 100) == Span(80, Some(-30))
  {
  }

  /** The corrected clip: the offset is kept inside the visible part, so
      a request inside a window that shows at least one pixel captures at
      least one pixel, starting on screen inside the window. */
  function ClipToWindowFixed(s: Span, pos: int, size: int): (r: Span)
    ensures r.length.Some?
    ensures r.offset + r.length.value <= pos + size
    ensures s.length.None? ==> r.offset + r.length.value == pos + size
    ensures s.offset >= 0 && (s.length.None? || s.length.value >= 1) && Min(size, size + pos) >= 1 ==>
              r.length.value >= 1 && Max(0, pos) <= r.offset < pos + size
  {
    var visible := Min(size, size + pos);
    var offset := Min(s.offset, visible - 1);
    var length := if s.length.None? then visible - offset else Min(s.length.value, visible - offset);
    Span(offset + Max(0, pos), Some(length))
  }

  /** The span clipped to a desktop axis of extent `size`: the offset is
      kept below the extent and the length to what is left of it. */
  function ClipToDesktop(s: Span, size: int): (r: Rect1)
    ensures r.offset < size && r.offset + r.length <= size
    ensures r.offset <= s.offset && (s.offset < size ==> r.offset == s.offset)
    ensures s.length.None? ==> r.offset + r.length == size
    ensures s.length.Some? ==> r.length <= s.length.value
    ensures (s.length.None? || s.length.value >= 1) ==> r.length >= 1
  {
    var offset := Min(s.offset, size - 1);
    Rect1(offset, if s.length.None? then size - offset else Min(s.length.value, size - offset))
  }

  /** A clipped axis. */
  datatype Rect1 = Rect1(offset: int, length: int)

  /** The window `imagecapture` takes its extents from: the first listed
      window the name matches that offers the component interface. */
  function CaptureWindow(apps: seq<Acc>, name: string): (r: Result<Node>)
    ensures r.Ok? ==> r.value.hasComponent && MatchNameToAcc(name, r.value)
                      && exists g :: g in ListGuis(apps) && g.window == r.value
    ensures r.Err? <==> forall g :: g in ListGuis(apps) ==> !(MatchNameToAcc(name, g.window) && g.window.hasComponent)
    ensures r.Err? ==> r == Err(ServerError("No window matches " + name))
  {
    var gs := ListGuis(apps);
    match FirstIndex(gs, (g: Gui) => MatchNameToAcc(name, g.window) && g.window.hasComponent, 0)
    case Some(i) => Ok(gs[i].window)
    case None => Err(ServerError("No window matches " + name))
  }

  /** The roles `imagecapture` hands the focus to before capturing. */
  predicate IsButton(r: Role) {
    r == CheckBox || r == PushButton || r == RadioButton
  }

  function ButtonTest(): Node -> bool {
    (n: Node) => IsButton(n.role)
  }

  /** The walk of the chosen window up to its first button, which is given
      the focus (a failed grab is swallowed).  The walk runs outside the
      `try`: a broken child reached before any button escapes as an
      AttributeError. */
  function FocusButton(w: Node, handle: bool): (r: Result<Option<Node>>)
    ensures r.Err? <==> Walk(w, handle).fault
                        && forall i :: 0 <= i < |Walk(w, handle).nodes| ==> !IsButton(Walk(w, handle).nodes[i].role)
    ensures r.Err? ==> r.fault == AttributeFault
    ensures r.Ok? && r.value.Some? ==> IsButton(r.value.value.role) && Within(r.value.value, w)
    ensures r.Ok? && r.value.None? ==> forall d :: d in Walk(w, handle).nodes ==> !IsButton(d.role)
  {
    var walked := Walk(w, handle);
    FirstIn(walked.nodes, walked.fault, ButtonTest())
  }

  /** `imagecapture(window_name, x, y, width, height)`: the region grabbed,
      given the extents of a window and the desktop's width and height.
      An unset or empty window name captures from the whole desktop.
      `handle` is the server's table-cell flag, which the window walk
      reads. */
  function ImageCapture(apps: seq<Acc>, windowName: Option<string>, x: int, y: int,
                        width: Option<int>, height: Option<int>, handle: bool,
                        extents: Node -> Rect, desktopWidth: int, desktopHeight: int): (r: Result<Rect>)
    ensures r.Ok? ==> r.value.x < desktopWidth && r.value.x + r.value.width <= desktopWidth
                      && r.value.y < desktopHeight && r.value.y + r.value.height <= desktopHeight
    ensures (windowName.None? || windowName.value == "") ==> r.Ok?
    ensures r.Err? ==> windowName.Some? && windowName.value != ""
    ensures windowName.Some? && windowName.value != "" ==>
              var found := CaptureWindow(apps, windowName.value);
              (found.Err? ==> r == Err(ServerError("No window matches " + windowName.value)))
              && (found.Ok? && FocusButton(found.value, handle).Err? ==> r == Err(AttributeFault))
              && (found.Ok? && FocusButton(found.value, handle).Ok? ==> r.Ok?)
  {
    var sx := Requested(x, width);
    var sy := Requested(y, height);
    if windowName.None? || windowName.value == "" then
      Ok(Desktop(sx, sy, desktopWidth, desktopHeight))
    else
      match CaptureWindow(apps, windowName.value)
      case Err(e) => Err(e)
      case Ok(w) =>
        match FocusButton(w, handle)
        case Err(e) => Err(e)
        case Ok(_) =>
          var bb := extents(w);
          Ok(Desktop(ClipToWindowFixed(sx, bb.x, bb.width), ClipToWindowFixed(sy, bb.y, bb.height),
                     desktopWidth, desktopHeight))
  }

  function Desktop(sx: Span, sy: Span, desktopWidth: int, desktopHeight: int): (r: Rect)
    ensures r.x < desktopWidth && r.x + r.width <= desktopWidth
    ensures r.y < desktopHeight && r.y + r.height <= desktopHeight
  {
    var cx := ClipToDesktop(sx, desktopWidth);
    var cy := ClipToDesktop(sy, desktopHeight);
    Rect(cx.offset, cy.offset, cx.length, cy.length)
  }

  /** Without a window or a size, the capture is the desktop from the
      requested offset to its far edges. */
  lemma WholeDesktopCapture(apps: seq<Acc>, x: int, y: int, handle: bool, extents: Node -> Rect, dw: int, dh: int)
    requires 0 <= x < dw && 0 <= y < dh
    ensures ImageCapture(apps, None, x, y, None, None, handle, extents, dw, dh) == Ok(Rect(x, y, dw - x, dh - y))
  {
  }

  /** A window capture ends inside both the window and the desktop. */
  lemma WindowCaptureInsideWindow(apps: seq<Acc>, name: string, x: int, y: int,
                                  width: Option<int>, height: Option<int>, handle: bool,
                                  extents: Node -> Rect, dw: int, dh: int)
    requires name != "" && CaptureWindow(apps, name).Ok?
    ensures var bb := extents(CaptureWindow(apps, name).value);
            var r := ImageCapture(apps, Some(name), x, y, width, height, handle, extents, dw, dh);
            r.Ok? ==> r.value.x + r.value.width <= bb.x + bb.width && r.value.y + r.value.height <= bb.y + bb.height
  {
  }
}

=== FILE: combo_box.dfy ===
/** `selectitem` of ldtpd/combo_box.py with the helper
    `_get_combo_child_object_type` of ldtpd/utils.py that finds the list or
    menu a combo box keeps its items in.
 */
module ComboBox {
  import opened Wrappers
  import opened Roles
  import opened Glob
  import opened Access
  import opened Walker
  import opened Appmap
  import opened Resolver

  predicate ListOrMenu(n: Node) {
    n.role == List || n.role == Menu
  }

  /** No accessible of `s` is a list or a menu. */
  predicate NoListOrMenu(s: seq<Node>) {
    forall x :: x in s ==> !ListOrMenu(x)
  }

  /** The order `_get_combo_child_object_type` visits a tree in: below an
      accessible first, then the accessible itself (post-order). */
  function PostOrder(a: Acc): seq<Node>
    decreases a, 1
  {
    if a.Null? then [] else PostOrderChildren(a, 0) + [a]
  }

  function PostOrderChildren(p: Node, k: nat): seq<Node>
    requires k <= |p.children|
    decreases p, 0, |p.children| - k
  {
    if k == |p.children| then [] else PostOrder(p.children[k]) + PostOrderChildren(p, k + 1)
  }

  /** The first list or menu of `s`, if any. */
  function FirstListOrMenu(s: seq<Node>): (r: Option<Node>)
    ensures r.Some? ==> exists i :: 0 <= i < |s| && s[i] == r.value && ListOrMenu(s[i])
                                    && forall j :: 0 <= j < i ==> !ListOrMenu(s[j])
    ensures r.None? <==> NoListOrMenu(s)
  {
    if |s| == 0 then None
    else if ListOrMenu(s[0]) then Some(s[0])
    else
      var r := FirstListOrMenu(s[1..]);
      if r.Some? then
        assert exists i :: 0 <= i < |s| && s[i] == r.value && ListOrMenu(s[i])
                           && forall j :: 0 <= j < i ==> !ListOrMenu(s[j]) by {
          var i :| 0 <= i < |s[1..]| && s[1..][i] == r.value && ListOrMenu(s[1..][i])
                   && forall j :: 0 <= j < i ==> !ListOrMenu(s[1..][j]);
          assert s[i + 1] == s[1..][i];
          forall j | 0 <= j < i + 1 ensures !ListOrMenu(s[j]) {
            if j > 0 { assert s[j] == s[1..][j - 1]; }
          }
        }
        assert !NoListOrMenu(s) by {
          assert r.value in s[1..];
        }
        r
      else
        assert NoListOrMenu(s) by {
          forall x | x in s ensures !ListOrMenu(x) {
            if x != s[0] { assert x in s[1..]; }
          }
        }
        r
  }

  /** The first list or menu of a concatenation is that of its first part,
      or failing that of its second. */
  lemma {:induction false} FirstListOrMenuAppend(a: seq<Node>, b: seq<Node>)
    ensures FirstListOrMenu(a + b) == if FirstListOrMenu(a).Some? then FirstListOrMenu(a) else FirstListOrMenu(b)
  {
    if |a| == 0 {
      assert a + b == b;
    } else {
      assert (a + b)[0] == a[0];
      assert (a + b)[1..] == a[1..] + b;
      FirstListOrMenuAppend(a[1..], b);
    }
  }

  /** The search of `_get_combo_child_object_type` over `p.children[k..]`:
      a child's own children are searched before the child itself, and
      `None` children are skipped; the answer is the first list or menu of
      the post-order listing. */
  function ComboChildFrom(p: Node, k: nat): (r: Option<Node>)
    requires k <= |p.children|
    ensures r == FirstListOrMenu(PostOrderChildren(p, k))
    decreases p, |p.children| - k
  {
    if k == |p.children| then None
    else
      var child := p.children[k];
      var later := PostOrderChildren(p, k + 1);
      assert PostOrderChildren(p, k) == PostOrder(child) + later;
      FirstListOrMenuAppend(PostOrder(child), later);
      if child.Null? then ComboChildFrom(p, k + 1)
      else
        assert PostOrder(child) == PostOrderChildren(child, 0) + [child];
        FirstListOrMenuAppend(PostOrderChildren(child, 0), [child]);
        var deeper := ComboChildFrom(child, 0);
        if deeper.Some? then deeper
        else if ListOrMenu(child) then Some(child)
        else ComboChildFrom(p, k + 1)
  }

  /** Post-order and pre-order list the same accessibles. */
  lemma {:induction false} PostOrderSameNodes(a: Acc)
    ensures forall x :: x in PostOrder(a) <==> x in PreOrder(a)
    decreases a, 1
  {
    if a.Obj? {
      PostOrderChildrenSameNodes(a, 0);
    }
  }

  lemma {:induction false} PostOrderChildrenSameNodes(p: Node, k: nat)
    requires k <= |p.children|
    ensures forall x :: x in PostOrderChildren(p, k) <==> x in PreOrderChildren(p, k)
    decreases p, 0, |p.children| - k
  {
    if k < |p.children| {
      PostOrderSameNodes(p.children[k]);
      PostOrderChildrenSameNodes(p, k + 1);
    }
  }

  /** `_get_combo_child_object_type(obj)`: the first list or menu strictly
      below the object in post-order, and `None` exactly when there is no
      list or menu below it at all. */
  function ComboChild(obj: Acc): (r: Option<Node>)
    ensures obj.Null? ==> r.None?
    ensures obj.Obj? ==> r == FirstListOrMenu(PostOrderChildren(obj, 0))
    ensures obj.Obj? ==> (r.None? <==> NoListOrMenu(PreOrderChildren(obj, 0)))
    ensures r.Some? ==> ListOrMenu(r.value) && obj.Obj? && r.value in PreOrderChildren(obj, 0)
  {
    if obj.Null? then None
    else
      PostOrderChildrenSameNodes(obj, 0);
      ComboChildFrom(obj, 0)
  }

  /** The text an item is compared by: its Text interface's content, or
      its name when it has none. */
  function ItemText(n: Node): (t: string)
    ensures n.text.Some? ==> t == n.text.value
    ensures n.text.None? ==> t == n.name
  {
    match n.text
    case Some(t) => t
    case None => n.name
  }

  /** What `selectitem` did: its answer, the index it passed to
      `selectChild`, and the action it clicked. */
  datatype Picked = Picked(result: Result<int>, selected: Option<int>, clicked: Option<nat>)

  /** The list branch: the first walked item after the list whose text the
      glob matches is selected by its position among the walked items (the
      list itself not counted); its click is attempted and any failure of
      it ignored. */
  /** The list branch's test of an item: the name globs the item's text. */
  function ListTest(item: string): Node -> bool {
    (n: Node) => GlobMatch(item, ItemText(n))
  }

  function PickFromList(list: Node, item: string, handleCells: bool): (r: Picked)
    ensures var w := Walk(list, handleCells);
            var p := FirstIndex(w.nodes, ListTest(item), 1);
            (p.Some? && list.hasSelection ==>
               r.result == Ok(1) && r.selected == Some(p.value - 1)
               && (r.clicked.Some? <==> ClickObject(w.nodes[p.value], ["click"]).Ok?))
            && (p.Some? && !list.hasSelection ==> r == Picked(Err(Unsupported), None, None))
            && (p.None? && w.fault ==> r == Picked(Err(AttributeFault), None, None))
            && (p.None? && !w.fault ==> r == Picked(Err(ServerError("Unable to select item")), None, None))
  {
    var w := Walk(list, handleCells);
    match FirstIndex(w.nodes, ListTest(item), 1)
    case None =>
      if w.fault then Picked(Err(AttributeFault), None, None)
      else Picked(Err(ServerError("Unable to select item")), None, None)
    case Some(p) =>
      if !list.hasSelection then Picked(Err(Unsupported), None, None)
      else
        var clicked := ClickObject(w.nodes[p], ["click"]);
        Picked(Ok(1), Some(p - 1), if clicked.Ok? then Some(clicked.value) else None)
  }

  /** The menu branch: the first walked item after the menu whose name the
      glob matches is clicked, and a failing click raises. */
  function PickFromMenu(menu: Node, item: string, handleCells: bool): (r: Picked)
    ensures r.selected.None?
    ensures var w := Walk(menu, handleCells);
            var p := FirstIndex(w.nodes, (n: Node) => GlobMatch(item, n.name), 1);
            (p.Some? ==> (r.result.Ok? <==> ClickObject(w.nodes[p.value], ["click"]).Ok?)
                         && (r.result.Ok? ==> r.result.value == 1
                                              && r.clicked == Some(ClickObject(w.nodes[p.value], ["click"]).value)))
            && (p.None? && w.fault ==> r.result == Err(AttributeFault))
            && (p.None? && !w.fault ==> r.result == Err(ServerError("Unable to select item")))
  {
    var w := Walk(menu, handleCells);
    match FirstIndex(w.nodes, (n: Node) => GlobMatch(item, n.name), 1)
    case None =>
      if w.fault then Picked(Err(AttributeFault), None, None)
      else Picked(Err(ServerError("Unable to select item")), None, None)
    case Some(p) =>
      match ClickObject(w.nodes[p], ["click"])
      case Err(f) => Picked(Err(f), None, None)
      case Ok(i) => Picked(Ok(1), None, Some(i))
  }

  /** `selectitem` once the combo box is resolved: focus it, find its list
      or menu, and pick from that. */
  function SelectItemIn(obj: Acc, item: string, handleCells: bool): (r: Picked)
    ensures GrabFocus(obj).Err? ==> r.result == Err(GrabFocus(obj).fault)
    ensures GrabFocus(obj).Ok? && ComboChild(obj).None? ==>
              r == Picked(Err(ServerError("Unable to get combo box children")), None, None)
    ensures GrabFocus(obj).Ok? && ComboChild(obj).Some? && ComboChild(obj).value.role == List ==>
              r == PickFromList(ComboChild(obj).value, item, handleCells)
    ensures GrabFocus(obj).Ok? && ComboChild(obj).Some? && ComboChild(obj).value.role == Menu ==>
              r == PickFromMenu(ComboChild(obj).value, item, handleCells)
    ensures r.result.Ok? ==> r.result.value == 1 && obj.Obj? && obj.hasComponent
  {
    match GrabFocus(obj)
    case Err(f) => Picked(Err(f), None, None)
    case Ok(_) =>
      match ComboChild(obj)
      case None => Picked(Err(ServerError("Unable to get combo box children")), None, None)
      case Some(child) =>
        if child.role == List then PickFromList(child, item, handleCells)
        else PickFromMenu(child, item, handleCells)
  }

  /** `selectitem(window_name, object_name, item_name)`. */
  function SelectItem(apps: seq<Acc>, c: Cache, window: string, name: string, item: string, handleCells: bool)
    : (r: (Picked, Cache))
    ensures var l := GetObject(apps, c, window, name);
            r.1 == l.cache
            && (l.result.Err? ==> r.0 == Picked(Err(l.result.fault), None, None))
            && (l.result.Ok? ==> r.0 == SelectItemIn(l.result.value, item, handleCells))
  {
    var l := GetObject(apps, c, window, name);
    match l.result
    case Err(f) => (Picked(Err(f), None, None), l.cache)
    case Ok(obj) => (SelectItemIn(obj, item, handleCells), l.cache)
  }

  /** An item named literally is selected at its own position: the first
      walked item after the list whose text equals the name decides the
      index, whatever the click does. */
  lemma {:induction false} ListItemSelectedAtItsPosition(list: Node, item: string, handleCells: bool, p: nat)
    requires NoMeta(item) && list.hasSelection
    requires 1 <= p < |Walk(list, handleCells).nodes|
    requires ItemText(Walk(list, handleCells).nodes[p]) == item
    requires forall k :: 1 <= k < p ==> ItemText(Walk(list, handleCells).nodes[k]) != item
    ensures PickFromList(list, item, handleCells).result == Ok(1)
    ensures PickFromList(list, item, handleCells).selected == Some(p - 1)
  {
    var nodes := Walk(list, handleCells).nodes;
    var test := ListTest(item);
    forall k | 1 <= k <= p ensures test(nodes[k]) <==> k == p {
      LiteralPatternMatchesOnlyItself(item, ItemText(nodes[k]));
    }
    var q := FirstIndex(nodes, test, 1);
    assert q == Some(p);
  }

  /** A combo box with nothing list- or menu-like below it cannot select
      anything. */
  lemma NoListNoSelection(obj: Node, item: string, handleCells: bool)
    requires obj.hasComponent && NoListOrMenu(PreOrderChildren(obj, 0))
    ensures SelectItemIn(obj, item, handleCells).result == Err(ServerError("Unable to get combo box children"))
  {
  }
}

=== FILE: context.dfy ===
/** The object-oriented client wrappers of ooldtp/_context.py: a `Context`
    binds a window name and a `Component` a window and an object name to
    every remote command whose documented parameters start with those
    names.  A remote command is known by its name, whether it is a remote
    method, and its docstring.
 */
module OoContext {
  import opened Wrappers
  import opened Strings
  import Seqs

  /** The characters `str.strip()` removes. */
  const Whitespace: set<char> := {' ', '\t', '\n', '\r', '\U{B}', '\U{C}'}

  function TrimStart(s: string, cs: set<char>): (r: string)
    ensures |r| <= |s| && r == s[|s| - |r|..]
    ensures |r| > 0 ==> r[0] !in cs
    ensures forall i :: 0 <= i < |s| - |r| ==> s[i] in cs
  {
    if |s| == 0 || s[0] !in cs then s
    else
      var r := TrimStart(s[1..], cs);
      assert forall i :: 1 <= i < |s| - |r| ==> s[i] == s[1..][i - 1];
      r
  }

  function TrimEnd(s: string, cs: set<char>): (r: string)
    ensures |r| <= |s| && r == s[..|r|]
    ensures |r| > 0 ==> r[|r| - 1] !in cs
    ensures forall i :: |r| <= i < |s| ==> s[i] in cs
  {
    if |s| == 0 || s[|s| - 1] !in cs then s
    else
      var r := TrimEnd(s[..|s| - 1], cs);
      assert forall i :: |r| <= i < |s| - 1 ==> s[i] == s[..|s| - 1][i];
      r
  }

  /** `s.strip()`: the middle of `s` with the whitespace at either end gone. */
  function Trim(s: string): (r: string)
    ensures |r| > 0 ==> r[0] !in Whitespace && r[|r| - 1] !in Whitespace
    ensures |r| <= |s|
  {
    TrimEnd(TrimStart(s, Whitespace), Whitespace)
  }

  /** The stripped text is a slice of the line with only whitespace
      outside it. */
  lemma {:induction false} TrimIsSlice(s: string)
    ensures exists i, j :: 0 <= i <= j <= |s| && Trim(s) == s[i..j]
                           && (forall k :: 0 <= k < i ==> s[k] in Whitespace)
                           && (forall k :: j <= k < |s| ==> s[k] in Whitespace)
  {
    var t := TrimStart(s, Whitespace);
    var r := TrimEnd(t, Whitespace);
    var i := |s| - |t|;
    var j := i + |r|;
    assert Trim(s) == s[i..j] by {
      assert t == s[i..] && r == t[..|r|];
    }
    assert forall k :: j <= k < |s| ==> s[k] in Whitespace by {
      forall k | j <= k < |s|
        ensures s[k] in Whitespace
      {
        assert s[k] == t[k - i];
      }
    }
  }

  /** A line that opens and closes with visible characters is kept whole. */
  lemma TrimKeeps(s: string)
    requires |s| > 0 && s[0] !in Whitespace && s[|s| - 1] !in Whitespace
    ensures Trim(s) == s
  {
  }

  const ParamTag := "@param "

  predicate ParamLine(line: string) {
    StartsWith(Trim(line), ParamTag)
  }

  /** The parameter a `@param` line documents: the text after the tag up
      to the first `:`. */
  function ParamName(line: string): (n: string)
    requires ParamLine(line)
    ensures !HasChar(n, ':')
  {
    Split(Trim(line)[|ParamTag|..], ':')[0]
  }

  /** The documented parameters of a docstring's lines, in order. */
  function ParamNames(lines: seq<string>): (r: seq<string>)
    ensures |r| <= |lines|
    ensures forall k :: 0 <= k < |r| ==> !HasChar(r[k], ':')
    ensures (forall i :: 0 <= i < |lines| ==> !ParamLine(lines[i])) ==> r == []
  {
    if |lines| == 0 then []
    else
      var rest := ParamNames(lines[1..]);
      assert forall i :: 1 <= i < |lines| ==> lines[i] == lines[1..][i - 1];
      if ParamLine(lines[0]) then
        var n := ParamName(lines[0]);
        NoColonCons(n, rest);
        [n] + rest
      else rest
  }

  lemma NoColonCons(n: string, rest: seq<string>)
    requires !HasChar(n, ':') && forall k :: 0 <= k < |rest| ==> !HasChar(rest[k], ':')
    ensures forall k :: 0 <= k < |[n] + rest| ==> !HasChar(([n] + rest)[k], ':')
  {
    forall k | 0 <= k < |[n] + rest| ensures !HasChar(([n] + rest)[k], ':') {
      if k > 0 { assert ([n] + rest)[k] == rest[k - 1]; }
    }
  }

  /** `[a.strip() for a in lines]`. */
  function Stripped(lines: seq<string>): (r: seq<string>)
    ensures |r| == |lines| && forall k :: 0 <= k < |lines| ==> r[k] == Trim(lines[k])
  {
    if |lines| == 0 then []
    else
      var rest := Stripped(lines[1..]);
      assert forall k :: 1 <= k < |lines| ==> lines[k] == lines[1..][k - 1];
      [Trim(lines[0])] + rest
  }

  /** `x.startswith('@param ')`, as a value. */
  function TagTest(): string -> bool {
    (x: string) => StartsWith(x, ParamTag)
  }

  /** `[x[7:].split(':')[0] for x in l]` over lines that start with the
      tag. */
  function AfterTags(l: seq<string>): (r: seq<string>)
    requires forall k :: 0 <= k < |l| ==> StartsWith(l[k], ParamTag)
    ensures |r| == |l|
  {
    if |l| == 0 then []
    else
      assert StartsWith(l[0], ParamTag);
      [Split(l[0][|ParamTag|..], ':')[0]] + AfterTags(l[1..])
  }

  /** The one-pass `ParamNames` is the three steps of `_listArgs`: strip
      every line, keep those that start with the tag, and cut each after
      the tag up to its first `:`. */
  lemma {:induction false} ParamNamesPipeline(lines: seq<string>)
    ensures var kept := Seqs.Filter(Stripped(lines), TagTest());
            ParamNames(lines) == AfterTags(kept)
  {
    if |lines| > 0 {
      var rest := lines[1..];
      ParamNamesPipeline(rest);
      assert Stripped(lines) == [Trim(lines[0])] + Stripped(rest);
      assert ([Trim(lines[0])] + Stripped(rest))[1..] == Stripped(rest);
      var keptRest := Seqs.Filter(Stripped(rest), TagTest());
      if ParamLine(lines[0]) {
        assert Seqs.Filter(Stripped(lines), TagTest()) == [Trim(lines[0])] + keptRest;
        assert ([Trim(lines[0])] + keptRest)[1..] == keptRest;
      } else {
        assert Seqs.Filter(Stripped(lines), TagTest()) == keptRest;
      }
    }
  }

  /** `_listArgs(func)`: a command without a docstring has none to split. */
  function ListArgs(doc: Option<string>): (r: Result<seq<string>>)
    ensures doc.None? <==> r == Err(AttributeFault)
    ensures doc.Some? ==> r == Ok(ParamNames(Split(doc.value, '\n')))
    ensures r.Ok? ==> forall k :: 0 <= k < |r.value| ==> !HasChar(r.value[k], ':')
  {
    match doc
    case None => Err(AttributeFault)
    case Some(d) => Ok(ParamNames(Split(d, '\n')))
  }

  /** The docstring line that documents parameter `n`. */
  function DocLine(n: string): string {
    ParamTag + n + ":"
  }

  function DocLines(names: seq<string>): (r: seq<string>)
    ensures |r| == |names| && forall k :: 0 <= k < |names| ==> r[k] == DocLine(names[k])
  {
    if |names| == 0 then [] else [DocLine(names[0])] + DocLines(names[1..])
  }

  /** A docstring that documents `names` one per line, in order. */
  function DocOf(names: seq<string>): string {
    Join(DocLines(names), '\n')
  }

  lemma HasCharAppend(a: string, b: string, c: char)
    ensures HasChar(a + b, c) <==> HasChar(a, c) || HasChar(b, c)
  {
    if HasChar(a + b, c) {
      var i :| 0 <= i < |a + b| && (a + b)[i] == c;
      if i >= |a| { assert b[i - |a|] == c; }
    }
    if HasChar(a, c) {
      var i :| 0 <= i < |a| && a[i] == c;
      assert (a + b)[i] == c;
    }
    if HasChar(b, c) {
      var i :| 0 <= i < |b| && b[i] == c;
      assert (a + b)[|a| + i] == c;
    }
  }

  lemma DocLineParses(n: string)
    requires !HasChar(n, ':') && !HasChar(n, '\n')
    ensures !HasChar(DocLine(n), '\n')
    ensures ParamLine(DocLine(n)) && ParamName(DocLine(n)) == n
  {
    var line := DocLine(n);
    HasCharAppend(ParamTag, n, '\n');
    HasCharAppend(ParamTag + n, ":", '\n');
    TrimKeeps(line);
    assert line[|ParamTag|..] == n + ":";
    SplitPrefix(n, ":", ':');
    assert Split(":", ':') == [""] + Split("", ':');
    assert n + "" == n;
  }

  lemma ParamNamesCons(lines: seq<string>)
    requires |lines| > 0 && ParamLine(lines[0])
    ensures ParamNames(lines) == [ParamName(lines[0])] + ParamNames(lines[1..])
  {
  }

  lemma DocLinesCons(names: seq<string>)
    requires |names| > 0
    ensures DocLines(names)[0] == DocLine(names[0]) && DocLines(names)[1..] == DocLines(names[1..])
  {
  }

  lemma {:induction false} ParamNamesOfDocLines(names: seq<string>)
    requires forall k :: 0 <= k < |names| ==> !HasChar(names[k], ':') && !HasChar(names[k], '\n')
    ensures ParamNames(DocLines(names)) == names
  {
    if |names| > 0 {
      var rest := names[1..];
      forall k | 0 <= k < |rest| ensures !HasChar(rest[k], ':') && !HasChar(rest[k], '\n') {
        assert rest[k] == names[k + 1];
      }
      ParamNamesOfDocLines(rest);
      DocLineParses(names[0]);
      DocLinesCons(names);
      ParamNamesCons(DocLines(names));
      assert names == [names[0]] + rest;
    }
  }

  /** `_listArgs` recovers, in order, the parameters a docstring documents
      one per line. */
  lemma {:induction false} ListArgsOfDoc(names: seq<string>)
    requires |names| >= 1
    requires forall k :: 0 <= k < |names| ==> !HasChar(names[k], ':') && !HasChar(names[k], '\n')
    ensures ListArgs(Some(DocOf(names))) == Ok(names)
  {
    var lines := DocLines(names);
    forall k | 0 <= k < |lines| ensures !HasChar(lines[k], '\n') {
      DocLineParses(names[k]);
    }
    SplitJoin(lines, '\n');
    ParamNamesOfDocLines(names);
  }

  /** `Context._isRelevant`: the first parameter is the window name. */
  predicate ContextRelevant(args: seq<string>) {
    |args| > 0 && args[0] == "window_name"
  }

  /** `Component._isRelevant`: the first two are the window and object
      names. */
  predicate ComponentRelevant(args: seq<string>) {
    |args| >= 2 && args[0] == "window_name" && args[1] == "object_name"
  }

  /** Every command a component wraps a context wraps too. */
  lemma ComponentCommandsAreContextCommands(args: seq<string>)
    requires ComponentRelevant(args)
    ensures ContextRelevant(args)
  {
  }

  /** For a docstring that documents `names`, a context wraps the command
      exactly when `window_name` comes first, and a component exactly when
      `object_name` follows it. */
  lemma RelevanceOfDoc(names: seq<string>)
    requires |names| >= 1
    requires forall k :: 0 <= k < |names| ==> !HasChar(names[k], ':') && !HasChar(names[k], '\n')
    ensures ListArgs(Some(DocOf(names))).Ok?
    ensures ContextRelevant(ListArgs(Some(DocOf(names))).value) <==> names[0] == "window_name"
    ensures ComponentRelevant(ListArgs(Some(DocOf(names))).value) <==>
              |names| >= 2 && names[0] == "window_name" && names[1] == "object_name"
  {
    ListArgsOfDoc(names);
  }

  // ------------------------------------------------------- generation

  /** One attribute of the `ldtp` module. */
  datatype Attr = Attr(name: string, isRemote: bool, doc: Option<string>)

  /** The class attributes a wrapper class has, whether it has generated
      its wrappers, and the attribute names it wrapped. */
  datatype WrapperClass = WrapperClass(generated: bool, attrs: set<string>, wrapped: seq<string>)

  /** The name a wrapped command is stored under: its own unless the class
      already has that attribute. */
  function Slot(name: string, attrs: set<string>): (s: string)
    ensures name !in attrs ==> s == name && s !in attrs
    ensures name in attrs ==> s == "_remote_" + name
  {
    if name in attrs then "_remote_" + name else name
  }

  datatype Generated = Generated(attrs: set<string>, wrapped: seq<string>)

  /** The loop of `__new__` over the module's attributes, in order. */
  function WrapFrom(attrs: set<string>, entries: seq<Attr>, relevant: seq<string> -> bool): (r: Result<Generated>)
    ensures r.Ok? ==> |r.value.wrapped| <= |entries|
    ensures r.Ok? ==> forall x :: x in r.value.attrs <==> x in attrs || x in r.value.wrapped
    ensures r.Err? ==> r == Err(AttributeFault)
    ensures (forall i :: 0 <= i < |entries| ==> !entries[i].isRemote) ==> r == Ok(Generated(attrs, []))
    decreases |entries|
  {
    if |entries| == 0 then Ok(Generated(attrs, []))
    else
      var e, tail := entries[0], entries[1..];
      assert forall i :: 0 <= i < |tail| ==> tail[i] == entries[i + 1];
      if !e.isRemote then WrapFrom(attrs, tail, relevant)
      else match ListArgs(e.doc)
        case Err(f) => Err(f)
        case Ok(args) =>
          if !relevant(args) then WrapFrom(attrs, tail, relevant)
          else
            var s := Slot(e.name, attrs);
            Prepend(s, attrs, WrapFrom(attrs + {s}, tail, relevant))
  }

  /** The outcome of the rest of the loop, after `s` was wrapped. */
  function Prepend(s: string, attrs: set<string>, g: Result<Generated>): (r: Result<Generated>)
    requires g.Ok? ==> forall x :: x in g.value.attrs <==> x in attrs + {s} || x in g.value.wrapped
    ensures r.Ok? <==> g.Ok?
    ensures r.Ok? ==> r.value.wrapped == [s] + g.value.wrapped && r.value.attrs == g.value.attrs
    ensures r.Ok? ==> forall x :: x in r.value.attrs <==> x in attrs || x in r.value.wrapped
    ensures r.Err? ==> r == g
  {
    match g
    case Err(f) => Err(f)
    case Ok(v) => Ok(Generated(v.attrs, [s] + v.wrapped))
  }

  /** Whether the loop wraps entry `e`: a remote command with a docstring
      whose parameters the class finds relevant. */
  predicate Wanted(e: Attr, relevant: seq<string> -> bool) {
    e.isRemote && e.doc.Some? && relevant(ListArgs(e.doc).value)
  }

  /** The names of the wanted entries, in the module's order. */
  function WantedNames(entries: seq<Attr>, relevant: seq<string> -> bool): seq<string> {
    if |entries| == 0 then []
    else (if Wanted(entries[0], relevant) then [entries[0].name] else []) + WantedNames(entries[1..], relevant)
  }

  /** The names in `s`, as a set. */
  function SeqSet(s: seq<string>): set<string> {
    set x | x in s
  }

  /** The loop fails exactly when some remote command has no docstring. */
  lemma {:induction false} WrapFromFails(attrs: set<string>, entries: seq<Attr>, relevant: seq<string> -> bool)
    ensures WrapFrom(attrs, entries, relevant).Err? <==>
              exists i :: 0 <= i < |entries| && entries[i].isRemote && entries[i].doc.None?
    decreases |entries|
  {
    if |entries| > 0 {
      var e, tail := entries[0], entries[1..];
      assert forall i :: 0 <= i < |tail| ==> tail[i] == entries[i + 1];
      if e.isRemote && e.doc.None? {
        assert entries[0].isRemote && entries[0].doc.None?;
      } else {
        var a := if Wanted(e, relevant) then attrs + {Slot(e.name, attrs)} else attrs;
        WrapFromFails(a, tail, relevant);
        assert WrapFrom(attrs, entries, relevant).Err? <==> WrapFrom(a, tail, relevant).Err?;
        if exists i :: 0 <= i < |entries| && entries[i].isRemote && entries[i].doc.None? {
          var i :| 0 <= i < |entries| && entries[i].isRemote && entries[i].doc.None?;
          assert i != 0;
          assert tail[i - 1] == entries[i];
        }
      }
    }
  }

  /** The loop wraps the wanted commands, in order: the k-th is stored
      under its own name unless the class already has it, counting the
      names wrapped before it, in which case under `_remote_` plus its
      name. */
  lemma {:induction false} WrapFromSlots(attrs: set<string>, entries: seq<Attr>, relevant: seq<string> -> bool)
    ensures var r := WrapFrom(attrs, entries, relevant);
            r.Ok? ==>
              var w, names := r.value.wrapped, WantedNames(entries, relevant);
              |w| == |names| && forall k :: 0 <= k < |w| ==> w[k] == Slot(names[k], attrs + SeqSet(w[..k]))
    decreases |entries|
  {
    var r := WrapFrom(attrs, entries, relevant);
    if |entries| > 0 && r.Ok? {
      var e, tail := entries[0], entries[1..];
      if !Wanted(e, relevant) {
        WrapFromSlots(attrs, tail, relevant);
      } else {
        var s := Slot(e.name, attrs);
        var g := WrapFrom(attrs + {s}, tail, relevant);
        WrapFromSlots(attrs + {s}, tail, relevant);
        assert r.value.wrapped == [s] + g.value.wrapped;
        assert WantedNames(entries, relevant) == [e.name] + WantedNames(tail, relevant);
        SlotsCons(attrs, e.name, g.value.wrapped, WantedNames(tail, relevant));
      }
    }
  }

  lemma SeqSetCons(s: string, t: seq<string>)
    ensures SeqSet([s] + t) == {s} + SeqSet(t)
  {
    assert forall x :: x in [s] + t <==> x == s || x in t;
  }

  /** One step of the lemma above: wrapping `n` first shifts the names
      the later wraps see by its slot. */
  lemma {:induction false} SlotsCons(attrs: set<string>, n: string, gw: seq<string>, names: seq<string>)
    requires |gw| == |names|
    requires forall k :: 0 <= k < |gw| ==> gw[k] == Slot(names[k], attrs + {Slot(n, attrs)} + SeqSet(gw[..k]))
    ensures var w := [Slot(n, attrs)] + gw;
            forall k :: 0 <= k < |w| ==> w[k] == Slot(([n] + names)[k], attrs + SeqSet(w[..k]))
  {
    var s := Slot(n, attrs);
    var w := [s] + gw;
    forall k | 0 <= k < |w|
      ensures w[k] == Slot(([n] + names)[k], attrs + SeqSet(w[..k]))
    {
      if k == 0 {
        assert SeqSet(w[..0]) == {};
      } else {
        SlotShift(attrs, n, gw, names, k);
      }
    }
  }

  /** Position `k > 0` of the lemma above, on its own. */
  lemma SlotShift(attrs: set<string>, n: string, gw: seq<string>, names: seq<string>, k: nat)
    requires 0 < k <= |gw| == |names|
    requires gw[k - 1] == Slot(names[k - 1], attrs + {Slot(n, attrs)} + SeqSet(gw[..k - 1]))
    ensures ([Slot(n, attrs)] + gw)[k] == Slot(([n] + names)[k], attrs + SeqSet(([Slot(n, attrs)] + gw)[..k]))
  {
    var s := Slot(n, attrs);
    var pre := gw[..k - 1];
    SeqSetCons(s, pre);
    assert attrs + {s} + SeqSet(pre) == attrs + SeqSet([s] + pre);
    assert ([s] + gw)[..k] == [s] + pre;
  }

  /** What the loop leaves on the class when it stops: everything when it
      completes, and the wrappers set before the entry whose missing
      docstring raised otherwise. */
  function Partial(attrs: set<string>, entries: seq<Attr>, relevant: seq<string> -> bool): (r: Generated)
    ensures forall x :: x in r.attrs <==> x in attrs || x in r.wrapped
    ensures WrapFrom(attrs, entries, relevant).Ok? ==> r == WrapFrom(attrs, entries, relevant).value
    decreases |entries|
  {
    if |entries| == 0 then Generated(attrs, [])
    else
      var e, tail := entries[0], entries[1..];
      if !e.isRemote then Partial(attrs, tail, relevant)
      else match ListArgs(e.doc)
        case Err(_) => Generated(attrs, [])
        case Ok(args) =>
          if !relevant(args) then Partial(attrs, tail, relevant)
          else
            var s := Slot(e.name, attrs);
            var g := Partial(attrs + {s}, tail, relevant);
            Generated(g.attrs, [s] + g.wrapped)
  }

  /** A construction: the class afterwards, and the fault it raised. */
  datatype Constructed = Constructed(cls: WrapperClass, fault: Option<Fault>)

  /** `_Wrapper.__new__`: the first instance marks the class generated
      before its loop and generates the wrappers; later ones find it
      generated.  A missing docstring raises out of the loop and leaves
      the class generated with the wrappers set so far. */
  function New(cls: WrapperClass, entries: seq<Attr>, relevant: seq<string> -> bool): (r: Constructed)
    ensures cls.generated ==> r == Constructed(cls, None)
    ensures r.cls.generated && cls.attrs <= r.cls.attrs
    ensures !cls.generated ==>
              (r.fault.Some? <==> WrapFrom(cls.attrs + {"_wrapped_methods"}, entries, relevant).Err?)
    ensures r.fault.Some? ==> r.fault == Some(AttributeFault)
    ensures r.fault.None? && !cls.generated ==>
              r.cls == WrapperClass(true, WrapFrom(cls.attrs + {"_wrapped_methods"}, entries, relevant).value.attrs,
                                    WrapFrom(cls.attrs + {"_wrapped_methods"}, entries, relevant).value.wrapped)
    ensures !cls.generated ==>
              forall k :: 0 <= k < |r.cls.wrapped| ==> r.cls.wrapped[k] in r.cls.attrs
  {
    if cls.generated then Constructed(cls, None)
    else
      var g := Partial(cls.attrs + {"_wrapped_methods"}, entries, relevant);
      match WrapFrom(cls.attrs + {"_wrapped_methods"}, entries, relevant)
      case Err(f) => Constructed(WrapperClass(true, g.attrs, g.wrapped), Some(f))
      case Ok(_) => Constructed(WrapperClass(true, g.attrs, g.wrapped), None)
  }

  /** Generation happens once: any construction after the first, even a
      failed first, succeeds and leaves the class as it is. */
  lemma NewOnce(cls: WrapperClass, entries: seq<Attr>, relevant: seq<string> -> bool)
    ensures var c := New(cls, entries, relevant).cls;
            New(c, entries, relevant) == Constructed(c, None)
  {
  }

  /** A remote command whose name the class already uses is stored under
      `_remote_` plus its name, and the original attribute stays. */
  lemma CollidingNameIsPrefixed(attrs: set<string>, e: Attr, relevant: seq<string> -> bool)
    requires e.isRemote && e.doc.Some? && relevant(ListArgs(e.doc).value) && e.name in attrs
    ensures var r := WrapFrom(attrs, [e], relevant);
            r.Ok? && r.value.wrapped == ["_remote_" + e.name] && e.name in r.value.attrs
  {
    assert [e][1..] == [];
  }

  // -------------------------------------------------------------- calls

  /** The arguments a call passes on: positional and keyword. */
  datatype Call<T> = Call(positional: seq<T>, keywords: map<string, T>)

  /** `_ContextFuncWrapper.__call__`: the window name goes first. */
  function ContextCall<T>(window: T, c: Call<T>): (r: Call<T>)
    ensures r.keywords == c.keywords
    ensures |r.positional| == |c.positional| + 1 && r.positional[0] == window
    ensures r.positional[1..] == c.positional
  {
    Call([window] + c.positional, c.keywords)
  }

  /** `_ComponentFuncWrapper.__call__`: the window and object names go
      first. */
  function ComponentCall<T>(window: T, objectName: T, c: Call<T>): (r: Call<T>)
    ensures r.keywords == c.keywords
    ensures |r.positional| == |c.positional| + 2 && r.positional[0] == window && r.positional[1] == objectName
    ensures r.positional[2..] == c.positional
  {
    Call([window, objectName] + c.positional, c.keywords)
  }

  /** A component call is a context call of a call that already carries
      the object name. */
  lemma ComponentCallIsNestedContextCall<T>(window: T, objectName: T, c: Call<T>)
    ensures ComponentCall(window, objectName, c) == ContextCall(window, ContextCall(objectName, c))
  {
    assert [window, objectName] + c.positional == [window] + ([objectName] + c.positional);
  }
}

=== FILE: core_ops.dfy ===
/** The widget commands of ldtpd/core.py modelled here: `getchild`,
    `selectpanel`, `check` and `uncheck`.  Each command resolves its window
    and object through the resolver and hands back the map cache it leaves.
 */
module CoreOps {
  import opened Wrappers
  import opened Strings
  import opened Glob
  import opened Access
  import opened Naming
  import opened Appmap
  import opened Resolver
  import opened Seqs

  // ------------------------------------------------------------ getchild

  /** A command's answer and the cache after it. */
  datatype Listed = Listed(result: Result<seq<string>>, cache: Cache)

  /** How many of the flat loop's four tests accept a record; each accepting
      test appends the key once more. */
  function FlatHits(childName: string, role: string, parent: string): AppmapEntry -> nat {
    (e: AppmapEntry) =>
      (if role != "" && childName == "" && e.className == role then 1 else 0)
      + (if parent != "" && childName != "" && role == "" && MatchNameToAppmap(parent, e) then 1 else 0)
      + (if childName != "" && role == "" && MatchNameToAppmap(childName, e) then 1 else 0)
      + (if role != "" && childName != "" && e.className == role && MatchNameToAppmap(childName, e) then 1 else 0)
  }

  /** What a flat search asks for: at least one criterion, the class equal
      to the role when one is given, the name matching when one is given. */
  predicate FlatWanted(e: AppmapEntry, childName: string, role: string) {
    (role != "" || childName != "")
    && (role == "" || e.className == role)
    && (childName == "" || MatchNameToAppmap(childName, e))
  }

  /** The flat loop is reached only without a parent or with nothing else
      given; there its tests are exclusive and accept exactly the wanted
      records. */
  lemma FlatHitsOnce(e: AppmapEntry, childName: string, role: string, parent: string)
    requires parent == "" || (childName == "" && role == "")
    ensures FlatHits(childName, role, parent)(e) == (if FlatWanted(e, childName, role) then 1 else 0)
  {
  }

  function Repeat(k: string, n: nat): (r: seq<string>)
    ensures |r| == n && forall i :: 0 <= i < n ==> r[i] == k
    ensures forall x :: multiset(r)[x] == if x == k then n else 0
  {
    if n == 0 then [] else [k] + Repeat(k, n - 1)
  }

  /** `for name in appmap.keys(): ...` with each key appended as often as
      `hits` says. */
  function Gather(m: Appmap, keys: seq<string>, hits: AppmapEntry -> nat): (r: seq<string>)
    ensures forall x :: x in r <==> x in keys && x in m.entries && hits(m.entries[x]) > 0
    ensures (forall k :: k in m.entries ==> hits(m.entries[k]) <= 1) && Distinct(keys) ==> Distinct(r)
    ensures |keys| == 1 ==> r == if keys[0] in m.entries then Repeat(keys[0], hits(m.entries[keys[0]])) else []
  {
    if |keys| == 0 then []
    else
      var k := keys[0];
      var here := if k in m.entries then Repeat(k, hits(m.entries[k])) else [];
      var rest := Gather(m, keys[1..], hits);
      assert keys == [k] + keys[1..];
      assert forall x :: x in keys <==> x == k || x in keys[1..];
      assert Distinct(keys) ==> Distinct(keys[1..]) && k !in keys[1..] by {
        if Distinct(keys) {
          forall i | 0 <= i < |keys[1..]| ensures keys[1..][i] != k { assert keys[1..][i] == keys[i + 1]; }
        }
      }
      here + rest
  }

  /** Each key is gathered as often as it occurs among the keys times the
      number of tests its record passes. */
  lemma {:induction false} GatherCount(m: Appmap, keys: seq<string>, hits: AppmapEntry -> nat, x: string)
    ensures multiset(Gather(m, keys, hits))[x] == if x in m.entries then multiset(keys)[x] * hits(m.entries[x]) else 0
    decreases |keys|
  {
    if |keys| > 0 {
      var k := keys[0];
      var here := if k in m.entries then Repeat(k, hits(m.entries[k])) else [];
      var rest := Gather(m, keys[1..], hits);
      GatherCount(m, keys[1..], hits, x);
      CountCons(keys, x);
      assert Gather(m, keys, hits) == here + rest;
      assert multiset(here + rest)[x] == multiset(here)[x] + multiset(rest)[x];
      if x in m.entries && x == k {
        assert multiset(here)[x] == hits(m.entries[x]);
        OneMore(multiset(keys[1..])[x], hits(m.entries[x]));
      } else {
        assert multiset(here)[x] == 0;
      }
    }
  }

  lemma CountCons(keys: seq<string>, x: string)
    requires |keys| > 0
    ensures multiset(keys)[x] == (if x == keys[0] then 1 else 0) + multiset(keys[1..])[x]
  {
    assert keys == [keys[0]] + keys[1..];
  }

  lemma OneMore(n: nat, h: nat)
    ensures (1 + n) * h == h + n * h
  {
  }

  /** The keys gathered from two runs of keys, one after the other, are
      those of each run in turn: together with the one-key case this says
      the result lists the keys in their order. */
  lemma {:induction false} GatherAppend(m: Appmap, a: seq<string>, b: seq<string>, hits: AppmapEntry -> nat)
    ensures Gather(m, a + b, hits) == Gather(m, a, hits) + Gather(m, b, hits)
    decreases |a|
  {
    if |a| == 0 {
      assert a + b == b;
    } else {
      assert (a + b)[1..] == a[1..] + b;
      GatherAppend(m, a[1..], b, hits);
      var here := if a[0] in m.entries then Repeat(a[0], hits(m.entries[a[0]])) else [];
      AppendAssoc(here, Gather(m, a[1..], hits), Gather(m, b, hits));
    }
  }

  /** The exception text when nothing is found. */
  function NotFoundMessage(childName: string, role: string, parent: string): string {
    "Could not find a child "
    + (if childName != "" then "name \"" + childName + "\" " else "")
    + (if role != "" then "role \"" + role + "\" " else "")
    + (if parent != "" then "parent \"" + parent + "\"" else "")
  }

  /** The tree search's test: the class equal to the role, or else the name
      matching. */
  predicate TreeWanted(e: AppmapEntry, childName: string, role: string) {
    (role != "" && e.className == role) || (childName != "" && MatchNameToAppmap(childName, e))
  }

  /** The tree search's test as a value, so that the walks below can be
      stated for any test. */
  function TreeTest(childName: string, role: string): AppmapEntry -> bool {
    (e: AppmapEntry) => TreeWanted(e, childName, role)
  }

  /** The key a record contributes to a walk: its own, when it passes. */
  function Own(e: AppmapEntry, wanted: AppmapEntry -> bool): (r: seq<string>)
    ensures |r| <= 1 && (wanted(e) <==> r == [e.key])
  {
    if wanted(e) then [e.key] else []
  }

  /** `b` is one of the children of `a`'s record. */
  predicate Link(m: Appmap, a: string, b: string) {
    a in m.entries && b in m.entries[a].children
  }

  /** `b` is the first child of `a`'s record. */
  predicate FirstLink(m: Appmap, a: string, b: string) {
    a in m.entries && |m.entries[a].children| > 0 && m.entries[a].children[0] == b
  }

  /** A downward path of keys below `e`: the first a child of `e`, each
      next one a child of the record before it, every one with a record. */
  predicate ChildPath(m: Appmap, e: AppmapEntry, p: seq<string>) {
    |p| > 0 && p[0] in e.children
    && (forall i :: 0 <= i < |p| ==> p[i] in m.entries)
    && (forall i :: 0 <= i < |p| - 1 ==> Link(m, p[i], p[i + 1]))
  }

  /** A downward path that always takes the first child. */
  predicate FirstChildPath(m: Appmap, e: AppmapEntry, p: seq<string>) {
    ChildPath(m, e, p) && p[0] == e.children[0]
    && forall i :: 0 <= i < |p| - 1 ==> FirstLink(m, p[i], p[i + 1])
  }

  /** The record a path ends at. */
  function Tip(m: Appmap, p: seq<string>): AppmapEntry
    requires |p| > 0 && p[|p| - 1] in m.entries
  {
    m.entries[p[|p| - 1]]
  }

  /** `x` is the key of `e` or of a record below it, and that record is
      wanted. */
  ghost predicate InSubtree(m: Appmap, e: AppmapEntry, x: string, wanted: AppmapEntry -> bool) {
    (x == e.key && wanted(e))
    || exists p :: ChildPath(m, e, p) && Tip(m, p).key == x && wanted(Tip(m, p))
  }

  /** `x` is the key of `e` or of a record on its first-child chain, and
      that record is wanted. */
  ghost predicate InChain(m: Appmap, e: AppmapEntry, x: string, wanted: AppmapEntry -> bool) {
    (x == e.key && wanted(e))
    || exists p :: FirstChildPath(m, e, p) && Tip(m, p).key == x && wanted(Tip(m, p))
  }

  /** Dropping the first key of a path gives a path below that key's
      record, ending at the same record. */
  lemma PathTail(m: Appmap, e: AppmapEntry, p: seq<string>)
    requires ChildPath(m, e, p) && |p| > 1
    ensures ChildPath(m, m.entries[p[0]], p[1..]) && Tip(m, p[1..]) == Tip(m, p)
  {
    var q := p[1..];
    forall j | 0 <= j < |q| - 1 ensures Link(m, q[j], q[j + 1]) {
      assert q[j] == p[j + 1] && q[j + 1] == p[j + 2];
    }
  }

  lemma FirstPathTail(m: Appmap, e: AppmapEntry, p: seq<string>)
    requires FirstChildPath(m, e, p) && |p| > 1
    ensures FirstChildPath(m, m.entries[p[0]], p[1..]) && Tip(m, p[1..]) == Tip(m, p)
  {
    PathTail(m, e, p);
    var q := p[1..];
    forall j | 0 <= j < |q| - 1 ensures FirstLink(m, q[j], q[j + 1]) {
      assert q[j] == p[j + 1] && q[j + 1] == p[j + 2];
    }
  }

  /** A child's key followed by a path below the child is a path below
      the parent, ending at the same record. */
  lemma PathCons(m: Appmap, e: AppmapEntry, k: string, p: seq<string>)
    requires k in e.children && k in m.entries && ChildPath(m, m.entries[k], p)
    ensures ChildPath(m, e, [k] + p) && Tip(m, [k] + p) == Tip(m, p)
  {
    var q := [k] + p;
    forall j | 0 <= j < |q| ensures q[j] in m.entries {
      if j > 0 { assert q[j] == p[j - 1]; }
    }
    forall j | 0 <= j < |q| - 1 ensures Link(m, q[j], q[j + 1]) {
      if j > 0 { assert q[j] == p[j - 1] && q[j + 1] == p[j]; }
    }
  }

  lemma FirstPathCons(m: Appmap, e: AppmapEntry, p: seq<string>)
    requires |e.children| > 0 && e.children[0] in m.entries && FirstChildPath(m, m.entries[e.children[0]], p)
    ensures FirstChildPath(m, e, [e.children[0]] + p) && Tip(m, [e.children[0]] + p) == Tip(m, p)
  {
    var q := [e.children[0]] + p;
    PathCons(m, e, e.children[0], p);
    forall j | 0 <= j < |q| - 1 ensures FirstLink(m, q[j], q[j + 1]) {
      if j > 0 { assert q[j] == p[j - 1] && q[j + 1] == p[j]; }
    }
  }

  /** A wanted key of a child's subtree is a wanted key of the parent's. */
  lemma SubtreeLift(m: Appmap, e: AppmapEntry, i: nat, x: string, wanted: AppmapEntry -> bool)
    requires i < |e.children| && e.children[i] in m.entries
    requires InSubtree(m, m.entries[e.children[i]], x, wanted)
    ensures InSubtree(m, e, x, wanted)
  {
    var c := m.entries[e.children[i]];
    if x == c.key && wanted(c) {
      assert ChildPath(m, e, [e.children[i]]) && Tip(m, [e.children[i]]) == c;
    } else {
      var p :| ChildPath(m, c, p) && Tip(m, p).key == x && wanted(Tip(m, p));
      PathCons(m, e, e.children[i], p);
    }
  }

  /** A wanted key on the first child's chain is a wanted key on the
      parent's chain. */
  lemma ChainLift(m: Appmap, e: AppmapEntry, x: string, wanted: AppmapEntry -> bool)
    requires |e.children| > 0 && e.children[0] in m.entries
    requires InChain(m, m.entries[e.children[0]], x, wanted)
    ensures InChain(m, e, x, wanted)
  {
    var c := m.entries[e.children[0]];
    if x == c.key && wanted(c) {
      assert FirstChildPath(m, e, [e.children[0]]) && Tip(m, [e.children[0]]) == c;
    } else {
      var p :| FirstChildPath(m, c, p) && Tip(m, p).key == x && wanted(Tip(m, p));
      FirstPathCons(m, e, p);
    }
  }

  /** `_get_all_children_under_obj(obj, child_list)` as written: its loop
      returns from its first iteration, so only the first child of each
      record is ever visited.  `fuel` stands for Python's recursion limit. */
  function ChainHits(m: Appmap, e: AppmapEntry, wanted: AppmapEntry -> bool, acc: seq<string>, fuel: nat)
    : (r: Result<seq<string>>)
    ensures r.Ok? ==> acc <= r.value
    ensures r.Ok? ==> |e.children| > 0 || r.value == acc + Own(e, wanted)
    ensures r.Ok? && wanted(e) ==> |r.value| > |acc| && r.value[|acc|] == e.key
    ensures r.Ok? ==> forall x :: x in r.value[|acc|..] ==> InChain(m, e, x, wanted)
    ensures r.Err? ==> r.fault == KeyFault || r.fault == RecursionLimit
    decreases fuel
  {
    var acc1 := acc + Own(e, wanted);
    if |e.children| == 0 then
      assert acc1[|acc|..] == Own(e, wanted);
      Ok(acc1)
    else if e.children[0] !in m.entries then Err(KeyFault)
    else if fuel == 0 then Err(RecursionLimit)
    else
      var r := ChainHits(m, m.entries[e.children[0]], wanted, acc1, fuel - 1);
      if r.Ok? then ChainStep(m, e, wanted, acc, r.value); r else r
  }

  /** The keys collected below the first child lie on the parent's chain. */
  lemma ChainStep(m: Appmap, e: AppmapEntry, wanted: AppmapEntry -> bool, acc: seq<string>, v: seq<string>)
    requires |e.children| > 0 && e.children[0] in m.entries
    requires acc + Own(e, wanted) <= v
    requires forall x :: x in v[|acc + Own(e, wanted)|..] ==>
                           InChain(m, m.entries[e.children[0]], x, wanted)
    ensures forall x :: x in v[|acc|..] ==> InChain(m, e, x, wanted)
  {
    var own := Own(e, wanted);
    assert v[|acc|..] == own + v[|acc + own|..];
    forall x | x in v[|acc|..] ensures InChain(m, e, x, wanted) {
      if x !in own { ChainLift(m, e, x, wanted); }
    }
  }

  /** When the chain walk succeeds, every wanted record on the first-child
      chain has its key collected. */
  lemma {:induction false} ChainComplete(m: Appmap, e: AppmapEntry, wanted: AppmapEntry -> bool,
                                         acc: seq<string>, fuel: nat, p: seq<string>)
    requires ChainHits(m, e, wanted, acc, fuel).Ok?
    requires FirstChildPath(m, e, p) && wanted(Tip(m, p))
    ensures Tip(m, p).key in ChainHits(m, e, wanted, acc, fuel).value
    decreases |p|
  {
    var c := m.entries[e.children[0]];
    var acc1 := acc + Own(e, wanted);
    var r := ChainHits(m, c, wanted, acc1, fuel - 1);
    assert ChainHits(m, e, wanted, acc, fuel) == r;
    if |p| == 1 {
      assert Tip(m, p) == c && r.value[|acc1|] == c.key;
    } else {
      FirstPathTail(m, e, p);
      ChainComplete(m, c, wanted, acc1, fuel - 1, p[1..]);
    }
  }

  /** The search of the whole subtree below a record, in pre-order. */
  function SubtreeHits(m: Appmap, e: AppmapEntry, wanted: AppmapEntry -> bool, fuel: nat)
    : (r: Result<seq<string>>)
    ensures r.Ok? ==> wanted(e) ==> e.key in r.value
    ensures r.Ok? && wanted(e) ==> r.value[0] == e.key
    ensures r.Ok? ==> forall i :: (0 <= i < |e.children| && e.children[i] in m.entries
                                   && wanted(m.entries[e.children[i]])) ==>
                                  m.entries[e.children[i]].key in r.value
    ensures r.Err? ==> r.fault == KeyFault || r.fault == RecursionLimit
    decreases fuel, 0
  {
    if fuel == 0 then Err(RecursionLimit)
    else
      match ChildrenHits(m, e.children, wanted, fuel - 1)
      case Err(f) => Err(f)
      case Ok(below) =>
        Ok(Own(e, wanted) + below)
  }

  function ChildrenHits(m: Appmap, keys: seq<string>, wanted: AppmapEntry -> bool, fuel: nat)
    : (r: Result<seq<string>>)
    ensures r.Ok? ==> forall i :: (0 <= i < |keys| && keys[i] in m.entries
                                   && wanted(m.entries[keys[i]])) ==>
                                  m.entries[keys[i]].key in r.value
    ensures r.Err? ==> r.fault == KeyFault || r.fault == RecursionLimit
    decreases fuel, 1, |keys|
  {
    if |keys| == 0 then Ok([])
    else if keys[0] !in m.entries then Err(KeyFault)
    else
      match SubtreeHits(m, m.entries[keys[0]], wanted, fuel)
      case Err(f) => Err(f)
      case Ok(first) =>
        match ChildrenHits(m, keys[1..], wanted, fuel)
        case Err(f) => Err(f)
        case Ok(rest) =>
          assert forall i :: 1 <= i < |keys| ==> keys[i] == keys[1..][i - 1];
          Ok(first + rest)
  }

  /** Every key the subtree search collects belongs to a wanted record of
      the subtree. */
  lemma {:induction false} SubtreeSound(m: Appmap, e: AppmapEntry, wanted: AppmapEntry -> bool, fuel: nat)
    requires SubtreeHits(m, e, wanted, fuel).Ok?
    ensures forall x :: x in SubtreeHits(m, e, wanted, fuel).value ==> InSubtree(m, e, x, wanted)
    decreases fuel, 0
  {
    SubtreeUnfold(m, e, wanted, fuel);
    ChildrenSound(m, e.children, wanted, fuel - 1);
    var below := ChildrenHits(m, e.children, wanted, fuel - 1).value;
    forall x | x in SubtreeHits(m, e, wanted, fuel).value ensures InSubtree(m, e, x, wanted) {
      if x !in Own(e, wanted) {
        assert x in below;
        var i :| 0 <= i < |e.children| && e.children[i] in m.entries
                 && InSubtree(m, m.entries[e.children[i]], x, wanted);
        SubtreeLift(m, e, i, x, wanted);
      }
    }
  }

  lemma {:induction false} ChildrenSound(m: Appmap, keys: seq<string>, wanted: AppmapEntry -> bool, fuel: nat)
    requires ChildrenHits(m, keys, wanted, fuel).Ok?
    ensures forall x :: x in ChildrenHits(m, keys, wanted, fuel).value ==>
                          exists i :: 0 <= i < |keys| && keys[i] in m.entries
                                      && InSubtree(m, m.entries[keys[i]], x, wanted)
    decreases fuel, 1, |keys|
  {
    if |keys| > 0 {
      var first := SubtreeHits(m, m.entries[keys[0]], wanted, fuel);
      var rest := ChildrenHits(m, keys[1..], wanted, fuel);
      assert ChildrenHits(m, keys, wanted, fuel).value == first.value + rest.value;
      SubtreeSound(m, m.entries[keys[0]], wanted, fuel);
      ChildrenSound(m, keys[1..], wanted, fuel);
      forall x | x in first.value + rest.value
        ensures exists i :: 0 <= i < |keys| && keys[i] in m.entries && InSubtree(m, m.entries[keys[i]], x, wanted)
      {
        if x !in first.value {
          var j :| 0 <= j < |keys[1..]| && keys[1..][j] in m.entries
                   && InSubtree(m, m.entries[keys[1..][j]], x, wanted);
          assert keys[1..][j] == keys[j + 1];
        }
      }
    }
  }

  /** A successful subtree search holds the subtree search of each child. */
  lemma {:induction false} ChildrenHitsContain(m: Appmap, keys: seq<string>, wanted: AppmapEntry -> bool,
                                               fuel: nat, i: nat)
    requires ChildrenHits(m, keys, wanted, fuel).Ok? && i < |keys|
    ensures keys[i] in m.entries && SubtreeHits(m, m.entries[keys[i]], wanted, fuel).Ok?
    ensures forall x :: x in SubtreeHits(m, m.entries[keys[i]], wanted, fuel).value ==>
                          x in ChildrenHits(m, keys, wanted, fuel).value
    decreases |keys|
  {
    if i > 0 {
      assert keys[1..][i - 1] == keys[i];
      ChildrenHitsContain(m, keys[1..], wanted, fuel, i - 1);
    }
  }

  /** When the subtree search succeeds, every wanted record at any depth
      below has its key collected. */
  lemma {:induction false} SubtreeComplete(m: Appmap, e: AppmapEntry, wanted: AppmapEntry -> bool,
                                           fuel: nat, p: seq<string>)
    requires SubtreeHits(m, e, wanted, fuel).Ok?
    requires ChildPath(m, e, p) && wanted(Tip(m, p))
    ensures Tip(m, p).key in SubtreeHits(m, e, wanted, fuel).value
    decreases |p|
  {
    var i :| 0 <= i < |e.children| && e.children[i] == p[0];
    SubtreeChild(m, e, wanted, fuel, i);
    var c := m.entries[p[0]];
    var t := Tip(m, p).key;
    if |p| == 1 {
      assert Tip(m, p) == c;
    } else {
      PathTail(m, e, p);
      SubtreeComplete(m, c, wanted, fuel - 1, p[1..]);
      assert Tip(m, p[1..]).key == t;
    }
    assert t in SubtreeHits(m, c, wanted, fuel - 1).value;
  }

  /** A successful subtree search holds the subtree search of each child. */
  lemma SubtreeChild(m: Appmap, e: AppmapEntry, wanted: AppmapEntry -> bool, fuel: nat, i: nat)
    requires SubtreeHits(m, e, wanted, fuel).Ok? && i < |e.children|
    ensures fuel > 0 && e.children[i] in m.entries
    ensures SubtreeHits(m, m.entries[e.children[i]], wanted, fuel - 1).Ok?
    ensures forall x :: x in SubtreeHits(m, m.entries[e.children[i]], wanted, fuel - 1).value ==>
                          x in SubtreeHits(m, e, wanted, fuel).value
  {
    SubtreeUnfold(m, e, wanted, fuel);
    ChildrenHitsContain(m, e.children, wanted, fuel - 1, i);
  }

  lemma SubtreeUnfold(m: Appmap, e: AppmapEntry, wanted: AppmapEntry -> bool, fuel: nat)
    requires SubtreeHits(m, e, wanted, fuel).Ok?
    ensures fuel > 0 && ChildrenHits(m, e.children, wanted, fuel - 1).Ok?
    ensures SubtreeHits(m, e, wanted, fuel).value
            == Own(e, wanted) + ChildrenHits(m, e.children, wanted, fuel - 1).value
  {
  }

  /** What a search in either mode looks for: a wanted key in the whole
      subtree, or on the first-child chain only. */
  ghost predicate Under(m: Appmap, e: AppmapEntry, x: string, wanted: AppmapEntry -> bool, fixed: bool) {
    if fixed then InSubtree(m, e, x, wanted) else InChain(m, e, x, wanted)
  }

  /** The paths a search in either mode walks. */
  ghost predicate Reaches(m: Appmap, e: AppmapEntry, p: seq<string>, fixed: bool) {
    if fixed then ChildPath(m, e, p) else FirstChildPath(m, e, p)
  }

  /** A successful chain walk collects nothing exactly when no record on
      the first-child chain is wanted, and it collects every wanted record
      on that chain. */
  lemma ChainExact(m: Appmap, e: AppmapEntry, wanted: AppmapEntry -> bool, fuel: nat)
    requires ChainHits(m, e, wanted, [], fuel).Ok?
    ensures var v := ChainHits(m, e, wanted, [], fuel).value;
            (|v| == 0 <==> forall x :: !Under(m, e, x, wanted, false))
            && (forall x :: x in v ==> Under(m, e, x, wanted, false))
            && forall p :: Reaches(m, e, p, false) && wanted(Tip(m, p)) ==> Tip(m, p).key in v
  {
    var v := ChainHits(m, e, wanted, [], fuel).value;
    assert v[0..] == v;
    forall p | Reaches(m, e, p, false) && wanted(Tip(m, p)) ensures Tip(m, p).key in v {
      ChainComplete(m, e, wanted, [], fuel, p);
    }
    forall x | x in v ensures Under(m, e, x, wanted, false) {
      assert InChain(m, e, x, wanted);
    }
    if |v| == 0 {
      forall x ensures !Under(m, e, x, wanted, false) {
        assert Under(m, e, x, wanted, false) == InChain(m, e, x, wanted);
      }
    } else {
      assert Under(m, e, v[0], wanted, false);
    }
  }

  /** A successful subtree search collects nothing exactly when no record
      of the subtree is wanted, and it collects every wanted record below. */
  lemma SubtreeExact(m: Appmap, e: AppmapEntry, wanted: AppmapEntry -> bool, fuel: nat)
    requires SubtreeHits(m, e, wanted, fuel).Ok?
    ensures var v := SubtreeHits(m, e, wanted, fuel).value;
            (|v| == 0 <==> forall x :: !Under(m, e, x, wanted, true))
            && (forall x :: x in v ==> Under(m, e, x, wanted, true))
            && forall p :: Reaches(m, e, p, true) && wanted(Tip(m, p)) ==> Tip(m, p).key in v
  {
    var v := SubtreeHits(m, e, wanted, fuel).value;
    SubtreeSound(m, e, wanted, fuel);
    forall p | Reaches(m, e, p, true) && wanted(Tip(m, p)) ensures Tip(m, p).key in v {
      SubtreeComplete(m, e, wanted, fuel, p);
    }
    forall x | x in v ensures Under(m, e, x, wanted, true) {
      assert InSubtree(m, e, x, wanted);
    }
    if |v| == 0 {
      forall x ensures !Under(m, e, x, wanted, true) {
        assert Under(m, e, x, wanted, true) == InSubtree(m, e, x, wanted);
      }
    } else {
      assert Under(m, e, v[0], wanted, true);
    }
  }

  /** The search under the parent record: as written it follows first
      children only, and when it finds nothing it reads the unbound
      `_name` (no child name given) or `_role` (no role given) while
      building its message; `fixed` searches the whole subtree and always
      reports the message. */
  function TreeSearch(m: Appmap, parentName: string, childName: string, role: string, fixed: bool)
    : (r: Result<seq<string>>)
    ensures GetObjectInWindow(m, parentName).None? ==> r.Err? && r.fault.TypeFault?
    ensures r.Ok? ==> |r.value| > 0
    ensures fixed && r.Err? ==>
              r.fault.TypeFault? || r.fault == KeyFault || r.fault == RecursionLimit
              || r.fault == ServerError(NotFoundMessage(childName, role, parentName))
    ensures !fixed && r.Err? && r.fault.UnboundName? ==> childName == "" || role == ""
    ensures r.Ok? ==> GetObjectInWindow(m, parentName).Some?
                      && forall x :: x in r.value ==> Under(m, GetObjectInWindow(m, parentName).value, x, TreeTest(childName, role), fixed)
    ensures r.Ok? ==>
              forall p :: Reaches(m, GetObjectInWindow(m, parentName).value, p, fixed) && TreeWanted(Tip(m, p), childName, role) ==>
                            Tip(m, p).key in r.value
    ensures var g := GetObjectInWindow(m, parentName);
            (r.Err? && (r.fault.UnboundName? || r.fault.ServerError?)) <==>
              g.Some? && g.value.key in m.entries
              && (if fixed then SubtreeHits(m, g.value, TreeTest(childName, role), |m.order| + 1).Ok?
                  else ChainHits(m, g.value, TreeTest(childName, role), [], |m.order| + 1).Ok?)
              && forall x :: !Under(m, g.value, x, TreeTest(childName, role), fixed)
    ensures !fixed && r.Err? && r.fault.UnboundName? ==>
              r.fault == UnboundName(if childName == "" then "_name" else "_role")
    ensures !fixed && r.Err? && r.fault.ServerError? ==> childName != "" && role != ""
  {
    match GetObjectInWindow(m, parentName)
    case None => Err(TypeFault("'NoneType' object has no attribute '__getitem__'"))
    case Some(e) =>
      if e.key !in m.entries then Err(KeyFault)
      else
        var fuel := |m.order| + 1;
        var found := if fixed then SubtreeHits(m, e, TreeTest(childName, role), fuel)
                     else ChainHits(m, e, TreeTest(childName, role), [], fuel);
        assert found.Ok? && fixed ==> found == SubtreeHits(m, e, TreeTest(childName, role), fuel);
        assert found.Ok? && !fixed ==> found == ChainHits(m, e, TreeTest(childName, role), [], fuel);
        assert found.Ok? ==>
                 (|found.value| == 0 <==> forall x :: !Under(m, e, x, TreeTest(childName, role), fixed))
                 && (forall x :: x in found.value ==> Under(m, e, x, TreeTest(childName, role), fixed))
                 && forall p :: Reaches(m, e, p, fixed) && TreeWanted(Tip(m, p), childName, role) ==> Tip(m, p).key in found.value by {
          assert forall y :: TreeTest(childName, role)(y) == TreeWanted(y, childName, role);
          if found.Ok? && fixed { SubtreeExact(m, e, TreeTest(childName, role), fuel); }
          if found.Ok? && !fixed { ChainExact(m, e, TreeTest(childName, role), fuel); }
        }
        match found
        case Err(f) => Err(f)
        case Ok(keys) =>
          if |keys| > 0 then Ok(keys)
          else if !fixed && childName == "" then Err(UnboundName("_name"))
          else if !fixed && role == "" then Err(UnboundName("_role"))
          else Err(ServerError(NotFoundMessage(childName, role, parentName)))
  }

  /** Whatever the search as written returns is also returned by the
      whole-subtree search, when both succeed. */
  lemma TreeSearchWithinFixed(m: Appmap, parentName: string, childName: string, role: string)
    requires TreeSearch(m, parentName, childName, role, false).Ok?
    requires TreeSearch(m, parentName, childName, role, true).Ok?
    ensures forall x :: x in TreeSearch(m, parentName, childName, role, false).value ==>
                          x in TreeSearch(m, parentName, childName, role, true).value
  {
    var e := GetObjectInWindow(m, parentName).value;
    forall x | x in TreeSearch(m, parentName, childName, role, false).value
      ensures x in TreeSearch(m, parentName, childName, role, true).value
    {
      assert InChain(m, e, x, TreeTest(childName, role));
      if !(x == e.key && TreeTest(childName, role)(e)) {
        var p :| FirstChildPath(m, e, p) && Tip(m, p).key == x && TreeTest(childName, role)(Tip(m, p));
        assert ChildPath(m, e, p);
      }
    }
  }

  /** The flat loop over every key of the map, for a call without a
      parent or with nothing but a parent. */
  function FlatSearch(m: Appmap, childName: string, role: string, parent: string): (r: Result<seq<string>>)
    requires parent == "" || (childName == "" && role == "")
    ensures r.Ok? ==> |r.value| > 0
    ensures r.Ok? ==> forall k :: k in r.value ==> k in m.entries && FlatWanted(m.entries[k], childName, role)
    ensures forall i :: (0 <= i < |m.order| && m.order[i] in m.entries
                         && FlatWanted(m.entries[m.order[i]], childName, role)) ==>
                        r.Ok? && m.order[i] in r.value
    ensures r.Err? ==> r.fault == ServerError(NotFoundMessage(childName, role, parent))
    ensures r.Ok? && Indexed(m) ==> Distinct(r.value)
  {
    var hits := FlatHits(childName, role, parent);
    var keys := Gather(m, m.order, hits);
    assert forall k :: k in m.entries ==> hits(m.entries[k]) == (if FlatWanted(m.entries[k], childName, role) then 1 else 0) by {
      forall k | k in m.entries
        ensures hits(m.entries[k]) == (if FlatWanted(m.entries[k], childName, role) then 1 else 0) {
        FlatHitsOnce(m.entries[k], childName, role, parent);
      }
    }
    assert forall i :: 0 <= i < |m.order| ==> m.order[i] in m.order;
    if |keys| == 0 then Err(ServerError(NotFoundMessage(childName, role, parent)))
    else Ok(keys)
  }

  /** `getchild(window_name, child_name, role, parent)`.  Spaces in the role
      become underscores.  A parent together with a name or a role selects
      the tree search under the parent; otherwise every key of the window's
      map is matched.  Nothing found raises. */
  function GetChild(apps: seq<Acc>, c: Cache, window: string, childName: string, role: string, parent: string,
                    fixed: bool): (r: Listed)
    ensures GetWindowHandle(apps, window).None? ==> r == Listed(Err(WindowNotFound(window)), c)
    ensures var role1 := ReplaceChar(role, ' ', '_');
            var g := GetWindowHandle(apps, window);
            g.Some? ==>
              var p := AppmapPairs(c, g.value.app, g.value.window, false);
              r.cache == p.cache
              && (parent != "" && (childName != "" || role != "") ==>
                    r.result == TreeSearch(p.appmap, parent, childName, role1, fixed))
              && (!(parent != "" && (childName != "" || role != "")) ==>
                    r.result == FlatSearch(p.appmap, childName, role1, parent))
  {
    match GetWindowHandle(apps, window)
    case None => Listed(Err(WindowNotFound(window)), c)
    case Some(g) => SearchMap(AppmapPairs(c, g.app, g.window, false), childName, role, parent, fixed)
  }

  /** The TypeError of unpacking `None` into two names. */
  const NotIterable := "'NoneType' object is not iterable"

  /** `getchild` as written: both branches unpack the single answer of
      `_get_window_handle` into a handle and a name.  `None` is not
      iterable, and an accessible iterates over its children, so only a
      window of exactly two children unpacks; its first child is then
      searched, with the second child as `force_remap` (an accessible
      counts as true). */
  function GetChildAsWritten(apps: seq<Acc>, c: Cache, window: string, childName: string, role: string,
                             parent: string, fixed: bool): (r: Listed)
    ensures GetWindowHandle(apps, window).None? ==> r == Listed(Err(TypeFault(NotIterable)), c)
    ensures GetWindowHandle(apps, window).Some? ==>
              r == Unpacked(GetWindowHandle(apps, window).value.window, c, window, childName, role, parent, fixed)
  {
    match GetWindowHandle(apps, window)
    case None => Listed(Err(TypeFault(NotIterable)), c)
    case Some(g) => Unpacked(g.window, c, window, childName, role, parent, fixed)
  }

  /** What happens to a found window `w` once `getchild` unpacks it into a
      handle and a name: its children are the two items. */
  function Unpacked(w: Node, c: Cache, window: string, childName: string, role: string, parent: string,
                    fixed: bool): (r: Listed)
    ensures |w.children| != 2 ==> r == Listed(Err(ValueFault), c)
    ensures |w.children| == 2 && w.children[0].Null? ==> r == Listed(Err(WindowNotFound(window)), c)
    ensures |w.children| == 2 && w.children[0].Obj? ==>
              r == SearchMap(AppmapPairs(c, w, w.children[0], w.children[1].Obj?), childName, role, parent, fixed)
    ensures r.result.Ok? ==> |w.children| == 2 && w.children[0].Obj?
  {
    if |w.children| != 2 then Listed(Err(ValueFault), c)
    else if w.children[0].Null? then Listed(Err(WindowNotFound(window)), c)
    else SearchMap(AppmapPairs(c, w, w.children[0], w.children[1].Obj?), childName, role, parent, fixed)
  }

  /** The search `getchild` runs over a window's map, once the map is known:
      under the parent when one is given with a name or a role, otherwise
      over every key. */
  function SearchMap(p: Paired, childName: string, role: string, parent: string, fixed: bool): (r: Listed)
    ensures r.cache == p.cache
    ensures parent != "" && (childName != "" || role != "") ==>
              r.result == TreeSearch(p.appmap, parent, childName, ReplaceChar(role, ' ', '_'), fixed)
    ensures !(parent != "" && (childName != "" || role != "")) ==>
              r.result == FlatSearch(p.appmap, childName, ReplaceChar(role, ' ', '_'), parent)
  {
    var role1 := ReplaceChar(role, ' ', '_');
    assert role1 == "" <==> role == "";
    if parent != "" && (childName != "" || role1 != "") then
      Listed(TreeSearch(p.appmap, parent, childName, role1, fixed), p.cache)
    else
      Listed(FlatSearch(p.appmap, childName, role1, parent), p.cache)
  }

  /** As written, a missing window raises a TypeError, so "Unable to find
      window" is never reported; the corrected command reports it. */
  lemma GetChildAsWrittenMissingWindow(apps: seq<Acc>, c: Cache, window: string, childName: string,
                                       role: string, parent: string)
    requires GetWindowHandle(apps, window).None?
    ensures GetChildAsWritten(apps, c, window, childName, role, parent, true).result == Err(TypeFault(NotIterable))
    ensures GetChild(apps, c, window, childName, role, parent, true).result == Err(WindowNotFound(window))
  {
  }

  /** As written, a found window without exactly two children raises a
      ValueError before any search; the corrected command searches its map,
      which never raises a ValueError. */
  lemma GetChildAsWrittenNeverSearchesTheWindow(apps: seq<Acc>, c: Cache, window: string, childName: string,
                                                role: string, parent: string)
    requires GetWindowHandle(apps, window).Some?
    requires |GetWindowHandle(apps, window).value.window.children| != 2
    ensures GetChildAsWritten(apps, c, window, childName, role, parent, true).result == Err(ValueFault)
    ensures GetChild(apps, c, window, childName, role, parent, true).result != Err(ValueFault)
  {
    var g := GetWindowHandle(apps, window).value;
    assert GetChild(apps, c, window, childName, role, parent, true)
           == SearchMap(AppmapPairs(c, g.app, g.window, false), childName, role, parent, true);
    SearchNeverValueFault(AppmapPairs(c, g.app, g.window, false), childName, role, parent);
  }

  /** The corrected search raises only its own faults, never a ValueError. */
  lemma SearchNeverValueFault(p: Paired, childName: string, role: string, parent: string)
    ensures SearchMap(p, childName, role, parent, true).result != Err(ValueFault)
  {
  }

  // --------------------------------------------------------- selectpanel

  /** A command's integer answer and the cache after it. */
  datatype Done = Done(result: Result<int>, cache: Cache)

  /** A command's text answer and the cache after it. */
  datatype Said = Said(result: Result<string>, cache: Cache)

  /** `selectpanel` once the object is resolved: the object needs
      children, the index must lie in `0..childCount` (the count itself
      passes the range test and then finds no child), and the child must
      take the focus. */
  function PanelSelect(obj: Acc, index: int): (r: Result<int>)
    ensures r.Ok? <==> obj.Obj? && 0 <= index < |obj.children| && obj.children[index].Obj?
                       && obj.children[index].hasComponent
    ensures r.Ok? ==> r.value == 1
    ensures obj.Null? ==> r == Err(AttributeFault)
    ensures obj.Obj? && |obj.children| == 0 ==> r == Err(ServerError("Panel doesn't have any children"))
    ensures obj.Obj? && |obj.children| > 0 && (index < 0 || index > |obj.children|) ==>
              r == Err(ServerError("Invalid index range"))
    ensures obj.Obj? && |obj.children| > 0 && index == |obj.children| ==>
              r == Err(ServerError("Unable to get child at index"))
  {
    if obj.Null? then Err(AttributeFault)
    else
      var count := |obj.children|;
      if count <= 0 then Err(ServerError("Panel doesn't have any children"))
      else if index > count || index < 0 then Err(ServerError("Invalid index range"))
      else
        var child := ChildAt(obj, index);
        if child.Null? then Err(ServerError("Unable to get child at index"))
        else match GrabFocus(child)
          case Err(f) => Err(f)
          case Ok(_) => Ok(1)
  }

  /** `selectpanel(window_name, object_name, index)`. */
  function SelectPanel(apps: seq<Acc>, c: Cache, window: string, name: string, index: int): (r: Done)
    ensures var l := GetObject(apps, c, window, name);
            r.cache == l.cache
            && (l.result.Err? ==> r.result == Err(l.result.fault))
            && (l.result.Ok? ==> r.result == PanelSelect(l.result.value, index))
  {
    var l := GetObject(apps, c, window, name);
    match l.result
    case Err(f) => Done(Err(f), l.cache)
    case Ok(obj) => Done(PanelSelect(obj, index), l.cache)
  }

  // ----------------------------------------------------- check / uncheck

  /** A toggle command's answer, the index of the action it performed if
      it clicked, and the cache after it. */
  datatype Toggled = Toggled(result: Result<int>, action: Option<nat>, cache: Cache)

  const CheckActions: seq<string> := ["click", "press", "activate", "check"]
  const UncheckActions: seq<string> := ["click", "press", "activate", "uncheck"]

  /** A toggle's answer and the index of the action it performed, if it
      clicked. */
  datatype Clicked = Clicked(result: Result<int>, action: Option<nat>)

  /** The shared body of `check` and `uncheck` once the object is
      resolved: focus it, and click with `actions` when its checked state
      is not `target`. */
  function Toggle(obj: Acc, target: bool, actions: seq<string>): (r: Clicked)
    ensures !(obj.Obj? && obj.hasComponent) ==> r.result.Err? && r.result.fault.ServerError? && r.action.None?
    ensures r.result.Ok? ==> r.result.value == 1 && obj.Obj? && obj.hasComponent
    ensures obj.Obj? && obj.hasComponent && (Checked in obj.states) == target ==> r == Clicked(Ok(1), None)
    ensures obj.Obj? && obj.hasComponent && (Checked in obj.states) != target ==>
              (r.action.Some? <==> r.result.Ok?)
              && (r.action.Some? ==> ClickObject(obj, actions) == Ok(r.action.value))
              && (r.result.Err? ==> ClickObject(obj, actions).Err? && r.result.fault == ClickObject(obj, actions).fault)
  {
    match GrabFocus(obj)
    case Err(f) => Clicked(Err(f), None)
    case Ok(_) =>
      if CheckState(obj, Checked) == Ok(!target) then
        match ClickObject(obj, actions)
        case Err(f) => Clicked(Err(f), None)
        case Ok(i) => Clicked(Ok(1), Some(i))
      else Clicked(Ok(1), None)
  }

  /** `check(window_name, object_name)`: clicks only an unchecked object. */
  function Check(apps: seq<Acc>, c: Cache, window: string, name: string): (r: Toggled)
    ensures var l := GetObject(apps, c, window, name);
            r.cache == l.cache
            && (l.result.Err? ==> r.result == Err(l.result.fault) && r.action.None?)
            && (l.result.Ok? ==> Clicked(r.result, r.action) == Toggle(l.result.value, true, CheckActions))
  {
    var l := GetObject(apps, c, window, name);
    match l.result
    case Err(f) => Toggled(Err(f), None, l.cache)
    case Ok(obj) => var t := Toggle(obj, true, CheckActions); Toggled(t.result, t.action, l.cache)
  }

  /** `uncheck(window_name, object_name)`: clicks only a checked object. */
  function Uncheck(apps: seq<Acc>, c: Cache, window: string, name: string): (r: Toggled)
    ensures var l := GetObject(apps, c, window, name);
            r.cache == l.cache
            && (l.result.Err? ==> r.result == Err(l.result.fault) && r.action.None?)
            && (l.result.Ok? ==> Clicked(r.result, r.action) == Toggle(l.result.value, false, UncheckActions))
  {
    var l := GetObject(apps, c, window, name);
    match l.result
    case Err(f) => Toggled(Err(f), None, l.cache)
    case Ok(obj) => var t := Toggle(obj, false, UncheckActions); Toggled(t.result, t.action, l.cache)
  }

  /** On an object that takes the focus, exactly one of `check` and
      `uncheck` tries to click it, and the one that does not succeeds. */
  lemma CheckUncheckComplementary(apps: seq<Acc>, c: Cache, window: string, name: string)
    requires var l := GetObject(apps, c, window, name);
             l.result.Ok? && l.result.value.Obj? && l.result.value.hasComponent
    ensures var obj := GetObject(apps, c, window, name).result.value;
            (Checked in obj.states ==> Check(apps, c, window, name).result == Ok(1)
                                       && Check(apps, c, window, name).action.None?)
            && (Checked !in obj.states ==> Uncheck(apps, c, window, name).result == Ok(1)
                                           && Uncheck(apps, c, window, name).action.None?)
  {
  }

  /** The action `check` performs is the first one whose name starts with
      one of its four words. */
  lemma CheckClicksFirstMatchingAction(apps: seq<Acc>, c: Cache, window: string, name: string)
    requires var l := GetObject(apps, c, window, name);
             l.result.Ok? && l.result.value.Obj? && l.result.value.hasComponent
             && Checked !in l.result.value.states
    ensures var obj := GetObject(apps, c, window, name).result.value;
            var r := Check(apps, c, window, name);
            r.action.Some? ==>
              obj.actions.Some? && r.action.value < |obj.actions.value|
              && ActionMatches(CheckActions, obj.actions.value[r.action.value])
              && forall k :: 0 <= k < r.action.value ==> !ActionMatches(CheckActions, obj.actions.value[k])
  {
  }

  /** A panel `pnl0` holding a label `lbl0` and then a button `btn0`. */
  function Leaf(key: string, className: string, index: int): AppmapEntry {
    AppmapEntry(key, "pnl0", className, index, [], "", "", "", "")
  }

  const PanelEntry := AppmapEntry("pnl0", "frmX", "panel", 0, ["lbl0", "btn0"], "", "", "", "")

  const PanelMap := Appmap(map["pnl0" := PanelEntry, "lbl0" := Leaf("lbl0", "label", 0),
                               "btn0" := Leaf("btn0", "push_button", 1)],
                           ["pnl0", "lbl0", "btn0"])

  lemma PanelShape()
    ensures "pnl0" in PanelMap.entries && PanelMap.entries["pnl0"] == PanelEntry
    ensures |PanelMap.order| + 1 == 4 && PanelMap.order[0] == "pnl0"
    ensures PanelMap.entries["lbl0"] == Leaf("lbl0", "label", 0)
    ensures PanelMap.entries["btn0"] == Leaf("btn0", "push_button", 1)
  {
  }

  lemma PanelFound()
    ensures GetObjectInWindow(PanelMap, "pnl0") == Some(PanelEntry)
    ensures "pnl0" in PanelMap.entries && |PanelMap.order| + 1 == 4
    ensures PanelMap.entries["lbl0"] == Leaf("lbl0", "label", 0)
    ensures PanelMap.entries["btn0"] == Leaf("btn0", "push_button", 1)
  {
    PanelShape();
    assert NoMeta("pnl0");
    FoundByOwnNames(PanelEntry);
    assert FirstMatchingKey(PanelMap, "pnl0", 0) == Some("pnl0");
  }

  /** Neither the panel nor the label answers to `btn0`. */
  lemma NotNamedButton()
    ensures !MatchNameToAppmap("btn0", PanelEntry)
    ensures !MatchNameToAppmap("btn0", Leaf("lbl0", "label", 0))
  {
    assert forall i :: 0 <= i < |"btn0"| ==> "btn0"[i] !in OtherStrip;
    assert Strip("btn0", OtherStrip) == "btn0";
    assert ClassStripSet("panel") == OtherStrip && ClassStripSet("label") == OtherStrip;
    LiteralAppmapMatch("btn0", PanelEntry);
    LiteralAppmapMatch("btn0", Leaf("lbl0", "label", 0));
  }

  /** Asking for the button by role and name under the panel: the search as
      written looks at the panel and its first child only, so it reports
      nothing found. */
  lemma TreeSearchMissesLaterChildren()
    ensures TreeSearch(PanelMap, "pnl0", "btn0", "push_button", false)
            == Err(ServerError(NotFoundMessage("btn0", "push_button", "pnl0")))
  {
    PanelFound();
    NotNamedButton();
    assert Own(PanelEntry, TreeTest("btn0", "push_button")) == [];
    assert Own(Leaf("lbl0", "label", 0), TreeTest("btn0", "push_button")) == [];
    assert ChainHits(PanelMap, Leaf("lbl0", "label", 0), TreeTest("btn0", "push_button"), [], 3) == Ok([]);
    assert ChainHits(PanelMap, PanelEntry, TreeTest("btn0", "push_button"), [], 4) == Ok([]);
  }

  /** The whole-subtree search finds it. */
  lemma TreeSearchFixedFindsLaterChildren()
    ensures var r := TreeSearch(PanelMap, "pnl0", "btn0", "push_button", true);
            r.Ok? && "btn0" in r.value
  {
    PanelFound();
    var btn := Leaf("btn0", "push_button", 1);
    var lbl := Leaf("lbl0", "label", 0);
    assert TreeWanted(btn, "btn0", "push_button");
    assert ChildrenHits(PanelMap, [], TreeTest("btn0", "push_button"), 1) == Ok([]);
    assert SubtreeHits(PanelMap, lbl, TreeTest("btn0", "push_button"), 2).Ok?;
    assert SubtreeHits(PanelMap, btn, TreeTest("btn0", "push_button"), 2).Ok?;
    assert ChildrenHits(PanelMap, ["btn0"], TreeTest("btn0", "push_button"), 2).Ok?;
    assert PanelEntry.children[1..] == ["btn0"];
    assert ChildrenHits(PanelMap, PanelEntry.children, TreeTest("btn0", "push_button"), 2).Ok?;
    assert PanelEntry.children[1] == "btn0";
    assert SubtreeHits(PanelMap, PanelEntry, TreeTest("btn0", "push_button"), 3).Ok?;
  }

  /** A role-only search under the panel that finds nothing raises
      UnboundLocalError instead of the not-found message. */
  lemma TreeSearchUnboundName()
    ensures TreeSearch(PanelMap, "pnl0", "", "check_box", false) == Err(UnboundName("_name"))
  {
    PanelFound();
    assert Own(PanelEntry, TreeTest("", "check_box")) == [];
    assert Own(Leaf("lbl0", "label", 0), TreeTest("", "check_box")) == [];
    assert ChainHits(PanelMap, Leaf("lbl0", "label", 0), TreeTest("", "check_box"), [], 3) == Ok([]);
    assert ChainHits(PanelMap, PanelEntry, TreeTest("", "check_box"), [], 4) == Ok([]);
  }

  /** The corrected search reports the message. */
  lemma TreeSearchFixedMessage()
    ensures TreeSearch(PanelMap, "pnl0", "", "check_box", true)
            == Err(ServerError(NotFoundMessage("", "check_box", "pnl0")))
  {
    PanelFound();
    var btn := Leaf("btn0", "push_button", 1);
    var lbl := Leaf("lbl0", "label", 0);
    assert Own(PanelEntry, TreeTest("", "check_box")) == [];
    assert Own(lbl, TreeTest("", "check_box")) == [];
    assert Own(btn, TreeTest("", "check_box")) == [];
    assert ChildrenHits(PanelMap, lbl.children, TreeTest("", "check_box"), 1) == Ok([]);
    assert Own(lbl, TreeTest("", "check_box")) + [] == [];
    assert SubtreeHits(PanelMap, lbl, TreeTest("", "check_box"), 2) == Ok([]);
    assert SubtreeHits(PanelMap, btn, TreeTest("", "check_box"), 2) == Ok([]);
    assert ChildrenHits(PanelMap, ["btn0"], TreeTest("", "check_box"), 2) == Ok([]);
    assert PanelEntry.children[1..] == ["btn0"];
    assert ChildrenHits(PanelMap, PanelEntry.children, TreeTest("", "check_box"), 2) == Ok([]);
    assert SubtreeHits(PanelMap, PanelEntry, TreeTest("", "check_box"), 3) == Ok([]);
  }
}

=== FILE: events.dfy ===
/** The event bookkeeping of the daemon class in ldtpd/core.py: the queue
    `poll_events` drains, the keyboard listener with its registered key
    codes and modifiers, the `onwindowcreate` callbacks, and the table of
    window creation and destruction times that `windowuptime` reads.

    The daemon is one record; every callback and command is a function from
    the record before to the record after.  The clock is a parameter: `now`
    is the `time.strftime("%Y %m %d %H %M %S")` string of the moment.
 */
module CoreEvents {
  import opened Wrappers
  import opened Strings
  import opened Glob
  import opened Access
  import opened Naming
  import opened Seqs
  import Resolver

  /** The window table: window synthetic name to the list
      `[source name, creation time, destruction times...]`; `order` is the
      insertion order of its keys, the order `windowuptime` walks. */
  datatype Uptime = Uptime(order: seq<string>, records: map<string, seq<string>>)

  /** `_callback_event`, `_kb_timestamp`, `_kb_entries`, `_kb_modifiers`,
      the keys of `_callback` (each key is its own value) and
      `_window_uptime`. */
  datatype Daemon = Daemon(
    events: seq<string>, kbTimestamp: Option<int>, kbEntries: seq<int>,
    kbModifiers: seq<int>, callbacks: seq<string>, uptime: Uptime)

  /** The state `__init__` leaves. */
  const Started := Daemon([], None, [], [], [], Uptime([], map[]))

  /** The keys listed by `order` are exactly the table's keys, once each. */
  ghost predicate UptimeIndexed(u: Uptime) {
    (forall k :: k in u.records <==> k in u.order) && Distinct(u.order)
  }

  // ---------------------------------------------------------------- queue

  datatype Popped = Popped(value: string, rest: seq<string>)

  /** `poll_events` and `getlastlog`: `''` on an empty list, else
      `list.pop()`. */
  function Pop(log: seq<string>): (r: Popped)
    ensures |log| == 0 ==> r == Popped("", log)
    ensures |log| > 0 ==> |r.rest| == |log| - 1 && r.rest + [r.value] == log
  {
    if |log| == 0 then Popped("", log)
    else
      assert log == log[..|log| - 1] + [log[|log| - 1]];
      Popped(log[|log| - 1], log[..|log| - 1])
  }

  /** The newest entry is the first one polled. */
  lemma PopAfterAppend(log: seq<string>, x: string)
    ensures Pop(log + [x]) == Popped(x, log)
  {
    assert (log + [x])[..|log|] == log;
  }

  /** What `n` successive polls return. */
  function Drain(log: seq<string>, n: nat): (r: seq<string>)
    ensures |r| == n
  {
    if n == 0 then [] else var p := Pop(log); [p.value] + Drain(p.rest, n - 1)
  }

  /** Polling as often as there are entries yields them newest first. */
  lemma {:induction false} DrainReverses(log: seq<string>)
    ensures Drain(log, |log|) == Resolver.Reverse(log)
  {
    if |log| > 0 {
      var p := Pop(log);
      DrainReverses(p.rest);
      assert p.rest == log[..|log| - 1];
      var r := Drain(log, |log|);
      forall i | 0 <= i < |log| ensures r[i] == Resolver.Reverse(log)[i] {
        if i > 0 {
          assert r[i] == Drain(p.rest, |log| - 1)[i - 1];
        }
      }
    }
  }

  /** Once the queue is empty every poll returns `''`. */
  lemma {:induction false} DrainPastEnd(log: seq<string>, n: nat, i: nat)
    requires |log| <= i < n
    ensures Drain(log, n)[i] == ""
  {
    if |log| == 0 {
      if i > 0 { DrainPastEnd(log, n - 1, i - 1); }
    } else {
      DrainPastEnd(Pop(log).rest, n - 1, i - 1);
    }
  }

  // ------------------------------------------------------------- keyboard

  /** A pyatspi keystroke event. */
  datatype KbEvent = KbEvent(timestamp: int, modifiers: int, hwCode: int, eventString: string)

  /** The queue entry `u"kbevent-%s-%d" % (event_string, modifiers)`. */
  function KbEntry(e: KbEvent): (s: string)
    ensures StartsWith(s, "kbevent-")
  {
    assert ("kbevent-" + e.eventString + "-" + IntToString(e.modifiers))[..8] == "kbevent-";
    "kbevent-" + e.eventString + "-" + IntToString(e.modifiers)
  }

  /** Whether `_registered_kb_event_cb` logs the event: a new timestamp, and
      both its modifiers and its key code registered. */
  predicate Fires(d: Daemon, e: KbEvent) {
    Some(e.timestamp) != d.kbTimestamp && e.modifiers in d.kbModifiers && e.hwCode in d.kbEntries
  }

  /** `_registered_kb_event_cb(event)`; a `None` event changes nothing. */
  function KbCallback(d: Daemon, ev: Option<KbEvent>): (r: Daemon)
    ensures ev.None? ==> r == d
    ensures ev.Some? ==> r.kbTimestamp == Some(ev.value.timestamp)
    ensures r.kbEntries == d.kbEntries && r.kbModifiers == d.kbModifiers
    ensures r.callbacks == d.callbacks && r.uptime == d.uptime
    ensures ev.Some? && Fires(d, ev.value) ==> r.events == d.events + [KbEntry(ev.value)]
    ensures !(ev.Some? && Fires(d, ev.value)) ==> r.events == d.events
  {
    match ev
    case None => d
    case Some(e) =>
      if Some(e.timestamp) == d.kbTimestamp then d
      else
        var d1 := d.(kbTimestamp := Some(e.timestamp));
        if e.modifiers in d.kbModifiers && e.hwCode in d.kbEntries
        then d1.(events := d.events + [KbEntry(e)])
        else d1
  }

  /** The same keystroke delivered to several listeners is logged once. */
  lemma RepeatedKeystrokeLoggedOnce(d: Daemon, e: KbEvent)
    ensures KbCallback(KbCallback(d, Some(e)), Some(e)) == KbCallback(d, Some(e))
  {
  }

  /** `registerkbevent(keys, modifiers)`, the key codes of `keys` given as
      `keyvals`: the codes are appended, the modifiers only when non-zero. */
  function RegisterKb(d: Daemon, keyvals: seq<int>, modifiers: int): (r: Daemon)
    ensures r.kbEntries == d.kbEntries + keyvals
    ensures modifiers != 0 ==> r.kbModifiers == d.kbModifiers + [modifiers]
    ensures modifiers == 0 ==> r.kbModifiers == d.kbModifiers
    ensures r.events == d.events && r.kbTimestamp == d.kbTimestamp
    ensures r.callbacks == d.callbacks && r.uptime == d.uptime
  {
    d.(kbEntries := d.kbEntries + keyvals,
       kbModifiers := if modifiers != 0 then d.kbModifiers + [modifiers] else d.kbModifiers)
  }

  /** The registration that always records the modifiers, zero included. */
  function RegisterKbFixed(d: Daemon, keyvals: seq<int>, modifiers: int): (r: Daemon)
    ensures r.kbEntries == d.kbEntries + keyvals
    ensures r.kbModifiers == d.kbModifiers + [modifiers]
    ensures r.events == d.events && r.kbTimestamp == d.kbTimestamp
    ensures r.callbacks == d.callbacks && r.uptime == d.uptime
  {
    d.(kbEntries := d.kbEntries + keyvals, kbModifiers := d.kbModifiers + [modifiers])
  }

  /** `deregisterkbevent(keys, modifiers)`: one occurrence of the modifiers
      and one of each key code go, where present. */
  function DeregisterKb(d: Daemon, keyvals: seq<int>, modifiers: int): (r: Daemon)
    ensures r.kbModifiers == RemoveFirst(d.kbModifiers, modifiers)
    ensures multiset(r.kbEntries) == multiset(d.kbEntries) - multiset(keyvals)
    ensures multiset(keyvals) <= multiset(d.kbEntries) ==>
              multiset(r.kbEntries) + multiset(keyvals) == multiset(d.kbEntries)
    ensures r.events == d.events && r.kbTimestamp == d.kbTimestamp
    ensures r.callbacks == d.callbacks && r.uptime == d.uptime
  {
    assert multiset(keyvals) <= multiset(d.kbEntries) ==>
             multiset(RemoveEach(d.kbEntries, keyvals)) + multiset(keyvals) == multiset(d.kbEntries) by {
      if multiset(keyvals) <= multiset(d.kbEntries) {
        RemoveEachExact(d.kbEntries, keyvals);
      }
    }
    RemoveEachDiff(d.kbEntries, keyvals);
    d.(kbModifiers := RemoveFirst(d.kbModifiers, modifiers), kbEntries := RemoveEach(d.kbEntries, keyvals))
  }

  /** Deregistering what was just registered restores the registered codes
      and modifiers, up to order. */
  lemma RegisterThenDeregister(d: Daemon, keyvals: seq<int>, modifiers: int)
    requires modifiers != 0 || modifiers !in d.kbModifiers
    ensures var r := DeregisterKb(RegisterKb(d, keyvals, modifiers), keyvals, modifiers);
            multiset(r.kbEntries) == multiset(d.kbEntries)
            && multiset(r.kbModifiers) == multiset(d.kbModifiers)
  {
    RemoveEachAppended(d.kbEntries, keyvals);
    if modifiers != 0 {
      RemoveFirstAppended(d.kbModifiers, modifiers);
    }
  }

  /** A keystroke whose code and non-zero modifiers were registered is
      logged. */
  lemma RegisteredKeystrokeLogged(d: Daemon, keyvals: seq<int>, e: KbEvent)
    requires e.modifiers != 0 && e.hwCode in keyvals && Some(e.timestamp) != d.kbTimestamp
    ensures KbCallback(RegisterKb(d, keyvals, e.modifiers), Some(e)).events == d.events + [KbEntry(e)]
  {
  }

  /** A registration with the default modifiers 0 never records them, so a
      keystroke without modifiers is never logged, however its key was
      registered. */
  lemma UnmodifiedKeystrokeNeverLogged(d: Daemon, keyvals: seq<int>, e: KbEvent)
    requires 0 !in d.kbModifiers && e.modifiers == 0
    ensures KbCallback(RegisterKb(d, keyvals, 0), Some(e)).events == d.events
  {
  }

  /** With the modifiers always recorded, a registered keystroke is logged
      whatever its modifiers. */
  lemma RegisteredKeystrokeLoggedFixed(d: Daemon, keyvals: seq<int>, e: KbEvent)
    requires e.hwCode in keyvals && Some(e.timestamp) != d.kbTimestamp
    ensures KbCallback(RegisterKbFixed(d, keyvals, e.modifiers), Some(e)).events == d.events + [KbEntry(e)]
  {
  }

  // ---------------------------------------------------- window callbacks

  /** `onwindowcreate(window_name)`: the name becomes a callback key; an
      existing key keeps its place. */
  function OnWindowCreate(d: Daemon, w: string): (r: Daemon)
    ensures w in r.callbacks
    ensures w in d.callbacks ==> r == d
    ensures forall x :: x in r.callbacks <==> x in d.callbacks || x == w
    ensures Distinct(d.callbacks) ==> Distinct(r.callbacks)
    ensures r.events == d.events && r.uptime == d.uptime
    ensures r.kbEntries == d.kbEntries && r.kbModifiers == d.kbModifiers && r.kbTimestamp == d.kbTimestamp
  {
    if w in d.callbacks then d else d.(callbacks := d.callbacks + [w])
  }

  /** `removecallback(window_name)`. */
  function RemoveCallback(d: Daemon, w: string): (r: Daemon)
    ensures w !in r.callbacks
    ensures forall x :: x in r.callbacks <==> x in d.callbacks && x != w
    ensures Distinct(d.callbacks) ==> Distinct(r.callbacks)
    ensures r.events == d.events && r.uptime == d.uptime
    ensures r.kbEntries == d.kbEntries && r.kbModifiers == d.kbModifiers && r.kbTimestamp == d.kbTimestamp
  {
    assert Distinct(d.callbacks) ==> Distinct(Without(d.callbacks, w)) by {
      if Distinct(d.callbacks) {
        WithoutDistinct(d.callbacks, w);
      }
    }
    d.(callbacks := Without(d.callbacks, w))
  }

  /** Registering a new callback and removing it again restores the
      callbacks exactly. */
  lemma CallbackRoundTrip(d: Daemon, w: string)
    requires w !in d.callbacks
    ensures RemoveCallback(OnWindowCreate(d, w), w).callbacks == d.callbacks
  {
    WithoutAppended(d.callbacks, w);
  }

  /** An at-spi event: its type, its source (`None` possible) and its
      `source_name`. */
  datatype AtspiEvent = AtspiEvent(kind: string, source: Acc, sourceName: string)

  /** The queue entry for a callback name. */
  function CreateNotice(w: string): (s: string)
    ensures StartsWith(s, "onwindowcreate-")
  {
    assert ("onwindowcreate-" + w)[..15] == "onwindowcreate-";
    "onwindowcreate-" + w
  }

  /** Whether a callback name is notified of `source`: a non-empty name
      that matches it. */
  function Wanted(source: Node): string -> bool {
    (w: string) => w != "" && MatchNameToAcc(w, source)
  }

  /** The queue entries one window creation produces, in callback order:
      one per callback name that wants the new window, and no other. */
  function Notices(callbacks: seq<string>, wanted: string -> bool): (r: seq<string>)
    ensures |r| <= |callbacks|
    ensures forall w :: CreateNotice(w) in r <==> w in callbacks && wanted(w)
    ensures forall i :: 0 <= i < |r| ==> exists w :: w in callbacks && wanted(w) && r[i] == CreateNotice(w)
    ensures Distinct(callbacks) ==> Distinct(r)
  {
    var hits := Filter(callbacks, wanted);
    assert Distinct(callbacks) ==> Distinct(Prefixed(hits)) by {
      if Distinct(callbacks) {
        FilterDistinct(callbacks, wanted);
        PrefixedDistinct(hits);
      }
    }
    assert forall w :: CreateNotice(w) in Prefixed(hits) ==> w in hits by {
      forall w | CreateNotice(w) in Prefixed(hits) ensures w in hits {
        var i :| 0 <= i < |hits| && Prefixed(hits)[i] == CreateNotice(w);
        NoticeInjective(hits[i], w);
      }
    }
    Prefixed(hits)
  }

  function Prefixed(ws: seq<string>): (r: seq<string>)
    ensures |r| == |ws|
    ensures forall i :: 0 <= i < |ws| ==> r[i] == CreateNotice(ws[i])
  {
    if |ws| == 0 then [] else [CreateNotice(ws[0])] + Prefixed(ws[1..])
  }

  /** Distinct names give distinct queue entries. */
  lemma PrefixedDistinct(ws: seq<string>)
    requires Distinct(ws)
    ensures Distinct(Prefixed(ws))
  {
    var r := Prefixed(ws);
    forall i, j | 0 <= i < j < |r| ensures r[i] != r[j] {
      if r[i] == r[j] {
        NoticeInjective(ws[i], ws[j]);
      }
    }
  }

  /** `d[k] = v` on the window table. */
  function Put(u: Uptime, k: string, v: seq<string>): (r: Uptime)
    ensures r.records == u.records[k := v]
    ensures UptimeIndexed(u) ==> UptimeIndexed(r)
  {
    if k in u.records then Uptime(u.order, u.records[k := v])
    else
      assert UptimeIndexed(u) ==> Distinct(u.order + [k]);
      Uptime(u.order + [k], u.records[k := v])
  }

  /** `_event_cb(event)`: a window creation notifies every matching
      callback and starts the window's record afresh; a destruction of a
      known window stamps its record. */
  function WindowEventCb(d: Daemon, ev: Option<AtspiEvent>, now: string): (r: Daemon)
    ensures r.callbacks == d.callbacks && r.kbTimestamp == d.kbTimestamp
    ensures r.kbEntries == d.kbEntries && r.kbModifiers == d.kbModifiers
    ensures UptimeIndexed(d.uptime) ==> UptimeIndexed(r.uptime)
    ensures ev.Some? && ev.value.kind == "window:create" && ev.value.source.Obj? ==>
              var src: Node := ev.value.source;
              r.events == d.events + Notices(d.callbacks, Wanted(src))
              && r.uptime.records == d.uptime.records[SyntheticName(src) := [ev.value.sourceName, now]]
    ensures ev.Some? && ev.value.kind == "window:destroy" && ev.value.source.Obj? ==>
              var key := SyntheticName(ev.value.source);
              r.events == d.events
              && (key in d.uptime.records ==> r.uptime.records == d.uptime.records[key := d.uptime.records[key] + [now]])
              && (key !in d.uptime.records ==> r.uptime == d.uptime)
    ensures ev.None? || ev.value.source.Null? || ev.value.kind !in {"window:create", "window:destroy"} ==> r == d
  {
    match ev
    case None => d
    case Some(e) =>
      if e.source.Null? then d
      else if e.kind == "window:create" then
        d.(events := d.events + Notices(d.callbacks, Wanted(e.source)),
           uptime := Put(d.uptime, SyntheticName(e.source), [e.sourceName, now]))
      else if e.kind == "window:destroy" then
        var key := SyntheticName(e.source);
        if key in d.uptime.records then d.(uptime := Put(d.uptime, key, d.uptime.records[key] + [now]))
        else d
      else d
  }

  /** `_registered_event_cb(event)`: an event with a source and a type is
      queued as `type-name`. */
  function RegisteredEventCb(d: Daemon, ev: Option<AtspiEvent>): (r: Daemon)
    ensures ev.Some? && ev.value.source.Obj? && ev.value.kind != "" ==>
              r.events == d.events + [ev.value.kind + "-" + SyntheticName(ev.value.source)]
    ensures !(ev.Some? && ev.value.source.Obj? && ev.value.kind != "") ==> r.events == d.events
    ensures r == d.(events := r.events)
  {
    match ev
    case Some(e) =>
      if e.source.Obj? && e.kind != "" then d.(events := d.events + [e.kind + "-" + SyntheticName(e.source)])
      else d
    case None => d
  }

  /** A callback registered under a window's own name is notified when the
      window appears: the creation queues `onwindowcreate-name`. */
  lemma CallbackNotifiedOnCreate(d: Daemon, src: Node, sourceName: string, now: string)
    requires src.name != ""
    ensures var d1 := WindowEventCb(OnWindowCreate(d, src.name), Some(AtspiEvent("window:create", src, sourceName)), now);
            CreateNotice(src.name) in d1.events
  {
    MatchesOwnName(src);
    assert Wanted(src)(src.name);
  }

  /** A removed callback is not notified. */
  lemma RemovedCallbackSilent(d: Daemon, w: string, src: Node, sourceName: string, now: string)
    ensures var d1 := RemoveCallback(d, w);
            var d2 := WindowEventCb(d1, Some(AtspiEvent("window:create", src, sourceName)), now);
            forall i :: |d1.events| <= i < |d2.events| ==> d2.events[i] != CreateNotice(w)
  {
    var d1 := RemoveCallback(d, w);
    var ns := Notices(d1.callbacks, Wanted(src));
    NoNoticeFor(d1.callbacks, Wanted(src), w);
    var d2 := WindowEventCb(d1, Some(AtspiEvent("window:create", src, sourceName)), now);
    assert d2.events == d1.events + ns;
    AppendedWithout(d1.events, ns, CreateNotice(w));
  }

  /** A name that is not a callback gets no notice. */
  lemma NoNoticeFor(callbacks: seq<string>, wanted: string -> bool, w: string)
    requires w !in callbacks
    ensures CreateNotice(w) !in Notices(callbacks, wanted)
  {
  }

  /** Past the old queue, the entries are those appended. */
  lemma AppendedWithout(before: seq<string>, ns: seq<string>, x: string)
    requires x !in ns
    ensures forall i :: |before| <= i < |before + ns| ==> (before + ns)[i] != x
  {
    forall i | |before| <= i < |before + ns| ensures (before + ns)[i] != x {
      assert (before + ns)[i] == ns[i - |before|];
    }
  }

  lemma NoticeInjective(x: string, y: string)
    requires CreateNotice(x) == CreateNotice(y)
    ensures x == y
  {
    assert x == CreateNotice(x)[15..];
    assert y == CreateNotice(y)[15..];
  }

  // ------------------------------------------------------------ uptime

  /** `'%s-%s' % (record[1], record[2])`; a record too short raises
      IndexError. */
  function Span(rec: seq<string>): (r: Result<string>)
    ensures |rec| >= 3 <==> r.Ok?
    ensures r.Ok? ==> r.value == rec[1] + "-" + rec[2]
    ensures r.Err? ==> r.fault == IndexFault
  {
    if |rec| >= 3 then Ok(rec[1] + "-" + rec[2]) else Err(IndexFault)
  }

  /** Whether the glob loop of `windowuptime` stops at window `w`: the
      pattern matches the window's name or the record's source name. */
  predicate Selects(name: string, w: string, rec: seq<string>) {
    GlobMatch(name, w) || (|rec| >= 1 && GlobMatch(name, rec[0]))
  }

  /** A test the `windowuptime` loop applies to a window and its record. */
  type WindowTest = (string, seq<string>) -> bool

  /** Where the glob loop of `windowuptime` stops: a window the pattern
      selects, or one whose record is empty, where reading the source name
      raises. */
  function StopTest(name: string): WindowTest {
    (w: string, rec: seq<string>) => GlobMatch(name, w) || |rec| == 0 || GlobMatch(name, rec[0])
  }

  /** Where the corrected loop stops: a selected window whose record is
      complete. */
  function CompleteTest(name: string): WindowTest {
    (w: string, rec: seq<string>) => |rec| >= 3 && Selects(name, w, rec)
  }

  /** Position `j` holds the first recorded window from `i` on that passes
      `test`, in the table's order. */
  predicate FirstAt(u: Uptime, test: WindowTest, i: nat, j: int) {
    i <= j < |u.order| && u.order[j] in u.records && test(u.order[j], u.records[u.order[j]])
    && forall k :: i <= k < j && u.order[k] in u.records ==> !test(u.order[k], u.records[u.order[k]])
  }

  /** What the loop answers at the window it stops at: the lifetime when the
      window is selected, IndexError when its empty record was read. */
  function StopOutcome(name: string, w: string, rec: seq<string>): Result<string> {
    if Selects(name, w, rec) then Span(rec) else Err(IndexFault)
  }

  /** A lifetime text is never empty: it holds the `-` between the stamps. */
  lemma SpanNotEmpty(rec: seq<string>)
    ensures |rec| >= 3 ==> Span(rec).Ok? && Span(rec).value != ""
  {
    if |rec| >= 3 {
      assert Span(rec).value[|rec[1]|] == '-';
    }
  }

  /** `windowuptime(window_name)` as written: an exact key with exactly
      three entries answers at once; otherwise the first window the glob
      selects answers, raising IndexError when its record holds fewer than
      three entries (a window still open); no window selected gives `''`. */
  function WindowUptime(u: Uptime, name: string): (r: Result<string>)
    ensures name in u.records && |u.records[name]| == 3 ==> r == Span(u.records[name])
    ensures !(name in u.records && |u.records[name]| == 3) && r != Ok("") ==>
              exists j :: FirstAt(u, StopTest(name), 0, j)
                          && r == StopOutcome(name, u.order[j], u.records[u.order[j]])
    ensures r.Ok? && r.value != "" ==>
              exists w :: w in u.records && |u.records[w]| >= 3 && r == Span(u.records[w])
    ensures r.Err? ==> r.fault == IndexFault
    ensures r == Ok("") ==>
              forall i :: 0 <= i < |u.order| && u.order[i] in u.records ==>
                !Selects(name, u.order[i], u.records[u.order[i]])
  {
    if name in u.records && |u.records[name]| == 3 then Span(u.records[name])
    else UptimeScan(u, name, 0)
  }

  function UptimeScan(u: Uptime, name: string, i: nat): (r: Result<string>)
    requires i <= |u.order|
    ensures r != Ok("") ==>
              exists j :: FirstAt(u, StopTest(name), i, j)
                          && r == StopOutcome(name, u.order[j], u.records[u.order[j]])
    ensures r == Ok("") <==>
              forall j :: i <= j < |u.order| && u.order[j] in u.records ==>
                !StopTest(name)(u.order[j], u.records[u.order[j]])
    ensures r.Err? ==> r.fault == IndexFault
    decreases |u.order| - i
  {
    if i == |u.order| then Ok("")
    else
      var w := u.order[i];
      if w !in u.records then
        var r := UptimeScan(u, name, i + 1);
        assert r != Ok("") ==> exists j :: FirstAt(u, StopTest(name), i, j)
                                           && r == StopOutcome(name, u.order[j], u.records[u.order[j]]) by {
          if r != Ok("") {
            var j :| FirstAt(u, StopTest(name), i + 1, j)
                     && r == StopOutcome(name, u.order[j], u.records[u.order[j]]);
            assert FirstAt(u, StopTest(name), i, j);
          }
        }
        r
      else
        var rec := u.records[w];
        if StopTest(name)(w, rec) then
          assert FirstAt(u, StopTest(name), i, i);
          SpanNotEmpty(rec);
          if GlobMatch(name, w) then Span(rec)
          else if |rec| == 0 then Err(IndexFault)
          else Span(rec)
        else
          var r := UptimeScan(u, name, i + 1);
          assert r != Ok("") ==> exists j :: FirstAt(u, StopTest(name), i, j)
                                             && r == StopOutcome(name, u.order[j], u.records[u.order[j]]) by {
            if r != Ok("") {
              var j :| FirstAt(u, StopTest(name), i + 1, j)
                       && r == StopOutcome(name, u.order[j], u.records[u.order[j]]);
              assert FirstAt(u, StopTest(name), i, j);
            }
          }
          r
  }

  /** The lookup that passes over windows still open, so that it never
      raises: it answers with the first selected complete record or `''`. */
  function WindowUptimeFixed(u: Uptime, name: string): (r: Result<string>)
    ensures r.Ok?
    ensures name in u.records && |u.records[name]| == 3 ==> r == Span(u.records[name])
    ensures !(name in u.records && |u.records[name]| == 3) && r.value != "" ==>
              exists j :: FirstAt(u, CompleteTest(name), 0, j) && r == Span(u.records[u.order[j]])
    ensures r.value != "" ==> exists w :: w in u.records && |u.records[w]| >= 3 && r == Span(u.records[w])
    ensures r.value == "" ==>
              forall i :: 0 <= i < |u.order| && u.order[i] in u.records && |u.records[u.order[i]]| >= 3 ==>
                !Selects(name, u.order[i], u.records[u.order[i]])
  {
    if name in u.records && |u.records[name]| == 3 then Span(u.records[name])
    else UptimeScanFixed(u, name, 0)
  }

  function UptimeScanFixed(u: Uptime, name: string, i: nat): (r: Result<string>)
    requires i <= |u.order|
    ensures r.Ok?
    ensures r.value != "" ==>
              exists j :: FirstAt(u, CompleteTest(name), i, j) && r == Span(u.records[u.order[j]])
    ensures r.value != "" ==> exists w :: w in u.records && |u.records[w]| >= 3 && r == Span(u.records[w])
    ensures r.value == "" <==>
              forall j :: i <= j < |u.order| && u.order[j] in u.records && |u.records[u.order[j]]| >= 3 ==>
                !Selects(name, u.order[j], u.records[u.order[j]])
    decreases |u.order| - i
  {
    if i == |u.order| then Ok("")
    else
      var w := u.order[i];
      if w in u.records && CompleteTest(name)(w, u.records[w]) then
        SpanNotEmpty(u.records[w]);
        assert FirstAt(u, CompleteTest(name), i, i);
        Span(u.records[w])
      else
        var r := UptimeScanFixed(u, name, i + 1);
        assert r.value != "" ==> exists j :: FirstAt(u, CompleteTest(name), i, j)
                                             && r == Span(u.records[u.order[j]]) by {
          if r.value != "" {
            var j :| FirstAt(u, CompleteTest(name), i + 1, j) && r == Span(u.records[u.order[j]]);
            assert FirstAt(u, CompleteTest(name), i, j);
          }
        }
        r
  }

  /** The lifetime of a window that appeared and then went away is the
      pair of stamps, asked by its synthetic name. */
  lemma CreateThenDestroyUptime(d: Daemon, src: Node, n0: string, n1: string, t0: string, t1: string)
    ensures var d1 := WindowEventCb(d, Some(AtspiEvent("window:create", src, n0)), t0);
            var d2 := WindowEventCb(d1, Some(AtspiEvent("window:destroy", src, n1)), t1);
            WindowUptime(d2.uptime, SyntheticName(src)) == Ok(t0 + "-" + t1)
            && WindowUptimeFixed(d2.uptime, SyntheticName(src)) == Ok(t0 + "-" + t1)
  {
  }

  /** Asking for the uptime of a window that is still open raises
      IndexError, when the window is the only one known and its name holds
      no glob characters. */
  lemma OpenWindowUptimeFaults(src: Node, n0: string, t0: string)
    requires NoMeta(SyntheticName(src))
    ensures var d1 := WindowEventCb(Started, Some(AtspiEvent("window:create", src, n0)), t0);
            WindowUptime(d1.uptime, SyntheticName(src)) == Err(IndexFault)
  {
    CreatedOnStart(src, n0, t0);
    OpenRecordFaults(SyntheticName(src), n0, t0);
  }

  /** The lookup half of the lemma above: a lone record of two stamps,
      asked by its own literal name. */
  lemma OpenRecordFaults(w: string, n0: string, t0: string)
    requires NoMeta(w)
    ensures WindowUptime(Uptime([w], map[w := [n0, t0]]), w) == Err(IndexFault)
  {
    var u := Uptime([w], map[w := [n0, t0]]);
    LiteralPatternMatchesOnlyItself(w, w);
    assert StopTest(w)(w, [n0, t0]);
    assert UptimeScan(u, w, 0) == Span([n0, t0]);
  }

  /** The corrected lookup answers `''` for that window. */
  lemma OpenWindowUptimeFixed(src: Node, n0: string, t0: string)
    ensures var d1 := WindowEventCb(Started, Some(AtspiEvent("window:create", src, n0)), t0);
            WindowUptimeFixed(d1.uptime, SyntheticName(src)) == Ok("")
  {
    CreatedOnStart(src, n0, t0);
    OpenRecordSkipped(SyntheticName(src), n0, t0);
  }

  /** The first window created after start-up is the only record, with
      its name and creation stamp. */
  lemma CreatedOnStart(src: Node, n0: string, t0: string)
    ensures var w := SyntheticName(src);
            WindowEventCb(Started, Some(AtspiEvent("window:create", src, n0)), t0).uptime
            == Uptime([w], map[w := [n0, t0]])
  {
  }

  /** The lookup half: a lone record of two stamps is skipped. */
  lemma OpenRecordSkipped(w: string, n0: string, t0: string)
    ensures WindowUptimeFixed(Uptime([w], map[w := [n0, t0]]), w) == Ok("")
  {
    var u := Uptime([w], map[w := [n0, t0]]);
    assert |u.records[u.order[0]]| < 3;
  }
}

=== FILE: glob.dfy ===
/** `_glob_match(pattern, string)` of ldtpd/utils.py: the pattern goes
    through Python 2's `fnmatch.translate`, which turns `*` into `.*`, `?`
    into `.`, a closed `[...]` into a character class (`[!...]` negated) and
    escapes everything else, and appends `\Z(?ms)`; `re.match` then anchors
    the expression at the start, so a match covers the whole string.  With
    `(?s)` the wildcards also match newlines.  No case folding takes place.
 */
module Glob {
  import opened Strings

  datatype ClassItem = Single(c: char) | Span(lo: char, hi: char)

  /** One unit of the translated expression. */
  datatype Token =
    | Lit(c: char)                                   // an escaped literal character
    | AnyOne                                         // `?`  ->  `.`
    | AnyRun                                         // `*`  ->  `.*`
    | Class(negated: bool, items: seq<ClassItem>)    // `[...]` / `[!...]`

  /** First index at or after `j` holding `]`, or |p| when there is none. */
  function ScanTo(p: string, j: nat): (k: nat)
    requires j <= |p|
    ensures j <= k <= |p|
    ensures k < |p| ==> p[k] == ']'
    ensures forall i :: j <= i < k ==> p[i] != ']'
    decreases |p| - j
  {
    if j == |p| || p[j] == ']' then j else ScanTo(p, j + 1)
  }

  /** Where `fnmatch.translate` looks for the `]` closing a `[` whose contents
      start at `i`: one leading `!` and then one leading `]` are taken as
      class members, not as the end. */
  function CloseIndex(p: string, i: nat): (j: nat)
    requires i <= |p|
    ensures i <= j <= |p|
    ensures j < |p| ==> p[j] == ']' && j > i
    ensures var b := if i < |p| && p[i] == '!' then i + 1 else i;
            var s := if b < |p| && p[b] == ']' then b + 1 else b;
            s <= j && forall k :: s <= k < j ==> p[k] != ']'
  {
    var j0 := if i < |p| && p[i] == '!' then i + 1 else i;
    var j1 := if j0 < |p| && p[j0] == ']' then j0 + 1 else j0;
    ScanTo(p, j1)
  }

  /** The members of a class body as Python's regex parser reads them:
      `x-y` is a range, a `-` first or last stands for itself. */
  function ClassItems(body: string): seq<ClassItem>
    decreases |body|
  {
    if |body| == 0 then []
    else if |body| >= 3 && body[1] == '-' then [Span(body[0], body[2])] + ClassItems(body[3..])
    else [Single(body[0])] + ClassItems(body[1..])
  }

  /** `fnmatch.translate`, as a token sequence. */
  function Translate(p: string): seq<Token>
    decreases |p|
  {
    if |p| == 0 then []
    else if p[0] == '*' then [AnyRun] + Translate(p[1..])
    else if p[0] == '?' then [AnyOne] + Translate(p[1..])
    else if p[0] == '[' then
      var j := CloseIndex(p, 1);
      if j >= |p| then [Lit('[')] + Translate(p[1..])
      else
        var body := p[1..j];
        var cls := if body[0] == '!' then Class(true, ClassItems(body[1..]))
                   else Class(false, ClassItems(body));
        [cls] + Translate(p[j + 1..])
    else [Lit(p[0])] + Translate(p[1..])
  }

  predicate InClass(items: seq<ClassItem>, c: char) {
    exists k :: 0 <= k < |items| &&
      match items[k]
      case Single(x) => c == x
      case Span(lo, hi) => lo <= c <= hi
  }

  /** Whether a single-character token accepts `c`. */
  predicate AcceptsChar(t: Token, c: char) {
    match t
    case Lit(x) => c == x
    case AnyOne => true
    case AnyRun => false
    case Class(neg, items) => InClass(items, c) != neg
  }

  /** The translated expression matches the whole of `s`. */
  predicate MatchTokens(ts: seq<Token>, s: string)
    decreases |ts|, |s|
  {
    if |ts| == 0 then |s| == 0
    else if ts[0] == AnyRun then
      MatchTokens(ts[1..], s) || (|s| > 0 && MatchTokens(ts, s[1..]))
    else
      |s| > 0 && AcceptsChar(ts[0], s[0]) && MatchTokens(ts[1..], s[1..])
  }

  /** `_glob_match(pattern, s)`. */
  predicate GlobMatch(pattern: string, s: string) {
    MatchTokens(Translate(pattern), s)
  }

  /** A pattern without `*`, `?` or `[` is a plain string. */
  predicate NoMeta(p: string) {
    forall i :: 0 <= i < |p| ==> p[i] != '*' && p[i] != '?' && p[i] != '['
  }

  function Literals(p: string): (ts: seq<Token>)
    ensures |ts| == |p|
    ensures forall i :: 0 <= i < |p| ==> ts[i] == Lit(p[i])
  {
    if |p| == 0 then [] else [Lit(p[0])] + Literals(p[1..])
  }

  lemma {:induction false} TranslateNoMeta(p: string)
    requires NoMeta(p)
    ensures Translate(p) == Literals(p)
  {
    if |p| > 0 {
      TranslateNoMeta(p[1..]);
    }
  }

  lemma {:induction false} TranslateNoMetaAppend(p: string, q: string)
    requires NoMeta(p)
    ensures Translate(p + q) == Literals(p) + Translate(q)
  {
    if |p| > 0 {
      assert (p + q)[1..] == p[1..] + q;
      TranslateNoMetaAppend(p[1..], q);
    } else {
      assert p + q == q;
    }
  }

  /** A literal token matches exactly its own character. */
  lemma MatchLitCons(c: char, ts: seq<Token>, s: string)
    ensures MatchTokens([Lit(c)] + ts, s) <==> |s| > 0 && s[0] == c && MatchTokens(ts, s[1..])
  {
    assert ([Lit(c)] + ts)[0] == Lit(c);
    assert ([Lit(c)] + ts)[1..] == ts;
  }

  lemma EqCons(s: string, p: string)
    requires |s| > 0 && |p| > 0
    ensures s == p <==> s[0] == p[0] && s[1..] == p[1..]
  {
    if s[0] == p[0] && s[1..] == p[1..] {
      assert s == [s[0]] + s[1..];
      assert p == [p[0]] + p[1..];
    }
  }

  lemma StartsWithCons(s: string, p: string)
    requires |s| > 0 && |p| > 0
    ensures StartsWith(s, p) <==> s[0] == p[0] && StartsWith(s[1..], p[1..])
  {
    if s[0] == p[0] && StartsWith(s[1..], p[1..]) {
      assert s[..|p|] == [s[0]] + s[1..][..|p| - 1];
      assert p == [p[0]] + p[1..];
    }
    if StartsWith(s, p) {
      assert s[1..][..|p| - 1] == s[..|p|][1..];
    }
  }

  lemma {:induction false} MatchLiterals(p: string, s: string)
    ensures MatchTokens(Literals(p), s) <==> s == p
  {
    if |p| > 0 {
      var t := Literals(p[1..]);
      assert Literals(p) == [Lit(p[0])] + t;
      MatchLitCons(p[0], t, s);
      if |s| > 0 {
        MatchLiterals(p[1..], s[1..]);
        EqCons(s, p);
      }
    }
  }

  /** Matching is anchored at both ends and case-sensitive: a pattern with no
      wildcard matches exactly the string it spells. */
  lemma LiteralPatternMatchesOnlyItself(p: string, s: string)
    requires NoMeta(p)
    ensures GlobMatch(p, s) <==> s == p
  {
    TranslateNoMeta(p);
    MatchLiterals(p, s);
  }

  /** An empty pattern matches the empty string and nothing else. */
  lemma EmptyPatternMatchesOnlyEmpty(s: string)
    ensures GlobMatch("", s) <==> s == ""
  {
  }

  lemma {:induction false} RunMatchesAll(s: string)
    ensures MatchTokens([AnyRun], s)
    decreases |s|
  {
    assert [AnyRun][1..] == [];
    if |s| > 0 {
      RunMatchesAll(s[1..]);
    }
  }

  lemma TranslateStar()
    ensures Translate("*") == [AnyRun]
  {
    assert "*"[0] == '*' && "*"[1..] == "";
  }

  /** `*` matches every string, the empty one included. */
  lemma StarMatchesEverything(s: string)
    ensures GlobMatch("*", s)
  {
    TranslateStar();
    RunMatchesAll(s);
  }

  lemma {:induction false} LiteralsThenRun(p: string, s: string)
    ensures MatchTokens(Literals(p) + [AnyRun], s) <==> StartsWith(s, p)
    decreases |p|
  {
    if |p| == 0 {
      assert Literals(p) + [AnyRun] == [AnyRun];
      RunMatchesAll(s);
    } else {
      var rest := Literals(p[1..]) + [AnyRun];
      assert Literals(p) + [AnyRun] == [Lit(p[0])] + rest;
      MatchLitCons(p[0], rest, s);
      if |s| > 0 {
        LiteralsThenRun(p[1..], s[1..]);
        StartsWithCons(s, p);
      }
    }
  }

  /** A literal prefix followed by `*` (the usual `frmCalculator*`) matches
      exactly the strings that start with the prefix. */
  lemma PrefixPattern(p: string, s: string)
    requires NoMeta(p)
    ensures GlobMatch(p + "*", s) <==> StartsWith(s, p)
  {
    TranslateNoMetaAppend(p, "*");
    TranslateStar();
    LiteralsThenRun(p, s);
  }
}

=== FILE: keypress.dfy ===
/** The keyboard steps of ldtpd/keypress_actions.py.  A step is built from
    its arguments (the delta time it waits is clamped), and the combo and
    typing steps, when run, queue main-loop timeouts; the model is the list
    of timeouts each queues, as (delay, callback) pairs.  What the key
    names resolve to through the toolkit's keymap is passed in.
 */
module Keypress {
  import opened Wrappers

  /** Minimum delta time of combo and typing steps. */
  const MinDelta := 50
  /** Maximum delta time of press and release steps. */
  const ReleaseMax := 400
  /** Default time between keystrokes. */
  const KeystrokeInterval := 10
  /** Hardware code of the shift key that `_charType` presses. */
  const ShiftCode := 50

  /** `mod_key_code_mappings.get(name)`. */
  function ModifierCode(name: string): (r: Option<int>)
    ensures name == "GDK_CONTROL_MASK" ==> r == Some(37)
    ensures name == "GDK_MOD1_MASK" ==> r == Some(64)
    ensures name == "GDK_LOCK_MASK" ==> r == Some(66)
    ensures name == "GDK_SHIFT_MASK" ==> r == Some(50)
    ensures r.None? <==> name !in {"GDK_CONTROL_MASK", "GDK_MOD1_MASK", "GDK_LOCK_MASK", "GDK_SHIFT_MASK"}
  {
    var m := map["GDK_CONTROL_MASK" := 37, "GDK_MOD1_MASK" := 64, "GDK_LOCK_MASK" := 66, "GDK_SHIFT_MASK" := 50];
    if name in m then Some(m[name]) else None
  }

  datatype Direction = Press | Release

  /** A press or release step: its delta time, direction and key code. */
  datatype KeyStep = KeyStep(delta: int, direction: Direction, code: int)

  /** `KeyPressAction(delta_time, key_code, key_name)` and
      `KeyReleaseAction(...)`: a code or a name is required, the delay is
      at most `ReleaseMax`, and a missing code comes from the name. */
  function NewKeyStep(direction: Direction, delta: int, code: Option<int>, name: Option<string>,
                      codeOfName: string -> int): (r: Result<KeyStep>)
    ensures code.None? && name.None? <==> r == Err(TypeFault("Need either a key code or a key name"))
    ensures r.Ok? ==> r.value.direction == direction && r.value.delta <= ReleaseMax
                      && (delta <= ReleaseMax ==> r.value.delta == delta)
                      && (delta > ReleaseMax ==> r.value.delta == ReleaseMax)
    ensures r.Ok? && code.Some? ==> r.value.code == code.value
    ensures r.Ok? && code.None? ==> r.value.code == codeOfName(name.value)
  {
    if code.None? && name.None? then Err(TypeFault("Need either a key code or a key name"))
    else
      var d := if delta > ReleaseMax then ReleaseMax else delta;
      var c := if code.Some? then code.value else codeOfName(name.value);
      Ok(KeyStep(d, direction, c))
  }

  /** A combo or typing step's delta time: at least `MinDelta`. */
  function AtLeastMinDelta(delta: int): (d: int)
    ensures d >= MinDelta && (delta >= MinDelta ==> d == delta) && (delta < MinDelta ==> d == MinDelta)
  {
    if delta < MinDelta then MinDelta else delta
  }

  /** A combo step: its delta time, key code and modifier names. */
  datatype ComboStep = ComboStep(delta: int, code: int, modifiers: seq<string>)

  /** `KeyComboAction(key_combo, delta_time)` once the accelerator is
      parsed into a key code and modifier names. */
  function NewComboStep(code: int, modifiers: seq<string>, delta: int): (r: ComboStep)
    ensures r.delta >= MinDelta && r.code == code && r.modifiers == modifiers
  {
    ComboStep(AtLeastMinDelta(delta), code, modifiers)
  }

  /** A callback a timeout runs. */
  datatype Callback =
    | PressKey(hw: Option<int>)
    | ReleaseKey(hw: Option<int>)
    | PressRelease(code: int)
    | TypeChar(keyval: int)
    | StepDone

  datatype Timeout = Timeout(delay: int, callback: Callback)

  /** The schedule `_doCombo` queues for modifier codes `mods`: the
      modifiers pressed one per interval, the key pressed and released,
      the modifiers released in the reverse order, and the step reported
      done last. */
  ghost predicate ComboSchedule(r: seq<Timeout>, code: int, mods: seq<Option<int>>) {
    var n := |mods|;
    |r| == 2 * n + 2
    && (forall k :: 0 <= k < n ==> r[k] == Timeout(KeystrokeInterval * k, PressKey(mods[k])))
    && r[n] == Timeout(KeystrokeInterval * n, PressRelease(code))
    && (forall k :: 0 <= k < n ==> r[2 * n - k] == Timeout(KeystrokeInterval * (2 * n - k), ReleaseKey(mods[k])))
    && r[2 * n + 1] == Timeout(KeystrokeInterval * (2 * n + 1), StepDone)
  }

  function ModifierCodes(names: seq<string>): (r: seq<Option<int>>)
    ensures |r| == |names| && forall k :: 0 <= k < |names| ==> r[k] == ModifierCode(names[k])
  {
    if |names| == 0 then [] else [ModifierCode(names[0])] + ModifierCodes(names[1..])
  }

  /** The first loop of `_doCombo`: modifier `k` pressed at `k` intervals. */
  method PressModifiers(mods: seq<Option<int>>) returns (r: seq<Timeout>)
    ensures |r| == |mods|
    ensures forall k :: 0 <= k < |mods| ==> r[k] == Timeout(KeystrokeInterval * k, PressKey(mods[k]))
  {
    var interval := 0;
    r := [];
    var i := 0;
    while i < |mods|
      invariant 0 <= i <= |mods| && |r| == i && interval == KeystrokeInterval * i
      invariant forall k :: 0 <= k < i ==> r[k] == Timeout(KeystrokeInterval * k, PressKey(mods[k]))
    {
      r := r + [Timeout(interval, PressKey(mods[i]))];
      interval := interval + KeystrokeInterval;
      i := i + 1;
    }
  }

  /** The second loop of `_doCombo`, started after `n + 1` intervals: the
      modifiers released last one first, so modifier `k` goes at
      `2n - k` intervals. */
  method ReleaseModifiers(mods: seq<Option<int>>) returns (r: seq<Timeout>)
    ensures |r| == |mods|
    ensures forall k :: 0 <= k < |mods| ==>
              r[|mods| - 1 - k] == Timeout(KeystrokeInterval * (2 * |mods| - k), ReleaseKey(mods[k]))
  {
    var n := |mods|;
    var interval := KeystrokeInterval * (n + 1);
    r := [];
    var j := 0;
    while j < n
      invariant 0 <= j <= n && |r| == j && interval == KeystrokeInterval * (n + 1 + j)
      invariant forall k :: n - j <= k < n ==>
                  r[n - 1 - k] == Timeout(KeystrokeInterval * (2 * n - k), ReleaseKey(mods[k]))
    {
      r := r + [Timeout(interval, ReleaseKey(mods[n - 1 - j]))];
      interval := interval + KeystrokeInterval;
      j := j + 1;
    }
  }

  /** `KeyComboAction._doCombo(key_code, modifiers)`. */
  method DoCombo(code: int, modifierNames: seq<string>) returns (r: seq<Timeout>)
    ensures ComboSchedule(r, code, ModifierCodes(modifierNames))
  {
    var mods := ModifierCodes(modifierNames);
    var n := |mods|;
    var presses := PressModifiers(mods);
    var releases := ReleaseModifiers(mods);
    r := presses + [Timeout(KeystrokeInterval * n, PressRelease(code))] + releases
         + [Timeout(KeystrokeInterval * (2 * n + 1), StepDone)];
    assert forall k :: 0 <= k < n ==> r[k] == presses[k];
    forall k | 0 <= k < n
      ensures r[2 * n - k] == Timeout(KeystrokeInterval * (2 * n - k), ReleaseKey(mods[k]))
    {
      assert r[n + 1 + (n - 1 - k)] == releases[n - 1 - k];
    }
  }

  /** In a combo schedule the delays strictly increase, each modifier is
      released after the key and after every modifier pressed later, and
      the step is reported done after everything else. */
  lemma ComboNesting(r: seq<Timeout>, code: int, mods: seq<Option<int>>, k: int)
    requires ComboSchedule(r, code, mods) && 0 <= k < |mods|
    ensures r[k].callback == PressKey(mods[k]) && r[2 * |mods| - k].callback == ReleaseKey(mods[k])
    ensures r[k].delay < r[|mods|].delay < r[2 * |mods| - k].delay < r[2 * |mods| + 1].delay
    ensures forall i, j :: 0 <= i < j < |r| ==> r[i].delay < r[j].delay
  {
    var n := |mods|;
    forall i | 0 <= i < |r| ensures r[i].delay == KeystrokeInterval * i {
      if n < i < 2 * n + 1 {
        assert r[2 * n - (2 * n - i)] == Timeout(KeystrokeInterval * i, ReleaseKey(mods[2 * n - i]));
      }
    }
  }

  /** The interval of a typing step: the given one unless it is missing
      or zero. */
  function TypeInterval(interval: Option<int>): (r: int)
    ensures interval.Some? && interval.value != 0 ==> r == interval.value
    ensures interval.None? || interval.value == 0 ==> r == KeystrokeInterval
  {
    if interval.Some? && interval.value != 0 then interval.value else KeystrokeInterval
  }

  /** A typing step: delta time, interval and the text. */
  datatype TypeStep = TypeStep(delta: int, interval: int, text: string)

  /** `TypeAction(string_to_type, delta_time, interval)`. */
  function NewTypeStep(text: string, delta: int, interval: Option<int>): (r: TypeStep)
    ensures r.delta >= MinDelta && r.text == text && r.interval == TypeInterval(interval)
  {
    TypeStep(AtLeastMinDelta(delta), TypeInterval(interval), text)
  }

  /** `TypeAction._doType(string_to_type)`: character `k` typed at
      `k * interval`, the step done at `len * interval`.  The keyval of a
      character comes from the toolkit and is passed in. */
  method DoType(text: string, interval: int, keyvalOf: char -> int) returns (r: seq<Timeout>)
    ensures |r| == |text| + 1
    ensures forall k :: 0 <= k < |text| ==> r[k] == Timeout(k * interval, TypeChar(keyvalOf(text[k])))
    ensures r[|text|] == Timeout(|text| * interval, StepDone)
  {
    var at := 0;
    r := [];
    var i := 0;
    while i < |text|
      invariant 0 <= i <= |text| && |r| == i && at == i * interval
      invariant forall k :: 0 <= k < i ==> r[k] == Timeout(k * interval, TypeChar(keyvalOf(text[k])))
    {
      r := r + [Timeout(at, TypeChar(keyvalOf(text[i])))];
      at := at + interval;
      i := i + 1;
    }
    r := r + [Timeout(at, StepDone)];
  }

  /** A keymap entry: key code, group and level. */
  datatype KeyEntry = KeyEntry(code: int, group: int, level: int)

  /** A keyboard event `_charType` generates. */
  datatype KeyEvent = KeyEvent(code: int, kind: KeyKind)
  datatype KeyKind = KeyPress | KeyRelease | KeyPressRelease

  /** `TypeAction._charType(keyval)` given the keymap's entries for the
      keyval: the first entry's key is pressed and released, inside a
      shift press and release exactly when its level is 1. */
  function CharType(entries: seq<KeyEntry>): (r: Result<seq<KeyEvent>>)
    ensures |entries| == 0 <==> r == Err(IndexFault)
    ensures r.Ok? && entries[0].level == 1 ==>
              r.value == [KeyEvent(ShiftCode, KeyPress), KeyEvent(entries[0].code, KeyPressRelease),
                          KeyEvent(ShiftCode, KeyRelease)]
    ensures r.Ok? && entries[0].level != 1 ==> r.value == [KeyEvent(entries[0].code, KeyPressRelease)]
  {
    if |entries| == 0 then Err(IndexFault)
    else
      var e := entries[0];
      var shift := if e.level == 1 then [KeyEvent(ShiftCode, KeyPress)] else [];
      var unshift := if e.level == 1 then [KeyEvent(ShiftCode, KeyRelease)] else [];
      Ok(shift + [KeyEvent(e.code, KeyPressRelease)] + unshift)
  }
}

=== FILE: ldtpme.dfy ===
/** The object-path helpers of ldtpme/__init__.py.  An object path is a
    string of `::`-separated names (application, window, objects); the
    helpers take one path, a list of paths, or nothing (the current
    objects), and `__yieldTreeObjects` walks the object lists the server
    reports, passed in as functions.
 */
module LdtpMe {
  import opened Wrappers
  import opened Strings
  import opened Seqs

  /** The package's `__name__`, which prefixes its error messages. */
  const PackageName := "ldtpme"

  /** A `::` starts at position `i` of `s`. */
  predicate SepAt(s: string, i: int) {
    0 <= i && i + 2 <= |s| && s[i] == ':' && s[i + 1] == ':'
  }

  /** The leftmost `::` at or after `i`. */
  function FirstSep(s: string, i: nat): (r: Option<nat>)
    requires i <= |s|
    ensures r.Some? ==> i <= r.value && SepAt(s, r.value) && forall k :: i <= k < r.value ==> !SepAt(s, k)
    ensures r.None? ==> forall k :: i <= k ==> !SepAt(s, k)
    decreases |s| - i
  {
    if i + 2 > |s| then None
    else if SepAt(s, i) then Some(i)
    else FirstSep(s, i + 1)
  }

  /** The rightmost `::` starting below `n`. */
  function LastSep(s: string, n: nat): (r: Option<nat>)
    ensures r.Some? ==> r.value < n && SepAt(s, r.value) && forall k :: r.value < k < n ==> !SepAt(s, k)
    ensures r.None? ==> forall k :: k < n ==> !SepAt(s, k)
  {
    if n == 0 then None
    else if SepAt(s, n - 1) then Some(n - 1)
    else LastSep(s, n - 1)
  }

  predicate HasSep(s: string) {
    exists k :: 0 <= k < |s| && SepAt(s, k)
  }

  /** `re.sub('.*::', '', line)` on one line: what follows the last `::`. */
  function BaseOfLine(line: string): (r: string)
    ensures !HasSep(r)
    ensures !HasSep(line) ==> r == line
    ensures HasSep(line) ==> exists k :: SepAt(line, k) && line[k + 2..] == r
  {
    match LastSep(line, |line|)
    case None => line
    case Some(k) =>
      NoSepAfterLast(line, k);
      line[k + 2..]
  }

  lemma NoSepAfterLast(line: string, k: nat)
    requires SepAt(line, k) && forall j :: k < j < |line| ==> !SepAt(line, j)
    ensures !HasSep(line[k + 2..])
  {
    var t := line[k + 2..];
    forall j | 0 <= j < |t| ensures !SepAt(t, j) {
      assert SepAt(t, j) ==> SepAt(line, k + 2 + j);
    }
  }

  /** `re.sub('::.*', '', line)` on one line: what precedes the first `::`. */
  function ApplicationOfLine(line: string): (r: string)
    ensures !HasSep(r)
    ensures !HasSep(line) ==> r == line
    ensures HasSep(line) ==> exists k :: SepAt(line, k) && line[..k] == r
  {
    match FirstSep(line, 0)
    case None => line
    case Some(k) =>
      assert forall j :: SepAt(line[..k], j) ==> SepAt(line, j) && j < k;
      line[..k]
  }

  /** `re.sub('(.*)::.*', r'\1', line)` on one line: what precedes the last
      `::`, or the line itself when it has none. */
  function ParentOfLine(line: string): (r: string)
    ensures !HasSep(line) ==> r == line
    ensures HasSep(line) ==> |r| + 2 <= |line| && SepAt(line, |r|) && line[..|r|] == r
                             && forall k :: |r| < k ==> !SepAt(line, k)
  {
    match LastSep(line, |line|)
    case None => line
    case Some(k) => line[..k]
  }

  /** A line splits into its parent, `::` and its base name. */
  lemma {:induction false} ParentBaseOfLine(line: string)
    requires HasSep(line)
    ensures ParentOfLine(line) + "::" + BaseOfLine(line) == line
  {
    var k :| SepAt(line, k);
    var p := ParentOfLine(line);
    var j :| SepAt(line, j) && line[j + 2..] == BaseOfLine(line);
    assert j == |p| by {
      assert !(j > |p|);
      assert BaseOfLine(line) == line[LastSep(line, |line|).value + 2..];
    }
    assert line == line[..j] + line[j..j + 2] + line[j + 2..];
  }

  /** A `re.sub` whose pattern cannot cross a newline: the rewrite applied
      to every line. */
  function Lines(o: string, rewrite: string -> string): (r: string)
  {
    Join(MapEach(Split(o, '\n'), rewrite), '\n')
  }

  function MapEach(parts: seq<string>, f: string -> string): (r: seq<string>)
    ensures |r| == |parts| && forall k :: 0 <= k < |parts| ==> r[k] == f(parts[k])
  {
    if |parts| == 0 then [] else [f(parts[0])] + MapEach(parts[1..], f)
  }

  /** On a path without a newline the rewrite is applied to the path. */
  lemma OneLine(o: string, rewrite: string -> string)
    requires !HasChar(o, '\n')
    ensures Lines(o, rewrite) == rewrite(o)
  {
    SplitJoin([o], '\n');
  }

  /** The rewritten path has one line per line of the path, each the
      rewrite of that line, as long as the rewrite keeps lines whole. */
  lemma {:induction false} LinesSplit(o: string, rewrite: string -> string)
    requires forall l :: !HasChar(l, '\n') ==> !HasChar(rewrite(l), '\n')
    ensures Split(Lines(o, rewrite), '\n') == MapEach(Split(o, '\n'), rewrite)
  {
    var m := MapEach(Split(o, '\n'), rewrite);
    assert forall k :: 0 <= k < |m| ==> !HasChar(m[k], '\n');
    SplitJoin(m, '\n');
  }

  /** No line of a base name holds a `::`. */
  lemma BaseNameLines(o: string)
    ensures var ls := Split(BaseName(o), '\n');
            forall k :: 0 <= k < |ls| ==> !HasSep(ls[k])
  {
    forall l | !HasChar(l, '\n') ensures !HasChar(BaseOfLine(l), '\n') {
      match LastSep(l, |l|)
      case None =>
      case Some(k) => SuffixHasChar(l, k + 2, '\n');
    }
    LinesSplit(o, BaseOfLine);
  }

  lemma SuffixHasChar(s: string, j: nat, c: char)
    requires j <= |s|
    ensures HasChar(s[j..], c) ==> HasChar(s, c)
  {
    if HasChar(s[j..], c) {
      var i :| 0 <= i < |s[j..]| && s[j..][i] == c;
      assert s[j + i] == c;
    }
  }

  function BaseName(o: string): (r: string)
    ensures !HasChar(o, '\n') ==> r == BaseOfLine(o)
  {
    assert !HasChar(o, '\n') ==> Lines(o, BaseOfLine) == BaseOfLine(o) by {
      if !HasChar(o, '\n') { OneLine(o, BaseOfLine); }
    }
    Lines(o, BaseOfLine)
  }

  function ApplicationName(o: string): (r: string)
    ensures !HasChar(o, '\n') ==> r == ApplicationOfLine(o)
  {
    assert !HasChar(o, '\n') ==> Lines(o, ApplicationOfLine) == ApplicationOfLine(o) by {
      if !HasChar(o, '\n') { OneLine(o, ApplicationOfLine); }
    }
    Lines(o, ApplicationOfLine)
  }

  function ParentName(o: string): (r: string)
    ensures !HasChar(o, '\n') ==> r == ParentOfLine(o)
  {
    assert !HasChar(o, '\n') ==> Lines(o, ParentOfLine) == ParentOfLine(o) by {
      if !HasChar(o, '\n') { OneLine(o, ParentOfLine); }
    }
    Lines(o, ParentOfLine)
  }

  /** A one-line path with a `::` is its parent, `::` and its base name. */
  lemma ParentBaseRoundTrip(o: string)
    requires HasSep(o) && !HasChar(o, '\n')
    ensures ParentName(o) + "::" + BaseName(o) == o
  {
    ParentBaseOfLine(o);
  }

  /** The context of one path, `s[0] + '::' + s[1]` of
      `re.split('::', o)`: the path up to its second `::` (or the whole
      path when it has only one); a path without `::` has no `s[1]`. */
  function ContextOf(o: string): (r: Result<string>)
    ensures r.Err? <==> !HasSep(o)
    ensures r.Err? ==> r == Err(IndexFault)
    ensures r.Ok? ==> var c := r.value;
                      |c| <= |o| && o[..|c|] == c
                      && (exists f :: SepAt(c, f) && (forall k :: k < f ==> !SepAt(o, k))
                                      && forall k :: f + 2 <= k ==> !SepAt(c, k))
                      && (|c| == |o| || SepAt(o, |c|))
  {
    match FirstSep(o, 0)
    case None => Err(IndexFault)
    case Some(f) =>
      match FirstSep(o, f + 2)
      case None => Ok(o)
      case Some(g) =>
        var c := o[..g];
        assert SepAt(c, f);
        assert forall k :: f + 2 <= k ==> SepAt(c, k) ==> SepAt(o, k) && k < g;
        Ok(c)
  }

  /** What a helper is passed: one path, a list of paths, `None`, or
      anything else (of the named type). */
  datatype Objs = Str(s: string) | Strs(list: seq<string>) | NoObjs | Other(typeName: string)

  /** What a helper answers: one value for one path, else a list. */
  datatype Out = One(s: string) | Many(list: seq<string>)

  /** The current objects are always a path or a list of paths. */
  predicate IsCurrent(current: Objs) {
    current.Str? || current.Strs?
  }

  /** `__checkObjs(o)` as written: the paths and whether one path was
      given; any other argument reaches the error message, which names
      the undefined `objs` and raises a NameError instead. */
  function CheckObjsAsWritten(o: Objs, current: Objs): (r: Result<(seq<string>, bool)>)
    requires IsCurrent(current)
    ensures o.Other? <==> r == Err(NameFault("objs"))
  {
    var e := Effective(o, current);
    if e.Str? then Ok(([e.s], true))
    else if e.Strs? then Ok((e.list, false))
    else Err(NameFault("objs"))
  }

  /** `None` stands for the current objects. */
  function Effective(o: Objs, current: Objs): (e: Objs)
    requires IsCurrent(current)
    ensures !e.NoObjs? && (o.NoObjs? ==> e == current) && (!o.NoObjs? ==> e == o)
  {
    if o.NoObjs? then current else o
  }

  /** The message `__checkObjs` was meant to raise. */
  function BadObjsMessage(typeName: string): string {
    PackageName + " Error: objs should be a string or a list of strings instead of " + typeName
  }

  /** `__checkObjs(o)` corrected to raise its own message. */
  function CheckObjs(o: Objs, current: Objs): (r: Result<(seq<string>, bool)>)
    requires IsCurrent(current)
    ensures o.Other? ==> r == Err(Failure(BadObjsMessage(o.typeName)))
    ensures r.Err? ==> o.Other?
    ensures o.Str? ==> r == Ok(([o.s], true))
    ensures o.Strs? ==> r == Ok((o.list, false))
    ensures o.NoObjs? && current.Str? ==> r == Ok(([current.s], true))
    ensures o.NoObjs? && current.Strs? ==> r == Ok((current.list, false))
    ensures r.Ok? ==> CheckObjsAsWritten(o, current) == r
  {
    var e := Effective(o, current);
    if e.Str? then Ok(([e.s], true))
    else if e.Strs? then Ok((e.list, false))
    else Err(Failure(BadObjsMessage(e.typeName)))
  }

  /** As written, a value of another type raises a NameError. */
  lemma CheckObjsNameError(current: Objs)
    requires IsCurrent(current)
    ensures CheckObjsAsWritten(Other("<type 'int'>"), current) == Err(NameFault("objs"))
  {
  }

  /** `__checkR(tab, rstr)`. */
  function CheckR(tab: seq<string>, rstr: bool): (r: Out)
    ensures r.One? <==> rstr && |tab| == 1
    ensures r.One? ==> r.s == tab[0]
    ensures r.Many? ==> r.list == tab
  {
    if rstr && |tab| == 1 then One(tab[0]) else Many(tab)
  }

  /** Every path rewritten in turn; the first that fails stops the loop. */
  function EachPath(paths: seq<string>, f: string -> Result<string>): (r: Result<seq<string>>)
    ensures r.Ok? <==> forall k :: 0 <= k < |paths| ==> f(paths[k]).Ok?
    ensures r.Ok? ==> |r.value| == |paths| && forall k :: 0 <= k < |paths| ==> r.value[k] == f(paths[k]).value
    ensures r.Err? ==> exists k :: 0 <= k < |paths| && f(paths[k]).Err? && r.fault == f(paths[k]).fault
  {
    if |paths| == 0 then Ok([])
    else
      match f(paths[0])
      case Err(e) => Err(e)
      case Ok(v) =>
        match EachPath(paths[1..], f)
        case Err(e) =>
          assert forall k :: 1 <= k < |paths| ==> paths[k] == paths[1..][k - 1];
          Err(e)
        case Ok(vs) => Ok([v] + vs)
  }

  /** The common shape of the four helpers as written: check the argument,
      rewrite each path, answer one value or a list. */
  function Apply(o: Objs, current: Objs, f: string -> Result<string>): (r: Result<Out>)
    requires IsCurrent(current)
    ensures o.Other? ==> r == Err(NameFault("objs"))
    ensures var e := Effective(o, current);
            e.Str? ==> (r.Ok? <==> f(e.s).Ok?)
                       && (r.Ok? ==> r.value == One(f(e.s).value))
                       && (r.Err? ==> r.fault == f(e.s).fault)
    ensures var e := Effective(o, current);
            e.Strs? ==> (r.Ok? <==> forall k :: 0 <= k < |e.list| ==> f(e.list[k]).Ok?)
                        && (r.Ok? ==> r.value.Many? && |r.value.list| == |e.list|
                                      && forall k :: 0 <= k < |e.list| ==> r.value.list[k] == f(e.list[k]).value)
                        && (r.Err? ==> exists k :: 0 <= k < |e.list| && f(e.list[k]).Err? && r.fault == f(e.list[k]).fault)
  {
    match CheckObjsAsWritten(o, current)
    case Err(e) => Err(e)
    case Ok(checked) =>
      match EachPath(checked.0, f)
      case Err(e) => Err(e)
      case Ok(tab) => Ok(CheckR(tab, checked.1))
  }

  /** One path gives one value, a list of paths a list of as many values. */
  lemma ApplyShape(o: Objs, current: Objs, f: string -> Result<string>)
    requires IsCurrent(current) && Apply(o, current, f).Ok?
    ensures var eff := if o.NoObjs? then current else o;
            var r := Apply(o, current, f).value;
            (eff.Str? ==> r == One(f(eff.s).value))
            && (eff.Strs? ==> r.Many? && |r.list| == |eff.list|
                              && forall k :: 0 <= k < |eff.list| ==> r.list[k] == f(eff.list[k]).value)
  {
  }

  /** `subContext(objs)`. */
  function SubContext(o: Objs, current: Objs): (r: Result<Out>)
    requires IsCurrent(current)
    ensures o.Other? ==> r == Err(NameFault("objs"))
    ensures var e := Effective(o, current);
            e.Str? ==> (r.Ok? <==> HasSep(e.s)) && (r.Ok? ==> r.value == One(ContextOf(e.s).value))
    ensures var e := Effective(o, current);
            e.Strs? ==> (r.Ok? <==> forall k :: 0 <= k < |e.list| ==> HasSep(e.list[k]))
                        && (r.Ok? ==> r.value.Many? && |r.value.list| == |e.list|
                                      && forall k :: 0 <= k < |e.list| ==> r.value.list[k] == ContextOf(e.list[k]).value)
    ensures !o.Other? && r.Err? ==> r == Err(IndexFault)
  {
    Apply(o, current, ContextOf)
  }

  /** `subBaseName(objs)`. */
  function SubBaseName(o: Objs, current: Objs): (r: Result<Out>)
    requires IsCurrent(current)
    ensures o.Other? ==> r == Err(NameFault("objs"))
    ensures var e := Effective(o, current); e.Str? ==> r == Ok(One(BaseName(e.s)))
    ensures var e := Effective(o, current);
            e.Strs? ==> r.Ok? && r.value.Many? && |r.value.list| == |e.list|
                        && forall k :: 0 <= k < |e.list| ==> r.value.list[k] == BaseName(e.list[k])
  {
    Apply(o, current, (p: string) => Ok(BaseName(p)))
  }

  /** `subApplication(objs)`. */
  function SubApplication(o: Objs, current: Objs): (r: Result<Out>)
    requires IsCurrent(current)
    ensures o.Other? ==> r == Err(NameFault("objs"))
    ensures var e := Effective(o, current); e.Str? ==> r == Ok(One(ApplicationName(e.s)))
    ensures var e := Effective(o, current);
            e.Strs? ==> r.Ok? && r.value.Many? && |r.value.list| == |e.list|
                        && forall k :: 0 <= k < |e.list| ==> r.value.list[k] == ApplicationName(e.list[k])
  {
    Apply(o, current, (p: string) => Ok(ApplicationName(p)))
  }

  /** `subParent(objs)`. */
  function SubParent(o: Objs, current: Objs): (r: Result<Out>)
    requires IsCurrent(current)
    ensures o.Other? ==> r == Err(NameFault("objs"))
    ensures var e := Effective(o, current); e.Str? ==> r == Ok(One(ParentName(e.s)))
    ensures var e := Effective(o, current);
            e.Strs? ==> r.Ok? && r.value.Many? && |r.value.list| == |e.list|
                        && forall k :: 0 <= k < |e.list| ==> r.value.list[k] == ParentName(e.list[k])
  {
    Apply(o, current, (p: string) => Ok(ParentName(p)))
  }

  /** The four helpers with the corrected `__checkObjs`: an argument of
      another type raises the package's message, and nothing else changes. */
  function ApplyFixed(o: Objs, current: Objs, f: string -> Result<string>): (r: Result<Out>)
    requires IsCurrent(current)
    ensures o.Other? ==> r == Err(Failure(BadObjsMessage(o.typeName)))
    ensures !o.Other? ==> r == Apply(o, current, f)
  {
    match CheckObjs(o, current)
    case Err(e) => Err(e)
    case Ok(checked) =>
      match EachPath(checked.0, f)
      case Err(e) => Err(e)
      case Ok(tab) => Ok(CheckR(tab, checked.1))
  }

  /** `setCurrentObjs(*objects)`: the paths and lists flattened in order;
      `None` or any other argument raises. */
  function SetCurrentObjs(args: seq<Objs>): (r: Result<seq<string>>)
    ensures r.Ok? <==> AllPaths(args)
    ensures r.Err? ==> r == Err(Failure(PackageName + " Error: objects should be some strings or some lists of strings"))
  {
    if |args| == 0 then Ok([])
    else
      assert forall k :: 1 <= k < |args| ==> args[k] == args[1..][k - 1];
      match PathsOf(args[0])
      case Err(e) => Err(e)
      case Ok(h) =>
        match SetCurrentObjs(args[1..])
        case Err(e) => Err(e)
        case Ok(t) => Ok(h + t)
  }

  /** Every argument is a path or a list of paths. */
  predicate AllPaths(args: seq<Objs>) {
    forall k :: 0 <= k < |args| ==> args[k].Str? || args[k].Strs?
  }

  /** What one argument of `setCurrentObjs` contributes. */
  function PathsOf(o: Objs): (r: Result<seq<string>>)
    ensures o.Str? ==> r == Ok([o.s])
    ensures o.Strs? ==> r == Ok(o.list)
    ensures !(o.Str? || o.Strs?) ==> r == Err(Failure(PackageName + " Error: objects should be some strings or some lists of strings"))
  {
    match o
    case Str(s) => Ok([s])
    case Strs(l) => Ok(l)
    case _ => Err(Failure(PackageName + " Error: objects should be some strings or some lists of strings"))
  }

  /** One path sets itself, one list sets its paths. */
  lemma SetCurrentObjsSingle(s: string, l: seq<string>)
    ensures SetCurrentObjs([Str(s)]) == Ok([s]) && SetCurrentObjs([Strs(l)]) == Ok(l)
  {
    assert [Str(s)][1..] == [] && [Strs(l)][1..] == [];
    assert [s] + [] == [s] && l + [] == l;
  }

  /** Setting the arguments of two calls at once sets their paths one after
      the other. */
  lemma {:induction false} SetCurrentObjsAppend(a: seq<Objs>, b: seq<Objs>)
    requires SetCurrentObjs(a).Ok? && SetCurrentObjs(b).Ok?
    ensures SetCurrentObjs(a + b) == Ok(SetCurrentObjs(a).value + SetCurrentObjs(b).value)
  {
    if |a| == 0 {
      assert a + b == b;
      assert SetCurrentObjs(a) == Ok([]);
      assert [] + SetCurrentObjs(b).value == SetCurrentObjs(b).value;
    } else {
      var ab := a + b;
      assert ab[0] == a[0] && ab[1..] == a[1..] + b;
      var h := PathsOf(a[0]).value;
      var ra := SetCurrentObjs(a[1..]);
      assert SetCurrentObjs(a) == (if ra.Ok? then Ok(h + ra.value) else ra);
      SetCurrentObjsAppend(a[1..], b);
      var rab := SetCurrentObjs(ab[1..]);
      assert SetCurrentObjs(ab) == (if rab.Ok? then Ok(h + rab.value) else rab);
      assert rab == Ok(ra.value + SetCurrentObjs(b).value);
      AppendAssoc(h, ra.value, SetCurrentObjs(b).value);
    }
  }

  /** `__yieldTreeObjects(obj, deep, withparent)`: the objects `deep` levels
      under `obj` (under the application list when `obj` is empty), each
      visited object too when `withparent` holds; `objectList` and
      `appList` stand for `ldtp.getobjectlist` and `ldtp.getapplist`. */
  function YieldTree(obj: string, deep: int, withparent: bool,
                     objectList: string -> seq<string>, appList: seq<string>): (r: seq<string>)
    ensures deep < 0 ==> r == []
    ensures deep == 0 ==> r == (if obj != "" then [obj] else [])
    ensures forall k :: 0 <= k < |r| ==> r[k] != ""
    ensures withparent && obj != "" && deep >= 0 ==> |r| > 0 && r[0] == obj
    decreases if deep < 0 then 0 else deep, 1, 0
  {
    if deep < 0 then []
    else if deep == 0 then (if obj != "" then [obj] else [])
    else
      var ol := if obj != "" then objectList(obj) else appList;
      var below := YieldAll(ol, deep - 1, withparent, objectList, appList);
      var own := if obj != "" && withparent then [obj] else [];
      assert forall k :: |own| <= k < |own| + |below| ==> (own + below)[k] == below[k - |own|];
      own + below
  }

  /** The objects yielded for each of `ol` in turn. */
  function YieldAll(ol: seq<string>, deep: int, withparent: bool,
                    objectList: string -> seq<string>, appList: seq<string>): (r: seq<string>)
    requires deep >= 0
    ensures forall k :: 0 <= k < |r| ==> r[k] != ""
    decreases deep, 2, |ol|
  {
    if |ol| == 0 then []
    else
      var head := YieldTree(ol[0], deep, withparent, objectList, appList);
      var rest := YieldAll(ol[1..], deep, withparent, objectList, appList);
      assert forall k :: |head| <= k < |head| + |rest| ==> (head + rest)[k] == rest[k - |head|];
      head + rest
  }

  /** One level down without the parent: the object's non-empty children,
      in the order the server lists them. */
  lemma OneLevel(obj: string, withparent: bool, objectList: string -> seq<string>, appList: seq<string>)
    requires obj != ""
    ensures YieldTree(obj, 1, false, objectList, appList) == Filter(objectList(obj), (x: string) => x != "")
  {
    LeavesAtZero(objectList(obj), false, objectList, appList);
  }

  lemma {:induction false} LeavesAtZero(ol: seq<string>, withparent: bool,
                                        objectList: string -> seq<string>, appList: seq<string>)
    ensures YieldAll(ol, 0, withparent, objectList, appList) == Filter(ol, (x: string) => x != "")
  {
    if |ol| > 0 {
      LeavesAtZero(ol[1..], withparent, objectList, appList);
    }
  }
}

=== FILE: menu_ops.dfy ===
/** The menu commands of ldtpd/menu.py: each resolves its object through
    the menu-path resolver when the name holds a `;` and through the
    object resolver otherwise, then clicks, lists or toggles it.
    `handleCells` is the daemon's table-cell flag, which the walks read.
 */
module MenuOps {
  import opened Wrappers
  import opened Strings
  import opened Access
  import opened Naming
  import opened Walker
  import opened Seqs
  import opened Appmap
  import opened Resolver
  import opened CoreOps

  /** `_click_object(obj)` with its default pattern `click`. */
  const ClickAction: seq<string> := ["click"]

  /** The object a menu command works on: a name holding `;` is a menu
      path, any other name an object name. */
  function MenuTarget(apps: seq<Acc>, c: Cache, window: string, name: string, handleCells: bool): (r: Lookup)
    ensures !HasChar(name, ';') ==> r == GetObject(apps, c, window, name)
    ensures HasChar(name, ';') ==> r == GetMenuHierarchy(apps, c, window, name, handleCells)
  {
    if HasChar(name, ';') then GetMenuHierarchy(apps, c, window, name, handleCells)
    else GetObject(apps, c, window, name)
  }

  /** A path with a `;` has at least two segments, and the resolver's last
      segment is the path's last `;`-piece. */
  lemma {:induction false} MenuPathLast(name: string)
    requires HasChar(name, ';')
    ensures var parts := Split(name, ';');
            var segs := MenuPath(name);
            |parts| >= 2 && |segs| == |parts| && segs[|segs| - 1] == parts[|parts| - 1]
  {
    SplitAtSeparator(name, ';');
    var parts, segs := Split(name, ';'), MenuPath(name);
    var last := |parts| - 1;
    assert 1 <= last < |segs|;
    assert segs[last] == parts[last];
  }

  /** A menu path resolves to an accessible its last `;`-segment names. */
  lemma MenuPathNamesLastSegment(apps: seq<Acc>, c: Cache, window: string, name: string, handleCells: bool)
    requires HasChar(name, ';')
    ensures var parts := Split(name, ';');
            var r := MenuTarget(apps, c, window, name, handleCells);
            |parts| >= 2 && (r.result.Ok? ==> r.result.value.Obj? && MatchNameToAcc(parts[|parts| - 1], r.result.value))
  {
    MenuPathLast(name);
  }

  /** `selectmenuitem(window_name, object_name)`: click the item. */
  function SelectMenuItem(apps: seq<Acc>, c: Cache, window: string, name: string, handleCells: bool): (r: Done)
    ensures var l := MenuTarget(apps, c, window, name, handleCells);
            r.cache == l.cache
            && (r.result.Ok? <==> l.result.Ok? && ClickObject(l.result.value, ClickAction).Ok?)
            && (r.result.Ok? ==> r.result.value == 1)
            && (l.result.Err? ==> r.result == Err(l.result.fault))
  {
    var l := MenuTarget(apps, c, window, name, handleCells);
    match l.result
    case Err(f) => Done(Err(f), l.cache)
    case Ok(obj) =>
      match ClickObject(obj, ClickAction)
      case Err(f) => Done(Err(f), l.cache)
      case Ok(_) => Done(Ok(1), l.cache)
  }

  /** `doesmenuitemexist(window_name, object_name)`: never raises; 1 when
      resolution succeeds and 0 when it raises anything. */
  function DoesMenuItemExist(apps: seq<Acc>, c: Cache, window: string, name: string, handleCells: bool): (r: Done)
    ensures var l := MenuTarget(apps, c, window, name, handleCells);
            r.cache == l.cache && r.result.Ok? && (r.result.value == 0 || r.result.value == 1)
            && (r.result.value == 1 <==> l.result.Ok?)
  {
    var l := MenuTarget(apps, c, window, name, handleCells);
    Done(Ok(if l.result.Ok? then 1 else 0), l.cache)
  }

  /** An item that can be selected exists. */
  lemma SelectableItemExists(apps: seq<Acc>, c: Cache, window: string, name: string, handleCells: bool)
    requires SelectMenuItem(apps, c, window, name, handleCells).result.Ok?
    ensures DoesMenuItemExist(apps, c, window, name, handleCells).result == Ok(1)
  {
  }

  /** A walked accessible that `listsubmenus` reports: not the item itself,
      and named, with a name other than `Empty`. */
  predicate Listable(n: Node, root: Acc) {
    n != root && n.name != "" && n.name != "Empty"
  }

  predicate NothingListable(nodes: seq<Node>, root: Acc) {
    forall i :: 0 <= i < |nodes| ==> !Listable(nodes[i], root)
  }

  /** No walked name holds the separator `;`. */
  predicate PlainNames(nodes: seq<Node>) {
    forall i :: 0 <= i < |nodes| ==> !HasChar(nodes[i].name, ';')
  }

  /** The names `listsubmenus` collects, in walk order. */
  function ListedNames(nodes: seq<Node>, root: Acc): (r: seq<string>)
    ensures |r| <= |nodes|
    ensures forall k :: 0 <= k < |r| ==> r[k] != "" && r[k] != "Empty"
    ensures forall i :: 0 <= i < |nodes| && Listable(nodes[i], root) ==> nodes[i].name in r
    ensures |r| == 0 <==> NothingListable(nodes, root)
    ensures PlainNames(nodes) ==> forall k :: 0 <= k < |r| ==> !HasChar(r[k], ';')
  {
    if |nodes| == 0 then []
    else
      var rest := ListedNames(nodes[1..], root);
      assert forall i :: 1 <= i < |nodes| ==> nodes[i] == nodes[1..][i - 1];
      if Listable(nodes[0], root) then [nodes[0].name] + rest else rest
  }

  /** The reporting test of `listsubmenus`, as a value. */
  function ListTest(root: Acc): Node -> bool {
    (n: Node) => Listable(n, root)
  }

  /** The names of `ns`, in order. */
  function Names(ns: seq<Node>): (r: seq<string>)
    ensures |r| == |ns|
    ensures forall i :: 0 <= i < |ns| ==> r[i] == ns[i].name
  {
    if |ns| == 0 then [] else [ns[0].name] + Names(ns[1..])
  }

  /** The reported names are exactly the names of the reportable nodes of
      the walk, in walk order and as often as they occur. */
  lemma {:induction false} ListedNamesFilter(nodes: seq<Node>, root: Acc)
    ensures ListedNames(nodes, root) == Names(Filter(nodes, ListTest(root)))
  {
    if |nodes| > 0 {
      ListedNamesFilter(nodes[1..], root);
      var rest := Filter(nodes[1..], ListTest(root));
      if Listable(nodes[0], root) {
        assert Filter(nodes, ListTest(root)) == [nodes[0]] + rest;
        assert ([nodes[0]] + rest)[1..] == rest;
      } else {
        assert Filter(nodes, ListTest(root)) == rest;
      }
    }
  }

  /** `listsubmenus` once resolved: the reported names of the walk from
      the item joined with `;`; a broken walk raises. */
  function Submenus(obj: Acc, handleCells: bool): (r: Result<string>)
    ensures Walk(obj, handleCells).fault ==> r == Err(AttributeFault)
    ensures r.Ok? ==> (r.value == "" <==> NothingListable(Walk(obj, handleCells).nodes, obj))
  {
    var w := Walk(obj, handleCells);
    if w.fault then Err(AttributeFault)
    else
      var parts := ListedNames(w.nodes, obj);
      JoinEmptyIff(parts, ';');
      Ok(Join(parts, ';'))
  }

  /** When no reported name holds a `;`, splitting the answer on `;` gives
      back the reported names in walk order, none of them empty. */
  lemma SubmenusSplitBack(obj: Acc, handleCells: bool)
    requires Submenus(obj, handleCells).Ok? && Submenus(obj, handleCells).value != ""
    requires PlainNames(Walk(obj, handleCells).nodes)
    ensures var nodes := Walk(obj, handleCells).nodes;
            var pieces := Split(Submenus(obj, handleCells).value, ';');
            pieces == ListedNames(nodes, obj)
            && (forall k :: 0 <= k < |pieces| ==> pieces[k] != "" && pieces[k] != "Empty")
            && (forall i :: 0 <= i < |nodes| && Listable(nodes[i], obj) ==> nodes[i].name in pieces)
  {
    var parts := ListedNames(Walk(obj, handleCells).nodes, obj);
    JoinEmptyIff(parts, ';');
    SplitJoin(parts, ';');
  }

  /** `listsubmenus(window_name, object_name)`. */
  function ListSubmenus(apps: seq<Acc>, c: Cache, window: string, name: string, handleCells: bool): (r: Said)
    ensures var l := MenuTarget(apps, c, window, name, handleCells);
            r.cache == l.cache
            && (l.result.Err? ==> r.result == Err(l.result.fault))
            && (l.result.Ok? ==> r.result == Submenus(l.result.value, handleCells))
  {
    var l := MenuTarget(apps, c, window, name, handleCells);
    match l.result
    case Err(f) => Said(Err(f), l.cache)
    case Ok(obj) => Said(Submenus(obj, handleCells), l.cache)
  }

  /** `menucheck` (`target` true) and `menuuncheck` (`target` false) once
      resolved: click only when the checked state is not `target`. */
  function MenuToggle(obj: Acc, target: bool): (r: Clicked)
    ensures obj.Null? ==> r == Clicked(Err(AttributeFault), None)
    ensures r.result.Ok? ==> r.result.value == 1
    ensures obj.Obj? && (Checked in obj.states) == target ==> r == Clicked(Ok(1), None)
    ensures obj.Obj? && (Checked in obj.states) != target ==>
              (r.action.Some? <==> r.result.Ok?)
              && (r.action.Some? ==> ClickObject(obj, ClickAction) == Ok(r.action.value))
              && (r.result.Err? ==> ClickObject(obj, ClickAction).Err?
                                    && r.result.fault == ClickObject(obj, ClickAction).fault)
  {
    match CheckState(obj, Checked)
    case Err(f) => Clicked(Err(f), None)
    case Ok(checked) =>
      if checked == target then Clicked(Ok(1), None)
      else match ClickObject(obj, ClickAction)
        case Err(f) => Clicked(Err(f), None)
        case Ok(i) => Clicked(Ok(1), Some(i))
  }

  /** `menucheck(window_name, object_name)`. */
  function MenuCheck(apps: seq<Acc>, c: Cache, window: string, name: string, handleCells: bool): (r: Toggled)
    ensures var l := MenuTarget(apps, c, window, name, handleCells);
            r.cache == l.cache
            && (l.result.Err? ==> r.result == Err(l.result.fault) && r.action.None?)
            && (l.result.Ok? ==> Clicked(r.result, r.action) == MenuToggle(l.result.value, true))
  {
    var l := MenuTarget(apps, c, window, name, handleCells);
    match l.result
    case Err(f) => Toggled(Err(f), None, l.cache)
    case Ok(obj) => var t := MenuToggle(obj, true); Toggled(t.result, t.action, l.cache)
  }

  /** `menuuncheck(window_name, object_name)`. */
  function MenuUncheck(apps: seq<Acc>, c: Cache, window: string, name: string, handleCells: bool): (r: Toggled)
    ensures var l := MenuTarget(apps, c, window, name, handleCells);
            r.cache == l.cache
            && (l.result.Err? ==> r.result == Err(l.result.fault) && r.action.None?)
            && (l.result.Ok? ==> Clicked(r.result, r.action) == MenuToggle(l.result.value, false))
  {
    var l := MenuTarget(apps, c, window, name, handleCells);
    match l.result
    case Err(f) => Toggled(Err(f), None, l.cache)
    case Ok(obj) => var t := MenuToggle(obj, false); Toggled(t.result, t.action, l.cache)
  }

  /** Of `menucheck` and `menuuncheck` on the same item at most one clicks,
      and the one matching the item's state answers 1 untouched. */
  lemma MenuCheckUncheckComplementary(obj: Node)
    ensures MenuToggle(obj, true).action.None? || MenuToggle(obj, false).action.None?
    ensures Checked in obj.states ==> MenuToggle(obj, true) == Clicked(Ok(1), None)
    ensures Checked !in obj.states ==> MenuToggle(obj, false) == Clicked(Ok(1), None)
  {
  }
}

=== FILE: naming.dfy ===
/** LDTP's naming convention (`_ldtpize_accessible` and `_match_name_to_acc`
    in ldtpd/utils.py): an accessible is known by its own name, by the
    synthetic name `tag + label`, or by any glob matching either.
 */
module Naming {
  import opened Wrappers
  import opened Strings
  import opened Roles
  import opened Glob
  import opened Access

  /** Characters removed from a window's label. */
  const WindowStrip: set<char> := {' ', '\n'}

  /** Characters removed from any other accessible's label. */
  const OtherStrip: set<char> := {' ', ':', '.', '_', '\n'}

  function StripSet(r: Role): (cs: set<char>)
    ensures ' ' in cs && '\n' in cs
  {
    if IsWindowRole(r) then WindowStrip else OtherStrip
  }

  predicate Labelling(rel: Relation) {
    rel.kind == LabelledBy || rel.kind == ControlledBy
  }

  /** The target of the first labelling relation.  The source passes the
      relation's own position to `getTarget`, so the k-th relation yields
      its k-th target (`None` when it has fewer). */
  function LabelTarget(rels: seq<Relation>, k: nat): (r: Option<string>)
    requires k <= |rels|
    ensures (forall i :: k <= i < |rels| ==> !Labelling(rels[i])) ==> r.None?
    ensures r.Some? ==> exists i :: k <= i < |rels| && Labelling(rels[i])
                          && i < |rels[i].targets| && rels[i].targets[i] == r
                          && forall j :: k <= j < i ==> !Labelling(rels[j])
    decreases |rels| - k
  {
    if k == |rels| then None
    else if Labelling(rels[k]) then (if k < |rels[k].targets| then rels[k].targets[k] else None)
    else LabelTarget(rels, k + 1)
  }

  /** What `_ldtpize_accessible` returns: role tag, stripped label, and the
      name of the labelling accessible if there is one. */
  datatype Ldtpized = Ldtpized(tag: string, abbrevName: string, labelBy: Option<string>)

  /** The raw name the label is made from: the labelling target's name when
      there is a target, the accessible's own name otherwise. */
  function LabelSource(a: Node): string {
    match LabelTarget(a.relations, 0)
    case Some(n) => n
    case None => a.name
  }

  function Ldtpize(a: Node): (r: Ldtpized)
    ensures r.tag == Tag(a.role)
    ensures r.labelBy == LabelTarget(a.relations, 0)
    ensures r.labelBy.None? ==> r.abbrevName == Strip(a.name, StripSet(a.role))
    ensures r.labelBy.Some? ==> r.abbrevName == Strip(r.labelBy.value, StripSet(a.role))
    ensures forall i :: 0 <= i < |r.abbrevName| ==> r.abbrevName[i] != ' ' && r.abbrevName[i] != '\n'
    ensures !IsWindowRole(a.role) ==>
              forall i :: 0 <= i < |r.abbrevName| ==> r.abbrevName[i] !in {':', '.', '_'}
  {
    Ldtpized(Tag(a.role), Strip(LabelSource(a), StripSet(a.role)), LabelTarget(a.relations, 0))
  }

  /** `tag + label`, the name the appmap and the window list use. */
  function SyntheticName(a: Node): (s: string)
    ensures StartsWith(s, Tag(a.role))
  {
    var l := Ldtpize(a);
    assert (l.tag + l.abbrevName)[..|l.tag|] == l.tag;
    l.tag + l.abbrevName
  }

  /** `_match_name_to_acc(name, acc)`, its six tests in the source's order. */
  predicate MatchNameToAcc(name: string, a: Node) {
    var l := Ldtpize(a);
    var synthetic := l.tag + l.abbrevName;
    var stripped := Strip(name, StripSet(a.role));
    a.name == name
    || synthetic == name
    || GlobMatch(name, a.name)
    || GlobMatch(name, synthetic)
    || GlobMatch(stripped, synthetic)
    || GlobMatch(stripped, l.abbrevName)
  }

  /** An accessible is found by its own name. */
  lemma MatchesOwnName(a: Node)
    ensures MatchNameToAcc(a.name, a)
  {
  }

  /** An accessible is found by its synthetic name. */
  lemma MatchesSyntheticName(a: Node)
    ensures MatchNameToAcc(SyntheticName(a), a)
  {
  }

  lemma StripKeepsNoMeta(s: string, cs: set<char>)
    requires NoMeta(s)
    ensures NoMeta(Strip(s, cs))
    decreases |s|
  {
    if |s| > 0 {
      StripKeepsNoMeta(s[1..], cs);
    }
  }

  /** For a name without glob characters the matcher is plain string
      equality: against the own name, the synthetic name, or (after the
      name loses the label's strip characters) the synthetic name or the
      label. */
  lemma LiteralNameMatch(name: string, a: Node)
    requires NoMeta(name)
    ensures MatchNameToAcc(name, a) <==>
              var l := Ldtpize(a);
              var stripped := Strip(name, StripSet(a.role));
              name == a.name || name == l.tag + l.abbrevName
              || stripped == l.tag + l.abbrevName || stripped == l.abbrevName
  {
    var l := Ldtpize(a);
    var stripped := Strip(name, StripSet(a.role));
    LiteralPatternMatchesOnlyItself(name, a.name);
    LiteralPatternMatchesOnlyItself(name, l.tag + l.abbrevName);
    StripKeepsNoMeta(name, StripSet(a.role));
    LiteralPatternMatchesOnlyItself(stripped, l.tag + l.abbrevName);
    LiteralPatternMatchesOnlyItself(stripped, l.abbrevName);
  }

  /** With no labelling relation the label is the accessible's own name with
      the strip characters removed; a name free of them is kept whole. */
  lemma UnlabelledLabel(a: Node)
    requires forall i :: 0 <= i < |a.relations| ==> !Labelling(a.relations[i])
    requires forall i :: 0 <= i < |a.name| ==> a.name[i] !in StripSet(a.role)
    ensures Ldtpize(a).abbrevName == a.name && Ldtpize(a).labelBy.None?
  {
  }
}

=== FILE: page_tab.dfy ===
/** The page-tab commands of ldtpd/page_tab_list.py.  The tabs are the
    page-tab list's children; a tab's index is its position among them,
    `None` children included.
 */
module PageTab {
  import opened Wrappers
  import opened Strings
  import opened Access
  import opened Naming
  import opened Appmap
  import opened Resolver
  import opened CoreOps

  const InvalidIndex := "Unable to get page tab name, invalid index"
  const NotSelectable := "Unable to select page tab object."

  /** A child the tab name names. */
  predicate Names(tabName: string, a: Acc) {
    a.Obj? && MatchNameToAcc(tabName, a)
  }

  /** Child k is the first child the tab name names. */
  predicate FirstNamed(obj: Acc, tabName: string, k: int) {
    obj.Obj? && 0 <= k < |obj.children| && Names(tabName, obj.children[k])
    && forall j :: 0 <= j < k ==> !Names(tabName, obj.children[j])
  }

  /** A tab command's answer and the index it passed to `selectChild`. */
  datatype TabPick = TabPick(result: Result<int>, selected: Option<int>)

  /** `selecttab` once resolved: the first child the name names decides;
      an already selected tab is left alone, any other is selected by its
      position. */
  function SelectTabIn(obj: Acc, tabName: string): (r: TabPick)
    ensures GrabFocus(obj).Err? ==> r == TabPick(Err(GrabFocus(obj).fault), None)
    ensures r.result.Ok? ==> r.result.value == 1
    ensures r.selected.Some? ==>
              r.result.Ok? && obj.Obj? && obj.hasSelection && 0 <= r.selected.value < |obj.children|
              && Names(tabName, obj.children[r.selected.value])
              && Selected !in obj.children[r.selected.value].states
              && forall k :: 0 <= k < r.selected.value ==> !Names(tabName, obj.children[k])
    ensures r.result.Ok? && r.selected.None? ==>
              obj.Obj? && exists k :: 0 <= k < |obj.children| && Names(tabName, obj.children[k])
                                      && Selected in obj.children[k].states
    ensures GrabFocus(obj).Ok? && (forall k :: 0 <= k < |obj.children| ==> !Names(tabName, obj.children[k])) ==>
              r == TabPick(Err(ServerError("Page tab name does not exist")), None)
    ensures forall k :: FirstNamed(obj, tabName, k) && GrabFocus(obj).Ok? ==>
              (Selected in obj.children[k].states ==> r == TabPick(Ok(1), None))
              && (Selected !in obj.children[k].states && obj.hasSelection ==> r == TabPick(Ok(1), Some(k)))
              && (Selected !in obj.children[k].states && !obj.hasSelection ==> r == TabPick(Err(ServerError(NotSelectable)), None))
  {
    match GrabFocus(obj)
    case Err(f) => TabPick(Err(f), None)
    case Ok(_) =>
      match FirstIndex(obj.children, (a: Acc) => Names(tabName, a), 0)
      case None => TabPick(Err(ServerError("Page tab name does not exist")), None)
      case Some(k) =>
        assert FirstNamed(obj, tabName, k);
        assert forall j :: FirstNamed(obj, tabName, j) ==> j == k;
        if Selected in obj.children[k].states then TabPick(Ok(1), None)
        else if !obj.hasSelection then TabPick(Err(ServerError(NotSelectable)), None)
        else TabPick(Ok(1), Some(k))
  }

  /** `selecttabindex` once resolved.  The range test admits the child
      count itself, an index with no tab. */
  function SelectTabIndexIn(obj: Acc, index: int): (r: TabPick)
    ensures GrabFocus(obj).Err? ==> r == TabPick(Err(GrabFocus(obj).fault), None)
    ensures r.result.Ok? <==> obj.Obj? && obj.hasComponent && 0 <= index <= |obj.children| && obj.hasSelection
    ensures r.result.Ok? ==> r == TabPick(Ok(1), Some(index))
    ensures GrabFocus(obj).Ok? && (index < 0 || index > |obj.children|) ==>
              r == TabPick(Err(ServerError(InvalidIndex)), None)
  {
    match GrabFocus(obj)
    case Err(f) => TabPick(Err(f), None)
    case Ok(_) =>
      if index < 0 || index > |obj.children| then TabPick(Err(ServerError(InvalidIndex)), None)
      else if !obj.hasSelection then TabPick(Err(ServerError(NotSelectable)), None)
      else TabPick(Ok(1), Some(index))
  }

  /** `verifytabname` once resolved: 1 exactly when some child the name
      names is selected. */
  function VerifyTabIn(obj: Acc, tabName: string): (r: int)
    ensures r == 0 || r == 1
    ensures r == 1 <==> obj.Obj? && obj.hasComponent
                        && exists k :: 0 <= k < |obj.children| && Names(tabName, obj.children[k])
                                       && Selected in obj.children[k].states
  {
    if GrabFocus(obj).Err? then 0
    else
      var test := (a: Acc) => Names(tabName, a) && Selected in a.states;
      match FirstIndex(obj.children, test, 0)
      case None => 0
      case Some(_) => 1
  }

  /** `gettabcount` once resolved. */
  function TabCountIn(obj: Acc): (r: Result<int>)
    ensures r.Ok? <==> obj.Obj? && obj.hasComponent
    ensures r.Ok? ==> r.value == |obj.children|
  {
    match GrabFocus(obj)
    case Err(f) => Err(f)
    case Ok(_) => Ok(|obj.children|)
  }

  /** `gettabname` once resolved, as written: the range test admits the
      child count, whose missing child then has no name to read. */
  function TabNameIn(obj: Acc, index: int): (r: Result<string>)
    ensures r.Ok? ==> obj.Obj? && 0 <= index < |obj.children| && obj.children[index].Obj?
                      && r.value == obj.children[index].name
    ensures GrabFocus(obj).Ok? && (index < 0 || index > |obj.children|) ==> r == Err(ServerError(InvalidIndex))
    ensures GrabFocus(obj).Ok? && 0 <= index < |obj.children| && obj.children[index].Obj? ==> r.Ok?
  {
    match GrabFocus(obj)
    case Err(f) => Err(f)
    case Ok(_) =>
      if index < 0 || index > |obj.children| then Err(ServerError(InvalidIndex))
      else
        var child := ChildAt(obj, index);
        if child.Null? then Err(AttributeFault) else Ok(child.name)
  }

  /** `gettabname` with the range test it evidently means: an index is
      valid only below the child count. */
  function TabNameInFixed(obj: Acc, index: int): (r: Result<string>)
    ensures GrabFocus(obj).Ok? && !(0 <= index < |obj.children|) ==> r == Err(ServerError(InvalidIndex))
    ensures GrabFocus(obj).Ok? && 0 <= index < |obj.children| ==> r == TabNameIn(obj, index)
    ensures GrabFocus(obj).Err? ==> r == TabNameIn(obj, index)
  {
    match GrabFocus(obj)
    case Err(f) => Err(f)
    case Ok(_) =>
      if index < 0 || index >= |obj.children| then Err(ServerError(InvalidIndex))
      else TabNameIn(obj, index)
  }

  /** As written, asking for the name of tab `childCount` passes the range
      test and fails reading a name from `None`. */
  lemma TabNameAtCountFaults(obj: Node)
    requires obj.hasComponent
    ensures TabNameIn(obj, |obj.children|) == Err(AttributeFault)
    ensures TabNameInFixed(obj, |obj.children|) == Err(ServerError(InvalidIndex))
  {
  }

  /** A selected tab verifies under the name `gettabname` reports for it. */
  lemma SelectedTabVerifiesByItsName(obj: Acc, index: int)
    requires TabNameIn(obj, index).Ok?
    requires Selected in obj.children[index].states
    requires GrabFocus(obj).Ok?
    ensures VerifyTabIn(obj, TabNameIn(obj, index).value) == 1
  {
    MatchesOwnName(obj.children[index]);
  }

  /** When `selecttab` leaves the tabs alone, `verifytabname` confirms the
      tab selected. */
  lemma UntouchedSelectionVerifies(obj: Acc, tabName: string)
    requires SelectTabIn(obj, tabName).result.Ok? && SelectTabIn(obj, tabName).selected.None?
    ensures VerifyTabIn(obj, tabName) == 1
  {
  }

  /** `selecttab(window_name, object_name, tab_name)`. */
  function SelectTab(apps: seq<Acc>, c: Cache, window: string, name: string, tabName: string): (r: Done)
    ensures var l := GetObject(apps, c, window, name);
            r.cache == l.cache
            && (l.result.Err? ==> r.result == Err(l.result.fault))
            && (l.result.Ok? ==> r.result == SelectTabIn(l.result.value, tabName).result)
  {
    var l := GetObject(apps, c, window, name);
    match l.result
    case Err(f) => Done(Err(f), l.cache)
    case Ok(obj) => Done(SelectTabIn(obj, tabName).result, l.cache)
  }

  /** `selecttabindex(window_name, object_name, tab_index)`. */
  function SelectTabIndex(apps: seq<Acc>, c: Cache, window: string, name: string, index: int): (r: Done)
    ensures var l := GetObject(apps, c, window, name);
            r.cache == l.cache
            && (l.result.Err? ==> r.result == Err(l.result.fault))
            && (l.result.Ok? ==> r.result == SelectTabIndexIn(l.result.value, index).result)
  {
    var l := GetObject(apps, c, window, name);
    match l.result
    case Err(f) => Done(Err(f), l.cache)
    case Ok(obj) => Done(SelectTabIndexIn(obj, index).result, l.cache)
  }

  /** `verifytabname(window_name, object_name, tab_name)`: any exception,
      the lookup's included, answers 0. */
  function VerifyTabName(apps: seq<Acc>, c: Cache, window: string, name: string, tabName: string): (r: Done)
    ensures var l := GetObject(apps, c, window, name);
            r.cache == l.cache && r.result.Ok?
            && (r.result.value == 1 <==> l.result.Ok? && VerifyTabIn(l.result.value, tabName) == 1)
            && (r.result.value == 0 || r.result.value == 1)
  {
    var l := GetObject(apps, c, window, name);
    match l.result
    case Err(_) => Done(Ok(0), l.cache)
    case Ok(obj) => Done(Ok(VerifyTabIn(obj, tabName)), l.cache)
  }

  /** `gettabname(window_name, object_name, tab_index)`, corrected. */
  function GetTabName(apps: seq<Acc>, c: Cache, window: string, name: string, index: int): (r: Said)
    ensures var l := GetObject(apps, c, window, name);
            r.cache == l.cache
            && (l.result.Err? ==> r.result == Err(l.result.fault))
            && (l.result.Ok? ==> r.result == TabNameInFixed(l.result.value, index))
  {
    var l := GetObject(apps, c, window, name);
    match l.result
    case Err(f) => Said(Err(f), l.cache)
    case Ok(obj) => Said(TabNameInFixed(obj, index), l.cache)
  }
}

=== FILE: resolver.dfy ===
/** Finding windows and objects by name (`_list_guis`, `_get_window_handle`,
    `_get_object` and `_get_menu_hierarchy` of ldtpd/utils.py, and
    `getwindowlist` of ldtpd/core.py).  The desktop is the daemon's cached
    application list; a window is a child of an application.
 */
module Resolver {
  import opened Wrappers
  import opened Strings
  import opened Roles
  import opened Glob
  import opened Access
  import opened Naming
  import opened Walker
  import opened Appmap
  import Seqs

  /** A top-level window together with the application it belongs to. */
  datatype Gui = Gui(app: Node, window: Node)

  /** The accessibles among `s`, skipping `None`. */
  function NonNull(s: seq<Acc>): (r: seq<Node>)
    ensures |r| <= |s|
    ensures forall x: Node :: x in r <==> x in s
  {
    if |s| == 0 then []
    else
      var rest := NonNull(s[1..]);
      assert s == [s[0]] + s[1..];
      if s[0].Null? then rest else var n: Node := s[0]; [n] + rest
  }

  function Pairs(app: Node, ws: seq<Node>): (r: seq<Gui>)
    ensures |r| == |ws|
    ensures forall i :: 0 <= i < |r| ==> r[i] == Gui(app, ws[i])
  {
    if |ws| == 0 then [] else [Gui(app, ws[0])] + Pairs(app, ws[1..])
  }

  /** `_list_guis()`: the non-`None` children of the non-`None`
      applications, application by application. */
  function ListGuis(apps: seq<Acc>): (gs: seq<Gui>)
    ensures forall app: Node, w: Node :: Gui(app, w) in gs <==> app in apps && w in app.children
  {
    if |apps| == 0 then []
    else
      var rest := ListGuis(apps[1..]);
      assert apps == [apps[0]] + apps[1..];
      if apps[0].Null? then rest
      else
        var app: Node := apps[0];
        var own := Pairs(app, NonNull(app.children));
        assert forall w: Node :: Gui(app, w) in own <==> w in NonNull(app.children);
        own + rest
  }

  /** What the naming loop reads of a window: its role tag and label. */
  datatype WinLabel = WinLabel(tag: string, text: string)

  /** The windows' tags and labels, in list order. */
  function Labels(gs: seq<Gui>): (ls: seq<WinLabel>)
    ensures |ls| == |gs|
    ensures forall i :: 0 <= i < |gs| ==>
              ls[i] == WinLabel(Ldtpize(gs[i].window).tag, Ldtpize(gs[i].window).abbrevName)
  {
    if |gs| == 0 then []
    else
      var l := Ldtpize(gs[0].window);
      [WinLabel(l.tag, l.abbrevName)] + Labels(gs[1..])
  }

  /** Unlabelled windows in `ls` with role tag `t`. */
  function Unlabelled(ls: seq<WinLabel>, t: string): nat {
    if |ls| == 0 then 0
    else
      var last := ls[|ls| - 1];
      Unlabelled(ls[..|ls| - 1], t) + (if last.text == "" && last.tag == t then 1 else 0)
  }

  /** The name window `i` is tried as before de-duplication: tag + label,
      or, for an unlabelled window, tag + the number of unlabelled windows
      with the same tag before it. */
  function Candidate(ls: seq<WinLabel>, i: nat): (c: string)
    requires i < |ls|
    ensures StartsWith(c, ls[i].tag)
  {
    var l := ls[i];
    var c := if l.text == "" then l.tag + NatToString(Unlabelled(ls[..i], l.tag)) else l.tag + l.text;
    assert c[..|l.tag|] == l.tag;
    c
  }

  /** The names given so far, as a set. */
  function Taken(names: seq<string>): set<string> {
    set n | n in names
  }

  datatype Listing = Listing(names: seq<string>, counters: map<string, nat>)

  /** The name a window is first tried as, from the counters so far. */
  function Tried(prev: Listing, l: WinLabel): string {
    if l.text == "" then l.tag + NatToString(NextCount(prev.counters, l.tag)) else l.tag + l.text
  }

  /** One turn of the naming loop: an unlabelled window advances its tag's
      counter; the name taken is the first of `tried`, `tried1`, `tried2`,
      ... that is new. */
  function NameStep(prev: Listing, l: WinLabel): (r: Listing)
    ensures |r.names| == |prev.names| + 1 && r.names[..|prev.names|] == prev.names
    ensures r.names[|prev.names|] == FirstFree(Tried(prev, l), Tried(prev, l), Taken(prev.names))
  {
    var counters := if l.text == "" then prev.counters[l.tag := NextCount(prev.counters, l.tag)]
                    else prev.counters;
    var names := prev.names + [FirstFree(Tried(prev, l), Tried(prev, l), Taken(prev.names))];
    assert names[..|prev.names|] == prev.names;
    Listing(names, counters)
  }

  /** The naming loop shared by `getwindowlist` and the second pass of
      `_get_window_handle`. */
  function DisplayNames(ls: seq<WinLabel>): (r: Listing)
    ensures |r.names| == |ls|
    decreases |ls|
  {
    if |ls| == 0 then Listing([], map[]) else NameStep(DisplayNames(ls[..|ls| - 1]), ls[|ls| - 1])
  }

  /** The counters hold, per tag, one less than the number of unlabelled
      windows seen with that tag. */
  lemma {:induction false} DisplayCounters(ls: seq<WinLabel>)
    ensures var c := DisplayNames(ls).counters;
            forall t :: (t in c <==> Unlabelled(ls, t) > 0) && (t in c ==> c[t] + 1 == Unlabelled(ls, t))
    decreases |ls|
  {
    if |ls| > 0 {
      DisplayCounters(ls[..|ls| - 1]);
    }
  }

  /** Naming one more window leaves the earlier names alone. */
  lemma DisplayNamesLast(ls: seq<WinLabel>)
    requires |ls| > 0
    ensures DisplayNames(ls).names[..|ls| - 1] == DisplayNames(ls[..|ls| - 1]).names
  {
  }

  /** Names already given do not change as windows are added. */
  lemma {:induction false} DisplayNamesPrefix(ls: seq<WinLabel>, k: nat)
    requires k <= |ls|
    ensures DisplayNames(ls[..k]).names == DisplayNames(ls).names[..k]
    decreases |ls|
  {
    if k < |ls| {
      var n := |ls| - 1;
      var all, prev := DisplayNames(ls).names, DisplayNames(ls[..n]).names;
      DisplayNamesPrefix(ls[..n], k);
      Seqs.PrefixOfPrefix(ls, n, k);
      assert DisplayNames(ls[..k]).names == prev[..k];
      DisplayNamesLast(ls);
      Seqs.PrefixOfPrefix(all, n, k);
      assert prev[..k] == all[..k];
    } else {
      assert ls[..k] == ls;
      var all := DisplayNames(ls).names;
      assert all[..k] == all;
    }
  }

  /** The loop's counters make each window's first try its candidate. */
  lemma TriedIsCandidate(ls: seq<WinLabel>, i: nat)
    requires i < |ls|
    ensures Tried(DisplayNames(ls[..i]), ls[i]) == Candidate(ls, i)
  {
    DisplayCounters(ls[..i]);
  }

  /** Window `i` is named by its candidate, or by the candidate followed by
      the smallest number from 1 that no earlier window has taken. */
  lemma DisplayNameIsFirstFree(ls: seq<WinLabel>, i: nat)
    requires i < |ls|
    ensures var names := DisplayNames(ls).names;
            names[i] == FirstFree(Candidate(ls, i), Candidate(ls, i), Taken(names[..i]))
  {
    var p := ls[..i + 1];
    assert p[..i] == ls[..i] && p[i] == ls[i];
    var prev := DisplayNames(ls[..i]);
    assert DisplayNames(p) == NameStep(prev, ls[i]);
    TriedIsCandidate(ls, i);
    DisplayNamesPrefix(ls, i + 1);
    DisplayNamesPrefix(ls, i);
    var names := DisplayNames(ls).names;
    assert names[i] == DisplayNames(p).names[i];
    assert names[..i] == prev.names;
  }

  /** Every listed name is new: the window list never repeats a name. */
  lemma DisplayNamesDistinct(ls: seq<WinLabel>)
    ensures var names := DisplayNames(ls).names;
            forall i, j :: 0 <= i < j < |names| ==> names[i] != names[j]
  {
    var names := DisplayNames(ls).names;
    forall i, j | 0 <= i < j < |names|
      ensures names[i] != names[j]
    {
      DisplayNameIsFirstFree(ls, j);
      assert names[i] in names[..j];
    }
  }

  /** A listed name is its window's candidate, possibly followed by a number
      from 1; so it starts with the window's role tag. */
  lemma DisplayNameShape(ls: seq<WinLabel>, i: nat)
    requires i < |ls|
    ensures var name := DisplayNames(ls).names[i];
            StartsWith(name, Candidate(ls, i)) && StartsWith(name, ls[i].tag)
  {
    var names := DisplayNames(ls).names;
    DisplayNameIsFirstFree(ls, i);
    FirstFreeExtends(Candidate(ls, i), Taken(names[..i]));
    StartsWithTrans(names[i], Candidate(ls, i), ls[i].tag);
  }

  /** Each window's name is the first free variant of its candidate. */
  lemma DisplayNamesFirstFree(ls: seq<WinLabel>)
    ensures var names := DisplayNames(ls).names;
            forall i :: 0 <= i < |names| ==> names[i] == FirstFree(Candidate(ls, i), Candidate(ls, i), Taken(names[..i]))
  {
    forall i | 0 <= i < |ls| {
      DisplayNameIsFirstFree(ls, i);
    }
  }

  /** `getwindowlist()`: one name per window, none repeated, each the
      window's candidate or, when an earlier window has taken that, the
      candidate followed by the smallest free number from 1. */
  function GetWindowList(apps: seq<Acc>): (names: seq<string>)
    ensures |names| == |ListGuis(apps)|
    ensures Seqs.Distinct(names)
    ensures var ls := Labels(ListGuis(apps));
            forall i :: 0 <= i < |names| ==> names[i] == FirstFree(Candidate(ls, i), Candidate(ls, i), Taken(names[..i]))
  {
    var ls := Labels(ListGuis(apps));
    DisplayNamesDistinct(ls);
    DisplayNamesFirstFree(ls);
    DisplayNames(ls).names
  }

  /** The second pass's test of a listed name: equality, a glob, or a glob
      with every space removed from both sides. */
  predicate ListedNameMatches(name: string, listed: string) {
    name == listed || GlobMatch(name, listed) || GlobMatch(Strip(name, {' '}), Strip(listed, {' '}))
  }

  /** `s[k]` is the first element of `s` that passes `test`. */
  predicate FirstMatch<T>(s: seq<T>, test: T -> bool, k: int) {
    0 <= k < |s| && test(s[k]) && forall j :: 0 <= j < k ==> !test(s[j])
  }

  /** No element of `s` passes `test`. */
  predicate NoMatch<T>(s: seq<T>, test: T -> bool) {
    forall k :: 0 <= k < |s| ==> !test(s[k])
  }

  /** The position of the first element from `i` on that passes `test`. */
  function FirstIndex<T>(s: seq<T>, test: T -> bool, i: nat): (r: Option<nat>)
    requires i <= |s|
    ensures r.Some? ==> i <= r.value < |s| && test(s[r.value])
                        && forall k :: i <= k < r.value ==> !test(s[k])
    ensures r.None? ==> forall k :: i <= k < |s| ==> !test(s[k])
    decreases |s| - i
  {
    if i == |s| then None
    else if test(s[i]) then Some(i)
    else FirstIndex(s, test, i + 1)
  }

  /** The first pass's test: the name matches the window as an accessible. */
  function AccTest(name: string): Gui -> bool {
    (g: Gui) => MatchNameToAcc(name, g.window)
  }

  /** The second pass's test, on the listed names. */
  function ListedTest(name: string): string -> bool {
    (w: string) => ListedNameMatches(name, w)
  }

  /** `_get_window_handle(name)`: the first window the name matches as an
      accessible; failing that, the window of the first listed name the
      name matches; failing both, none. */
  function GetWindowHandle(apps: seq<Acc>, name: string): (r: Option<Gui>)
    ensures r.Some? ==> r.value in ListGuis(apps)
    ensures var gs := ListGuis(apps);
            !NoMatch(gs, AccTest(name)) ==> exists k :: FirstMatch(gs, AccTest(name), k) && r == Some(gs[k])
    ensures var gs, names := ListGuis(apps), GetWindowList(apps);
            NoMatch(gs, AccTest(name)) && r.Some? ==>
              exists k :: FirstMatch(names, ListedTest(name), k) && k < |gs| && r == Some(gs[k])
    ensures r.None? <==> NoMatch(ListGuis(apps), AccTest(name)) && NoMatch(GetWindowList(apps), ListedTest(name))
  {
    var gs := ListGuis(apps);
    match FirstIndex(gs, AccTest(name), 0)
    case Some(i) =>
      assert FirstMatch(gs, AccTest(name), i);
      Some(gs[i])
    case None => ByListedName(apps, name)
  }

  /** The second pass of `_get_window_handle`: the window whose listed name
      the name matches first. */
  function ByListedName(apps: seq<Acc>, name: string): (r: Option<Gui>)
    ensures r.Some? ==> r.value in ListGuis(apps)
    ensures r.Some? ==> var gs, names := ListGuis(apps), GetWindowList(apps);
              exists k :: FirstMatch(names, ListedTest(name), k) && k < |gs| && r == Some(gs[k])
    ensures r.None? <==> NoMatch(GetWindowList(apps), ListedTest(name))
  {
    var gs := ListGuis(apps);
    var names := GetWindowList(apps);
    match FirstIndex(names, ListedTest(name), 0)
    case Some(i) =>
      assert FirstMatch(names, ListedTest(name), i) && i < |gs|;
      Some(gs[i])
    case None => None
  }

  /** Every name `getwindowlist` reports leads `_get_window_handle` to a
      window. */
  lemma ListedWindowsResolve(apps: seq<Acc>, i: nat)
    requires i < |GetWindowList(apps)|
    ensures GetWindowHandle(apps, GetWindowList(apps)[i]).Some?
  {
    var names := GetWindowList(apps);
    assert ListedNameMatches(names[i], names[i]);
  }

  /** A window is found by its own accessible name. */
  lemma WindowFoundByOwnName(apps: seq<Acc>, g: Gui)
    requires g in ListGuis(apps)
    ensures GetWindowHandle(apps, g.window.name).Some?
  {
    var gs := ListGuis(apps);
    var k :| 0 <= k < |gs| && gs[k] == g;
    MatchesOwnName(g.window);
  }

  /** The test that ends the parent chain: the key names the window. */
  function NamesWindow(gui: Node): string -> bool {
    (k: string) => MatchNameToAcc(k, gui)
  }

  /** The parent chain of a record: its parent, the parent's parent, and so
      on, appended while the parent is a record, ending after the first
      parent that passes `stop` (for `_get_object`, `NamesWindow`).  A chain
      that revisits a record recurses until Python's recursion limit; `fuel`
      records at most `fuel` more parents before reporting that. */
  function TraverseParent(m: Appmap, stop: string -> bool, e: AppmapEntry, acc: seq<string>, fuel: nat)
    : (r: Result<seq<string>>)
    ensures r.Err? ==> r == Err(RecursionLimit)
    ensures r.Ok? ==> acc <= r.value
    ensures r.Ok? ==> forall i :: |acc| <= i < |r.value| ==> r.value[i] in m.entries
    ensures r.Ok? ==> (|r.value| == |acc| <==> e.parent !in m.entries)
    ensures r.Ok? && |r.value| > |acc| ==> r.value[|acc|] == e.parent
    ensures r.Ok? ==> forall i :: |acc| <= i < |r.value| - 1 ==>
              !stop(r.value[i]) && r.value[i + 1] == m.entries[r.value[i]].parent
    ensures r.Ok? && |r.value| > |acc| ==>
              var last := r.value[|r.value| - 1];
              stop(last) || m.entries[last].parent !in m.entries
    decreases fuel
  {
    var parent := e.parent;
    if parent !in m.entries then Ok(acc)
    else
      var acc1 := acc + [parent];
      if stop(parent) then Ok(acc1)
      else if fuel == 0 then Err(RecursionLimit)
      else
        var r := TraverseParent(m, stop, m.entries[parent], acc1, fuel - 1);
        if r.Ok? then
          assert acc1 <= r.value;
          assert r.value[|acc|] == acc1[|acc|];
          assert forall i :: |acc| <= i < |r.value| - 1 ==>
                   !stop(r.value[i]) && r.value[i + 1] == m.entries[r.value[i]].parent by {
            forall i | |acc| <= i < |r.value| - 1
              ensures !stop(r.value[i]) && r.value[i + 1] == m.entries[r.value[i]].parent
            {
              if i == |acc| {
                assert r.value[i] == parent;
              }
            }
          }
          r
        else r
  }

  function Reverse<T>(s: seq<T>): (r: seq<T>)
    ensures |r| == |s|
    ensures forall i :: 0 <= i < |s| ==> r[i] == s[|s| - 1 - i]
  {
    if |s| == 0 then [] else Reverse(s[1..]) + [s[0]]
  }

  /** The walk down from the window along the recorded child indexes.  A
      step whose child is missing ends the walk at the current accessible
      when its role is the record's class, and yields `None` otherwise; a
      child whose role is not the record's class also yields `None`. */
  function Descend(m: Appmap, obj: Node, keys: seq<string>): (r: Result<Acc>)
    ensures r.Err? ==> r.fault == KeyFault
    ensures r.Ok? ==> Within(r.value, obj) || r.value.Null?
    ensures r.Ok? && r.value.Obj? && |keys| > 0 ==>
              exists i :: 0 <= i < |keys| && keys[i] in m.entries
                          && r.value.roleName == ReplaceChar(m.entries[keys[i]].className, '_', ' ')
    decreases |keys|
  {
    if |keys| == 0 then Ok(obj)
    else if keys[0] !in m.entries then Err(KeyFault)
    else
      var e := m.entries[keys[0]];
      var role := ReplaceChar(e.className, '_', ' ');
      var t := ChildAt(obj, e.childIndex);
      if t.Null? then (if obj.roleName != role then Ok(Null) else Ok(obj))
      else if t.roleName != role then Ok(Null)
      else
        var r := Descend(m, t, keys[1..]);
        assert Within(t, obj) by {
          var k :| 0 <= k < |obj.children| && obj.children[k] == t;
          ChildWithin(t, obj, k);
        }
        if r.Ok? && r.value.Obj? then
          WithinTrans(r.value, t, obj);
          assert exists i :: 0 <= i < |keys| && keys[i] in m.entries
                             && r.value.roleName == ReplaceChar(m.entries[keys[i]].className, '_', ' ') by {
            if |keys| > 1 {
              var i :| 0 <= i < |keys[1..]| && keys[1..][i] in m.entries
                       && r.value.roleName == ReplaceChar(m.entries[keys[1..][i]].className, '_', ' ');
              assert keys[i + 1] == keys[1..][i];
            } else {
              assert r.value == t;
            }
          }
          r
        else r
  }

  /** `_internal_get_object`: the record's parent chain, reversed, with the
      record's own key appended; its first entry stands for the window and
      is skipped.  An empty window name or an empty chain is reported as
      the object not being found. */
  function Internal(m: Appmap, gui: Node, window: string, name: string, e: AppmapEntry): (r: Result<Acc>)
    ensures r.Ok? && r.value.Obj? ==> Within(r.value, gui)
    ensures window == "" ==> r == Err(ObjectNotFound(name))
    ensures e.parent !in m.entries ==> r == Err(ObjectNotFound(name))
  {
    if window == "" then Err(ObjectNotFound(name))
    else
      match TraverseParent(m, NamesWindow(gui), e, [], |m.order| + 1)
      case Err(f) => Err(f)
      case Ok(chain) =>
        if |chain| == 0 then Err(ObjectNotFound(name))
        else
          var path := Reverse(chain) + (if e.key != "" then [e.key] else []);
          Descend(m, gui, path[1..])
  }

  /** The outcome of a lookup, the map cache it leaves behind, and how many
      forced rebuilds of the window's map it made. */
  datatype Lookup = Lookup(result: Result<Acc>, cache: Cache, rebuilds: nat)

  /** The cache after rebuilding `gui`'s map differs from `c` at most in
      the entry for the window's own name. */
  predicate OnlyWindowChanged(c: Cache, c1: Cache, gui: Node) {
    forall w :: w in c.maps && w != SyntheticName(gui) ==> w in c1.maps && c1.maps[w] == c.maps[w]
  }

  lemma PairsOnlyWindowChanged(c: Cache, app: Node, gui: Node, force: bool)
    ensures OnlyWindowChanged(c, AppmapPairs(c, app, gui, force).cache, gui)
  {
  }

  lemma OnlyWindowChangedTrans(c1: Cache, c2: Cache, c3: Cache, gui: Node)
    requires OnlyWindowChanged(c1, c2, gui) && OnlyWindowChanged(c2, c3, gui)
    ensures OnlyWindowChanged(c1, c3, gui)
  {
  }

  /** The map `_get_object` first looks the name up in: the cached one,
      unless none is cached. */
  function FirstPass(c: Cache, g: Gui): Paired {
    AppmapPairs(c, g.app, g.window, false)
  }

  /** A name the first map does not know. */
  predicate Missed(c: Cache, g: Gui, name: string) {
    GetObjectInWindow(FirstPass(c, g).appmap, name).None?
  }

  /** The map after the lookup: the first one, or a forced rebuild when
      the name was missed. */
  function SecondPass(c: Cache, g: Gui, name: string): Paired {
    var p1 := FirstPass(c, g);
    if Missed(c, g, name) then AppmapPairs(p1.cache, g.app, g.window, true) else p1
  }

  /** One attempt on a map: nothing when no record matches the name,
      otherwise the outcome of the walk to the first matching record. */
  function Attempt(p: Paired, g: Gui, window: string, name: string): Option<Result<Acc>> {
    match GetObjectInWindow(p.appmap, name)
    case None => None
    case Some(e) => Some(Internal(p.appmap, g.window, window, name, e))
  }

  /** The outcome an attempt reports: a missing record raises. */
  function Outcome(a: Option<Result<Acc>>, name: string): (r: Result<Acc>)
    ensures a.None? ==> r == Err(ObjectNotFound(name))
    ensures a.Some? ==> r == a.value
  {
    if a.None? then Err(ObjectNotFound(name)) else a.value
  }

  /** `_get_object(window, name)` once the window is found.  A name missing
      from the map costs one forced rebuild, and still missing then raises;
      a walk that yields `None` costs exactly one more rebuild, after which
      the retry's outcome (possibly `None` again) is the result. */
  function ObjectInGui(c: Cache, g: Gui, window: string, name: string): (r: Lookup)
    ensures r.result.Ok? && r.result.value.Obj? ==> Within(r.result.value, g.window)
    ensures OnlyWindowChanged(c, r.cache, g.window)
    ensures window == "" ==> r.result == Err(ObjectNotFound(name))
    ensures r.rebuilds <= 2
    ensures var p2 := SecondPass(c, g, name);
            var n := if Missed(c, g, name) then 1 else 0;
            var a2 := Attempt(p2, g, window, name);
            (a2.None? ==> r == Lookup(Err(ObjectNotFound(name)), p2.cache, n))
            && (a2.Some? && a2.value != Ok(Null) ==> r == Lookup(a2.value, p2.cache, n))
            && (a2 == Some(Ok(Null)) ==>
                  var p3 := AppmapPairs(p2.cache, g.app, g.window, true);
                  r == Lookup(Outcome(Attempt(p3, g, window, name), name), p3.cache, n + 1))
  {
    var p1 := FirstPass(c, g);
    PairsOnlyWindowChanged(c, g.app, g.window, false);
    PairsOnlyWindowChanged(p1.cache, g.app, g.window, true);
    var p2 := SecondPass(c, g, name);
    var n := if Missed(c, g, name) then 1 else 0;
    OnlyWindowChangedTrans(c, p1.cache, p2.cache, g.window);
    var a2 := Attempt(p2, g, window, name);
    if a2.None? then Lookup(Err(ObjectNotFound(name)), p2.cache, n)
    else if a2.value != Ok(Null) then Lookup(a2.value, p2.cache, n)
    else
      var p3 := AppmapPairs(p2.cache, g.app, g.window, true);
      PairsOnlyWindowChanged(p2.cache, g.app, g.window, true);
      OnlyWindowChangedTrans(c, p2.cache, p3.cache, g.window);
      Lookup(Outcome(Attempt(p3, g, window, name), name), p3.cache, n + 1)
  }

  /** A walk that yields `None`. */
  predicate NullWalk(c: Cache, g: Gui, window: string, name: string) {
    Attempt(SecondPass(c, g, name), g, window, name) == Some(Ok(Null))
  }

  /** The forced rebuilds are exactly one per missed name plus one per walk
      that yields `None`. */
  lemma RebuildCount(c: Cache, g: Gui, window: string, name: string)
    ensures ObjectInGui(c, g, window, name).rebuilds
            == (if Missed(c, g, name) then 1 else 0) + (if NullWalk(c, g, window, name) then 1 else 0)
  {
  }

  /** A record the cached map holds, whose walk reaches an accessible, is
      found without any rebuild and leaves the cache as it was found. */
  lemma RecordedObjectFound(c: Cache, g: Gui, window: string, name: string, o: Acc)
    requires Attempt(FirstPass(c, g), g, window, name) == Some(Ok(o)) && o.Obj?
    ensures ObjectInGui(c, g, window, name) == Lookup(Ok(o), FirstPass(c, g).cache, 0)
  {
  }

  /** After a miss the map is already fresh, so when its walk yields
      `None` the forced retry rebuilds the same map and yields `None`
      again: the second rebuild cannot help. */
  lemma FreshNullWalkRepeats(c: Cache, g: Gui, window: string, name: string)
    requires Missed(c, g, name) && NullWalk(c, g, window, name)
    ensures ObjectInGui(c, g, window, name) == Lookup(Ok(Null), AppmapPairs(SecondPass(c, g, name).cache, g.app, g.window, true).cache, 2)
  {
    var p2 := SecondPass(c, g, name);
    var p3 := AppmapPairs(p2.cache, g.app, g.window, true);
    assert p2.appmap == BuildAppmap(g.app, g.window) == p3.appmap;
    assert Attempt(p3, g, window, name) == Attempt(p2, g, window, name);
  }

  /** `_get_object(window, name)`: a window that cannot be found raises. */
  function GetObject(apps: seq<Acc>, c: Cache, window: string, name: string): (r: Lookup)
    ensures GetWindowHandle(apps, window).None? ==> r == Lookup(Err(WindowNotFound(window)), c, 0)
    ensures GetWindowHandle(apps, window).Some? ==>
              r == ObjectInGui(c, GetWindowHandle(apps, window).value, window, name)
    ensures r.result.Ok? && r.result.value.Obj? ==>
              GetWindowHandle(apps, window).Some?
              && Within(r.result.value, GetWindowHandle(apps, window).value.window)
  {
    match GetWindowHandle(apps, window)
    case None => Lookup(Err(WindowNotFound(window)), c, 0)
    case Some(g) => ObjectInGui(c, g, window, name)
  }

  /** The path `_get_menu_hierarchy` resolves: the `;`-separated segments,
      the first given a `mnu` prefix unless it has one. */
  function MenuPath(objectName: string): (segs: seq<string>)
    ensures |segs| >= 1 && StartsWith(segs[0], "mnu")
    ensures |segs| == |Split(objectName, ';')|
    ensures forall k :: 1 <= k < |segs| ==> segs[k] == Split(objectName, ';')[k]
  {
    var parts := Split(objectName, ';');
    var head := if StartsWith(parts[0], "mnu") then parts[0] else "mnu" + parts[0];
    assert StartsWith(head, "mnu") by {
      if head != parts[0] { assert head[..3] == "mnu"; }
    }
    [head] + parts[1..]
  }

  /** The test each later segment puts to the nodes of a walk: a node
      other than the current one whose name the segment matches. */
  function ItemTest(obj: Acc, seg: string): Node -> bool {
    (n: Node) => n != obj && MatchNameToAcc(seg, n)
  }

  /** A search over a walk finds the node at the first passing position;
      with none passing it reports the walk's fault or nothing. */
  lemma FirstInAgrees(nodes: seq<Node>, fault: bool, test: Node -> bool)
    ensures forall k :: FirstMatch(nodes, test, k) ==> FirstIn(nodes, fault, test) == Ok(Some(nodes[k]))
    ensures NoMatch(nodes, test) ==> FirstIn(nodes, fault, test) == (if fault then Err(AttributeFault) else Ok(None))
  {
    var r := FirstIn(nodes, fault, test);
    if r.Ok? && r.value.Some? {
      var i :| 0 <= i < |nodes| && nodes[i] == r.value.value && test(nodes[i]) && forall j :: 0 <= j < i ==> !test(nodes[j]);
      assert FirstMatch(nodes, test, i);
    }
  }

  /** A node a search over a walk finds is at the first passing position. */
  lemma FirstInFound(nodes: seq<Node>, fault: bool, test: Node -> bool)
    requires FirstIn(nodes, fault, test).Ok? && FirstIn(nodes, fault, test).value.Some?
    ensures !NoMatch(nodes, test)
    ensures exists k :: FirstMatch(nodes, test, k) && nodes[k] == FirstIn(nodes, fault, test).value.value
  {
    FirstInAgrees(nodes, fault, test);
  }

  /** Each later segment: the first accessible below the current one, in
      walk order and other than it, that the segment matches; none raises
      "Menu item ... doesn't exist", unless the walk broke first
      (`MenuDescendFirst`). */
  function MenuDescend(obj: Acc, segs: seq<string>, handleCells: bool): (r: Result<Acc>)
    ensures r.Ok? ==> Within(r.value, obj)
    ensures r.Ok? && |segs| > 0 ==> r.value.Obj? && MatchNameToAcc(segs[|segs| - 1], r.value)
    ensures r.Err? ==> r.fault == AttributeFault || (r.fault.MenuItemMissing? && r.fault.item in segs)
    decreases |segs|
  {
    if |segs| == 0 then Ok(obj)
    else
      var seg := segs[0];
      var w := Walk(obj, handleCells);
      match FirstIn(w.nodes, w.fault, ItemTest(obj, seg))
      case Err(f) => Err(f)
      case Ok(None) => Err(MenuItemMissing(seg))
      case Ok(Some(next)) =>
        var r := MenuDescend(next, segs[1..], handleCells);
        if r.Ok? then
          WithinTrans(r.value, next, obj);
          assert |segs| > 1 ==> segs[1..][|segs[1..]| - 1] == segs[|segs| - 1];
          r
        else
          assert r.fault.MenuItemMissing? ==> r.fault.item in segs by {
            if r.fault.MenuItemMissing? { assert r.fault.item in segs[1..]; }
          }
          r
  }

  /** The first segment's step: a result lies below the first node of the
      walk, other than the current one, that the segment matches; with no
      such node the descent raises AttributeError if the walk broke, and
      otherwise "Menu item ... doesn't exist" naming that segment. */
  lemma MenuDescendFirst(obj: Acc, segs: seq<string>, handleCells: bool)
    requires |segs| > 0
    ensures var r, w := MenuDescend(obj, segs, handleCells), Walk(obj, handleCells);
            (r.Ok? ==> exists k :: FirstMatch(w.nodes, ItemTest(obj, segs[0]), k) && Within(r.value, w.nodes[k]))
            && (NoMatch(w.nodes, ItemTest(obj, segs[0])) ==>
                  r == if w.fault then Err(AttributeFault) else Err(MenuItemMissing(segs[0])))
  {
    var w := Walk(obj, handleCells);
    var test := ItemTest(obj, segs[0]);
    if NoMatch(w.nodes, test) {
      MenuDescendNoItem(obj, segs, handleCells);
    } else {
      var k := FirstIndex(w.nodes, test, 0).value;
      assert FirstMatch(w.nodes, test, k);
      MenuDescendStep(obj, segs, handleCells, k);
    }
  }

  /** With no node to step to, the descent reports the walk's fault or the
      missing item. */
  lemma MenuDescendNoItem(obj: Acc, segs: seq<string>, handleCells: bool)
    requires |segs| > 0 && NoMatch(Walk(obj, handleCells).nodes, ItemTest(obj, segs[0]))
    ensures MenuDescend(obj, segs, handleCells)
            == if Walk(obj, handleCells).fault then Err(AttributeFault) else Err(MenuItemMissing(segs[0]))
  {
    var w := Walk(obj, handleCells);
    FirstInAgrees(w.nodes, w.fault, ItemTest(obj, segs[0]));
  }

  /** The descent takes its first step to the first matching node and
      continues from there with the remaining segments. */
  lemma MenuDescendStep(obj: Acc, segs: seq<string>, handleCells: bool, k: int)
    requires |segs| > 0 && FirstMatch(Walk(obj, handleCells).nodes, ItemTest(obj, segs[0]), k)
    ensures MenuDescend(obj, segs, handleCells) == MenuDescend(Walk(obj, handleCells).nodes[k], segs[1..], handleCells)
  {
    var w := Walk(obj, handleCells);
    FirstInAgrees(w.nodes, w.fault, ItemTest(obj, segs[0]));
  }

  /** A segment that matches some node below the current one, other than
      it, is always found: the descent moves to the first such node, before
      or at that one, whether or not the walk broke later. */
  lemma MenuItemBelowFound(obj: Acc, seg: string, rest: seq<string>, handleCells: bool, k: int)
    requires var w := Walk(obj, handleCells);
             0 <= k < |w.nodes| && w.nodes[k] != obj && MatchNameToAcc(seg, w.nodes[k])
    ensures var w := Walk(obj, handleCells);
            exists j :: 0 <= j <= k && FirstMatch(w.nodes, ItemTest(obj, seg), j)
                        && MenuDescend(obj, [seg] + rest, handleCells) == MenuDescend(w.nodes[j], rest, handleCells)
    ensures MenuDescend(obj, [seg], handleCells).Ok?
  {
    var w := Walk(obj, handleCells);
    var test := ItemTest(obj, seg);
    assert test(w.nodes[k]);
    var j := FirstIndex(w.nodes, test, 0).value;
    assert FirstMatch(w.nodes, test, j);
    assert ([seg] + rest)[0] == seg && ([seg] + rest)[1..] == rest;
    MenuDescendStep(obj, [seg] + rest, handleCells, j);
    MenuDescendStep(obj, [seg], handleCells, j);
  }

  /** `_get_menu_hierarchy(window, object)`. */
  function GetMenuHierarchy(apps: seq<Acc>, c: Cache, window: string, objectName: string, handleCells: bool)
    : (r: Lookup)
    ensures var segs := MenuPath(objectName);
            var first := GetObject(apps, c, window, segs[0]);
            r.cache == first.cache && r.rebuilds == first.rebuilds
            && (first.result.Err? ==> r.result == first.result)
            && (first.result.Ok? && |segs| == 1 ==> r.result == first.result)
            && (first.result.Ok? && |segs| > 1 && r.result.Ok? ==>
                  r.result.value.Obj? && MatchNameToAcc(segs[|segs| - 1], r.result.value)
                  && Within(r.result.value, first.result.value))
  {
    var segs := MenuPath(objectName);
    var first := GetObject(apps, c, window, segs[0]);
    match first.result
    case Err(f) => Lookup(Err(f), first.cache, first.rebuilds)
    case Ok(obj) =>
      var r := MenuDescend(obj, segs[1..], handleCells);
      assert |segs| > 1 ==> segs[1..][|segs[1..]| - 1] == segs[|segs| - 1];
      Lookup(r, first.cache, first.rebuilds)
  }
}

=== FILE: roles.dfy ===
/** Accessible roles and the `abbreviated_roles` table of ldtpd/constants.py,
    which gives every role the short type tag that starts its synthetic name.
 */
module Roles {

  /** The roles the table names, plus every other role the accessibility
      service may report (carried by its identifier). */
  datatype Role =
    | PageTab | PageTabList | Table | ComboBox | SpinButton | FontChooser
    | ColorChooser | RadioButton | Tree | TreeTable | LayeredPane | Icon
    | Frame | Dialog | Window | FileChooser | Alert | Calendar | Panel | Label
    | MenuBar | Menu | MenuItem | ListItem | List | CheckMenuItem
    | RadioMenuItem | PushButton | ToggleButton | ScrollBar | ScrollPane
    | Text | Entry | Autocomplete | Paragraph | PasswordText | StatusBar
    | Editbar | TableColumnHeader | Separator | Filler | Canvas | SplitPane
    | Slider | HtmlContainer | ProgressBar | ToolBar | ToolTip | CheckBox
    | TableCell | OptionPane | PopupMenu | Embedded
    | Other(id: string)

  /** `abbreviated_roles.get(role, 'ukn')`. */
  function Tag(r: Role): (t: string)
    ensures 3 <= |t| <= 6 && LowerWord(t)
  {
    match r
    case PageTab => "ptab"
    case PageTabList => "ptl"
    case Table => "tbl"
    case ComboBox => "cbo"
    case SpinButton => "sbtn"
    case FontChooser => "dlg"
    case ColorChooser => "dlg"
    case RadioButton => "rbtn"
    case Tree => "tree"
    case TreeTable => "ttbl"
    case LayeredPane => "pane"
    case Icon => "ico"
    case Frame => "frm"
    case Dialog => "dlg"
    case Window => "dlg"
    case FileChooser => "dlg"
    case Alert => "dlg"
    case Calendar => "cal"
    case Panel => "pnl"
    case Label => "lbl"
    case MenuBar => "mbr"
    case Menu => "mnu"
    case MenuItem => "mnu"
    case ListItem => "lst"
    case List => "lst"
    case CheckMenuItem => "mnu"
    case RadioMenuItem => "mnu"
    case PushButton => "btn"
    case ToggleButton => "tbtn"
    case ScrollBar => "scbr"
    case ScrollPane => "scpn"
    case Text => "txt"
    case Entry => "txt"
    case Autocomplete => "auto"
    case Paragraph => "txt"
    case PasswordText => "txt"
    case StatusBar => "stat"
    case Editbar => "txt"
    case TableColumnHeader => "tch"
    case Separator => "spr"
    case Filler => "flr"
    case Canvas => "cnvs"
    case SplitPane => "splt"
    case Slider => "sldr"
    case HtmlContainer => "html"
    case ProgressBar => "pbar"
    case ToolBar => "tbar"
    case ToolTip => "ttip"
    case CheckBox => "chk"
    case TableCell => "tblc"
    case OptionPane => "opane"
    case PopupMenu => "popmnu"
    case Embedded => "emb"
    case Other(_) => "ukn"
  }

  /** The window-like roles whose labels keep their punctuation
      (ldtpd/utils.py tests these seven roles by identity). */
  predicate IsWindowRole(r: Role) {
    r == Frame || r == Dialog || r == Window || r == FontChooser
    || r == FileChooser || r == Alert || r == ColorChooser
  }

  /** The same seven roles named by their appmap `class` strings. */
  predicate IsWindowClass(c: string) {
    c == "frame" || c == "dialog" || c == "window" || c == "font_chooser"
    || c == "file_chooser" || c == "alert" || c == "color_chooser"
  }

  /** A role outside the table gets the sentinel tag, so the lookup never fails. */
  lemma UnknownRoleTag(id: string)
    ensures Tag(Other(id)) == "ukn"
  {
  }

  /** Every window-like role is tagged as a frame or as a dialog. */
  lemma WindowRoleTags(r: Role)
    requires IsWindowRole(r)
    ensures Tag(r) == (if r == Frame then "frm" else "dlg")
  {
  }

  /** The menu family: menus and their items share `mnu`; bars and popups differ. */
  lemma MenuRoleTags()
    ensures Tag(Menu) == "mnu" && Tag(MenuItem) == "mnu"
    ensures Tag(CheckMenuItem) == "mnu" && Tag(RadioMenuItem) == "mnu"
    ensures Tag(MenuBar) == "mbr" && Tag(PopupMenu) == "popmnu"
  {
  }

  /** Text-bearing roles share `txt`. */
  lemma TextRoleTags()
    ensures Tag(Text) == "txt" && Tag(Entry) == "txt" && Tag(Paragraph) == "txt"
    ensures Tag(PasswordText) == "txt" && Tag(Editbar) == "txt"
  {
  }

  /** A lower-case ASCII letter. */
  predicate IsLower(c: char) {
    'a' <= c <= 'z'
  }

  predicate LowerWord(s: string) {
    forall i :: 0 <= i < |s| ==> IsLower(s[i])
  }

  /** Every tag has three to six lower-case letters and no digit, so a
      synthetic name `tag + label` is never empty, and the counter that
      follows a tag never runs into it. */
  lemma TagLength(r: Role)
    ensures 3 <= |Tag(r)| <= 6
    ensures forall i :: 0 <= i < |Tag(r)| ==> IsLower(Tag(r)[i])
    ensures forall i :: 0 <= i < |Tag(r)| ==> !('0' <= Tag(r)[i] <= '9')
  {
    var t := Tag(r);
    assert LowerWord(t);
  }

  /** The table is not injective: a tag alone does not determine the role. */
  lemma TagNotInjective()
    ensures List != ListItem && Tag(List) == Tag(ListItem)
    ensures Dialog != Window && Tag(Dialog) == Tag(Window)
  {
  }
}

=== FILE: seqs.dfy ===
/** List operations the daemon performs on its own bookkeeping lists:
    comprehension-style filtering, `list.remove(x)` / `del l[l.index(x)]`
    (the first occurrence goes), and a run of such removals.
 */
module Seqs {

  predicate Distinct<T(==)>(s: seq<T>) {
    forall i, j :: 0 <= i < j < |s| ==> s[i] != s[j]
  }

  /** `[x for x in s if keep(x)]`. */
  function Filter<T(!new)>(s: seq<T>, keep: T -> bool): (r: seq<T>)
    ensures |r| <= |s|
    ensures forall i :: 0 <= i < |r| ==> keep(r[i])
    ensures forall x :: x in r <==> x in s && keep(x)
  {
    if |s| == 0 then []
    else
      var rest := Filter(s[1..], keep);
      assert forall x :: x in s <==> x == s[0] || x in s[1..];
      if keep(s[0]) then [s[0]] + rest else rest
  }

  /** Filtering distributes over concatenation, so the kept elements stay
      in their original order. */
  lemma {:induction false} FilterAppend<T(!new)>(a: seq<T>, b: seq<T>, keep: T -> bool)
    ensures Filter(a + b, keep) == Filter(a, keep) + Filter(b, keep)
  {
    if |a| > 0 {
      assert (a + b)[1..] == a[1..] + b;
      FilterAppend(a[1..], b, keep);
    } else {
      assert a + b == b;
    }
  }

  lemma {:induction false} FilterDistinct<T(!new)>(s: seq<T>, keep: T -> bool)
    requires Distinct(s)
    ensures Distinct(Filter(s, keep))
  {
    if |s| > 0 {
      assert Distinct(s[1..]) by {
        forall i, j | 0 <= i < j < |s[1..]| ensures s[1..][i] != s[1..][j] {
          assert s[1..][i] == s[i + 1] && s[1..][j] == s[j + 1];
        }
      }
      FilterDistinct(s[1..], keep);
      assert s[0] !in s[1..] by {
        forall i | 0 <= i < |s[1..]| ensures s[1..][i] != s[0] {
          assert s[1..][i] == s[i + 1];
        }
      }
    }
  }

  /** `s.index(x)`: the position of the first occurrence. */
  function IndexOf<T(==)>(s: seq<T>, x: T): (i: nat)
    requires x in s
    ensures i < |s| && s[i] == x && x !in s[..i]
  {
    if s[0] == x then 0
    else
      assert x in s[1..] by { assert s == [s[0]] + s[1..]; }
      var j := IndexOf(s[1..], x);
      assert s[..j + 1] == [s[0]] + s[1..][..j];
      j + 1
  }

  /** `if x in s: del s[s.index(x)]`: the first occurrence goes. */
  function RemoveFirst<T(==)>(s: seq<T>, x: T): (r: seq<T>)
    ensures x !in s ==> r == s
    ensures x in s ==> exists i :: 0 <= i < |s| && s[i] == x && x !in s[..i] && r == s[..i] + s[i + 1..]
    ensures x in s ==> multiset(r) + multiset{x} == multiset(s)
  {
    if x in s then
      var i := IndexOf(s, x);
      assert s == s[..i] + [x] + s[i + 1..];
      s[..i] + s[i + 1..]
    else s
  }

  /** The removals `for x in xs: if x in s: del s[s.index(x)]`. */
  function RemoveEach<T(==)>(s: seq<T>, xs: seq<T>): (r: seq<T>)
    ensures |r| <= |s|
    decreases |xs|
  {
    if |xs| == 0 then s else RemoveEach(RemoveFirst(s, xs[0]), xs[1..])
  }

  /** When `s` holds every element of `xs` (with multiplicity), exactly
      those go. */
  lemma {:induction false} RemoveEachExact<T>(s: seq<T>, xs: seq<T>)
    requires multiset(xs) <= multiset(s)
    ensures multiset(RemoveEach(s, xs)) + multiset(xs) == multiset(s)
    decreases |xs|
  {
    if |xs| > 0 {
      var x, rest := xs[0], xs[1..];
      assert xs == [x] + rest;
      assert multiset(xs) == multiset{x} + multiset(rest);
      assert x in s by { assert x in multiset(s); }
      var s1 := RemoveFirst(s, x);
      assert multiset(s1) + multiset{x} == multiset(s);
      Cancel(multiset(s1), x, multiset(rest));
      RemoveEachExact(s1, rest);
      assert RemoveEach(s, xs) == RemoveEach(s1, rest);
    }
  }

  /** Removing the first occurrence of `x` takes one `x` off, if any. */
  lemma RemoveFirstDiff<T>(s: seq<T>, x: T)
    ensures multiset(RemoveFirst(s, x)) == multiset(s) - multiset{x}
  {
    var r := RemoveFirst(s, x);
    if x in s {
      assert multiset(r) + multiset{x} == multiset(s);
      forall v ensures multiset(r)[v] == (multiset(s) - multiset{x})[v] {
        assert (multiset(r) + multiset{x})[v] == multiset(s)[v];
      }
    } else {
      assert multiset(s)[x] == 0;
      forall v ensures multiset(r)[v] == (multiset(s) - multiset{x})[v] {}
    }
  }

  /** Whatever `s` holds, the removals leave exactly the multiset
      difference: each value loses as many occurrences as `xs` names, down
      to none. */
  lemma {:induction false} RemoveEachDiff<T>(s: seq<T>, xs: seq<T>)
    ensures multiset(RemoveEach(s, xs)) == multiset(s) - multiset(xs)
    decreases |xs|
  {
    if |xs| == 0 {
      assert multiset(xs) == multiset{};
    } else {
      var x, rest := xs[0], xs[1..];
      assert xs == [x] + rest;
      assert multiset(xs) == multiset{x} + multiset(rest);
      var s1 := RemoveFirst(s, x);
      RemoveFirstDiff(s, x);
      RemoveEachDiff(s1, rest);
      assert RemoveEach(s, xs) == RemoveEach(s1, rest);
      forall v ensures (multiset(s1) - multiset(rest))[v] == (multiset(s) - multiset(xs))[v] {
        assert multiset(s1)[v] == (multiset(s) - multiset{x})[v];
      }
    }
  }

  /** Removing the elements just appended leaves the original elements. */
  lemma RemoveEachAppended<T>(s: seq<T>, xs: seq<T>)
    ensures multiset(RemoveEach(s + xs, xs)) == multiset(s)
  {
    assert multiset(s + xs) == multiset(s) + multiset(xs);
    RemoveEachExact(s + xs, xs);
    AddCancel(multiset(RemoveEach(s + xs, xs)), multiset(s), multiset(xs));
  }

  lemma RemoveFirstAppended<T>(s: seq<T>, x: T)
    ensures multiset(RemoveFirst(s + [x], x)) == multiset(s)
  {
    assert x in s + [x];
    assert multiset(s + [x]) == multiset(s) + multiset{x};
    AddCancel(multiset(RemoveFirst(s + [x], x)), multiset(s), multiset{x});
  }

  /** Concatenation is associative; kept apart so that callers with large
      contexts do not pay for the extensional equality. */
  lemma AppendAssoc<T>(a: seq<T>, b: seq<T>, c: seq<T>)
    ensures a + (b + c) == (a + b) + c
  {
  }

  /** Splitting the head off a sequence with an element and a tail after
      it, kept apart for the same reason. */
  lemma SpliceHead<T>(pre: seq<T>, s: T, post: seq<T>)
    ensures |pre| == 0 ==> pre + [s] + post == [s] + post
    ensures |pre| > 0 ==> pre + [s] + post == [pre[0]] + (pre[1..] + [s] + post)
  {
    if |pre| > 0 {
      assert pre == [pre[0]] + pre[1..];
    }
  }

  /** A prefix of a prefix is a prefix. */
  lemma PrefixOfPrefix<T>(s: seq<T>, n: nat, k: nat)
    requires k <= n <= |s|
    ensures s[..n][..k] == s[..k]
  {
  }

  lemma AddCancel<T>(a: multiset<T>, b: multiset<T>, c: multiset<T>)
    requires a + c == b + c
    ensures a == b
  {
    assert forall y :: a[y] == b[y] by {
      forall y ensures a[y] == b[y] {
        assert (a + c)[y] == (b + c)[y];
      }
    }
  }

  lemma Cancel<T>(a: multiset<T>, x: T, b: multiset<T>)
    requires multiset{x} + b <= a + multiset{x}
    ensures b <= a
  {
    assert forall y :: b[y] <= a[y] by {
      forall y ensures b[y] <= a[y] {
        assert (multiset{x} + b)[y] <= (a + multiset{x})[y];
      }
    }
  }

  /** The list with every occurrence of `x` gone. */
  function Without<T(==,!new)>(s: seq<T>, x: T): (r: seq<T>)
    ensures forall y :: y in r <==> y in s && y != x
  {
    Filter(s, (y: T) => y != x)
  }

  lemma WithoutDistinct<T(!new)>(s: seq<T>, x: T)
    requires Distinct(s)
    ensures Distinct(Without(s, x))
  {
    FilterDistinct(s, (y: T) => y != x);
  }

  /** Adding a fresh element and taking it out again gives the list back. */
  lemma {:induction false} WithoutAppended<T(!new)>(s: seq<T>, x: T)
    requires x !in s
    ensures Without(s + [x], x) == s
  {
    FilterAppend(s, [x], (y: T) => y != x);
    FilterKeepsAll(s, (y: T) => y != x);
  }

  lemma {:induction false} FilterKeepsAll<T(!new)>(s: seq<T>, keep: T -> bool)
    requires forall i :: 0 <= i < |s| ==> keep(s[i])
    ensures Filter(s, keep) == s
  {
    if |s| > 0 {
      FilterKeepsAll(s[1..], keep);
      assert s == [s[0]] + s[1..];
    }
  }
}

=== FILE: strings.dfy ===
/** String helpers the daemon gets from Python: `'%d' % n`, `re.sub` of a
    character class by '', `';'.join`, `re.split` on one character, and the
    "append the smallest free integer" loop that both the appmap builder and
    the window lister use to make names unique.
 */
module Strings {

  predicate IsDigit(c: char) {
    '0' <= c <= '9'
  }

  function DigitChar(d: nat): (c: char)
    requires d < 10
    ensures IsDigit(c)
  {
    ['0', '1', '2', '3', '4', '5', '6', '7', '8', '9'][d]
  }

  function DigitValue(c: char): (d: nat)
    requires IsDigit(c)
    ensures d < 10
  {
    (c as int - '0' as int) as nat
  }

  lemma DigitRoundTrip(d: nat)
    requires d < 10
    ensures DigitValue(DigitChar(d)) == d
  {
  }

  /** `'%d' % n` for a non-negative `n`. */
  function NatToString(n: nat): (s: string)
    ensures |s| >= 1
    ensures forall i :: 0 <= i < |s| ==> IsDigit(s[i])
  {
    if n < 10 then [DigitChar(n)] else NatToString(n / 10) + [DigitChar(n % 10)]
  }

  /** `'%d' % i` for any integer: a minus sign, then the digits of `|i|`. */
  function IntToString(i: int): (s: string)
    ensures |s| >= 1
    ensures s[0] == '-' <==> i < 0
    ensures var d := if i < 0 then s[1..] else s;
            |d| >= 1 && (forall k :: 0 <= k < |d| ==> IsDigit(d[k]))
            && ParseNat(d) == if i < 0 then -i else i
  {
    var n: nat := if i < 0 then -i else i;
    ParseNatToString(n);
    assert IsDigit(NatToString(n)[0]);
    if i < 0 then
      assert ("-" + NatToString(n))[1..] == NatToString(n);
      "-" + NatToString(n)
    else NatToString(n)
  }

  /** Reads back a string of decimal digits; the inverse of `NatToString`. */
  function ParseNat(s: string): nat
    requires forall i :: 0 <= i < |s| ==> IsDigit(s[i])
  {
    if |s| == 0 then 0 else ParseNat(s[..|s| - 1]) * 10 + DigitValue(s[|s| - 1])
  }

  lemma {:induction false} ParseNatToString(n: nat)
    ensures ParseNat(NatToString(n)) == n
  {
    var s := NatToString(n);
    if n < 10 {
      DigitRoundTrip(n);
    } else {
      assert s[..|s| - 1] == NatToString(n / 10);
      ParseNatToString(n / 10);
      DigitRoundTrip(n % 10);
    }
  }

  lemma NatToStringInjective(a: nat, b: nat)
    requires NatToString(a) == NatToString(b)
    ensures a == b
  {
    ParseNatToString(a);
    ParseNatToString(b);
  }

  /** A numbered name `base + '%d' % k` determines its number. */
  lemma NumberedInjective(base: string, a: nat, b: nat)
    requires base + NatToString(a) == base + NatToString(b)
    ensures a == b
  {
    var x := base + NatToString(a);
    assert x[|base|..] == NatToString(a);
    assert (base + NatToString(b))[|base|..] == NatToString(b);
    NatToStringInjective(a, b);
  }

  /** `re.sub('(c1|c2|...)', '', s)`: every occurrence of a character of `cs` removed. */
  function Strip(s: string, cs: set<char>): (r: string)
    ensures |r| <= |s|
    ensures forall i :: 0 <= i < |r| ==> r[i] !in cs
    ensures (forall i :: 0 <= i < |s| ==> s[i] !in cs) ==> r == s
  {
    if |s| == 0 then ""
    else if s[0] in cs then Strip(s[1..], cs)
    else [s[0]] + Strip(s[1..], cs)
  }

  predicate StartsWith(s: string, prefix: string) {
    |prefix| <= |s| && s[..|prefix|] == prefix
  }

  predicate HasChar(s: string, c: char) {
    exists i :: 0 <= i < |s| && s[i] == c
  }

  /** `sep.join(parts)` for a one-character separator. */
  function Join(parts: seq<string>, sep: char): (r: string)
    ensures |parts| == 1 ==> r == parts[0]
  {
    if |parts| == 0 then ""
    else if |parts| == 1 then parts[0]
    else parts[0] + [sep] + Join(parts[1..], sep)
  }

  /** `re.split(sep, s)` for a one-character separator: the maximal
      separator-free pieces, always at least one. */
  function Split(s: string, sep: char): (parts: seq<string>)
    ensures |parts| >= 1
    ensures forall k :: 0 <= k < |parts| ==> !HasChar(parts[k], sep)
  {
    if |s| == 0 then [""]
    else
      var rest := Split(s[1..], sep);
      if s[0] == sep then [""] + rest
      else [[s[0]] + rest[0]] + rest[1..]
  }

  lemma {:induction false} JoinSplit(s: string, sep: char)
    ensures Join(Split(s, sep), sep) == s
  {
    if |s| > 0 {
      var rest := Split(s[1..], sep);
      JoinSplit(s[1..], sep);
      if s[0] == sep {
        assert Split(s, sep) == [""] + rest;
        JoinCons("", rest, sep);
      } else {
        var parts := [[s[0]] + rest[0]] + rest[1..];
        assert Split(s, sep) == parts;
        if |rest| == 1 {
          assert Join(parts, sep) == [s[0]] + rest[0];
        } else {
          assert parts[1..] == rest[1..];
          assert Join(rest, sep) == rest[0] + [sep] + Join(rest[1..], sep);
        }
      }
    }
  }

  /** A string holding the separator splits into at least two pieces. */
  lemma {:induction false} SplitAtSeparator(s: string, sep: char)
    requires HasChar(s, sep)
    ensures |Split(s, sep)| >= 2
  {
    if s[0] != sep {
      var i :| 0 <= i < |s| && s[i] == sep;
      assert s[1..][i - 1] == sep;
      SplitAtSeparator(s[1..], sep);
    }
  }

  /** A separator-free prefix stays glued to the first piece. */
  lemma {:induction false} SplitPrefix(a: string, t: string, sep: char)
    requires !HasChar(a, sep)
    ensures Split(a + t, sep) == [a + Split(t, sep)[0]] + Split(t, sep)[1..]
  {
    if |a| > 0 {
      assert (a + t)[0] == a[0];
      assert (a + t)[1..] == a[1..] + t;
      assert !HasChar(a[1..], sep) by {
        forall i | 0 <= i < |a[1..]| ensures a[1..][i] != sep {
          assert a[1..][i] == a[i + 1];
        }
      }
      SplitPrefix(a[1..], t, sep);
      assert [a[0]] + (a[1..] + Split(t, sep)[0]) == a + Split(t, sep)[0];
    } else {
      var parts := Split(t, sep);
      assert a + t == t && a + parts[0] == parts[0];
      assert parts == [parts[0]] + parts[1..];
    }
  }

  /** Pieces free of the separator come back from splitting their join. */
  lemma {:induction false} SplitJoin(parts: seq<string>, sep: char)
    requires |parts| >= 1
    requires forall k :: 0 <= k < |parts| ==> !HasChar(parts[k], sep)
    ensures Split(Join(parts, sep), sep) == parts
  {
    if |parts| == 1 {
      SplitPrefix(parts[0], "", sep);
      assert parts[0] + "" == parts[0];
    } else {
      var rest := parts[1..];
      SplitJoin(rest, sep);
      var t := [sep] + Join(rest, sep);
      assert Join(parts, sep) == parts[0] + t;
      SplitPrefix(parts[0], t, sep);
      assert t[1..] == Join(rest, sep);
      assert Split(t, sep) == [""] + rest;
      assert parts[0] + "" == parts[0];
      assert parts == [parts[0]] + rest;
    }
  }

  lemma JoinCons(head: string, rest: seq<string>, sep: char)
    requires |rest| >= 1
    ensures Join([head] + rest, sep) == head + [sep] + Join(rest, sep)
  {
    assert ([head] + rest)[1..] == rest;
  }

  /** Joining pieces of which none is empty gives "" exactly when there are no pieces. */
  lemma {:induction false} JoinEmptyIff(parts: seq<string>, sep: char)
    requires forall k :: 0 <= k < |parts| ==> parts[k] != ""
    ensures Join(parts, sep) == "" <==> |parts| == 0
  {
    if |parts| >= 2 {
      assert |Join(parts, sep)| >= |parts[0]| + 1;
    }
  }

  /** The numbered candidates `base + '%d' % j`, 1 <= j <= k, are k distinct
      strings, so at most |taken| of them can all be taken. */
  lemma {:induction false} TakenBound(base: string, taken: set<string>, k: nat)
    requires forall j :: 1 <= j <= k ==> base + NatToString(j) in taken
    ensures k <= |taken|
  {
    if k > 0 {
      var last := base + NatToString(k);
      var rest := taken - {last};
      forall j | 1 <= j <= k - 1
        ensures base + NatToString(j) in rest
      {
        if base + NatToString(j) == last {
          NumberedInjective(base, j, k);
        }
      }
      TakenBound(base, rest, k - 1);
    }
  }

  /** The loop `i = k; while name in taken: name = base + '%d' % i; i += 1`
      entered with candidates 1..k-1 already known taken. */
  function NumberedFrom(base: string, taken: set<string>, k: nat): (r: string)
    requires k >= 1
    requires forall j :: 1 <= j < k ==> base + NatToString(j) in taken
    ensures r !in taken
    ensures exists j :: k <= j && r == base + NatToString(j)
                        && forall i :: k <= i < j ==> base + NatToString(i) in taken
    decreases |taken| + 1 - k
  {
    var candidate := base + NatToString(k);
    if candidate !in taken then
      assert k <= k && candidate == base + NatToString(k);
      candidate
    else
      TakenBound(base, taken, k);
      var r := NumberedFrom(base, taken, k + 1);
      r
  }

  /** The daemon's uniqueness rule: keep `first` if it is free, otherwise take
      `base + '%d' % j` for the smallest j >= 1 that is free. */
  function FirstFree(first: string, base: string, taken: set<string>): (r: string)
    ensures r !in taken
    ensures first !in taken ==> r == first
    ensures first in taken ==>
              exists j :: 1 <= j && r == base + NatToString(j)
                          && forall i :: 1 <= i < j ==> base + NatToString(i) in taken
  {
    if first !in taken then first else NumberedFrom(base, taken, 1)
  }

  /** A name chosen by the uniqueness rule from a base extends that base. */
  lemma FirstFreeExtends(base: string, taken: set<string>)
    ensures StartsWith(FirstFree(base, base, taken), base)
  {
    var r := FirstFree(base, base, taken);
    if base in taken {
      var j :| 1 <= j && r == base + NatToString(j);
      assert r[..|base|] == base;
    }
  }

  lemma StartsWithTrans(s: string, a: string, b: string)
    requires StartsWith(s, a) && StartsWith(a, b)
    ensures StartsWith(s, b)
  {
    assert s[..|b|] == s[..|a|][..|b|];
  }
}

=== FILE: table_ops.dfy ===
/** The table commands of ldtpd/table.py modelled here, with the cell
    helper `_get_accessible_at_row_column` of ldtpd/utils.py.  A command
    works on the accessible the resolver hands it; its wrapper adds the
    lookup.  `handle` is the daemon's `_handle_table_cell` flag: the
    commands switch it on while they walk a cell's descendants, so those
    walks always include table cells, and are meant to put it back.
 */
module TableOps {
  import opened Wrappers
  import opened Strings
  import opened Glob
  import opened Access
  import opened Naming
  import opened Walker
  import opened Appmap
  import opened Resolver

  /** A command's answer, the flag after it, and the cache after it. */
  datatype Answer<T> = Answer(result: Result<T>, handle: bool, cache: Cache)

  /** The messages of the range tests on a row and on a column. */
  function RowRangeMessage(row: int): string {
    "Row index out of range: " + IntToString(row)
  }

  function ColumnRangeMessage(column: int): string {
    "Column index out of range: " + IntToString(column)
  }

  /** `obj.queryTable()`: `None` has no such method; an accessible without
      the interface is reported as not a table. */
  function TableOf(obj: Acc): (r: Result<Grid>)
    ensures obj.Null? ==> r == Err(AttributeFault)
    ensures obj.Obj? && obj.table.None? ==> r == Err(ServerError("Object not table type."))
    ensures r.Ok? ==> obj.Obj? && obj.table == Some(r.value)
  {
    if obj.Null? then Err(AttributeFault)
    else match obj.table
      case None => Err(ServerError("Object not table type."))
      case Some(g) => Ok(g)
  }

  /** `_get_accessible_at_row_column(obj, row, column)`.  The range tests
      admit the row count and the column count themselves; such a cell is
      outside the table and is reported missing. */
  function AccessibleAtRowColumn(obj: Acc, row: int, column: int): (r: Result<Node>)
    ensures r.Ok? ==> obj.Obj? && obj.table.Some? && r.value == CellAt(obj.table.value, row, column)
                      && 0 <= row < obj.table.value.nRows && 0 <= column < obj.table.value.nColumns
    ensures obj.Obj? && obj.table.Some? && (row < 0 || row > obj.table.value.nRows) ==>
              r == Err(ServerError(RowRangeMessage(row)))
    ensures obj.Obj? && obj.table.Some? && 0 <= row < obj.table.value.nRows
            && 0 <= column < obj.table.value.nColumns && CellAt(obj.table.value, row, column).Obj? ==>
              r.Ok?
    ensures r.Err? ==> r.fault == AttributeFault || r.fault.ServerError?
  {
    match TableOf(obj)
    case Err(f) => Err(f)
    case Ok(g) => CellIn(g, row, column)
  }

  /** The range tests and the cell lookup, once the table is known. */
  function CellIn(g: Grid, row: int, column: int): (r: Result<Node>)
    ensures r.Ok? ==> r.value == CellAt(g, row, column) && 0 <= row < g.nRows && 0 <= column < g.nColumns
    ensures row < 0 || row > g.nRows ==> r == Err(ServerError(RowRangeMessage(row)))
    ensures 0 <= row < g.nRows && 0 <= column < g.nColumns && CellAt(g, row, column).Obj? ==> r.Ok?
    ensures r.Err? ==> r.fault.ServerError?
  {
    if row < 0 || row > g.nRows then Err(ServerError(RowRangeMessage(row)))
    else if column < 0 || column > g.nColumns then
      Err(ServerError(ColumnRangeMessage(column)))
    else
      var cell := CellAt(g, row, column);
      if cell.Null? then Result<Node>.Err(ServerError("Unable to access table cell on the given row and column index"))
      else Ok(cell)
  }

  // ------------------------------------------------------ row search

  /** What one cell contributes to the row search: nothing (`None`), a
      fault of its walk, or the accessible that the row text names.  A cell
      with children is searched through its walk, the cell itself first; a
      leaf cell is matched alone. */
  function CellFind(cell: Acc, rowText: string): (r: Option<Result<Node>>)
    ensures cell.Null? ==> r.None?
    ensures r.Some? && r.value.Ok? ==> MatchNameToAcc(rowText, r.value.value) && Within(r.value.value, cell)
    ensures r.Some? && r.value.Err? ==> r.value.fault == AttributeFault
    ensures cell.Obj? && |cell.children| == 0 ==>
              (r.Some? <==> MatchNameToAcc(rowText, cell)) && (r.Some? ==> r.value == Ok(cell))
  {
    if cell.Null? then None
    else if |cell.children| > 0 then
      var w := Walk(cell, true);
      match FirstIn(w.nodes, w.fault, (n: Node) => MatchNameToAcc(rowText, n))
      case Err(f) => Some(Err(f))
      case Ok(None) => None
      case Ok(Some(n)) => Some(Ok(n))
    else if MatchNameToAcc(rowText, cell) then Some(Ok(cell))
    else None
  }

  /** A hit of the row search: the row and the accessible to focus. */
  datatype Hit = Hit(row: int, target: Node)

  /** What a cell contributes to the row search, as a value. */
  function CellTest(rowText: string): Acc -> Option<Result<Node>> {
    (a: Acc) => CellFind(a, rowText)
  }

  /** The row-major scan from cell `(i, j)` on with any per-cell test: the
      first cell that contributes decides; `Ok(None)` when none does. */
  function Scan(g: Grid, find: Acc -> Option<Result<Node>>, i: int, j: int): (r: Result<Option<Hit>>)
    requires 0 <= i && 0 <= j
    ensures r.Ok? && r.value.Some? ==>
              i <= r.value.value.row < g.nRows
              && exists c :: 0 <= c < g.nColumns && find(CellAt(g, r.value.value.row, c)) == Some(Ok(r.value.value.target))
    ensures r.Err? ==> exists p, q :: find(CellAt(g, p, q)) == Some(Err(r.fault))
    decreases g.nRows - i, g.nColumns - j
  {
    if i >= g.nRows then Ok(None)
    else if j >= g.nColumns then Scan(g, find, i + 1, 0)
    else match find(CellAt(g, i, j))
      case None => Scan(g, find, i, j + 1)
      case Some(Err(f)) => Err(f)
      case Some(Ok(n)) => Ok(Some(Hit(i, n)))
  }

  /** The row search of ldtpd/table.py from cell `(i, j)` on. */
  function SearchFrom(g: Grid, rowText: string, i: int, j: int): (r: Result<Option<Hit>>)
    requires 0 <= i && 0 <= j
    ensures r.Ok? && r.value.Some? ==>
              i <= r.value.value.row < g.nRows && MatchNameToAcc(rowText, r.value.value.target)
              && exists c :: 0 <= c < g.nColumns && Within(r.value.value.target, CellAt(g, r.value.value.row, c))
    ensures r.Err? ==> r.fault == AttributeFault
  {
    var r := Scan(g, CellTest(rowText), i, j);
    assert r.Ok? && r.value.Some? ==>
             exists c :: 0 <= c < g.nColumns && Within(r.value.value.target, CellAt(g, r.value.value.row, c)) by {
      if r.Ok? && r.value.Some? {
        var c :| 0 <= c < g.nColumns && CellTest(rowText)(CellAt(g, r.value.value.row, c)) == Some(Ok(r.value.value.target));
        assert CellFind(CellAt(g, r.value.value.row, c), rowText) == Some(Ok(r.value.value.target));
      }
    }
    assert r.Err? ==> r.fault == AttributeFault by {
      if r.Err? {
        var p, q :| CellTest(rowText)(CellAt(g, p, q)) == Some(Err(r.fault));
        assert CellFind(CellAt(g, p, q), rowText) == Some(Err(r.fault));
      }
    }
    r
  }

  /** No cell from `(i, j)` on, in row-major order, contributes. */
  ghost predicate Quiet(g: Grid, find: Acc -> Option<Result<Node>>, i: int, j: int) {
    forall p, q :: (i < p || (p == i && j <= q)) && p < g.nRows && 0 <= q < g.nColumns ==>
      find(CellAt(g, p, q)).None?
  }

  /** The scan finds nothing exactly when no remaining cell contributes. */
  lemma {:induction false} ScanNone(g: Grid, find: Acc -> Option<Result<Node>>, i: int, j: int)
    requires 0 <= i && 0 <= j
    ensures Scan(g, find, i, j) == Ok(None) <==> Quiet(g, find, i, j)
    decreases g.nRows - i, g.nColumns - j
  {
    if i >= g.nRows {
    } else if j >= g.nColumns {
      ScanNone(g, find, i + 1, 0);
      assert Quiet(g, find, i, j) <==> Quiet(g, find, i + 1, 0);
    } else {
      ScanNone(g, find, i, j + 1);
      var here := find(CellAt(g, i, j));
      assert Quiet(g, find, i, j) <==> here.None? && Quiet(g, find, i, j + 1) by {
        if Quiet(g, find, i, j) {
          assert find(CellAt(g, i, j)).None?;
        }
      }
    }
  }

  /** No cell from `(i, j)` on and before `(p0, q0)`, in row-major order,
      contributes. */
  ghost predicate QuietBefore(g: Grid, find: Acc -> Option<Result<Node>>, i: int, j: int, p0: int, q0: int) {
    forall p, q :: 0 <= q < g.nColumns && (i < p || (p == i && j <= q)) && (p < p0 || (p == p0 && q < q0)) ==>
      find(CellAt(g, p, q)).None?
  }

  /** The cell at `(p, q)` is at or after `(i, j)` in row-major order. */
  predicate AtOrAfter(g: Grid, i: int, j: int, p: int, q: int) {
    0 <= q < g.nColumns && p < g.nRows && (i < p || (p == i && j <= q))
  }

  /** Past the last column the quiet stretch carries over to the next row. */
  lemma QuietNextRow(g: Grid, find: Acc -> Option<Result<Node>>, i: int, j: int, p0: int, q0: int)
    requires j >= g.nColumns && QuietBefore(g, find, i + 1, 0, p0, q0)
    ensures QuietBefore(g, find, i, j, p0, q0)
  {
  }

  /** A quiet cell extends the quiet stretch after it back to itself. */
  lemma QuietNextCell(g: Grid, find: Acc -> Option<Result<Node>>, i: int, j: int, p0: int, q0: int)
    requires find(CellAt(g, i, j)).None? && QuietBefore(g, find, i, j + 1, p0, q0)
    ensures QuietBefore(g, find, i, j, p0, q0)
  {
    forall p, q | 0 <= q < g.nColumns && (i < p || (p == i && j <= q)) && (p < p0 || (p == p0 && q < q0))
      ensures find(CellAt(g, p, q)).None?
    {
      if !(p == i && q == j) {
        assert i < p || (p == i && j + 1 <= q);
      }
    }
  }

  /** A hit `r` of a scan from (i, j) is the first cell, in row-major
      order, that contributes, and the hit is that cell's accessible. */
  ghost predicate HitFirst(g: Grid, find: Acc -> Option<Result<Node>>, i: int, j: int, r: Result<Option<Hit>>) {
    r.Ok? && r.value.Some? ==>
      exists q :: AtOrAfter(g, i, j, r.value.value.row, q)
                  && find(CellAt(g, r.value.value.row, q)) == Some(Ok(r.value.value.target))
                  && QuietBefore(g, find, i, j, r.value.value.row, q)
  }

  /** A hit of the scan is the first cell, in row-major order, that
      contributes. */
  lemma {:induction false} ScanHitFirst(g: Grid, find: Acc -> Option<Result<Node>>, i: int, j: int)
    requires 0 <= i && 0 <= j
    ensures HitFirst(g, find, i, j, Scan(g, find, i, j))
    decreases g.nRows - i, g.nColumns - j
  {
    var r := Scan(g, find, i, j);
    if i >= g.nRows || !(r.Ok? && r.value.Some?) {
    } else if j >= g.nColumns {
      assert r == Scan(g, find, i + 1, 0);
      ScanHitFirst(g, find, i + 1, 0);
      HitFirstNextRow(g, find, i, j, r);
    } else if find(CellAt(g, i, j)).None? {
      assert r == Scan(g, find, i, j + 1);
      ScanHitFirst(g, find, i, j + 1);
      HitFirstNextCell(g, find, i, j, r);
    } else {
      assert AtOrAfter(g, i, j, i, j) && QuietBefore(g, find, i, j, i, j);
      assert find(CellAt(g, i, j)) == Some(Ok(r.value.value.target));
    }
  }

  /** The first hit from the start of the next row is the first from past
      the end of this one. */
  lemma HitFirstNextRow(g: Grid, find: Acc -> Option<Result<Node>>, i: int, j: int, r: Result<Option<Hit>>)
    requires 0 <= i && j >= g.nColumns && HitFirst(g, find, i + 1, 0, r)
    ensures HitFirst(g, find, i, j, r)
  {
    if r.Ok? && r.value.Some? {
      var h := r.value.value;
      var q :| AtOrAfter(g, i + 1, 0, h.row, q) && find(CellAt(g, h.row, q)) == Some(Ok(h.target))
               && QuietBefore(g, find, i + 1, 0, h.row, q);
      QuietNextRow(g, find, i, j, h.row, q);
      assert AtOrAfter(g, i, j, h.row, q);
    }
  }

  /** The first hit after a silent cell is the first from that cell. */
  lemma HitFirstNextCell(g: Grid, find: Acc -> Option<Result<Node>>, i: int, j: int, r: Result<Option<Hit>>)
    requires 0 <= i && 0 <= j && find(CellAt(g, i, j)).None? && HitFirst(g, find, i, j + 1, r)
    ensures HitFirst(g, find, i, j, r)
  {
    if r.Ok? && r.value.Some? {
      var h := r.value.value;
      var q :| AtOrAfter(g, i, j + 1, h.row, q) && find(CellAt(g, h.row, q)) == Some(Ok(h.target))
               && QuietBefore(g, find, i, j + 1, h.row, q);
      QuietNextCell(g, find, i, j, h.row, q);
      assert AtOrAfter(g, i, j, h.row, q);
    }
  }

  /** A fault of the scan is the fault of the first cell, in row-major
      order, that contributes. */
  lemma {:induction false} ScanFaultFirst(g: Grid, find: Acc -> Option<Result<Node>>, i: int, j: int)
    requires 0 <= i && 0 <= j
    ensures var r := Scan(g, find, i, j);
            r.Err? ==>
              exists p, q :: AtOrAfter(g, i, j, p, q) && find(CellAt(g, p, q)) == Some(Err(r.fault))
                             && QuietBefore(g, find, i, j, p, q)
    decreases g.nRows - i, g.nColumns - j
  {
    var r := Scan(g, find, i, j);
    if i >= g.nRows || r.Ok? {
    } else if j >= g.nColumns {
      assert r == Scan(g, find, i + 1, 0);
      ScanFaultFirst(g, find, i + 1, 0);
      var p, q :| AtOrAfter(g, i + 1, 0, p, q) && find(CellAt(g, p, q)) == Some(Err(r.fault))
                  && QuietBefore(g, find, i + 1, 0, p, q);
      QuietNextRow(g, find, i, j, p, q);
      assert AtOrAfter(g, i, j, p, q);
    } else if find(CellAt(g, i, j)).None? {
      assert r == Scan(g, find, i, j + 1);
      ScanFaultFirst(g, find, i, j + 1);
      var p, q :| AtOrAfter(g, i, j + 1, p, q) && find(CellAt(g, p, q)) == Some(Err(r.fault))
                  && QuietBefore(g, find, i, j + 1, p, q);
      QuietNextCell(g, find, i, j, p, q);
      assert AtOrAfter(g, i, j, p, q);
    } else {
      assert AtOrAfter(g, i, j, i, j) && QuietBefore(g, find, i, j, i, j);
      assert find(CellAt(g, i, j)) == Some(Err(r.fault));
    }
  }

  /** The row search finds nothing iff no cell from (i, j) on, in
      row-major order, holds a match or a faulting walk. */
  lemma SearchFromNone(g: Grid, rowText: string, i: int, j: int)
    requires 0 <= i && 0 <= j
    ensures SearchFrom(g, rowText, i, j) == Ok(None) <==> Quiet(g, CellTest(rowText), i, j)
  {
    ScanNone(g, CellTest(rowText), i, j);
  }

  /** The row search answers the first cell, in row-major order from
      (i, j), whose search is not silent: its match, or its walk's fault. */
  lemma SearchFromFirst(g: Grid, rowText: string, i: int, j: int)
    requires 0 <= i && 0 <= j
    ensures var r := SearchFrom(g, rowText, i, j);
            r.Ok? && r.value.Some? ==>
              exists q :: AtOrAfter(g, i, j, r.value.value.row, q)
                          && CellTest(rowText)(CellAt(g, r.value.value.row, q)) == Some(Ok(r.value.value.target))
                          && QuietBefore(g, CellTest(rowText), i, j, r.value.value.row, q)
    ensures var r := SearchFrom(g, rowText, i, j);
            r.Err? ==>
              exists p, q :: AtOrAfter(g, i, j, p, q) && CellTest(rowText)(CellAt(g, p, q)) == Some(Err(r.fault))
                             && QuietBefore(g, CellTest(rowText), i, j, p, q)
  {
    ScanHitFirst(g, CellTest(rowText), i, j);
    ScanFaultFirst(g, CellTest(rowText), i, j);
  }

  /** The nested `for i in range(nRows): for j in range(nColumns):` loop. */
  method TableSearch(g: Grid, rowText: string) returns (r: Result<Option<Hit>>)
    ensures r == SearchFrom(g, rowText, 0, 0)
  {
    var i := 0;
    while i < g.nRows
      invariant 0 <= i
      invariant SearchFrom(g, rowText, 0, 0) == SearchFrom(g, rowText, i, 0)
      decreases g.nRows - i
    {
      var j := 0;
      while j < g.nColumns
        invariant 0 <= j
        invariant SearchFrom(g, rowText, 0, 0) == SearchFrom(g, rowText, i, j)
        decreases g.nColumns - j
      {
        var found := CellFind(CellAt(g, i, j), rowText);
        if found.Some? {
          match found.value
          case Err(f) => { return Err(f); }
          case Ok(n) => { return Ok(Some(Hit(i, n))); }
        }
        j := j + 1;
      }
      i := i + 1;
    }
    return Ok(None);
  }

  /** The search commands once the table is resolved: focus the hit and
      answer its row, or raise `notFound` followed by the row text when no
      cell answers.  A fault of the search or of the focus is passed on. */
  function RowSearch(obj: Acc, rowText: string, notFound: string): (r: Result<int>)
    ensures TableOf(obj).Err? ==> r == Err(TableOf(obj).fault)
    ensures TableOf(obj).Ok? ==>
              var s := SearchFrom(TableOf(obj).value, rowText, 0, 0);
              (s.Err? ==> r == Err(s.fault))
              && (s == Ok(None) ==> r == Err(ServerError(notFound + rowText)))
              && (s.Ok? && s.value.Some? ==>
                    (GrabFocus(s.value.value.target).Err? ==> r == Err(GrabFocus(s.value.value.target).fault))
                    && (GrabFocus(s.value.value.target).Ok? ==> r == Ok(s.value.value.row)))
    ensures r.Ok? ==> obj.Obj? && obj.table.Some? && 0 <= r.value < obj.table.value.nRows
  {
    match TableOf(obj)
    case Err(f) => Err(f)
    case Ok(g) =>
      match SearchFrom(g, rowText, 0, 0)
      case Err(f) => Err(f)
      case Ok(None) => Err(ServerError(notFound + rowText))
      case Ok(Some(h)) =>
        match GrabFocus(h.target)
        case Err(f) => Err(f)
        case Ok(_) => Ok(h.row)
  }

  /** `gettablerowindex(window_name, object_name, row_text)`: the row of the
      first cell, in row-major order, whose text the row text names. */
  function GetTableRowIndex(apps: seq<Acc>, c: Cache, window: string, name: string, rowText: string, handle: bool)
    : (r: Answer<int>)
    ensures var l := GetObject(apps, c, window, name);
            r.cache == l.cache && r.handle == handle
            && (l.result.Err? ==> r.result == Err(l.result.fault))
            && (l.result.Ok? ==> r.result == RowSearch(l.result.value, rowText, "Unable to get row index: "))
  {
    var l := GetObject(apps, c, window, name);
    match l.result
    case Err(f) => Answer(Err(f), handle, l.cache)
    case Ok(obj) => Answer(RowSearch(obj, rowText, "Unable to get row index: "), handle, l.cache)
  }

  /** `selectrow(window_name, object_name, row_text)`: the same search,
      answering 1. */
  function SelectRow(apps: seq<Acc>, c: Cache, window: string, name: string, rowText: string, handle: bool)
    : (r: Answer<int>)
    ensures var l := GetObject(apps, c, window, name);
            r.cache == l.cache && r.handle == handle
            && (l.result.Err? ==> r.result == Err(l.result.fault))
            && (l.result.Ok? ==>
                  var s := RowSearch(l.result.value, rowText, "Unable to select row: ");
                  (s.Ok? ==> r.result == Ok(1)) && (s.Err? ==> r.result == Err(s.fault)))
  {
    var l := GetObject(apps, c, window, name);
    match l.result
    case Err(f) => Answer(Err(f), handle, l.cache)
    case Ok(obj) =>
      match RowSearch(obj, rowText, "Unable to select row: ")
      case Err(f) => Answer(Err(f), handle, l.cache)
      case Ok(_) => Answer(Ok(1), handle, l.cache)
  }

  /** The search commands differ only in their not-found message. */
  lemma RowSearchMessages(obj: Acc, rowText: string, a: string, b: string)
    ensures RowSearch(obj, rowText, a).Ok? <==> RowSearch(obj, rowText, b).Ok?
    ensures RowSearch(obj, rowText, a).Ok? ==> RowSearch(obj, rowText, a) == RowSearch(obj, rowText, b)
    ensures RowSearch(obj, rowText, a).Err? && RowSearch(obj, rowText, a).fault != ServerError(a + rowText) ==>
              RowSearch(obj, rowText, a) == RowSearch(obj, rowText, b)
  {
  }

  /** Selecting a row succeeds exactly when its index can be found, and the
      two fail alike except for the not-found message. */
  lemma SelectRowAgreesWithIndex(apps: seq<Acc>, c: Cache, window: string, name: string, rowText: string, handle: bool)
    ensures var i := GetTableRowIndex(apps, c, window, name, rowText, handle).result;
            var s := SelectRow(apps, c, window, name, rowText, handle).result;
            (s.Ok? <==> i.Ok?)
            && (s.Err? && s.fault != ServerError("Unable to select row: " + rowText) ==> s == i)
  {
    var l := GetObject(apps, c, window, name);
    if l.result.Ok? {
      RowSearchMessages(l.result.value, rowText, "Unable to select row: ", "Unable to get row index: ");
    }
  }

  // ---------------------------------------------- selecting by index

  /** `selectrowindex` once resolved: the first cell of the row must take
      the focus; the range test admits the row count itself, whose cell is
      outside the table. */
  function SelectRowIndex(obj: Acc, row: int): (r: Result<int>)
    ensures r.Ok? <==> obj.Obj? && obj.table.Some? && 0 <= row <= obj.table.value.nRows
                       && CellAt(obj.table.value, row, 0).Obj? && CellAt(obj.table.value, row, 0).hasComponent
    ensures r.Ok? ==> r.value == 1 && row < obj.table.value.nRows
    ensures obj.Obj? && obj.table.Some? && (row < 0 || row > obj.table.value.nRows) ==>
              r == Err(ServerError(RowRangeMessage(row)))
  {
    match TableOf(obj)
    case Err(f) => Err(f)
    case Ok(g) =>
      if row < 0 || row > g.nRows then Err(ServerError(RowRangeMessage(row)))
      else match GrabFocus(CellAt(g, row, 0))
        case Err(f) => Err(f)
        case Ok(_) => Ok(1)
  }

  /** `selectlastrow` once resolved: the first cell of row `nRows - 1`. */
  function SelectLastRow(obj: Acc): (r: Result<int>)
    ensures r.Ok? <==> obj.Obj? && obj.table.Some? && CellAt(obj.table.value, obj.table.value.nRows - 1, 0).Obj?
                       && CellAt(obj.table.value, obj.table.value.nRows - 1, 0).hasComponent
    ensures r.Ok? ==> r.value == 1 && obj.table.value.nRows >= 1
  {
    match TableOf(obj)
    case Err(f) => Err(f)
    case Ok(g) =>
      match GrabFocus(CellAt(g, g.nRows - 1, 0))
      case Err(f) => Err(f)
      case Ok(_) => Ok(1)
  }

  /** On a non-empty table, selecting the last row is selecting index
      `nRows - 1`. */
  lemma SelectLastRowIsLastIndex(obj: Acc)
    requires obj.Obj? && obj.table.Some? && obj.table.value.nRows >= 1
    ensures SelectLastRow(obj) == SelectRowIndex(obj, obj.table.value.nRows - 1)
  {
  }

  /** On an empty table there is no last row. */
  lemma SelectLastRowOfEmptyTable(obj: Acc)
    requires obj.Obj? && obj.table.Some? && obj.table.value.nRows <= 0
    ensures SelectLastRow(obj).Err?
  {
  }

  // ------------------------------------------------------ cell value

  /** `getcellvalue` once resolved: a cell with children answers with the
      name of the first accessible of its walk (the cell itself first) that
      has a Text interface, after focusing the cell; a leaf cell answers
      with its own name.  An empty or missing name raises. */
  function GetCellValue(obj: Acc, row: int, column: int): (r: Result<string>)
    ensures r.Ok? ==> r.value != "" && AccessibleAtRowColumn(obj, row, column).Ok?
    ensures r.Ok? ==> var cell := AccessibleAtRowColumn(obj, row, column).value;
                      cell.hasComponent
                      && (|cell.children| == 0 ==> r.value == cell.name)
                      && (|cell.children| > 0 ==>
                            exists i :: 0 <= i < |Walk(cell, true).nodes| && Walk(cell, true).nodes[i].text.Some?
                                        && Walk(cell, true).nodes[i].name == r.value
                                        && forall k :: 0 <= k < i ==> Walk(cell, true).nodes[k].text.None?)
    ensures AccessibleAtRowColumn(obj, row, column).Err? ==> r == Err(AccessibleAtRowColumn(obj, row, column).fault)
  {
    match AccessibleAtRowColumn(obj, row, column)
    case Err(f) => Err(f)
    case Ok(cell) =>
      if |cell.children| > 0 then
        var w := Walk(cell, true);
        match FirstIn(w.nodes, w.fault, (n: Node) => n.text.Some?)
        case Err(f) => Err(f)
        case Ok(None) => Err(ServerError("Unable to get row text"))
        case Ok(Some(child)) =>
          match GrabFocus(cell)
          case Err(f) => Err(f)
          case Ok(_) => if child.name == "" then Err(ServerError("Unable to get row text")) else Ok(child.name)
      else
        match GrabFocus(cell)
        case Err(f) => Err(f)
        case Ok(_) => if cell.name == "" then Err(ServerError("Unable to get row text")) else Ok(cell.name)
  }

  /** `verifytablecell(window_name, object_name, row, column, row_text)`:
      1 when the cell value exists and the glob matches it; any exception,
      the lookup's included, answers 0. */
  function VerifyTableCell(apps: seq<Acc>, c: Cache, window: string, name: string, row: int, column: int,
                           rowText: string, handle: bool): (r: Answer<int>)
    ensures var l := GetObject(apps, c, window, name);
            r.cache == l.cache && r.handle == handle && r.result.Ok? && (r.result.value == 0 || r.result.value == 1)
            && (r.result.value == 1 <==>
                  l.result.Ok? && GetCellValue(l.result.value, row, column).Ok?
                  && GlobMatch(rowText, GetCellValue(l.result.value, row, column).value))
  {
    var l := GetObject(apps, c, window, name);
    match l.result
    case Err(_) => Answer(Ok(0), handle, l.cache)
    case Ok(obj) =>
      match GetCellValue(obj, row, column)
      case Err(_) => Answer(Ok(0), handle, l.cache)
      case Ok(text) => Answer(Ok(if GlobMatch(rowText, text) then 1 else 0), handle, l.cache)
  }

  /** A cell verifies against its own value when that holds no glob
      characters. */
  lemma VerifyOwnValue(apps: seq<Acc>, c: Cache, window: string, name: string, row: int, column: int, handle: bool)
    requires var l := GetObject(apps, c, window, name);
             l.result.Ok? && GetCellValue(l.result.value, row, column).Ok?
             && NoMeta(GetCellValue(l.result.value, row, column).value)
    ensures var text := GetCellValue(GetObject(apps, c, window, name).result.value, row, column).value;
            VerifyTableCell(apps, c, window, name, row, column, text, handle).result == Ok(1)
  {
    var text := GetCellValue(GetObject(apps, c, window, name).result.value, row, column).value;
    LiteralPatternMatchesOnlyItself(text, text);
  }

  // ------------------------------------------------- check / uncheck row

  /** A row toggle's answer, the flag after it, and the index of the
      action it clicked, if any. */
  datatype RowToggle = RowToggle(result: Result<int>, handle: bool, action: Option<nat>)

  /** Click `toggle` on `n` unless its checked state already is `target`. */
  function ToggleTo(n: Node, target: bool): (r: Result<Option<nat>>)
    ensures (Checked in n.states) == target ==> r == Ok(None)
    ensures (Checked in n.states) != target ==>
              (r.Ok? ==> r.value.Some? && ClickObject(n, ["toggle"]) == Ok(r.value.value))
              && (r.Err? ==> ClickObject(n, ["toggle"]).Err? && r.fault == ClickObject(n, ["toggle"]).fault)
  {
    if (Checked in n.states) == target then Ok(None)
    else match ClickObject(n, ["toggle"])
      case Err(f) => Err(f)
      case Ok(i) => Ok(Some(i))
  }

  /** The test the row toggles look for: an Action interface. */
  function ActionTest(): Node -> bool {
    (n: Node) => n.actions.Some?
  }

  /** `checkrow` (`target` true) and `uncheckrow` (`target` false) once
      resolved, as written.  One local `flag` serves both to remember that
      the table-cell flag was already on and to record that an accessible
      with an Action interface was found, so: after a successful toggle
      inside a cell with children the flag is left on, and with the flag
      already on a cell without any such accessible still answers 1. */
  function ToggleRow(obj: Acc, row: int, column: int, handle: bool, target: bool): (r: RowToggle)
    ensures AccessibleAtRowColumn(obj, row, column).Err? ==>
              r == RowToggle(Err(AccessibleAtRowColumn(obj, row, column).fault), handle, None)
    ensures r.result.Ok? ==> r.result.value == 1
    ensures r.action.Some? ==> r.result.Ok?
    ensures AccessibleAtRowColumn(obj, row, column).Ok? && |AccessibleAtRowColumn(obj, row, column).value.children| == 0 ==>
              r.handle == handle
    ensures r.handle != handle ==> !handle && r.handle
  {
    match AccessibleAtRowColumn(obj, row, column)
    case Err(f) => RowToggle(Err(f), handle, None)
    case Ok(cell) =>
      if |cell.children| > 0 then
        var w := Walk(cell, true);
        ToggleAmongAsWritten(cell, w.nodes, w.fault, handle, target)
      else if cell.actions.None? then RowToggle(Err(ServerError("Unable to check row")), handle, None)
      else ToggleAt(cell, cell, handle, target)
  }

  /** The as-written toggle inside a cell with children: once an accessible
      with an Action interface is found the flag stays on, and with none the
      flag's own value decides. */
  function ToggleAmongAsWritten(cell: Node, nodes: seq<Node>, fault: bool, handle: bool, target: bool): (r: RowToggle)
    ensures r.result.Ok? ==> r.result.value == 1
    ensures r.action.Some? ==> r.result.Ok?
    ensures r.handle != handle ==> !handle && r.handle
  {
    match FirstIn(nodes, fault, ActionTest())
    case Err(f) => RowToggle(Err(f), handle, None)
    case Ok(None) =>
      if handle then RowToggle(Ok(1), handle, None)
      else RowToggle(Err(ServerError("Unable to check row")), handle, None)
    case Ok(Some(child)) => ToggleAt(cell, child, true, target)
  }

  /** `nodes[i]` is the first of `nodes` with an Action interface. */
  predicate FirstWithActions(nodes: seq<Node>, i: int) {
    0 <= i < |nodes| && nodes[i].actions.Some? && forall k :: 0 <= k < i ==> nodes[k].actions.None?
  }

  /** Toggle `n` towards `target`, then focus the cell: the answer is 1 and
      the clicked action when both succeed, else the first fault. */
  function ToggleAt(cell: Node, n: Node, handle: bool, target: bool): (r: RowToggle)
    ensures r.handle == handle
    ensures r.result.Ok? <==> ToggleTo(n, target).Ok? && GrabFocus(cell).Ok?
    ensures r.result.Ok? ==> r.result.value == 1 && r.action == ToggleTo(n, target).value
    ensures r.result.Err? ==> r.action.None?
    ensures ToggleTo(n, target).Err? ==> r.result == Err(ToggleTo(n, target).fault)
    ensures ToggleTo(n, target).Ok? && GrabFocus(cell).Err? ==> r.result == Err(GrabFocus(cell).fault)
  {
    match ToggleTo(n, target)
    case Err(f) => RowToggle(Err(f), handle, None)
    case Ok(clicked) =>
      match GrabFocus(cell)
      case Err(f) => RowToggle(Err(f), handle, None)
      case Ok(_) => RowToggle(Ok(1), handle, clicked)
  }

  /** The toggle inside a cell with children, given the cell's walk: the
      first accessible of the walk with an Action interface is toggled; with
      none, a fault of the walk is passed on, else the toggle fails. */
  function ToggleAmong(cell: Node, nodes: seq<Node>, fault: bool, handle: bool, target: bool): (r: RowToggle)
    ensures r.handle == handle
    ensures forall i :: FirstWithActions(nodes, i) ==> r == ToggleAt(cell, nodes[i], handle, target)
    ensures (forall i :: 0 <= i < |nodes| ==> nodes[i].actions.None?) ==>
              r == RowToggle(Err(if fault then AttributeFault else ServerError("Unable to check row")), handle, None)
  {
    match FirstIn(nodes, fault, ActionTest())
    case Err(f) => RowToggle(Err(f), handle, None)
    case Ok(None) => RowToggle(Err(ServerError("Unable to check row")), handle, None)
    case Ok(Some(child)) =>
      FirstUnique(nodes, child);
      ToggleAt(cell, child, handle, target)
  }

  /** The row toggle with the two roles of `flag` kept apart: the flag is
      always restored, and a cell with children needs an accessible with an
      Action interface among its walk (the cell first).  A leaf cell is
      toggled itself. */
  function ToggleRowFixed(obj: Acc, row: int, column: int, handle: bool, target: bool): (r: RowToggle)
    ensures r.handle == handle
    ensures AccessibleAtRowColumn(obj, row, column).Err? ==>
              r == RowToggle(Err(AccessibleAtRowColumn(obj, row, column).fault), handle, None)
    ensures AccessibleAtRowColumn(obj, row, column).Ok? ==>
              var cell := AccessibleAtRowColumn(obj, row, column).value;
              (|cell.children| == 0 && cell.actions.None? ==>
                 r == RowToggle(Err(ServerError("Unable to check row")), handle, None))
              && (|cell.children| == 0 && cell.actions.Some? ==> r == ToggleAt(cell, cell, handle, target))
              && (|cell.children| > 0 ==>
                    r == ToggleAmong(cell, Walk(cell, true).nodes, Walk(cell, true).fault, handle, target))
  {
    match AccessibleAtRowColumn(obj, row, column)
    case Err(f) => RowToggle(Err(f), handle, None)
    case Ok(cell) =>
      if |cell.children| > 0 then
        var w := Walk(cell, true);
        ToggleAmong(cell, w.nodes, w.fault, handle, target)
      else if cell.actions.None? then RowToggle(Err(ServerError("Unable to check row")), handle, None)
      else ToggleAt(cell, cell, handle, target)
  }

  /** There is one first accessible with an Action interface. */
  lemma FirstUnique(nodes: seq<Node>, child: Node)
    requires exists i :: 0 <= i < |nodes| && nodes[i] == child && nodes[i].actions.Some?
                         && forall j :: 0 <= j < i ==> nodes[j].actions.None?
    ensures forall i :: FirstWithActions(nodes, i) ==> nodes[i] == child
  {
    var i0 :| 0 <= i0 < |nodes| && nodes[i0] == child && nodes[i0].actions.Some?
              && forall j :: 0 <= j < i0 ==> nodes[j].actions.None?;
    forall i | FirstWithActions(nodes, i)
      ensures nodes[i] == child
    {
      if i != i0 {
        assert false;
      }
    }
  }

  /** The correction changes the as-written toggle only in the flag it
      leaves behind and when the flag was already on and no accessible of
      a cell with children has an Action interface. */
  lemma ToggleRowFixedAgrees(obj: Acc, row: int, column: int, handle: bool, target: bool)
    ensures var a := ToggleRow(obj, row, column, handle, target);
            var b := ToggleRowFixed(obj, row, column, handle, target);
            (a.result, a.action) == (b.result, b.action)
            || (handle && a == RowToggle(Ok(1), true, None)
                && b.result == Err(ServerError("Unable to check row")))
  {
    var a := AccessibleAtRowColumn(obj, row, column);
    if a.Ok? && |a.value.children| > 0 {
      var w := Walk(a.value, true);
      ToggleAmongAgrees(a.value, w.nodes, w.fault, handle, target);
    }
  }

  /** The cell-level half of the comparison above. */
  lemma ToggleAmongAgrees(cell: Node, nodes: seq<Node>, fault: bool, handle: bool, target: bool)
    ensures var a := ToggleAmongAsWritten(cell, nodes, fault, handle, target);
            var b := ToggleAmong(cell, nodes, fault, handle, target);
            (a.result, a.action) == (b.result, b.action)
            || (handle && a == RowToggle(Ok(1), true, None)
                && b.result == Err(ServerError("Unable to check row")))
  {
  }

  /** As written, a successful toggle inside a cell with children leaves
      the table-cell flag on when it was off. */
  lemma ToggleRowLeavesFlagOn(obj: Acc, row: int, column: int, target: bool)
    requires AccessibleAtRowColumn(obj, row, column).Ok?
    requires |AccessibleAtRowColumn(obj, row, column).value.children| > 0
    requires ToggleRow(obj, row, column, false, target).result.Ok?
    ensures ToggleRow(obj, row, column, false, target).handle
  {
  }

  /** As written, with the flag already on, a cell whose walk offers no
      Action interface at all still answers 1 and clicks nothing. */
  lemma ToggleRowWithoutActionSucceeds(obj: Acc, row: int, column: int, target: bool)
    requires AccessibleAtRowColumn(obj, row, column).Ok?
    requires var cell := AccessibleAtRowColumn(obj, row, column).value;
             |cell.children| > 0 && !Walk(cell, true).fault
             && forall i :: 0 <= i < |Walk(cell, true).nodes| ==> Walk(cell, true).nodes[i].actions.None?
    ensures ToggleRow(obj, row, column, true, target) == RowToggle(Ok(1), true, None)
    ensures ToggleRowFixed(obj, row, column, true, target).result == Err(ServerError("Unable to check row"))
  {
  }

  /** `checkrow(window_name, object_name, row, column)` as corrected. */
  function CheckRow(apps: seq<Acc>, c: Cache, window: string, name: string, row: int, column: int, handle: bool)
    : (r: Answer<int>)
    ensures var l := GetObject(apps, c, window, name);
            r.cache == l.cache && r.handle == handle
            && (l.result.Err? ==> r.result == Err(l.result.fault))
            && (l.result.Ok? ==> r.result == ToggleRowFixed(l.result.value, row, column, handle, true).result)
  {
    var l := GetObject(apps, c, window, name);
    match l.result
    case Err(f) => Answer(Err(f), handle, l.cache)
    case Ok(obj) => Answer(ToggleRowFixed(obj, row, column, handle, true).result, handle, l.cache)
  }

  /** `uncheckrow(window_name, object_name, row, column)` as corrected. */
  function UncheckRow(apps: seq<Acc>, c: Cache, window: string, name: string, row: int, column: int, handle: bool)
    : (r: Answer<int>)
    ensures var l := GetObject(apps, c, window, name);
            r.cache == l.cache && r.handle == handle
            && (l.result.Err? ==> r.result == Err(l.result.fault))
            && (l.result.Ok? ==> r.result == ToggleRowFixed(l.result.value, row, column, handle, false).result)
  {
    var l := GetObject(apps, c, window, name);
    match l.result
    case Err(f) => Answer(Err(f), handle, l.cache)
    case Ok(obj) => Answer(ToggleRowFixed(obj, row, column, handle, false).result, handle, l.cache)
  }
}

=== FILE: waiters.dfy ===
/** The waiters of ldtpd/waiters.py: poll once, then let a one-second timer
    and the accessibility events drive a main loop until the wait succeeds
    or times out.  The main loop is a finite sequence of stimuli: timer
    ticks, each seeing the desktop as it is then, and window events.  A
    waiter is a fresh daemon object, so it starts with an empty map cache
    and the table-cell flag off, and keeps its cache across polls.
 */
module Waiters {
  import opened Wrappers
  import opened Strings
  import opened Access
  import opened Naming
  import opened Appmap
  import opened Resolver
  import opened Seqs

  datatype Kind =
    | NullKind                                  // NullWaiter: polls nothing, listens to nothing
    | GuiExists(frame: string)                  // listens to window:create
    | GuiNotExists(frame: string)               // listens to window:destroy
    | ObjectExists(frame: string, obj: string)  // inherits GuiExists' events
    | ObjectNotExists(frame: string, obj: string)

  /** What happens on the main loop. */
  datatype Stimulus = Tick(apps: seq<Acc>) | Created(source: Node) | Destroyed(source: Node)

  /** The waiter's fields: `success`, `_timeout_count`, whether its timer is
      still installed, its map cache, and how many polls it made. */
  datatype WState = WState(success: bool, count: int, timerOn: bool, cache: Cache, polls: nat)

  /** What `run` comes back with, or that the loop is still running when
      the stimuli run out. */
  datatype Outcome<T> = Returned(value: T, polls: nat) | Waiting

  /** The object lookup behind the object waiters' polls, with `;` routed
      to the menu resolver. */
  function ObjectLookup(apps: seq<Acc>, c: Cache, frame: string, obj: string): (r: Lookup)
    ensures HasChar(obj, ';') ==> r == GetMenuHierarchy(apps, c, frame, obj, false)
    ensures !HasChar(obj, ';') ==> r == GetObject(apps, c, frame, obj)
  {
    if HasChar(obj, ';') then GetMenuHierarchy(apps, c, frame, obj, false) else GetObject(apps, c, frame, obj)
  }

  /** `poll()` as written.  The object waiters' polls start with
      `re.search(';', object_name)`: the module never imports `re` and no
      `object_name` is in scope, so the NameError is swallowed by their own
      `except:` before any lookup happens. */
  function Poll(k: Kind, apps: seq<Acc>, st: WState): (r: WState)
    ensures r.count == st.count && r.timerOn == st.timerOn && r.cache == st.cache && r.polls == st.polls + 1
    ensures k.GuiExists? ==> (r.success <==> GetWindowHandle(apps, k.frame).Some?)
    ensures k.GuiNotExists? ==> (r.success <==> GetWindowHandle(apps, k.frame).None?)
    ensures k.NullKind? || k.ObjectExists? ==> r.success == st.success
    ensures k.ObjectNotExists? ==> r.success
  {
    var st1 := st.(polls := st.polls + 1);
    match k
    case NullKind => st1
    case GuiExists(f) => st1.(success := GetWindowHandle(apps, f).Some?)
    case GuiNotExists(f) => st1.(success := GetWindowHandle(apps, f).None?)
    case ObjectExists(_, _) => st1
    case ObjectNotExists(_, _) => st1.(success := true)
  }

  /** `poll()` as evidently intended: the object waiters look the object up
      by `self._obj_name`; any exception means "not there".  A lookup that
      returns `None` without raising still counts as found. */
  function PollFixed(k: Kind, apps: seq<Acc>, st: WState): (r: WState)
    ensures r.count == st.count && r.timerOn == st.timerOn && r.polls == st.polls + 1
    ensures !k.ObjectExists? && !k.ObjectNotExists? ==> r == Poll(k, apps, st)
    ensures k.ObjectExists? ==>
              var l := ObjectLookup(apps, st.cache, k.frame, k.obj);
              r.cache == l.cache && (l.result.Ok? ==> r.success) && (l.result.Err? ==> r.success == st.success)
    ensures k.ObjectNotExists? ==>
              var l := ObjectLookup(apps, st.cache, k.frame, k.obj);
              r.cache == l.cache && (r.success <==> l.result.Err?)
  {
    match k
    case ObjectExists(f, o) =>
      var l := ObjectLookup(apps, st.cache, f, o);
      WState(if l.result.Ok? then true else st.success, st.count, st.timerOn, l.cache, st.polls + 1)
    case ObjectNotExists(f, o) =>
      var l := ObjectLookup(apps, st.cache, f, o);
      WState(l.result.Err?, st.count, st.timerOn, l.cache, st.polls + 1)
    case _ => Poll(k, apps, st)
  }

  function DoPoll(k: Kind, apps: seq<Acc>, st: WState, fixed: bool): (r: WState)
    ensures r.count == st.count && r.timerOn == st.timerOn && r.polls == st.polls + 1
  {
    if fixed then PollFixed(k, apps, st) else Poll(k, apps, st)
  }

  /** Whether the waiter listens to this stimulus's event type. */
  predicate Listens(k: Kind, s: Stimulus) {
    (s.Created? && (k.GuiExists? || k.ObjectExists?))
    || (s.Destroyed? && (k.GuiNotExists? || k.ObjectNotExists?))
  }

  /** `event_cb(event)`: the window waiters succeed when the event's source
      is the awaited window; the object-exists waiter runs that and then
      clears `success` again, while the object-not-exists waiter keeps the
      window rule it inherits. */
  function EventCb(k: Kind, source: Node, st: WState): (r: WState)
    requires !k.NullKind?
    ensures r.count == st.count && r.timerOn == st.timerOn && r.cache == st.cache && r.polls == st.polls
    ensures k.ObjectExists? ==> !r.success
    ensures !k.ObjectExists? ==> (r.success <==> st.success || MatchNameToAcc(k.frame, source))
  {
    if k.ObjectExists? then st.(success := false)
    else if MatchNameToAcc(k.frame, source) then st.(success := true)
    else st
  }

  /** `_timeout_cb()`: stays installed (`True`) or removes itself, and says
      whether it quit the loop.  A tick that finds the wait already
      successful removes the timer without polling. */
  datatype TickResult = TickResult(st: WState, quit: bool)

  function TimeoutCb(k: Kind, apps: seq<Acc>, st: WState, timeout: int, fixed: bool): (r: TickResult)
    requires st.timerOn
    ensures st.success ==> r == TickResult(st.(timerOn := false), false)
    ensures !st.success ==>
              r.st.count == st.count + 1 && r.st.polls == st.polls + 1
              && (r.quit <==> r.st.count >= timeout || r.st.success)
              && (r.st.timerOn <==> !r.quit)
  {
    if st.success then TickResult(st.(timerOn := false), false)
    else
      var p := DoPoll(k, apps, st.(count := st.count + 1), fixed);
      if p.count >= timeout || p.success then TickResult(p.(timerOn := false), true)
      else TickResult(p, false)
  }

  /** Whether a stimulus can end a wait with success: a tick on which the
      waiter's poll succeeds (for the repaired object waiters, with
      whatever map the waiter has cached), or an event the waiter listens
      to from the awaited window (the object-exists waiter clears
      `success` on its events, so none of them counts). */
  ghost predicate Awaited(k: Kind, s: Stimulus, fixed: bool) {
    match s
    case Tick(apps) =>
      (match k
       case NullKind => false
       case GuiExists(f) => GetWindowHandle(apps, f).Some?
       case GuiNotExists(f) => GetWindowHandle(apps, f).None?
       case ObjectExists(f, o) => fixed && exists c :: ObjectLookup(apps, c, f, o).result.Ok?
       case ObjectNotExists(f, o) => !fixed || exists c :: ObjectLookup(apps, c, f, o).result.Err?)
    case _ => Listens(k, s) && !k.ObjectExists? && MatchNameToAcc(k.frame, s.source)
  }

  /** What the main loop promises about its outcome `r` from state `st`:
      each tick polls at most once; with the timer running and no success
      yet, the loop returns once enough ticks arrive, and a failure comes
      exactly when the tick count reaches the timeout; a success comes from
      an awaited stimulus. */
  ghost predicate Settles(k: Kind, st: WState, timeout: int, stimuli: seq<Stimulus>, fixed: bool, r: Outcome<bool>) {
    (r.Returned? ==> st.polls <= r.polls <= st.polls + Ticks(stimuli))
    && (r.Returned? && !r.value ==> st.count + (r.polls - st.polls) >= timeout)
    && (st.timerOn && !st.success && 0 < Ticks(stimuli) && timeout - st.count <= Ticks(stimuli) ==> r.Returned?)
    && (st.timerOn && !st.success && st.count < timeout && r.Returned? ==>
          r.polls <= st.polls + (timeout - st.count)
          && (!r.value ==> r.polls == st.polls + (timeout - st.count)))
    && (!st.success && r.Returned? && r.value ==> exists i :: 0 <= i < |stimuli| && Awaited(k, stimuli[i], fixed))
  }

  /** The main loop over the remaining stimuli. */
  function Loop(k: Kind, st: WState, timeout: int, stimuli: seq<Stimulus>, fixed: bool): (r: Outcome<bool>)
    ensures r.Returned? ==> st.polls <= r.polls <= st.polls + Ticks(stimuli)
    ensures r.Returned? && !r.value ==> st.count + (r.polls - st.polls) >= timeout
    ensures st.timerOn && !st.success && 0 < Ticks(stimuli) && timeout - st.count <= Ticks(stimuli) ==> r.Returned?
    ensures st.timerOn && !st.success && st.count < timeout && r.Returned? ==>
              r.polls <= st.polls + (timeout - st.count)
              && (!r.value ==> r.polls == st.polls + (timeout - st.count))
    ensures !st.success && r.Returned? && r.value ==> exists i :: 0 <= i < |stimuli| && Awaited(k, stimuli[i], fixed)
    decreases |stimuli|, 1
  {
    if |stimuli| == 0 then Waiting
    else if stimuli[0].Tick? then TickStep(k, st, timeout, stimuli, fixed)
    else EventStep(k, st, timeout, stimuli, fixed)
  }

  /** The loop when the next stimulus is a timer tick. */
  function TickStep(k: Kind, st: WState, timeout: int, stimuli: seq<Stimulus>, fixed: bool): (r: Outcome<bool>)
    requires |stimuli| > 0 && stimuli[0].Tick?
    ensures Settles(k, st, timeout, stimuli, fixed, r)
    decreases |stimuli|, 0
  {
    var apps := stimuli[0].apps;
    assert forall i :: 0 <= i < |stimuli| - 1 ==> stimuli[1..][i] == stimuli[i + 1];
    if !st.timerOn then Loop(k, st, timeout, stimuli[1..], fixed)
    else
      var t := TimeoutCb(k, apps, st, timeout, fixed);
      if t.quit then
        assert t.st.success && !st.success ==> Awaited(k, stimuli[0], fixed) by {
          if t.st.success && !st.success && (k.ObjectExists? || k.ObjectNotExists?) {
            var l := ObjectLookup(apps, st.cache, k.frame, k.obj);
          }
        }
        Returned(t.st.success, t.st.polls)
      else Loop(k, t.st, timeout, stimuli[1..], fixed)
  }

  /** The loop when the next stimulus is a window event. */
  function EventStep(k: Kind, st: WState, timeout: int, stimuli: seq<Stimulus>, fixed: bool): (r: Outcome<bool>)
    requires |stimuli| > 0 && !stimuli[0].Tick?
    ensures Settles(k, st, timeout, stimuli, fixed, r)
    decreases |stimuli|, 0
  {
    var s := stimuli[0];
    assert forall i :: 0 <= i < |stimuli| - 1 ==> stimuli[1..][i] == stimuli[i + 1];
    if !Listens(k, s) then Loop(k, st, timeout, stimuli[1..], fixed)
    else
      var st1 := EventCb(k, s.source, st);
      if st1.success then
        assert !st.success ==> Awaited(k, stimuli[0], fixed);
        Returned(true, st1.polls)
      else Loop(k, st1, timeout, stimuli[1..], fixed)
  }

  const Fresh := WState(false, 0, true, EmptyCache, 0)

  /** `run()`: one poll first; success or a zero timeout returns at once.
      With a positive timeout the run polls 1 + T times before it fails,
      returns once T ticks have come, and succeeds only through the first
      poll or an awaited stimulus. */
  function Run(k: Kind, apps: seq<Acc>, timeout: int, stimuli: seq<Stimulus>, fixed: bool): (r: Outcome<bool>)
    ensures var first := DoPoll(k, apps, Fresh, fixed);
            (first.success || timeout == 0) ==> r == Returned(first.success, 1)
    ensures var first := DoPoll(k, apps, Fresh, fixed);
            !first.success && timeout != 0 ==> r == Loop(k, first, timeout, stimuli, fixed)
    ensures r.Returned? ==> 1 <= r.polls
    ensures timeout > 0 && r.Returned? ==> r.polls <= 1 + timeout && (!r.value ==> r.polls == 1 + timeout)
    ensures timeout > 0 && Ticks(stimuli) >= timeout ==> r.Returned?
    ensures r.Returned? && r.value ==>
              DoPoll(k, apps, Fresh, fixed).success || exists i :: 0 <= i < |stimuli| && Awaited(k, stimuli[i], fixed)
  {
    var first := DoPoll(k, apps, Fresh, fixed);
    if first.success || timeout == 0 then Returned(first.success, first.polls)
    else Loop(k, first, timeout, stimuli, fixed)
  }

  /** `NullWaiter.run()`: the fixed return value, once the loop ends. */
  function NullRun<T>(returnValue: T, apps: seq<Acc>, timeout: int, stimuli: seq<Stimulus>): (r: Outcome<T>)
    ensures r.Returned? ==> r.value == returnValue
    ensures r.Waiting? <==> Run(NullKind, apps, timeout, stimuli, false).Waiting?
  {
    match Run(NullKind, apps, timeout, stimuli, false)
    case Returned(_, n) => Returned(returnValue, n)
    case Waiting => Waiting
  }

  function Ticks(stimuli: seq<Stimulus>): nat {
    if |stimuli| == 0 then 0 else (if stimuli[0].Tick? then 1 else 0) + Ticks(stimuli[1..])
  }

  /** A waiter whose poll and events can never set `success` (the null
      waiter, and the object-exists waiter as written). */
  predicate Inert(k: Kind, fixed: bool) {
    k.NullKind? || (k.ObjectExists? && !fixed)
  }

  /** An inert waiter with its timer running ends after exactly `timeout -
      count` more ticks, with `success` still false. */
  lemma {:induction false} InertLoopTimesOut(k: Kind, st: WState, timeout: int, stimuli: seq<Stimulus>, fixed: bool)
    requires Inert(k, fixed) && !st.success && st.timerOn
    requires st.count < timeout && Ticks(stimuli) >= timeout - st.count
    ensures Loop(k, st, timeout, stimuli, fixed) == Returned(false, st.polls + (timeout - st.count))
    decreases |stimuli|
  {
    var s := stimuli[0];
    if s.Tick? {
      var t := TimeoutCb(k, s.apps, st, timeout, fixed);
      assert DoPoll(k, s.apps, st.(count := st.count + 1), fixed).success == false;
      if !t.quit {
        InertLoopTimesOut(k, t.st, timeout, stimuli[1..], fixed);
      }
    } else {
      if Listens(k, s) {
        assert !EventCb(k, s.source, st).success;
      }
      InertLoopTimesOut(k, st, timeout, stimuli[1..], fixed);
    }
  }

  /** An always-false predicate with timeout T > 0 is polled exactly 1 + T
      times, and the waiter reports failure. */
  lemma InertRunPollsOnePlusTimeout(k: Kind, apps: seq<Acc>, timeout: int, stimuli: seq<Stimulus>, fixed: bool)
    requires Inert(k, fixed) && timeout > 0 && Ticks(stimuli) >= timeout
    ensures Run(k, apps, timeout, stimuli, fixed) == Returned(false, 1 + timeout)
  {
    InertLoopTimesOut(k, DoPoll(k, apps, Fresh, fixed), timeout, stimuli, fixed);
  }

  /** `NullWaiter(v, T).run()` returns `v` after 1 + T polls. */
  lemma NullWaiterReturnsItsValue<T>(v: T, apps: seq<Acc>, timeout: int, stimuli: seq<Stimulus>)
    requires timeout > 0 && Ticks(stimuli) >= timeout
    ensures NullRun(v, apps, timeout, stimuli) == Returned(v, 1 + timeout)
  {
    InertRunPollsOnePlusTimeout(NullKind, apps, timeout, stimuli, false);
  }

  /** As written, an object-exists wait never succeeds: with a positive
      timeout it always ends in failure after 1 + T polls, even when the
      object is there all along. */
  lemma ObjectExistsAsWrittenNeverSucceeds(frame: string, obj: string, apps: seq<Acc>, timeout: int,
                                           stimuli: seq<Stimulus>)
    requires timeout > 0 && Ticks(stimuli) >= timeout
    ensures Run(ObjectExists(frame, obj), apps, timeout, stimuli, false) == Returned(false, 1 + timeout)
  {
    InertRunPollsOnePlusTimeout(ObjectExists(frame, obj), apps, timeout, stimuli, false);
  }

  /** As written, an object-not-exists wait reports the object gone at the
      first poll, whatever the desktop holds. */
  lemma ObjectNotExistsAsWrittenAlwaysGone(frame: string, obj: string, apps: seq<Acc>, timeout: int,
                                           stimuli: seq<Stimulus>)
    ensures Run(ObjectNotExists(frame, obj), apps, timeout, stimuli, false) == Returned(true, 1)
  {
  }

  /** With the lookup repaired, an object-exists wait whose object is
      found returns success after the first poll. */
  lemma ObjectExistsFixedFound(frame: string, obj: string, apps: seq<Acc>, timeout: int, stimuli: seq<Stimulus>)
    requires ObjectLookup(apps, EmptyCache, frame, obj).result.Ok?
    ensures Run(ObjectExists(frame, obj), apps, timeout, stimuli, true) == Returned(true, 1)
  {
    var first := DoPoll(ObjectExists(frame, obj), apps, Fresh, true);
    assert first.success;
  }

  /** With the lookup repaired, an object-not-exists wait succeeds at the
      first poll exactly when the lookup fails; with a zero timeout that
      poll is the answer. */
  lemma ObjectNotExistsFixedFirstPoll(frame: string, obj: string, apps: seq<Acc>, stimuli: seq<Stimulus>)
    ensures Run(ObjectNotExists(frame, obj), apps, 0, stimuli, true)
            == Returned(ObjectLookup(apps, EmptyCache, frame, obj).result.Err?, 1)
  {
    var first := DoPoll(ObjectNotExists(frame, obj), apps, Fresh, true);
    assert first.success <==> ObjectLookup(apps, EmptyCache, frame, obj).result.Err?;
  }

  /** A window wait whose window is already there (or already gone)
      returns success after the single first poll. */
  lemma GuiWaitsAnswerAtOnce(frame: string, apps: seq<Acc>, timeout: int, stimuli: seq<Stimulus>)
    ensures GetWindowHandle(apps, frame).Some? ==>
              Run(GuiExists(frame), apps, timeout, stimuli, false) == Returned(true, 1)
    ensures GetWindowHandle(apps, frame).None? ==>
              Run(GuiNotExists(frame), apps, timeout, stimuli, false) == Returned(true, 1)
  {
  }

  /** A zero timeout returns the first poll's verdict without entering the
      loop. */
  lemma ZeroTimeoutPollsOnce(k: Kind, apps: seq<Acc>, stimuli: seq<Stimulus>, fixed: bool)
    ensures Run(k, apps, 0, stimuli, fixed) == Returned(DoPoll(k, apps, Fresh, fixed).success, 1)
  {
  }

  /** A window-created event for the awaited window ends a window-exists
      wait with success, without another poll. */
  lemma CreateEventEndsGuiWait(frame: string, st: WState, timeout: int, source: Node, rest: seq<Stimulus>,
                               fixed: bool)
    requires MatchNameToAcc(frame, source)
    ensures Loop(GuiExists(frame), st, timeout, [Created(source)] + rest, fixed) == Returned(true, st.polls)
  {
    assert ([Created(source)] + rest)[0] == Created(source);
  }

  /** `Awaited` for the window waiters, which neither look objects up nor
      depend on the repaired poll. */
  predicate WindowAwaited(k: Kind, s: Stimulus) {
    (k.GuiExists? || k.GuiNotExists?)
    && match s
       case Tick(apps) => GetWindowHandle(apps, k.frame).Some? == k.GuiExists?
       case _ => Listens(k, s) && MatchNameToAcc(k.frame, s.source)
  }

  lemma WindowAwaitedIsAwaited(k: Kind, s: Stimulus, fixed: bool)
    requires k.GuiExists? || k.GuiNotExists?
    ensures Awaited(k, s, fixed) <==> WindowAwaited(k, s)
  {
  }

  /** The state after a stimulus the loop passes over: a tick polls, an
      event the waiter listens to goes through `event_cb`. */
  function PassOver(k: Kind, x: Stimulus, st: WState, fixed: bool): WState
    requires !k.NullKind?
  {
    if x.Tick? then DoPoll(k, x.apps, st.(count := st.count + 1), fixed)
    else if Listens(k, x) then EventCb(k, x.source, st)
    else st
  }

  /** A running window wait passes over a stimulus that is not awaited,
      polling once if it is a tick. */
  lemma PassOverStep(k: Kind, st: WState, timeout: int, x: Stimulus, rest: seq<Stimulus>, fixed: bool)
    requires k.GuiExists? || k.GuiNotExists?
    requires st.timerOn && !st.success && !WindowAwaited(k, x)
    requires x.Tick? ==> st.count + 1 < timeout
    ensures PassedOver(k, x, st, fixed)
    ensures Loop(k, st, timeout, [x] + rest, fixed) == Loop(k, PassOver(k, x, st, fixed), timeout, rest, fixed)
  {
    assert ([x] + rest)[0] == x && ([x] + rest)[1..] == rest;
    PassOverState(k, x, st, fixed);
  }

  /** The state after passing over `x`: still running, with one more tick
      counted and one more poll made if `x` is a tick. */
  ghost predicate PassedOver(k: Kind, x: Stimulus, st: WState, fixed: bool)
    requires !k.NullKind?
  {
    var st' := PassOver(k, x, st, fixed);
    st'.timerOn && !st'.success
    && st'.count == st.count + (if x.Tick? then 1 else 0)
    && st'.polls == st.polls + (if x.Tick? then 1 else 0)
  }

  lemma PassOverState(k: Kind, x: Stimulus, st: WState, fixed: bool)
    requires k.GuiExists? || k.GuiNotExists?
    requires st.timerOn && !st.success && !WindowAwaited(k, x)
    ensures PassedOver(k, x, st, fixed)
  {
    if x.Tick? {
      WindowPoll(k, x.apps, st.(count := st.count + 1), fixed);
    }
  }

  /** A running window wait ends with success at an awaited stimulus. */
  lemma AwaitedStep(k: Kind, st: WState, timeout: int, s: Stimulus, post: seq<Stimulus>, fixed: bool)
    requires k.GuiExists? || k.GuiNotExists?
    requires st.timerOn && !st.success && WindowAwaited(k, s)
    ensures Loop(k, st, timeout, [s] + post, fixed) == Returned(true, st.polls + (if s.Tick? then 1 else 0))
  {
    var all := [s] + post;
    assert all[0] == s;
    if s.Tick? {
      AwaitedTick(k, st, timeout, all, fixed);
    } else {
      AwaitedEvent(k, st, timeout, all, fixed);
    }
  }

  /** A window waiter's poll succeeds exactly on an awaited tick, and the
      repaired poll is the one as written. */
  lemma WindowPoll(k: Kind, apps: seq<Acc>, st: WState, fixed: bool)
    requires k.GuiExists? || k.GuiNotExists?
    ensures DoPoll(k, apps, st, fixed) == Poll(k, apps, st)
    ensures DoPoll(k, apps, st, fixed).success <==> WindowAwaited(k, Tick(apps))
  {
  }

  /** An awaited tick: the poll succeeds and the timer quits the loop. */
  lemma AwaitedTick(k: Kind, st: WState, timeout: int, all: seq<Stimulus>, fixed: bool)
    requires k.GuiExists? || k.GuiNotExists?
    requires |all| > 0 && all[0].Tick? && st.timerOn && !st.success && WindowAwaited(k, all[0])
    ensures TickStep(k, st, timeout, all, fixed) == Returned(true, st.polls + 1)
  {
    var apps := all[0].apps;
    assert all[0] == Tick(apps);
    AwaitedTimeout(k, apps, st, timeout, fixed);
  }

  /** On an awaited tick the timer callback polls once, succeeds and
      quits. */
  lemma AwaitedTimeout(k: Kind, apps: seq<Acc>, st: WState, timeout: int, fixed: bool)
    requires k.GuiExists? || k.GuiNotExists?
    requires st.timerOn && !st.success && WindowAwaited(k, Tick(apps))
    ensures var t := TimeoutCb(k, apps, st, timeout, fixed);
            t.quit && t.st.success && t.st.polls == st.polls + 1
  {
    var st1 := st.(count := st.count + 1);
    WindowPoll(k, apps, st1, fixed);
    assert DoPoll(k, apps, st1, fixed).success;
  }

  /** An awaited event: `event_cb` sets `success` and the loop quits. */
  lemma AwaitedEvent(k: Kind, st: WState, timeout: int, all: seq<Stimulus>, fixed: bool)
    requires k.GuiExists? || k.GuiNotExists?
    requires |all| > 0 && !all[0].Tick? && !st.success && WindowAwaited(k, all[0])
    ensures EventStep(k, st, timeout, all, fixed) == Returned(true, st.polls)
  {
    assert EventCb(k, all[0].source, st).success;
  }

  /** No stimulus of `pre` is awaited, stated stimulus by stimulus from
      the front. */
  predicate NoneAwaited(k: Kind, pre: seq<Stimulus>)
    decreases |pre|
  {
    |pre| == 0 || (!WindowAwaited(k, pre[0]) && NoneAwaited(k, pre[1..]))
  }

  /** A window wait that is still running ends with success at the first
      awaited stimulus, provided the timeout has not struck before it: one
      poll per earlier tick, plus one if that stimulus is itself a tick. */
  lemma {:induction false} WindowWaitEndsAtFirstAwaited(k: Kind, st: WState, timeout: int, pre: seq<Stimulus>,
                                                        s: Stimulus, post: seq<Stimulus>, fixed: bool)
    requires k.GuiExists? || k.GuiNotExists?
    requires st.timerOn && !st.success && st.count + Ticks(pre) < timeout
    requires NoneAwaited(k, pre) && WindowAwaited(k, s)
    ensures Loop(k, st, timeout, pre + [s] + post, fixed)
            == Returned(true, st.polls + Ticks(pre) + (if s.Tick? then 1 else 0))
    decreases |pre|, 1
  {
    if |pre| == 0 {
      WaitEndsHere(k, st, timeout, pre, s, post, fixed);
    } else {
      WaitPassesHead(k, st, timeout, pre, s, post, fixed);
    }
  }

  /** The base case of the lemma above: the awaited stimulus comes first. */
  lemma WaitEndsHere(k: Kind, st: WState, timeout: int, pre: seq<Stimulus>, s: Stimulus, post: seq<Stimulus>,
                     fixed: bool)
    requires k.GuiExists? || k.GuiNotExists?
    requires |pre| == 0 && st.timerOn && !st.success && WindowAwaited(k, s)
    ensures Loop(k, st, timeout, pre + [s] + post, fixed)
            == Returned(true, st.polls + Ticks(pre) + (if s.Tick? then 1 else 0))
  {
    SpliceHead(pre, s, post);
    AwaitedStep(k, st, timeout, s, post, fixed);
  }

  /** The step of the lemma above: the loop passes over the first stimulus
      and the rest ends as the shorter wait does. */
  lemma {:induction false} WaitPassesHead(k: Kind, st: WState, timeout: int, pre: seq<Stimulus>, s: Stimulus,
                                          post: seq<Stimulus>, fixed: bool)
    requires k.GuiExists? || k.GuiNotExists?
    requires |pre| > 0 && st.timerOn && !st.success && st.count + Ticks(pre) < timeout
    requires NoneAwaited(k, pre) && WindowAwaited(k, s)
    ensures Loop(k, st, timeout, pre + [s] + post, fixed)
            == Returned(true, st.polls + Ticks(pre) + (if s.Tick? then 1 else 0))
    decreases |pre|, 0
  {
    StepFacts(k, st, timeout, pre, fixed);
    WindowWaitEndsAtFirstAwaited(k, PassOver(k, pre[0], st, fixed), timeout, pre[1..], s, post, fixed);
    PassedOn(k, st, timeout, pre, s, post, fixed);
  }

  /** What the step above needs of its first stimulus: it is not awaited,
      and the wait after it is still running, in time and with nothing
      awaited before `s`. */
  lemma StepFacts(k: Kind, st: WState, timeout: int, pre: seq<Stimulus>, fixed: bool)
    requires k.GuiExists? || k.GuiNotExists?
    requires |pre| > 0 && st.timerOn && !st.success && st.count + Ticks(pre) < timeout
    requires NoneAwaited(k, pre)
    ensures !WindowAwaited(k, pre[0]) && NoneAwaited(k, pre[1..])
    ensures Ticks(pre) == (if pre[0].Tick? then 1 else 0) + Ticks(pre[1..])
    ensures var st' := PassOver(k, pre[0], st, fixed);
            st'.timerOn && !st'.success && st'.count + Ticks(pre[1..]) < timeout
  {
    PassOverState(k, pre[0], st, fixed);
  }

  /** The end of the step above: the outcome of the shorter wait, shifted
      by the first stimulus's poll. */
  lemma PassedOn(k: Kind, st: WState, timeout: int, pre: seq<Stimulus>, s: Stimulus, post: seq<Stimulus>, fixed: bool)
    requires k.GuiExists? || k.GuiNotExists?
    requires |pre| > 0 && st.timerOn && !st.success && st.count + Ticks(pre) < timeout
    requires !WindowAwaited(k, pre[0])
    requires Ticks(pre) == (if pre[0].Tick? then 1 else 0) + Ticks(pre[1..])
    requires var st' := PassOver(k, pre[0], st, fixed);
             Loop(k, st', timeout, pre[1..] + [s] + post, fixed)
             == Returned(true, st'.polls + Ticks(pre[1..]) + (if s.Tick? then 1 else 0))
    ensures Loop(k, st, timeout, pre + [s] + post, fixed)
            == Returned(true, st.polls + Ticks(pre) + (if s.Tick? then 1 else 0))
  {
    SpliceHead(pre, s, post);
    PassOverStep(k, st, timeout, pre[0], pre[1..] + [s] + post, fixed);
  }

  /** `run()` of a window waiter whose window is not yet there (or not yet
      gone) at the first poll ends with success at the first awaited
      stimulus, after one poll for the start and one per tick up to it. */
  lemma WindowRunEndsAtFirstAwaited(k: Kind, apps: seq<Acc>, timeout: int, pre: seq<Stimulus>, s: Stimulus,
                                    post: seq<Stimulus>, fixed: bool)
    requires k.GuiExists? || k.GuiNotExists?
    requires !WindowAwaited(k, Tick(apps)) && Ticks(pre) < timeout
    requires NoneAwaited(k, pre)
    requires WindowAwaited(k, s)
    ensures Run(k, apps, timeout, pre + [s] + post, fixed) == Returned(true, 1 + Ticks(pre) + (if s.Tick? then 1 else 0))
  {
    RunEntersLoop(k, apps, timeout, pre + [s] + post, fixed);
    WindowWaitEndsAtFirstAwaited(k, DoPoll(k, apps, Fresh, fixed), timeout, pre, s, post, fixed);
  }

  /** A run whose first poll fails, with a non-zero timeout, hands the loop
      a running timer, a zero tick count and one poll. */
  lemma RunEntersLoop(k: Kind, apps: seq<Acc>, timeout: int, stimuli: seq<Stimulus>, fixed: bool)
    requires k.GuiExists? || k.GuiNotExists?
    requires !WindowAwaited(k, Tick(apps)) && timeout != 0
    ensures var first := DoPoll(k, apps, Fresh, fixed);
            first.timerOn && !first.success && first.count == 0 && first.polls == 1
            && Run(k, apps, timeout, stimuli, fixed) == Loop(k, first, timeout, stimuli, fixed)
  {
    WindowPoll(k, apps, Fresh, fixed);
  }

  /** The TypeError Python 2 raises when `ObjectExistsWaiter`, whose
      constructor takes the frame, the object and the timeout, is given a
      fourth argument. */
  const ArityMessage := "__init__() takes exactly 4 arguments (5 given)"

  /** `waittillguiexist(window_name, object_name, guiTimeOut, state)`, as
      written: with an object name the waiter is built with the state as an
      extra argument, which raises TypeError before any poll. */
  function WaitTillGuiExist(apps: seq<Acc>, window: string, obj: string, timeout: int,
                            stimuli: seq<Stimulus>): (r: Result<Outcome<bool>>)
    ensures r.Err? <==> obj != ""
    ensures r.Err? ==> r.fault == TypeFault(ArityMessage)
    ensures r.Ok? ==> r.value == Run(GuiExists(window), apps, timeout, stimuli, false)
  {
    if obj != "" then Err(TypeFault(ArityMessage))
    else Ok(Run(GuiExists(window), apps, timeout, stimuli, false))
  }

  /** The corrected `waittillguiexist`: the object waiter gets the three
      arguments it takes (the state, which it would not use, is dropped),
      and its poll is the repaired one.  The window wait is unchanged. */
  function WaitTillGuiExistFixed(apps: seq<Acc>, window: string, obj: string, timeout: int,
                                 stimuli: seq<Stimulus>): (r: Outcome<bool>)
    ensures obj == "" ==> r == Run(GuiExists(window), apps, timeout, stimuli, false)
    ensures obj != "" ==> r == Run(ObjectExists(window, obj), apps, timeout, stimuli, true)
    ensures r.Returned? ==> 1 <= r.polls
    ensures obj == "" && GetWindowHandle(apps, window).Some? ==> r == Returned(true, 1)
    ensures obj != "" && ObjectLookup(apps, EmptyCache, window, obj).result.Ok? ==> r == Returned(true, 1)
    ensures timeout > 0 && Ticks(stimuli) >= timeout ==> r.Returned?
  {
    if obj == "" then Run(GuiExists(window), apps, timeout, stimuli, false)
    else Run(ObjectExists(window, obj), apps, timeout, stimuli, true)
  }

  /** `waittillguinotexist(window_name, object_name, guiTimeOut)`: the
      object or the window waiter, built with the arguments they take. */
  function WaitTillGuiNotExist(apps: seq<Acc>, window: string, obj: string, timeout: int,
                               stimuli: seq<Stimulus>, fixed: bool): (r: Outcome<bool>)
    ensures obj == "" ==> r == Run(GuiNotExists(window), apps, timeout, stimuli, fixed)
    ensures obj != "" ==> r == Run(ObjectNotExists(window, obj), apps, timeout, stimuli, fixed)
    ensures r.Returned? ==> 1 <= r.polls
    ensures obj == "" && GetWindowHandle(apps, window).None? ==> r == Returned(true, 1)
    ensures obj != "" && !fixed ==> r == Returned(true, 1)
    ensures obj != "" && fixed && ObjectLookup(apps, EmptyCache, window, obj).result.Err? ==> r == Returned(true, 1)
    ensures obj != "" && fixed && timeout == 0 ==>
              r == Returned(ObjectLookup(apps, EmptyCache, window, obj).result.Err?, 1)
    ensures timeout > 0 && Ticks(stimuli) >= timeout ==> r.Returned?
  {
    Run(if obj == "" then GuiNotExists(window) else ObjectNotExists(window, obj), apps, timeout, stimuli, fixed)
  }

  /** As written, waiting for any object raises TypeError, so the
      object-exists waiter is never reached from `waittillguiexist`; even
      an object that is there all along is not reported. */
  lemma WaitTillObjectRaises(window: string, obj: string, apps: seq<Acc>, timeout: int, stimuli: seq<Stimulus>)
    requires obj != ""
    ensures WaitTillGuiExist(apps, window, obj, timeout, stimuli) == Err(TypeFault(ArityMessage))
  {
  }

  /** The corrected command reports an object that is there after the
      first poll. */
  lemma WaitTillObjectFixedFound(window: string, obj: string, apps: seq<Acc>, timeout: int,
                                 stimuli: seq<Stimulus>)
    requires obj != "" && ObjectLookup(apps, EmptyCache, window, obj).result.Ok?
    ensures WaitTillGuiExistFixed(apps, window, obj, timeout, stimuli) == Returned(true, 1)
  {
    ObjectExistsFixedFound(window, obj, apps, timeout, stimuli);
  }

  /** Without an object name the two versions wait for the window alike. */
  lemma WaitTillWindowUnchanged(window: string, apps: seq<Acc>, timeout: int, stimuli: seq<Stimulus>)
    ensures WaitTillGuiExist(apps, window, "", timeout, stimuli)
            == Ok(WaitTillGuiExistFixed(apps, window, "", timeout, stimuli))
  {
  }

  /** With the repaired poll and no timeout, `waittillguinotexist` on an
      object answers whether the object's lookup fails. */
  lemma WaitTillObjectGoneFirstPoll(window: string, obj: string, apps: seq<Acc>, stimuli: seq<Stimulus>)
    requires obj != ""
    ensures WaitTillGuiNotExist(apps, window, obj, 0, stimuli, true)
            == Returned(ObjectLookup(apps, EmptyCache, window, obj).result.Err?, 1)
  {
    ObjectNotExistsFixedFirstPoll(window, obj, apps, stimuli);
  }
}

=== FILE: walker.dfy ===
/** `_list_objects` of ldtpd/utils.py: the lazy pre-order walk that every
    descendant search uses.  The root comes first; with the table-cell flag
    off, a table-cell child ends the walk of its parent's remaining
    children.  Asking a `None` child for its role raises AttributeError,
    which ends the whole walk: a walk is the nodes produced before that,
    and whether it ended that way.
 */
module Walker {
  import opened Wrappers
  import opened Roles
  import opened Access

  datatype Walked = Walked(nodes: seq<Node>, fault: bool)

  function Walk(a: Acc, handleCells: bool): (w: Walked)
    ensures a.Null? ==> w == Walked([], false)
    ensures a.Obj? ==> |w.nodes| >= 1 && w.nodes[0] == a
    ensures forall i :: 0 <= i < |w.nodes| ==> Within(w.nodes[i], a)
    ensures !handleCells ==> forall i :: 1 <= i < |w.nodes| ==> w.nodes[i].role != TableCell
    decreases a, 1
  {
    if a.Null? then Walked([], false)
    else
      var rest := WalkChildren(a, 0, handleCells);
      Walked([a] + rest.nodes, rest.fault)
  }

  /** The walk of `p.children[k..]`. */
  function WalkChildren(p: Node, k: nat, handleCells: bool): (w: Walked)
    requires k <= |p.children|
    ensures forall i :: 0 <= i < |w.nodes| ==> exists c :: k <= c < |p.children| && Within(w.nodes[i], p.children[c])
    ensures !handleCells ==> forall i :: 0 <= i < |w.nodes| ==> w.nodes[i].role != TableCell
    decreases p, 0, |p.children| - k
  {
    if k == |p.children| then Walked([], false)
    else
      var c := p.children[k];
      if c.Null? then Walked([], true)
      else if c.role == TableCell && !handleCells then Walked([], false)
      else
        var w := Walk(c, handleCells);
        if w.fault then w
        else
          var rest := WalkChildren(p, k + 1, handleCells);
          Walked(w.nodes + rest.nodes, rest.fault)
  }

  /** The complete pre-order listing of a tree, the reference the walk is
      compared with. */
  function PreOrder(a: Acc): seq<Node>
    decreases a, 1
  {
    if a.Null? then [] else [a] + PreOrderChildren(a, 0)
  }

  function PreOrderChildren(p: Node, k: nat): seq<Node>
    requires k <= |p.children|
    decreases p, 0, |p.children| - k
  {
    if k == |p.children| then [] else PreOrder(p.children[k]) + PreOrderChildren(p, k + 1)
  }

  /** With the table-cell flag on and no `None` in the tree, the walk lists
      the whole tree in pre-order and ends normally. */
  lemma {:induction false} WalkIsPreOrder(a: Acc)
    requires NoNull(a)
    ensures Walk(a, true) == Walked(PreOrder(a), false)
    decreases a, 1
  {
    WalkChildrenIsPreOrder(a, 0);
  }

  lemma {:induction false} WalkChildrenIsPreOrder(p: Node, k: nat)
    requires k <= |p.children|
    requires NoNull(p)
    ensures WalkChildren(p, k, true) == Walked(PreOrderChildren(p, k), false)
    decreases p, 0, |p.children| - k
  {
    if k < |p.children| {
      WalkIsPreOrder(p.children[k]);
      WalkChildrenIsPreOrder(p, k + 1);
    }
  }

  /** A `None` child reached by the walk makes it fault: the walk of a
      parent whose first child is `None` yields just the parent. */
  lemma NullFirstChildFaults(p: Node, handleCells: bool)
    requires |p.children| >= 1 && p.children[0].Null?
    ensures Walk(p, handleCells) == Walked([p], true)
  {
  }

  /** With the flag off, a first child that is a table cell hides all of
      the parent's children. */
  lemma TableCellFirstChildPrunes(p: Node)
    requires |p.children| >= 1 && p.children[0].Obj? && p.children[0].role == TableCell
    ensures Walk(p, false) == Walked([p], false)
  {
  }

  /** What a search over a walk finds: the first node satisfying the test
      among those produced; when none is, the walk's AttributeError if it
      faulted, otherwise nothing. */
  function FirstIn(nodes: seq<Node>, fault: bool, test: Node -> bool): (r: Result<Option<Node>>)
    ensures r.Ok? && r.value.Some? ==>
              exists i :: 0 <= i < |nodes| && nodes[i] == r.value.value && test(nodes[i])
                          && forall j :: 0 <= j < i ==> !test(nodes[j])
    ensures r.Ok? && r.value.None? ==> !fault && forall i :: 0 <= i < |nodes| ==> !test(nodes[i])
    ensures r.Err? ==> r.fault == AttributeFault && fault
                       && forall i :: 0 <= i < |nodes| ==> !test(nodes[i])
  {
    if |nodes| == 0 then (if fault then Err(AttributeFault) else Ok(None))
    else if test(nodes[0]) then Ok(Some(nodes[0]))
    else
      var r := FirstIn(nodes[1..], fault, test);
      if r.Ok? && r.value.Some? then
        assert nodes[1..][0] == nodes[1];
        ghost var i :| 0 <= i < |nodes[1..]| && nodes[1..][i] == r.value.value && test(nodes[1..][i])
                     && forall j :: 0 <= j < i ==> !test(nodes[1..][j]);
        assert nodes[i + 1] == r.value.value;
        assert forall j :: 1 <= j < i + 1 ==> nodes[j] == nodes[1..][j - 1];
        r
      else r
  }
}

=== FILE: wrappers.dfy ===
/** Failure-carrying datatypes shared by every module of the model.

    The daemon reports failures as raised exceptions: `LdtpServerException`
    (an XML-RPC fault carrying a message) for automation failures, and plain
    Python errors (`AttributeError` on a missing accessible, `IndexError`,
    `KeyError`, `TypeError`, `NotImplementedError`, `RuntimeError` on runaway
    recursion, `UnboundLocalError`) where the code does not guard an access.
    A `Fault` names which of these a call raises; `Result` is the
    value-or-fault of one call.
 */
module Wrappers {

  datatype Option<+T> = None | Some(value: T)

  /** What a call raises instead of returning. */
  datatype Fault =
    | WindowNotFound(window: string)          // 'Unable to find window "..."'
    | ObjectNotFound(object: string)          // 'Unable to find object name "..." in application map'
    | MenuItemMissing(item: string)           // 'Menu item "..." doesn't exist in hierarchy'
    | ServerError(message: string)            // any other LdtpServerException
    | AttributeFault                          // a method called on None
    | IndexFault                              // a list index out of range
    | TypeFault(message: string)              // a TypeError
    | ValueFault                              // a ValueError: unpacking into the wrong number of names
    | KeyFault                                // a dictionary lookup of a missing key
    | Unsupported                             // NotImplementedError: the interface is absent
    | RecursionLimit                          // Python's recursion depth exceeded
    | UnboundName(name: string)               // UnboundLocalError: a local read before assignment
    | NameFault(name: string)                 // NameError: a global name that is not defined
    | Failure(message: string)                // a plain Exception

  datatype Result<+T> = Ok(value: T) | Err(fault: Fault) {
    predicate IsFailure() {
      Err?
    }

    function PropagateFailure<U>(): Result<U>
      requires Err?
    {
      Err(fault)
    }

    function Extract(): T
      requires Ok?
    {
      value
    }
  }
}
